=== FILE: README.md ===
# PPPoE and display control of an Android framework, in Dafny

This project models two event-driven controllers of an Android framework tree, with the data structures under them, and proves what they promise.

- **PPPoE.**
  - `PppoeStateTracker`: the link controller. It starts and stops the external pppd, runs the DHCP poller and broadcasts PPPoE states.
  - `PppoeService`: the system service. It serialises enable and disable requests, keeps the persisted setting and the lock registry, and pairs wake locks with queued messages.
  - `PppoeManager`: the client-side keep-awake lock, `PppoeLock`.
- **Display.**
  - DisplayManagerService:
    - `DisplaySlots`: the framebuffer-to-display table;
    - `DisplayModes`: mode strings and default-mode choice;
    - `DisplayConfig`: the `display.conf` text;
    - `DisplayHandlers`: the debounced connection state and its notification;
    - `DisplayManagerService`: the per-display settings and the daemon callbacks.
  - `DisplayCommand`: the parameter block sent to SurfaceFlinger.
  - `HWComposer`: SurfaceFlinger's work list of layers, the counting after the device's prepare, and the aspect-fit and overscan geometry.
- `JavaLang`: the `java.lang` behaviour these rely on, written out once.
  - `Integer.parseInt`, `String.valueOf`, `split` with trailing empty strings removed, `substring` with its bounds check, `replace` on characters and `lastIndexOf`.

## How the model is built

**Handlers and queues.**
- Each Android handler is a FIFO queue, and one method call handles one message. A message's delay is kept only as a tag on it.
- Everything is sequential. `synchronized` blocks and thread hand-offs add nothing to a one-message-at-a-time model.

**Objects and effects.**
- Objects whose fields the source updates in place are classes, and their methods are proved against specification functions on a snapshot of those fields.
  - `Tracker`, `DhcpHandler`, `Service`, `LockList`, `PppoeLock`, `DisplayState` (three fixed arrays), `Command` and `ConfigParam`, and `Composer` (the work list as an array) are classes.
- Calls out of the core are recorded in ghost logs: pppd start and stop, broadcasts, calls into the PPPoE service, messages to SurfaceFlinger and the window manager.
  - Where such a call can fail, the failure is an input flag.
- Wake locks are counters, a `WorkSource` is a set of uids, and binder identities are integers.

**Inputs.**
- The system properties the tracker reads are method parameters: `net.pppoe.ppp-exit` and `net.ppp0.dns1`.
- So are the display daemon's mode list and the results of the hardware composer's `prepare` and `set`.
- Settings are a map. `/data/misc/display.conf` is a string, whose text format and 1024-character read buffer are modelled.

**Arithmetic.**
- C's and Java's `/` truncates toward zero, which is written out as `HWComposer.TDiv`.
- `>> 1` on a signed int is a floor halving, which is Dafny's `/ 2`.
- `stringToIpAddr` builds its 32-bit value in two's complement.
- Other integers are unbounded (see "Left out").

**Behaviour the code has that a reader might not expect.** The model follows the code:
- `shouldPppoeStayAwake` in `PppoeService.java` always answers true, so the idle-alarm branch of the screen-off receiver never runs. The model has no such branch.
- `commandDisplayMirror` and `commandDisplayRotation` have no "unchanged" early return. They store and post every time (`KnobCommandRepeatsPost`).
- `writeConfigFile` writes a null mode as the text `null`. `readConfigFile` throws on an existing but empty file. Both are modelled: `ReadConfigOfNullMode`, `ReadConfigOfEmptyFile`.
- `display_state.connect` counts a connection even when the framebuffer was already connected or no slot was free.
- Repeated link-up or account events create a fresh DHCP poller each time, and the earlier one is not quit.
- The hardware constants (`HWC_SKIP_LAYER`, `HWC_OVERLAY`, `HWC_FRAMEBUFFER`, `HWC_GEOMETRY_CHANGED`, `NO_INIT`) take the values of the platform's `hwcomposer.h` and `Errors.h`. Those headers are not part of this model.

## Model

| member | source | states |
|---|---|---|
| JavaLang.DigitChar | services/java/com/android/server/DisplayManagerService.java:383 | the digit written for a value below 10 reads back as that value |
| JavaLang.ParseInt | services/java/com/android/server/DisplayManagerService.java:374 | Integer.parseInt succeeds only on an optional '-' followed by digits whose value fits in an int, so a leading '+' throws as in the platform's class library; an unsigned result is not negative |
| JavaLang.NatToString | services/java/com/android/server/DisplayManagerService.java:383 | "%d" of a non-negative int: digits only, no leading zero |
| JavaLang.IntToString | services/java/com/android/server/DisplayManagerService.java:383 | "%d" of any int: not empty, and starts with '-' exactly for negative values |
| JavaLang.DigitsValueOfNatToString | services/java/com/android/server/DisplayManagerService.java:383 | the digits written for n denote n |
| JavaLang.ParseIntOfIntToString | services/java/com/android/server/DisplayManagerService.java:374 | Integer.parseInt reads back every int that "%d" writes |
| JavaLang.LastIndexOf | core/java/android/view/DisplayCommand.java:168-179 | the position the mode scan keeps for a character: -1 or an index holding it, with no later one |
| JavaLang.Substring | services/java/com/android/server/DisplayManagerService.java:369 | String.substring succeeds exactly when 0 <= begin <= end <= length, with end - begin characters |
| JavaLang.ReplaceChar | services/java/com/android/server/PppoeService.java:426 | String.replace on characters: same length, every occurrence replaced and every other character kept |
| JavaLang.SplitAll | services/java/com/android/server/DisplayManagerService.java:366 | the pieces between separators: at least one, none containing the separator |
| JavaLang.JoinSplitAll | services/java/com/android/server/DisplayManagerService.java:366 | joining the pieces with the separator gives the string back |
| JavaLang.SplitAllJoin | services/java/com/android/server/DisplayManagerService.java:366 | splitting pieces without the separator, joined with it, gives the pieces back |
| JavaLang.SplitAllNoSep | services/java/com/android/server/DisplayManagerService.java:366 | a string without the separator is one piece |
| JavaLang.SplitAllPrefix | services/java/com/android/server/DisplayManagerService.java:366 | splitting a separator-free prefix, the separator and a rest gives the prefix, then the rest's pieces |
| JavaLang.DropTrailingEmpty | core/java/android/net/PppoeStateTracker.java:1139 | String.split's result is a prefix of the pieces ending in a non-empty one, and only empty pieces were dropped |
| JavaLang.Split | core/java/android/net/PppoeStateTracker.java:1139 | String.split on one character: the input itself when the character is absent, otherwise the pieces without trailing empty ones |
| JavaLang.SplitJoin | services/java/com/android/server/DisplayManagerService.java:366 | at least two separator-free pieces, the last non-empty, split back exactly after joining |
| JavaLang.JoinHasSep | services/java/com/android/server/DisplayManagerService.java:366 | joining two or more pieces puts a separator in the text |
| PppoeManager.GetPppoeState | core/java/android/net/PppoeManager.java:283-289 | the service's answer, or PPPOE_STATE_UNKNOWN when the remote call fails |
| PppoeManager.IsPppoeEnabled | core/java/android/net/PppoeManager.java:296-298 | true exactly when the service answers PPPOE_STATE_ENABLED |
| PppoeManager.NewLockIsIdle | core/java/android/net/PppoeManager.java:343-350 | a new lock is reference-counted, not held, has count 0 and no work source |
| PppoeManager.AcquireRefCountedAlwaysCounts | core/java/android/net/PppoeManager.java:363-381 | every counted acquire below the ceiling calls the service, sets held and bumps both the count and the manager's active count, not only the first one |
| PppoeManager.AcquireAtCeiling | core/java/android/net/PppoeManager.java:363-381 | with 50 active locks an acquire is released again at the service and throws UnsupportedOperationException; the active count and held stay, the reference count keeps its increment |
| PppoeManager.NonRefCountedIdempotent | core/java/android/net/PppoeManager.java:363-411 | for a lock that is not counted, a second acquire or a second release does nothing and never throws |
| PppoeManager.ReleaseRefCounted | core/java/android/net/PppoeManager.java:395-411 | a counted release always decrements; it releases at the service exactly when the count reaches 0, and throws "under-locked" exactly when the count was already 0 or less |
| PppoeManager.HeldMatchesCountPreserved | core/java/android/net/PppoeManager.java:363-463 | for a counted lock, "held exactly while the count is positive" survives acquire (unless it throws), release and setWorkSource |
| PppoeManager.SetWorkSourceEffect | core/java/android/net/PppoeManager.java:439-463 | the stored work source becomes the argument (an empty one counts as null); the service is told exactly when the lock is held and the source changed: always for a null or empty argument, never for null to non-null, and between two non-null sources exactly when they differ |
| PppoeManager.FinalizeReleasesOnlyHeld | core/java/android/net/PppoeManager.java:480-493 | finalize releases at the service and decrements the active count exactly when the lock is held |
| PppoeManager.NestedPairLeaksActiveCount | core/java/android/net/PppoeManager.java:363-411 | as written, two acquires and two releases on a new counted lock leave it unheld with count 0 but one more active lock |
| PppoeManager.IntendedAcquireReleaseRestores | core/java/android/net/PppoeManager.java:363-411 | with acquire acting only when the count becomes 1, an acquire followed by a release restores the lock and the active count |
| PppoeManager.Manager.constructor | core/java/android/net/PppoeManager.java:174-177 | a new manager has no active locks and has made no service calls |
| PppoeManager.Manager.CreateLock | core/java/android/net/PppoeManager.java:511-513 | returns a new lock of this manager in the initial lock state |
| PppoeManager.PppoeLock.constructor | core/java/android/net/PppoeManager.java:343-350 | tag, type and binder stored; state is the initial lock state |
| PppoeManager.PppoeLock.Acquire | core/java/android/net/PppoeManager.java:363-381 | the lock, the manager's active count and the log of service calls move as the acquire specification says, and the error is the one it throws |
| PppoeManager.PppoeLock.Release | core/java/android/net/PppoeManager.java:395-411 | the same, for release |
| PppoeManager.PppoeLock.SetReferenceCounted | core/java/android/net/PppoeManager.java:424-426 | only the reference-counted flag changes |
| PppoeManager.PppoeLock.IsHeld | core/java/android/net/PppoeManager.java:433-437 | returns the held flag |
| PppoeManager.PppoeLock.SetWorkSource | core/java/android/net/PppoeManager.java:439-463 | the lock and the service calls move as the setWorkSource specification says |
| PppoeManager.PppoeLock.Finalize | core/java/android/net/PppoeManager.java:480-493 | the lock and the service calls move as the finalize specification says |
| PppoeStateTracker.PppExitState | core/java/android/net/PppoeStateTracker.java:731-741 | pppd exit code "0", "16" and "19" give CHECK_CONNNECT, MODEM_HUNGUP and ACCOUNT_UNCORRECT; any other code gives the generic FAILED report |
| PppoeStateTracker.UpEventGuards | core/java/android/net/PppoeStateTracker.java:588-608 | an up, set-account or enable message always sets Running; with the event loop stopped, the link down or the account incomplete it only broadcasts (nothing, CHECK_CONNNECT, NO_ACCOUNT) and starts neither pppd nor a poller |
| PppoeStateTracker.UpEventStartsPppdOnce | core/java/android/net/PppoeStateTracker.java:609-634 | pppd is started exactly when the starting flag was clear, and the flag is set before the call; a start that throws reports FAILED and creates no poller; otherwise a new poller replaces the current one, which is not quit |
| PppoeStateTracker.DownEventStops | core/java/android/net/PppoeStateTracker.java:641-690 | down, disable and remove-account messages set Stopped and clear the flag; pppd is stopped exactly when it was started; unless the stop throws, the poller is quit and DISCONNECTED is broadcast last |
| PppoeStateTracker.DisconnectEffect | core/java/android/net/PppoeStateTracker.java:657-662 | once pppd is stopped: the poller is quit and forgotten and DISCONNECTED is broadcast |
| PppoeStateTracker.SucceededEffect | core/java/android/net/PppoeStateTracker.java:695-707 | configuration success records the address and resets the reconnect count; it broadcasts CONNECTED only on a change, and otherwise notifies the connectivity service |
| PppoeStateTracker.FailedEffect | core/java/android/net/PppoeStateTracker.java:708-743 | configuration failure sets Stopped, clears the address flags and stops pppd exactly when it was started; after a clean stop, the exit code decides the last broadcast |
| PppoeStateTracker.ReportFailureEffect | core/java/android/net/PppoeStateTracker.java:726-741 | after a clean stop the poller is quit and the exit report is broadcast |
| PppoeStateTracker.HandleKeepsStarting | core/java/android/net/PppoeStateTracker.java:584-763 | a message that does not clear the starting flag keeps it set and starts pppd at most once, and only when it was clear |
| PppoeStateTracker.StartsAtMostOnce | core/java/android/net/PppoeStateTracker.java:584-763 | over any run of messages with no down, disable, remove-account or failure message, pppd is started at most once, and not at all while the flag is set |
| PppoeStateTracker.StartSetsStarting | core/java/android/net/PppoeStateTracker.java:609-613 | a message that starts pppd leaves the starting flag set |
| PppoeStateTracker.TwoUpEventsLeakPoller | core/java/android/net/PppoeStateTracker.java:622-625 | two up messages on a ready link create two pollers and quit neither: at most one live poller is not an invariant of this code |
| PppoeStateTracker.SetTornDown | core/java/android/net/PppoeStateTracker.java:346-349 | only the torn-down flag and NetworkInfo's availability change; availability is recomputed from the new flag |
| PppoeStateTracker.DriverTransitions | core/java/android/net/PppoeStateTracker.java:880-897 | disconnectAndStop does nothing and succeeds when already stopping or stopped, otherwise clears the address flags, moves to Stopping and succeeds iff PPPoE is enabled; restart acts only when stopped |
| PppoeStateTracker.TeardownReconnect | core/java/android/net/PppoeStateTracker.java:845-872 | teardown and reconnect succeed without change when the torn-down flag is already their target; a successful teardown leaves the driver stopped yet available, a successful reconnect leaves it not stopped, a failed teardown leaves the flag clear |
| PppoeStateTracker.ParseParts | core/java/android/net/PppoeStateTracker.java:1140-1146 | Integer.parseInt on each part in order: Some exactly when every part parses, then with each part's value |
| PppoeStateTracker.StringToIpAddr | core/java/android/net/PppoeStateTracker.java:1137-1153 | succeeds exactly when the address splits into four parts that each parse as an int; any failure is UnknownHostException naming the address |
| PppoeStateTracker.StringToIpAddrOfDottedQuad | core/java/android/net/PppoeStateTracker.java:1137-1153 | the dotted quad of four ints parses back to those four ints combined |
| PppoeStateTracker.StringToIpAddrOfParts | core/java/android/net/PppoeStateTracker.java:1137-1153 | four parts that parse give the combination of their values |
| PppoeStateTracker.IpOctets | core/java/android/net/PppoeStateTracker.java:1147-1150 | parts 0..255 land in separate octets, the first in the least significant byte |
| PppoeStateTracker.TrailingDotAccepted | core/java/android/net/PppoeStateTracker.java:1137-1153 | a dotted quad followed by one more dot is accepted and gives the same address, because String.split drops trailing empty parts |
| PppoeStateTracker.SameSplitSameAddress | core/java/android/net/PppoeStateTracker.java:1137-1153 | the address depends on the text only through its split parts |
| PppoeStateTracker.PollVerdictTable | core/java/android/net/PppoeStateTracker.java:1066-1105 | from the 20th check on the verdict is always FAILED; before it, WAIT exactly when both properties are empty, SUCCEEDED exactly when a DNS server is known and pppd has not exited or exited with 0, FAILED otherwise |
| PppoeStateTracker.PollRunAt | core/java/android/net/PppoeStateTracker.java:1069 | the i-th check of a run of checks sees the counter advanced i + 1 times |
| PppoeStateTracker.PollerGivesUp | core/java/android/net/PppoeStateTracker.java:1069-1105 | a new poller answers WAIT only on its first 19 checks and FAILED on every later one, whatever it reads |
| PppoeStateTracker.TrackerInputs.constructor | core/java/android/net/PppoeStateTracker.java:266-292 | the fields handleMessage reads start with the event loop stopped and the account read from the settings, null kept as "" |
| PppoeStateTracker.Tracker.constructor | core/java/android/net/PppoeStateTracker.java:266-292 | the tracker after construction and startMonitoring: Starting, no address, not torn down, network info available (the availability is computed while the run state is still 0), no poller, empty queue and effect log |
| PppoeStateTracker.Tracker.StopPppdIfStarted | core/java/android/net/PppoeStateTracker.java:645-656 | the fields and effects move as the stop step of the specification says; false when the stop threw |
| PppoeStateTracker.Tracker.QuitPollerIfAny | core/java/android/net/PppoeStateTracker.java:657-660 | the current poller, if any, is quit and forgotten |
| PppoeStateTracker.Tracker.HandleUpNow | core/java/android/net/PppoeStateTracker.java:588-635 | the fields and the effect log move as the up-message specification says |
| PppoeStateTracker.Tracker.StartAndPollNow | core/java/android/net/PppoeStateTracker.java:609-634 | the same for the start-pppd-and-poll step |
| PppoeStateTracker.Tracker.HandleDownNow | core/java/android/net/PppoeStateTracker.java:641-690 | the same for down, disable and remove-account messages |
| PppoeStateTracker.Tracker.DisconnectNow | core/java/android/net/PppoeStateTracker.java:657-662 | the same for the disconnect step |
| PppoeStateTracker.Tracker.HandleSucceededNow | core/java/android/net/PppoeStateTracker.java:695-707 | the same for configuration success |
| PppoeStateTracker.Tracker.HandleFailedNow | core/java/android/net/PppoeStateTracker.java:708-743 | the same for configuration failure |
| PppoeStateTracker.Tracker.ReportFailureNow | core/java/android/net/PppoeStateTracker.java:726-741 | the same for the failure report step |
| PppoeStateTracker.Tracker.ReportExitNow | core/java/android/net/PppoeStateTracker.java:731-741 | the same for the exit report |
| PppoeStateTracker.Tracker.HandleWaitNow | core/java/android/net/PppoeStateTracker.java:745-760 | CONNECTING is broadcast and the current poller, if any, is asked to check again |
| PppoeStateTracker.Tracker.HandleMessage | core/java/android/net/PppoeStateTracker.java:584-763 | the fields and the effect log move as the handleMessage specification says, for every message code |
| PppoeStateTracker.Tracker.DispatchNext | core/java/android/net/PppoeStateTracker.java:584-763 | the message at the head of the queue is removed and handled; nothing happens on an empty queue |
| PppoeStateTracker.Tracker.PostIfRunning | core/java/android/net/PppoeStateTracker.java:520-547 | the message is queued only while the event loop runs |
| PppoeStateTracker.Tracker.ResetConnectionsNow | core/java/android/net/PppoeStateTracker.java:797-811 | the address flags are cleared and nothing else changes |
| PppoeStateTracker.Tracker.SetTornDownByConnMgr | core/java/android/net/PppoeStateTracker.java:346-349 | the fields become SetTornDown of the old ones |
| PppoeStateTracker.Tracker.IsAvailableNow | core/java/android/net/PppoeStateTracker.java:449-458 | true exactly when the driver is not stopped or was only torn down |
| PppoeStateTracker.Tracker.DisconnectAndStopNow | core/java/android/net/PppoeStateTracker.java:880-888 | the fields and result are those of the disconnectAndStop specification |
| PppoeStateTracker.Tracker.RestartNow | core/java/android/net/PppoeStateTracker.java:890-897 | the same for restart |
| PppoeStateTracker.Tracker.TeardownNow | core/java/android/net/PppoeStateTracker.java:845-856 | the same for teardown |
| PppoeStateTracker.Tracker.ReconnectNow | core/java/android/net/PppoeStateTracker.java:861-872 | the same for reconnect |
| PppoeStateTracker.Tracker.SetPppoeState | core/java/android/net/PppoeStateTracker.java:903-905 | only the stored PPPoE state changes |
| PppoeStateTracker.Tracker.SetAdslAccount | core/java/android/net/PppoeStateTracker.java:484-490 | the account is stored and SET_ACCOUNT is queued while the event loop runs |
| PppoeStateTracker.Tracker.RemoveAdslAccount | core/java/android/net/PppoeStateTracker.java:492-498 | the account is cleared to "" and REMOVE_ACCOUNT is queued while the event loop runs |
| PppoeStateTracker.Tracker.NotifyStateChange | core/java/android/net/PppoeStateTracker.java:510-515 | NETWORK_STATE_CHANGED is always queued, even with the event loop stopped |
| PppoeStateTracker.Tracker.Notify | core/java/android/net/PppoeStateTracker.java:520-547 | the up, down, unknown or disabled message is queued while the event loop runs |
| PppoeStateTracker.Tracker.InterfaceLinkStatusChanged | core/java/android/net/PppoeStateTracker.java:242-255 | only a change of link state on the tracker's own interface is recorded, and then an up or down message is queued while the event loop runs; anything else changes nothing |
| PppoeStateTracker.Tracker.StartEventLoop | core/java/android/net/PppoeStateTracker.java:425-435 | the event loop is marked running and the last event reset; with the link up an up message is queued, otherwise the interface is enabled; ENABLED is queued last |
| PppoeStateTracker.Tracker.StopEventLoop | core/java/android/net/PppoeStateTracker.java:437-439 | the event loop is marked stopped |
| PppoeStateTracker.DhcpHandler.constructor | core/java/android/net/PppoeStateTracker.java:1048-1053 | a new poller has made no checks and targets its tracker |
| PppoeStateTracker.DhcpHandler.Check | core/java/android/net/PppoeStateTracker.java:1059-1112 | the counter advances by one and the verdict for that check is posted to the tracker unless cancelled meanwhile |
| PppoeStateTracker.DhcpHandler.SetCancelCallback | core/java/android/net/PppoeStateTracker.java:1116-1118 | only the cancel flag changes |
| PppoeService.RemoveDoubleQuotes | services/java/com/android/server/PppoeService.java:407-410 | strings of length 2 or less become empty; longer ones lose exactly their first and last character |
| PppoeService.ConvertToQuotedString | services/java/com/android/server/PppoeService.java:412-414 | the result is the input between two double quotes |
| PppoeService.RemoveQuotesOfQuoted | services/java/com/android/server/PppoeService.java:407-414 | removing the quotes undoes quoting, for every string |
| PppoeService.SetBits | services/java/com/android/server/PppoeService.java:420-430 | the indices visited by the nextSetBit loop all lie in the scanned range |
| PppoeService.SetBitsExact | services/java/com/android/server/PppoeService.java:420-430 | an index is visited exactly when it is set and in range |
| PppoeService.SetBitsIncreasing | services/java/com/android/server/PppoeService.java:420-430 | the indices are visited in strictly increasing order |
| PppoeService.NextSetBit | services/java/com/android/server/PppoeService.java:420-430 | BitSet.nextSetBit: -1 or the first set index at or after the start, and no set index is skipped |
| PppoeService.AppendedIsSpaced | services/java/com/android/server/PppoeService.java:417-435 | the buffer built by the loop is each set bit's name with '_' turned into '-', each followed by a space |
| PppoeService.AppendedIsJoin | services/java/com/android/server/PppoeService.java:431-434 | dropping the final space gives the names joined by single spaces, and an empty buffer stays empty |
| PppoeService.MakeString | services/java/com/android/server/PppoeService.java:417-435 | the result is the names of the set bits, in index order, dashed and joined by single spaces |
| PppoeService.FirstIndex | services/java/com/android/server/PppoeService.java:443-448 | the first index holding the string, or -1 when none does |
| PppoeService.LookupString | services/java/com/android/server/PppoeService.java:437-451 | the index of the first name equal to the input with '-' turned into '_', or -1 |
| PppoeService.LookupOfDashed | services/java/com/android/server/PppoeService.java:417-451 | a name without '-' that occurs first at i is found again at i from its dashed form, so makeString and lookupString agree |
| PppoeService.StateName | services/java/com/android/server/PppoeService.java:731-746 | "[invalid state]" exactly for codes outside DISABLING..UNKNOWN |
| PppoeService.StateNamesDistinct | services/java/com/android/server/PppoeService.java:731-746 | the valid state codes have pairwise different names |
| PppoeService.BinderIndex | services/java/com/android/server/PppoeService.java:793-799 | the last index whose lock has the binder, or -1 when none has it |
| PppoeService.AddLockKeepsUnique | services/java/com/android/server/PppoeService.java:776-780 | adding a lock keeps binders unique and leaves the binder in the list |
| PppoeService.RemoveLockEffect | services/java/com/android/server/PppoeService.java:782-791 | removal finds nothing exactly when no lock has the binder, and then changes nothing; otherwise it takes out one lock with that binder and keeps the others |
| PppoeService.RemoveLockKeepsUnique | services/java/com/android/server/PppoeService.java:782-791 | removal keeps binders unique, and with unique binders no lock with the binder is left |
| PppoeService.AddThenRemove | services/java/com/android/server/PppoeService.java:776-791 | removing the binder just added gives back the old list and the added lock |
| PppoeService.BinderIndexIsLast | services/java/com/android/server/PppoeService.java:793-799 | any index holding the binder with no later one holding it is what the search returns |
| PppoeService.LockList.constructor | services/java/com/android/server/PppoeService.java:767-769 | the list starts empty |
| PppoeService.LockList.HasLocks | services/java/com/android/server/PppoeService.java:771-773 | true exactly when the list is not empty |
| PppoeService.LockList.FindLockByBinder | services/java/com/android/server/PppoeService.java:793-799 | the backward loop returns the last index with the binder, or -1 |
| PppoeService.LockList.AddLock | services/java/com/android/server/PppoeService.java:776-780 | the lock is appended only when its binder is not yet in the list |
| PppoeService.LockList.RemoveLock | services/java/com/android/server/PppoeService.java:782-791 | the list and the returned lock are those of the removal specification |
| PppoeService.LockSource | services/java/com/android/server/PppoeService.java:846-850 | the lock's work source is the one given when it is present and not empty, otherwise the caller's uid; never empty |
| PppoeService.UnionOfSourcesMembers | services/java/com/android/server/PppoeService.java:582-592 | a uid is in the reported work source exactly when some held lock's source names it |
| PppoeService.ChainedSnoc | services/java/com/android/server/PppoeService.java:335-349 | each state broadcast carries as previous state the state of the broadcast before it |
| PppoeService.EnableBlockingEffect | services/java/com/android/server/PppoeService.java:295-333 | already at the target: success, nothing broadcast; disable from UNKNOWN: failure, nothing broadcast; otherwise ENABLING or DISABLING then the target are broadcast, chained from the current state, and a second request does nothing |
| PppoeService.UpdateMessagesTable | services/java/com/android/server/PppoeService.java:599-637 | nothing while ENABLING; persisted on and device awake or lock held: enable; persisted on, idle, no lock, driver running: stop plus a delayed wake-lock release; persisted off: disable; no message persists its setting and at most one releases the main wake lock |
| PppoeService.ReceiverMessagesPlain | services/java/com/android/server/PppoeService.java:455-530 | the broadcast receiver only posts report-work-source, enable-networks and update-state messages |
| PppoeService.CountsPrefixZero | services/java/com/android/server/PppoeService.java:455-530 | such messages release no wake lock, in any prefix |
| PppoeService.Service.constructor | services/java/com/android/server/PppoeService.java:170-193 | the service starts with no locks, an empty handler queue, no broadcasts, not idle, screen on, unplugged and no receiver registered; of the tracker's inputs only the state changes, to DISABLED; every pending release has its acquire |
| PppoeService.Service.GetPersistedPppoeEnabled | services/java/com/android/server/PppoeService.java:224-232 | true exactly when PPPOE_ON is 1; a missing setting is written as 0; nothing else changes |
| PppoeService.Service.TestAndClearSavedState | services/java/com/android/server/PppoeService.java:211-222 | true exactly when PPPOE_SAVED_STATE is 1, which is then reset to 0; nothing else changes |
| PppoeService.Service.StartPppoe | services/java/com/android/server/PppoeService.java:201-208 | posts a persisting enable message exactly when PPPOE_ON or the saved state is 1, and a persisting disable otherwise; the saved state is cleared only when PPPOE_ON was not 1 |
| PppoeService.Service.SetPppoeEnabled | services/java/com/android/server/PppoeService.java:249-266 | posts one persisting enable or disable message with the caller's uid, holding the wake lock, and returns true |
| PppoeService.Service.PostHoldingWakeLock | services/java/com/android/server/PppoeService.java:562-567 | the message is queued and the wake lock acquired for it, so acquires and pending releases stay paired |
| PppoeService.Service.PostDriverStop | services/java/com/android/server/PppoeService.java:627-632 | stop and a delayed release are queued and the driver-stop wake lock acquired for them |
| PppoeService.Service.SetPppoeEnabledState | services/java/com/android/server/PppoeService.java:335-349 | the tracker's state becomes the new one and a broadcast carrying the new and the previous state is appended |
| PppoeService.Service.SetPppoeEnabledBlocking | services/java/com/android/server/PppoeService.java:295-333 | the result and the broadcasts are those of the blocking-enable specification; when it acts, the receiver and the event loop are on exactly for enable, the tracker's state is the target, its queue receives PLUGGED_AND_UP (link up) and ENABLED on enable or DISABLED (loop running) on disable, its last event is reset on enable and its connections on disable, and PPPOE_ON is persisted only when asked; when it does not act, the tracker, its queue and its inputs are untouched |
| PppoeService.Service.ChangeEnabled | services/java/com/android/server/PppoeService.java:309-331 | the acting path: the ENABLING/DISABLING and target broadcasts, tracking started or stopped with the tracker events and fields above, and the setting persisted when asked |
| PppoeService.Service.StartTracking | services/java/com/android/server/PppoeService.java:312-316 | the receiver is registered, the event loop runs, PLUGGED_AND_UP (when the link is up) and ENABLED are queued and the last event is reset |
| PppoeService.Service.StopTracking | services/java/com/android/server/PppoeService.java:318-324 | the receiver is unregistered; DISABLED is queued while the loop runs, the connections are reset and the event loop stopped |
| PppoeService.Service.DoUpdatePppoeState | services/java/com/android/server/PppoeService.java:599-637 | the messages posted are those of the update table for the current state, persisted setting, idleness, held locks and driver state; wake locks stay paired |
| PppoeService.Service.ReportStartWorkSource | services/java/com/android/server/PppoeService.java:582-592 | while the device is idle the wake lock's work source is the union of the held locks' sources, otherwise empty |
| PppoeService.Service.DispatchAt | services/java/com/android/server/PppoeService.java:656-697 | handling pending message i removes exactly it from the queue (an UPDATE_STATE appends the doUpdatePppoeState messages) and never releases a wake lock that was not acquired; ENABLE/DISABLE broadcast, register or stop tracking, queue the tracker's events, reset its last event or connections and persist as the blocking enable says, and touch neither the tracker nor its queue when they do not act; START and REPORT_WORKSOURCE set the wake lock's work source to the held locks' sources while idle, and START restarts the tracker as its restart specification says; STOP disconnects and stops it as that specification says; every other message leaves the tracker, the broadcasts and the work source alone, and no message but ENABLE/DISABLE adds to the tracker's queue |
| PppoeService.Service.OnReceive | services/java/com/android/server/PppoeService.java:455-530 | screen on, screen off, device idle and battery changes update their fields and post the receiver's messages; other actions post nothing |
| PppoeService.Service.AcquirePppoeLock | services/java/com/android/server/PppoeService.java:817-863 | the lock is added unless its binder is already held, then the work source is reported and the state updated; returns true |
| PppoeService.Service.PostPlain | services/java/com/android/server/PppoeService.java:573-579 | the messages are queued; none of them touches a wake lock |
| PppoeService.Service.UpdatePppoeLockWorkSource | services/java/com/android/server/PppoeService.java:865-890 | an unknown binder is an error and changes nothing; otherwise only that lock's work source changes |
| PppoeService.Service.ReleasePppoeLock | services/java/com/android/server/PppoeService.java:892-924 | the result says whether the binder was held; the lock is removed and an update-state message is posted |
| PppoeService.Service.SetPppoeAccount | services/java/com/android/server/PppoeService.java:268-275 | the account is stored in the settings and handed to the tracker; returns true |
| PppoeService.Service.RemovePppoeAccount | services/java/com/android/server/PppoeService.java:278-285 | the settings' account becomes empty and the tracker's account is removed; returns true |
| DisplaySlots.FirstIndex | services/java/com/android/server/DisplayManagerService.java:244-250 | the lowest index holding the value, or -1 when none does |
| DisplaySlots.CountOfUpdate | services/java/com/android/server/DisplayManagerService.java:213-234 | overwriting one entry changes the count of a value by what was removed and what was written |
| DisplaySlots.Initial | services/java/com/android/server/DisplayManagerService.java:198-211 | the constructed table: every framebuffer unmapped and disconnected, every slot free, count 0 |
| DisplaySlots.InitialConsistent | services/java/com/android/server/DisplayManagerService.java:198-211 | the constructed table is a consistent one-to-one map between connected framebuffers and used slots |
| DisplaySlots.ConnectKeepsConsistent | services/java/com/android/server/DisplayManagerService.java:213-224 | connecting a disconnected framebuffer while a slot is free keeps the table consistent |
| DisplaySlots.ConnectKeepsMapping | services/java/com/android/server/DisplayManagerService.java:213-224 | after such a connect, exactly the connected framebuffers are mapped, each onto a used slot |
| DisplaySlots.ConnectKeepsInjective | services/java/com/android/server/DisplayManagerService.java:213-224 | the slot a connect takes was free, so no two framebuffers end up on one slot |
| DisplaySlots.ConnectKeepsUsedMapped | services/java/com/android/server/DisplayManagerService.java:213-224 | after such a connect every used slot still has a framebuffer mapped onto it |
| DisplaySlots.RemoveKeepsConsistent | services/java/com/android/server/DisplayManagerService.java:226-234 | remove on a consistent table never indexes with -1 and keeps the table consistent |
| DisplaySlots.RemoveKeepsUsedMapped | services/java/com/android/server/DisplayManagerService.java:226-234 | after removing a connected framebuffer every used slot is still mapped |
| DisplaySlots.ConnectThenRemoveRestores | services/java/com/android/server/DisplayManagerService.java:213-234 | connect then remove of a disconnected framebuffer, with a slot free, gives back the starting table |
| DisplaySlots.NoFreeSlotThenRemoveFails | services/java/com/android/server/DisplayManagerService.java:213-234 | with every slot in use, connect leaves the framebuffer connected but unmapped, and a later remove indexes the slot array with -1 after clearing the connected flag, so a second remove does nothing |
| DisplaySlots.ConnectTwiceOvercounts | services/java/com/android/server/DisplayManagerService.java:213-224 | connecting a framebuffer twice leaves the count above the number of connected framebuffers |
| DisplaySlots.FbOfDisplayOfConnected | services/java/com/android/server/DisplayManagerService.java:244-254 | getfbid undoes getdispid on a connected framebuffer of a consistent table |
| DisplaySlots.DisplayOfFbOfUsed | services/java/com/android/server/DisplayManagerService.java:244-254 | getdispid undoes getfbid on a used slot of a consistent table |
| DisplaySlots.DisplayState.constructor | services/java/com/android/server/DisplayManagerService.java:198-211 | the arrays hold the initial table |
| DisplaySlots.DisplayState.Connect | services/java/com/android/server/DisplayManagerService.java:213-224 | the arrays change as the connect specification says: connected, mapped to the lowest free slot if any, count up |
| DisplaySlots.DisplayState.Remove | services/java/com/android/server/DisplayManagerService.java:226-234 | the arrays change as the remove specification says; false exactly when the slot lookup would throw |
| DisplaySlots.DisplayState.IsConnect | services/java/com/android/server/DisplayManagerService.java:236-238 | true exactly when the framebuffer is marked connected |
| DisplaySlots.DisplayState.GetCount | services/java/com/android/server/DisplayManagerService.java:240-242 | the count minus one, which on a consistent table is the number of connected framebuffers besides the main one |
| DisplaySlots.DisplayState.GetFbId | services/java/com/android/server/DisplayManagerService.java:244-250 | the lowest framebuffer mapped onto the slot, or -1 |
| DisplaySlots.DisplayState.GetDispId | services/java/com/android/server/DisplayManagerService.java:252-254 | the slot the framebuffer is mapped onto, -1 when unmapped |
| DisplayConfig.ConfigFile.constructor | services/java/com/android/server/DisplayManagerService.java:347-394 | the file holds the given text, or does not exist |
| DisplayConfig.ModeText | services/java/com/android/server/DisplayManagerService.java:383 | "%s" prints a mode as itself and a null mode as "null" |
| DisplayConfig.Nuls | core/java/android/view/DisplayCommand.java:129 | n NUL characters, what a fresh char buffer holds |
| DisplayConfig.Buffer | core/java/android/view/DisplayCommand.java:129-145 | the 1024-char buffer after one read: the file's first 1024 characters, NUL beyond its end |
| DisplayConfig.NoNewlineInNumber | services/java/com/android/server/DisplayManagerService.java:383 | a number printed with "%d" has no newline |
| DisplayConfig.BufferOfShort | core/java/android/view/DisplayCommand.java:138-145 | a text that fits the buffer is read whole and padded with NULs |
| DisplayConfig.SplitThreePieces | core/java/android/view/DisplayCommand.java:145 | two lines and a newline-free tail split into the two lines first |
| DisplayConfig.TokensOfConfigText | services/java/com/android/server/DisplayManagerService.java:364-376 | what writeConfigFile writes reads back through the buffer as the tokens "mode=<mode>" and "colordepth=<depth>", when the mode has no newline and the text fits |
| DisplayConfig.TokensOfLines | services/java/com/android/server/DisplayManagerService.java:364-366 | two newline-free lines, the second non-empty, come back as the first two tokens |
| DisplayConfig.ConfigTextPieces | services/java/com/android/server/DisplayManagerService.java:383 | the written text is the mode line and the depth line, each ended by a newline |
| DisplayConfig.LastScanIndex | services/java/com/android/server/DisplayManagerService.java:774-775 | the position the scan keeps for 'p' or 'i': -1 or an index holding one, with none later |
| DisplayConfig.SubstringOfSlice | services/java/com/android/server/DisplayManagerService.java:783-785 | substring over a slice's bounds yields that slice |
| DisplayConfig.LastIndexOfStep | core/java/android/view/DisplayCommand.java:168-179 | scanning one more character moves the last position to it exactly when it is the character |
| DisplayConfig.ParseNat | services/java/com/android/server/DisplayManagerService.java:783-785 | a non-negative int printed in decimal parses back |
| DisplayConfig.FirstDigit | services/java/com/android/server/DisplayManagerService.java:766-769 | the position the scan keeps for the first digit: -1 or a digit with none before it |
| DisplayConfig.LastOfAppend | services/java/com/android/server/DisplayManagerService.java:770-780 | appending text without the character keeps its last position |
| DisplayConfig.LastAt | services/java/com/android/server/DisplayManagerService.java:770-780 | the character followed by no other occurrence is the last one |
| DisplayConfig.NoCharOfNumber | services/java/com/android/server/DisplayManagerService.java:770-780 | a printed number contains no non-digit character |
| DisplayConfig.NoCharOfPrefix | services/java/com/android/server/DisplayManagerService.java:766-780 | a mode prefix contains none of the characters the scans look for |
| DisplayConfig.ModeColon | core/java/android/view/DisplayCommand.java:169-171 | in "<prefix><w>x<h><scan>-<rate>" the last ':' is the prefix's last ':' |
| DisplayConfig.ModeX | services/java/com/android/server/DisplayManagerService.java:770-773 | the last 'x' is the one right after the width digits |
| DisplayConfig.ModeScan | services/java/com/android/server/DisplayManagerService.java:774-775 | the last 'p' or 'i' is the one right after the height digits |
| DisplayConfig.ModeDash | services/java/com/android/server/DisplayManagerService.java:777-780 | the last '-' is the one right before the refresh digits |
| DisplayConfig.ModeFirstDigit | services/java/com/android/server/DisplayManagerService.java:766-769 | the first digit is the first character after the prefix |
| DisplayConfig.Middle | services/java/com/android/server/DisplayManagerService.java:783-785 | the middle and the tail of a three-part concatenation are those parts |
| DisplayConfig.ModeWidthText | services/java/com/android/server/DisplayManagerService.java:783 | the width digits sit right after the prefix |
| DisplayConfig.ModeHeightText | services/java/com/android/server/DisplayManagerService.java:784 | the height digits sit right after the 'x' |
| DisplayConfig.ModeRateText | services/java/com/android/server/DisplayManagerService.java:785 | the refresh digits run from after the '-' to the end |
| DisplayConfig.ModeHasLayout | services/java/com/android/server/DisplayManagerService.java:760-785 | every well-formed mode has its separators and its three numbers exactly where the scans look |
| DisplayCommand.Parcel | core/java/android/view/DisplayCommand.java:79-89 | writeToParcel writes seven items that read back, in order, as the parameter block itself |
| DisplayCommand.ConfigParam.constructor | core/java/android/view/DisplayCommand.java:67-77 | a new block: display -1, code 0, null mode, all numbers 0 |
| DisplayCommand.ConfigParam.WriteToParcel | core/java/android/view/DisplayCommand.java:79-89 | the parcel reads back as the block's current contents |
| DisplayCommand.OperateCodeCoversChanges | core/java/android/view/DisplayCommand.java:196-319 | every command names its display and sets exactly one of ENABLE, DISABLE and CHANGE; a field that changed has its change bit set; disable changes no parameter field |
| DisplayCommand.EnableCodeValue | core/java/android/view/DisplayCommand.java:206-207 | enable's operate code is 0x101F |
| DisplayCommand.StoredDepthOfConfigText | core/java/android/view/DisplayCommand.java:141-158 | a config file the manager wrote keeps its colour depth when setMainDisplay rewrites it |
| DisplayCommand.MainDisplaySizeOfMode | core/java/android/view/DisplayCommand.java:168-182 | a mode "<prefix><w>x<h><scan>-<rate>" whose prefix is empty or ends in its last ':' gives width w and height h |
| DisplayCommand.SizeTextsOfLayout | core/java/android/view/DisplayCommand.java:168-182 | in such a layout the two substrings are exactly the width and height digits |
| DisplayCommand.WidthTextIs | core/java/android/view/DisplayCommand.java:181 | the width substring is what lies between the last ':' and the last 'x' |
| DisplayCommand.HeightTextIs | core/java/android/view/DisplayCommand.java:182 | the height substring is what lies between the last 'x' and the last 'p' or 'i' |
| DisplayCommand.SizeOfTexts | core/java/android/view/DisplayCommand.java:181-182 | two decimal texts in those places parse to the width and height |
| DisplayCommand.MainDisplaySizeOfDigitBeforeColon | core/java/android/view/DisplayCommand.java:122-126 | the file-format example "S1920:x1080p-60" leaves the width text empty, so parsing it throws |
| DisplayCommand.ParseMainDisplaySize | core/java/android/view/DisplayCommand.java:168-182 | the scan and the two parses give the size function's result; None for a mode that makes them throw |
| DisplayCommand.ModeTexts | core/java/android/view/DisplayCommand.java:168-182 | the two substrings handed to Integer.parseInt, None when substring throws |
| DisplayCommand.ModeBounds | core/java/android/view/DisplayCommand.java:168-179 | the four indices after the scan: after the last ':', before and after the last 'x', before the last 'p' or 'i', 0 for a missing one |
| DisplayCommand.Command.constructor | core/java/android/view/DisplayCommand.java:47-54 | a command object with a fresh default block and nothing sent |
| DisplayCommand.Command.TransferParam | core/java/android/view/DisplayCommand.java:92-112 | one CONFIG_DISPLAY transaction carrying the interface token and the block is sent; SurfaceFlinger's reply is returned |
| DisplayCommand.Command.Enable | core/java/android/view/DisplayCommand.java:196-219 | without SurfaceFlinger -1 and nothing touched; otherwise every field is set, code 0x101F, and the block sent |
| DisplayCommand.Command.Disable | core/java/android/view/DisplayCommand.java:221-234 | the same with only the display and DISABLE set; the other fields keep what earlier commands left |
| DisplayCommand.Command.SetResolution | core/java/android/view/DisplayCommand.java:236-255 | display 0 goes to setMainDisplay and leaves the block alone; another display gets a resolution change through the block |
| DisplayCommand.Command.SetMainDisplay | core/java/android/view/DisplayCommand.java:114-194 | without a window manager -1 and nothing touched; otherwise the file is rewritten with the mode and its stored depth, a malformed mode throws, and the window manager gets the mode when width and height are not negative |
| DisplayCommand.Command.SetOverScan | core/java/android/view/DisplayCommand.java:257-271 | only the display, the code CHANGE with the overscan bit and the ratio change before the block is sent |
| DisplayCommand.Command.SetMirror | core/java/android/view/DisplayCommand.java:273-287 | the same for the mirror bit and value |
| DisplayCommand.Command.SetColorDepth | core/java/android/view/DisplayCommand.java:289-303 | the same for the colour-depth bit and value |
| DisplayCommand.Command.SetRotation | core/java/android/view/DisplayCommand.java:305-319 | the same for the rotation bit and value |
| DisplayModes.ResolutionOfMode | services/java/com/android/server/DisplayManagerService.java:751-788 | every mode "<prefix><w>x<h><scan>-<rate>" whose prefix has no digit or separator reads back as its own width, height and rate |
| DisplayModes.TextsOfLayout | services/java/com/android/server/DisplayManagerService.java:783-785 | in a mode laid out that way the three substrings are the three numbers' digits |
| DisplayModes.WidthTextIs | services/java/com/android/server/DisplayManagerService.java:783 | the width substring runs from the first digit to just before the last 'x' |
| DisplayModes.RateTextIs | services/java/com/android/server/DisplayManagerService.java:785 | the rate substring runs from just after the last '-' to the end |
| DisplayModes.SubstringOfDrop | services/java/com/android/server/DisplayManagerService.java:785 | substring from b to the length is the tail from b |
| DisplayModes.ResolutionOfTexts | services/java/com/android/server/DisplayManagerService.java:783-785 | three decimal texts in those places parse to the three numbers |
| DisplayModes.RateOfModeWithoutDash | services/java/com/android/server/DisplayManagerService.java:777-785 | a mode without '-' takes its rate from its first character, since both rate indices stay 0 |
| DisplayModes.FirstDigitStep | services/java/com/android/server/DisplayManagerService.java:766-769 | scanning one more character keeps an earlier first digit or takes this one |
| DisplayModes.ScanStep | services/java/com/android/server/DisplayManagerService.java:764-781 | one more character scanned updates each of the six indices exactly as the loop body does |
| DisplayModes.ResolutionBounds | services/java/com/android/server/DisplayManagerService.java:764-781 | the loop leaves the six indices the scan functions name |
| DisplayModes.ResolutionTexts | services/java/com/android/server/DisplayManagerService.java:764-785 | the three substrings, None where substring throws |
| DisplayModes.ParseResolution | services/java/com/android/server/DisplayManagerService.java:751-788 | getResolutionInString's three numbers, None where it throws |
| DisplayModes.Parsed | services/java/com/android/server/DisplayManagerService.java:474 | one reading per listed mode |
| DisplayModes.FirstFit | services/java/com/android/server/DisplayManagerService.java:472-486 | the second search stops at the first entry that parses and fits, or at the first that throws, having skipped only parsing entries that do not fit; no fit means every entry was skipped |
| DisplayModes.SelectMode | services/java/com/android/server/DisplayManagerService.java:462-492 | the chosen mode is a listed one, and the stored mode itself when the list has it |
| DisplayModes.SelectedFitsOrFirst | services/java/com/android/server/DisplayManagerService.java:472-490 | a mode chosen in place of an unlisted stored mode is the first listed mode no larger in all three numbers, or the first entry when none is |
| DisplayModes.SelectModeOfParsedList | services/java/com/android/server/DisplayManagerService.java:462-492 | a non-empty list whose modes all parse always yields a mode |
| DisplayModes.FirstFitOfReadable | services/java/com/android/server/DisplayManagerService.java:472-486 | when every listed mode parses, the second loop never stops on an exception |
| DisplayModes.ParsedAt | services/java/com/android/server/DisplayManagerService.java:476 | the reading of entry k of the list is getResolutionInString of that entry |
| DisplayModes.SelectDefaultKeepsListed | services/java/com/android/server/DisplayManagerService.java:449-495 | a stored mode that parses and is listed is kept |
| DisplayModes.ChooseMode | services/java/com/android/server/DisplayManagerService.java:462-492 | the two loops and the fallback give the selection function's result, with an error for an empty list or a mode that throws |
| DisplayModes.SearchFit | services/java/com/android/server/DisplayManagerService.java:472-486 | the second loop stops where the first-fit function says |
| DisplayModes.ParseEntry | services/java/com/android/server/DisplayManagerService.java:476 | the loop's call on entry k returns that entry's reading |
| DisplayModes.FirstFitIs | services/java/com/android/server/DisplayManagerService.java:472-486 | the first entry that is not skipped is the one the first-fit function names |
| DisplayHandlers.RemoveWhat | services/java/com/android/server/DisplayManagerService.java:606 | removeMessages keeps exactly the pending messages of other kinds |
| DisplayHandlers.CountWhatRemoved | services/java/com/android/server/DisplayManagerService.java:606 | after removeMessages none of that kind is pending |
| DisplayHandlers.UpdateQueueOne | services/java/com/android/server/DisplayManagerService.java:589-611 | after updateState of a known state exactly one update is pending, the new one, delayed by 1000 ms exactly when it reports a disconnection |
| DisplayHandlers.UpdateQueueUnknown | services/java/com/android/server/DisplayManagerService.java:589-611 | an unknown state name sends nothing and removes nothing |
| DisplayHandlers.UpdateQueueKeepsOthers | services/java/com/android/server/DisplayManagerService.java:589-611 | messages of other kinds survive updateState |
| DisplayHandlers.DisconnectThenConnectDebounced | services/java/com/android/server/DisplayManagerService.java:589-611 | a disconnection followed by a connection within the delay leaves only the undelayed connection update pending |
| DisplayHandlers.NotificationOps | services/java/com/android/server/DisplayManagerService.java:630-668 | no request when the shown id is already the target; otherwise requests after which the target is shown |
| DisplayHandlers.ShownAfterOps | services/java/com/android/server/DisplayManagerService.java:630-668 | after those requests the manager shows the target, whatever it showed before |
| DisplayHandlers.DisplayHandler.constructor | services/java/com/android/server/DisplayManagerService.java:578-587 | disconnected, unconfigured, no notification, no manager, nothing pending; the invariant holds |
| DisplayHandlers.DisplayHandler.UpdateState | services/java/com/android/server/DisplayManagerService.java:589-611 | the queue becomes the updateState queue and nothing else changes; at most one update stays pending |
| DisplayHandlers.DisplayHandler.SystemReady | services/java/com/android/server/DisplayManagerService.java:297-305 | the notification manager is available and SYSTEM_READY is queued |
| DisplayHandlers.DisplayHandler.BootCompletedReceived | services/java/com/android/server/DisplayManagerService.java:571-575 | BOOT_COMPLETED is queued |
| DisplayHandlers.DisplayHandler.UpdateDisplayNotification | services/java/com/android/server/DisplayManagerService.java:630-668 | with a manager the notification is shown exactly while connected, through the minimal cancel and notify requests; without one nothing happens |
| DisplayHandlers.DisplayHandler.HandleMessage | services/java/com/android/server/DisplayManagerService.java:614-628 | an update records its two flags; with a manager, an update or SYSTEM_READY brings the notification in line with the connection state through the minimal requests; BOOT_COMPLETED sets its flag; others change nothing |
| DisplayHandlers.DisplayHandler.DispatchAt | services/java/com/android/server/DisplayManagerService.java:614-628 | delivering any pending message removes exactly it, keeps the invariant and has handleMessage's effect: an update sets connected and configured, an update or SYSTEM_READY with a manager shows the notification exactly while connected, BOOT_COMPLETED sets its flag, and the manager flag is kept |
| DisplayManagerService.Put | services/java/com/android/server/DisplayManagerService.java:862-945 | storing one setting changes that setting and no other |
| DisplayManagerService.KnobCommandStores | services/java/com/android/server/DisplayManagerService.java:862-945 | a command on a display in range succeeds and stores its value there and nowhere else; enable without save leaves every table alone |
| DisplayManagerService.KnobCommandIdempotent | services/java/com/android/server/DisplayManagerService.java:910-945 | overscan and colour depth: repeating a command changes nothing more and posts nothing |
| DisplayManagerService.KnobCommandRepeatsPost | services/java/com/android/server/DisplayManagerService.java:878-908 | mirror and rotation have no early return: a repeated command stores nothing new but posts again |
| DisplayManagerService.ModeCommand | services/java/com/android/server/DisplayManagerService.java:843-860 | throws exactly for a display outside 0..3 or a null mode (a NullPointerException when the display exists); on success the display holds the mode |
| DisplayManagerService.ModeCommandIdempotent | services/java/com/android/server/DisplayManagerService.java:843-860 | repeating a mode command changes nothing more, and the display holds the mode |
| DisplayManagerService.ConfigFileFollowsDisplayZero | services/java/com/android/server/DisplayManagerService.java:843-860 | whenever a command rewrites the config file, the file holds display 0's mode and colour depth |
| DisplayManagerService.GetKnob | services/java/com/android/server/DisplayManagerService.java:948-970 | the getters throw exactly for a display outside 0..3 |
| DisplayManagerService.GetFlag | services/java/com/android/server/DisplayManagerService.java:948-958 | getDisplayEnable, _Mirror and _Rotation answer true exactly when the stored value is 1, and throw outside 0..3 |
| DisplayManagerService.FlagAfterCommand | services/java/com/android/server/DisplayManagerService.java:862-958 | a saved enable, a mirror or a rotation command stores its boolean so that the boolean getter reads it back |
| DisplayManagerService.GetMode | services/java/com/android/server/DisplayManagerService.java:948-952 | getDisplayMode throws exactly for a display outside 0..3 |
| DisplayManagerService.GetAfterCommand | services/java/com/android/server/DisplayManagerService.java:862-970 | after a command went through, its getter returns the new value and every other getter of every display returns what it did before |
| DisplayManagerService.GetModeAfterCommand | services/java/com/android/server/DisplayManagerService.java:843-860 | after a mode command went through getDisplayMode returns that mode, and nothing else changed |
| DisplayManagerService.ReadConfigOfWritten | services/java/com/android/server/DisplayManagerService.java:347-394 | what writeConfigFile writes for a non-empty mode without a newline, readConfigFile reads back |
| DisplayManagerService.ReadConfigOfNullMode | services/java/com/android/server/DisplayManagerService.java:347-394 | a null mode is written as "null" and read back as the mode "null" |
| DisplayManagerService.NullModeUnparsable | services/java/com/android/server/DisplayManagerService.java:751-788 | getResolutionInString throws on "null", so such a display cannot get a default mode |
| DisplayManagerService.ReadConfigOfEmptyFile | services/java/com/android/server/DisplayManagerService.java:364-368 | an existing empty config file makes readConfigFile throw on tokens[1] |
| DisplayManagerService.GetIntOfPutInt | services/java/com/android/server/DisplayManagerService.java:307-344 | Settings.System.getInt reads back any int putInt stored |
| DisplayManagerService.GetIntOfStored | services/java/com/android/server/DisplayManagerService.java:307-344 | a setting holding the decimal text of an int reads back as that int, whatever the default |
| DisplayManagerService.SaveAllEntries | services/java/com/android/server/DisplayManagerService.java:696-703 | saving a display's settings leaves each of its six keys holding that setting's text (the mode as is) |
| DisplayManagerService.LoadedOfSaveAll | services/java/com/android/server/DisplayManagerService.java:696-703 | the six settings saved for a display are what the next getDefaultValue loads for it |
| DisplayManagerService.DbStepOfPosted | services/java/com/android/server/DisplayManagerService.java:671-745 | a message a command posted, for a display still mapped to the same framebuffer, is handled without an exception |
| DisplayManagerService.EnableSaveReloads | services/java/com/android/server/DisplayManagerService.java:675-704 | a saved enable message stores the display's whole entry, which getDefaultValue loads back |
| DisplayManagerService.DefaultModeOfReply | services/java/com/android/server/DisplayManagerService.java:449-495 | with the daemon's list, the default mode is the selection function's, and its error otherwise |
| DisplayManagerService.ChooseDefault | services/java/com/android/server/DisplayManagerService.java:449-495 | the mode chosen in the source's order, and the daemon is asked exactly when the stored mode exists and parses |
| DisplayManagerService.Service.constructor | services/java/com/android/server/DisplayManagerService.java:262-279 | the service's fields before getDefaultValue: nothing connected, every table at Java's array defaults, nothing pending or sent |
| DisplayManagerService.Service.Create | services/java/com/android/server/DisplayManagerService.java:262-281 | construction ends with getDefaultValue: it succeeds exactly when readConfigFile does not throw, and the new service holds the settings' values with display 0 taken from the config file; otherwise the exception is readConfigFile's |
| DisplayManagerService.Service.LoadSettings | services/java/com/android/server/DisplayManagerService.java:307-341 | every display's entry becomes what the settings hold, keeping a value whose setting is missing or unparsable |
| DisplayManagerService.Service.ReadConfigFile | services/java/com/android/server/DisplayManagerService.java:347-378 | display 0's mode and depth become the file's when present; a one-line file throws first; a bad depth throws after the mode was set |
| DisplayManagerService.Service.GetDefaultValue | services/java/com/android/server/DisplayManagerService.java:307-344 | every display becomes what the settings give it, then display 0 takes the config file's mode and depth; a one-line file throws with only the settings applied, and a bad depth throws after the mode was stored; nothing else changes |
| DisplayManagerService.AfterReadConfig | services/java/com/android/server/DisplayManagerService.java:347-378 | readConfigFile changes display 0 only |
| DisplayManagerService.LoadedAll | services/java/com/android/server/DisplayManagerService.java:309-340 | the loop loads all four displays |
| DisplayManagerService.LoadedOverWrittenConfig | services/java/com/android/server/DisplayManagerService.java:307-344 | over a config file writeConfigFile wrote, display 0 takes the written mode and depth over the settings, and every other display is as the settings give it |
| DisplayManagerService.Service.CommandDisplayEnable | services/java/com/android/server/DisplayManagerService.java:862-875 | tables, queue and result are those of the command specification for enable |
| DisplayManagerService.Service.CommandDisplayMirror | services/java/com/android/server/DisplayManagerService.java:878-892 | the same for mirror |
| DisplayManagerService.Service.CommandDisplayRotation | services/java/com/android/server/DisplayManagerService.java:894-908 | the same for rotation |
| DisplayManagerService.Service.CommandDisplayOverScan | services/java/com/android/server/DisplayManagerService.java:910-925 | the same for overscan |
| DisplayManagerService.Service.CommandDisplayColorDepth | services/java/com/android/server/DisplayManagerService.java:927-945 | the same for colour depth, including the config-file rewrite for display 0 |
| DisplayManagerService.Service.CommandDisplayMode | services/java/com/android/server/DisplayManagerService.java:811-860 | the tables follow the mode command specification: a display outside 0..3 throws, a null mode from the binder caller throws a NullPointerException with nothing changed, a repeated mode does nothing, and otherwise the mode is stored, written to the config file for display 0 and posted |
| DisplayManagerService.Service.SelectDisplayDefaultMode | services/java/com/android/server/DisplayManagerService.java:449-495 | an unknown display throws; otherwise the display's mode becomes the default mode or nothing changes on error; the daemon is asked and its list kept exactly when the stored mode parses |
| DisplayManagerService.Service.ApplyDefault | services/java/com/android/server/DisplayManagerService.java:457-494 | the state selectDisplayDefaultMode leaves once the choice is known |
| DisplayManagerService.Service.SetDisplayConnectState | services/java/com/android/server/DisplayManagerService.java:520-562 | on connect the default mode is chosen first (the daemon is asked for the list exactly when the stored mode parses) and its error ends the call with the tables and broadcasts kept; then the display's attach broadcast goes out and an enabled secondary display gets an unsaved enable or disable command; a display past the last throws |
| DisplayManagerService.Service.ConnectDisplay | services/java/com/android/server/DisplayManagerService.java:523-561 | the connect path of setDisplayConnectState has the effect above |
| DisplayManagerService.Service.AnnounceConnectState | services/java/com/android/server/DisplayManagerService.java:524-561 | the attach broadcast for displays 0..3, then the unsaved enable or disable command for an enabled secondary display; an index beyond the tables throws with the queue kept |
| DisplayManagerService.Service.OnEvent | services/java/com/android/server/DisplayManagerService.java:421-445 | the framebuffer field is parsed first and a bad field, an unknown code or a framebuffer out of range leaves everything unchanged; a connect and a disconnect have the effects of the Connected and Disconnected rows, including the slot table and handler queue on every throwing path and the display tables, broadcasts, database queue and daemon commands of setDisplayConnectState |
| DisplayManagerService.Service.Connected | services/java/com/android/server/DisplayManagerService.java:426-431 | the slot table follows the connect specification, a secondary framebuffer queues CONNECTED, and setDisplayConnectState then has its connect effect for the display the connect chose; its exception is the event's |
| DisplayManagerService.Service.Disconnected | services/java/com/android/server/DisplayManagerService.java:433-440 | an unconnected framebuffer changes nothing; a connected one is torn down as the row below says; on a consistent table it never throws |
| DisplayManagerService.Service.TearDown | services/java/com/android/server/DisplayManagerService.java:434-438 | setDisplayConnectState has its disconnect effect (broadcast and unsaved disable) for the framebuffer's display; when that throws the slots and the handler queue are kept; otherwise the slots remove the framebuffer as the remove specification says, which clears its connected flag even when the removal throws, and DISCONNECTED is queued only on success with at most one secondary left; on a consistent table it never throws |
| DisplayManagerService.Service.RemoveFramebuffer | services/java/com/android/server/DisplayManagerService.java:437-438 | the slots always become what the remove specification gives, so a framebuffer without a display is left with its connected flag cleared; DISCONNECTED is queued only on success with at most one secondary left; it throws exactly when the framebuffer has no display |
| DisplayManagerService.Service.ExecuteCmd | services/java/com/android/server/DisplayManagerService.java:671-745 | the DisplayCommand call the handler makes is issued once, and display 0's resolution goes to setMainDisplay |
| DisplayManagerService.Service.HandleDbMessage | services/java/com/android/server/DisplayManagerService.java:671-745 | an unknown framebuffer throws before any command; otherwise the command goes out, then the audio broadcast, then the settings are saved unless an exception came first |
| DisplayManagerService.Service.RunDbAction | services/java/com/android/server/DisplayManagerService.java:673-745 | command, broadcast and settings in that order; an exception after the command leaves the settings as they were |
| DisplayManagerService.Service.NextDbMessage | services/java/com/android/server/DisplayManagerService.java:671-745 | the database handler takes its messages in the order they were posted |
| DisplayManagerService.Service.SystemReady | services/java/com/android/server/DisplayManagerService.java:297-305 | the notification manager is available and SYSTEM_READY is queued |
| DisplayManagerService.Service.GetDisplayModeList | services/java/com/android/server/DisplayManagerService.java:805-807 | the list last fetched for the display, null before any; an unknown display throws |
| HWComposer.TDiv | services/surfaceflinger/DisplayHardware/HWComposer.cpp:106-109 | C's int `/`: agrees with the mathematical quotient on non-negative operands and is non-negative when the signs agree |
| HWComposer.TDivSymmetric | services/surfaceflinger/DisplayHardware/HWComposer.cpp:106-109 | truncating division is odd in each operand, which Euclidean division is not |
| HWComposer.MulMonotone | services/surfaceflinger/DisplayHardware/HWComposer.cpp:106-109 | scaling by a positive factor keeps order |
| HWComposer.DivAtMost | services/surfaceflinger/DisplayHardware/HWComposer.cpp:106-109 | a non-negative dividend below (c + 1) * f has quotient at most c |
| HWComposer.DivMonotone | services/surfaceflinger/DisplayHardware/HWComposer.cpp:106-109 | the scaling division keeps the order of edges |
| HWComposer.AdjustRect | services/surfaceflinger/DisplayHardware/HWComposer.cpp:103-123 | without overscan every edge is scaled by dw/fw or dh/fh with C truncation and moved by half the slack between display and target size |
| HWComposer.AdjustRectOnePass | services/surfaceflinger/DisplayHardware/HWComposer.cpp:103-115 | with both scales 0, adjustRect is its scale-and-centre pass alone |
| HWComposer.AdjustRectTwoPasses | services/surfaceflinger/DisplayHardware/HWComposer.cpp:103-123 | with a nonzero scale, adjustRect is the scale-and-centre pass followed by a shrink pass that treats the dw x dh box as the display |
| HWComposer.ScaledBetween | services/surfaceflinger/DisplayHardware/HWComposer.cpp:106-109 | a coordinate in [0, f] scaled by d/f lands in [0, d], order kept |
| HWComposer.PlaceWithin | services/surfaceflinger/DisplayHardware/HWComposer.cpp:106-114 | one scale-and-centre pass maps [0, f] into [0, extent] in order whenever the target size fits the extent |
| HWComposer.ShrinkPassWithin | services/surfaceflinger/DisplayHardware/HWComposer.cpp:116-122 | the overscan pass, run with the target box as its display, keeps coordinates inside any bound at least as large as that box |
| HWComposer.ShrinkProducts | services/surfaceflinger/DisplayHardware/HWComposer.cpp:116-122 | the products the overscan pass divides keep the edges' order and stay below what would push an edge past the bound |
| HWComposer.AdjustRectWithin | services/surfaceflinger/DisplayHardware/HWComposer.cpp:103-123 | any rect inside the source frame ends inside the display with its edges still in order, for a target that fits and overscan between 0 and 100 percent |
| HWComposer.ShrinkBounds | services/surfaceflinger/DisplayHardware/HWComposer.cpp:130-131 | shrinking a size by 0 to 100 percent gives a size between 0 and the original |
| HWComposer.AspectFitBounds | services/surfaceflinger/DisplayHardware/HWComposer.cpp:159-166 | the aspect-fitted box lies inside the display and fills it in width or in height |
| HWComposer.DivIs | services/surfaceflinger/DisplayHardware/HWComposer.cpp:106-109 | a quotient is fixed by its bounds f * q <= a < f * (q + 1) |
| HWComposer.MulDivCancel | services/surfaceflinger/DisplayHardware/HWComposer.cpp:106-109 | scaling the far edge f by d/f gives exactly d |
| HWComposer.FrameCentred | services/surfaceflinger/DisplayHardware/HWComposer.cpp:103-115 | without overscan the whole source frame becomes the dw x dh box centred in the display |
| HWComposer.OverScanCentred | services/surfaceflinger/DisplayHardware/HWComposer.cpp:125-134 | adjustOverScan turns the full-display frame into the shrunk box centred in the display |
| HWComposer.GeometryOverScanOffCentre | services/surfaceflinger/DisplayHardware/HWComposer.cpp:116-122 | as written, a pillar-boxed 1440x1080 frame on a 1920x1080 display with 10% overscan ends 288 pixels from the left and 336 from the right, not centred |
| HWComposer.FitRectCentred | services/surfaceflinger/DisplayHardware/HWComposer.cpp:154-170 | the corrected geometry pass turns the whole frame into the aspect-fitted box, shrunk by the overscan, centred in the display |
| HWComposer.Settle | services/surfaceflinger/DisplayHardware/HWComposer.cpp:212-214 | a layer flagged SKIP becomes a framebuffer layer; only its composition type can change, and an unflagged layer is untouched |
| HWComposer.CountsBounded | services/surfaceflinger/DisplayHardware/HWComposer.cpp:215-222 | overlay and framebuffer counts together never exceed the number of layers |
| HWComposer.ClearGeometryChanged | services/surfaceflinger/DisplayHardware/HWComposer.cpp:242-244 | commit clears GEOMETRY_CHANGED and keeps every other flag bit |
| HWComposer.AdjustRegion | services/surfaceflinger/DisplayHardware/HWComposer.cpp:148-151 | the loop over the visible rects applies adjustRect to every rect and to nothing else |
| HWComposer.Composer.constructor | services/surfaceflinger/DisplayHardware/HWComposer.cpp:39-60 | a new composer has no list, no capacity, zero counts and no outstanding copies; whether a device opened is recorded |
| HWComposer.Composer.InitCheck | services/surfaceflinger/DisplayHardware/HWComposer.cpp:70-72 | NO_ERROR exactly when a device was opened, NO_INIT otherwise |
| HWComposer.Composer.Release | services/surfaceflinger/DisplayHardware/HWComposer.cpp:248-254 | with a device, the device's answer to an empty set; without one, NO_ERROR |
| HWComposer.Composer.GetNumLayers | services/surfaceflinger/DisplayHardware/HWComposer.cpp:266-268 | the layers in use, or 0 when there is no list |
| HWComposer.Composer.GetLayerCount | services/surfaceflinger/DisplayHardware/HWComposer.cpp:230-238 | the overlay or framebuffer count of the last prepare, 0 for any other type |
| HWComposer.Composer.FreeAllocatedBuffer | services/surfaceflinger/DisplayHardware/HWComposer.cpp:87-101 | with a list and outstanding copies, every layer in use loses its visible region and no copies remain; otherwise nothing changes |
| HWComposer.Composer.CreateWorkList | services/surfaceflinger/DisplayHardware/HWComposer.cpp:189-202 | with a device: no region copy is owned afterwards, copies are released, the list is reallocated only when missing or too small, it holds numLayers layers and is marked GEOMETRY_CHANGED; without one nothing changes; always NO_ERROR |
| HWComposer.Composer.Prepare | services/surfaceflinger/DisplayHardware/HWComposer.cpp:204-228 | on the device's success SKIP layers are settled to framebuffer and the counts equal the overlay and framebuffer layers in use; on failure nothing changes; the device's result is returned |
| HWComposer.Composer.SettleAndCount | services/surfaceflinger/DisplayHardware/HWComposer.cpp:209-225 | the loop settles the first numHwLayers layers and counts each composition type among them |
| HWComposer.Composer.Commit | services/surfaceflinger/DisplayHardware/HWComposer.cpp:240-246 | returns the device's result and, when there is a list, clears only GEOMETRY_CHANGED |
| HWComposer.Composer.Disable | services/surfaceflinger/DisplayHardware/HWComposer.cpp:256-264 | as written: with a device the list is gone and the device's result is returned, but every outstanding region copy is leaked and isAllocated stays as it was |
| HWComposer.Composer.DisableReleasing | services/surfaceflinger/DisplayHardware/HWComposer.cpp:62-68 | corrected disable: copies are released first as the destructor does, so the list goes with nothing leaked |
| HWComposer.Composer.SetLayer | services/surfaceflinger/DisplayHardware/HWComposer.cpp:270-272 | a write through getLayers replaces one layer; a copy it held becomes leaked |
| HWComposer.Composer.TakeRegion | services/surfaceflinger/DisplayHardware/HWComposer.cpp:142-146 | copying a non-empty region sets isAllocated and makes the layer's region owned; a copy it replaces is leaked |
| HWComposer.Composer.AdjustOverScan | services/surfaceflinger/DisplayHardware/HWComposer.cpp:125-152 | with zero scales nothing changes; otherwise exactly layer k is rewritten, frame and every visible rect shrunk about the display centre, and a non-empty region becomes an owned copy |
| HWComposer.Composer.AdjustGeometry | services/surfaceflinger/DisplayHardware/HWComposer.cpp:154-187 | without a list nothing changes; otherwise exactly layer k is rewritten by the aspect fit and adjustRect, and a non-empty region becomes an owned copy |
| HWComposer.DisableAfterOverScanLeaks | services/surfaceflinger/DisplayHardware/HWComposer.cpp:256-264 | overscan on a layer with a visible region, then disable: the list is gone, isAllocated is still set and one copy is leaked |
| HWComposer.DisableReleasingAfterOverScan | services/surfaceflinger/DisplayHardware/HWComposer.cpp:62-68 | the same steps with the corrected disable leak nothing and clear isAllocated |

## Left out

- Binder and IPC: permission checks (`enforce*Permission`), `clearCallingIdentity`, `linkToDeath`, and RemoteException plumbing. A client's death is a direct call of the lock release. The one RemoteException with a visible result, in `getPppoeState`, is a missing reply (`None`).
- The set-up of threads and loopers, `Thread.sleep`, AlarmManager and real message delays: delays are tags on queued messages.
- Logging, `dump`, `toString`, and `HWComposer::dump`.
- The bodies of external effects, which appear only as entries in ghost logs:
  - pppd;
  - NotificationManager;
  - the native daemon connector;
  - SurfaceFlinger's `transact`;
  - `IWindowManager.setDisplayMode`;
  - the composer device's own work inside `prepare` and `set`, and `hwc_open`;
  - EGL and `setFrameBuffer`.
- `noteAcquirePppoeLock` and `noteReleasePppoeLock`, whose bodies are empty.
- Code that nothing reaches or that does nothing:
  - `checkPollTimer`, `loadDriver`/`unloadDriver`, `interfaceAdded`/`interfaceRemoved`;
  - `SettingsObserver`, which never reports a change;
  - the disconnect deferral (`scheduleDisconnect`/`cancelDisconnect`/`handleDisconnectedState`), which nothing schedules;
  - the network stubs of `PppoeManager`, which answer false;
  - the idle-alarm branch of the screen-off receiver, which `shouldPppoeStayAwake` rules out;
  - `isSecondDisplayConnect`, which always answers false;
  - `onDaemonConnected`, which only releases a start-up latch.
- File and settings I/O. Exceptions from writing `display.conf` are swallowed by the source and are not modelled as a separate path.
- The public `setDisplay*` wrappers of DisplayManagerService: each is the matching `commandDisplay*` with save = 1, which is what the model's command methods take as a parameter.
- HWComposer memory:
  - `malloc`, `memcpy` and `free` are not modelled. A visible region is a sequence of rects.
  - A copied region's ownership is ghost state (`owned`, `leaked`).
  - The entries of a freshly allocated list are unknown in the source; `EMPTY_LAYER` stands in for them.
  - `freeAllocatedBuffer` frees every in-use layer's rects, including ones SurfaceFlinger rather than this class allocated. The model records only the copies it made.
- HWComposer.AdjustRect: 32-bit overflow of `x * dw` and `dh * fw` is not modelled. Ints are unbounded, so the model is the source's behaviour only for sizes whose products fit in an int.
- HWComposer.AdjustRect: `adjustRect` updates the rect in place through its address. It is modelled as a function whose result `AdjustOverScan` and `AdjustGeometry` store into the layer array.
- HWComposer.AdjustGeometry: requires the frame size to be nonzero, and also the fitted size when an overscan is asked for. The source divides by these without a check.
- HWComposer.Composer.Prepare: requires a device and a list, as the source dereferences both unchecked.
- HWComposer.Composer.Commit: requires a device, as `commit` calls through `mHwc` without checking it (services/surfaceflinger/DisplayHardware/HWComposer.cpp:241); what happens with no device is not modelled.
- JavaLang.ParseInt: accepts only the ASCII digits '0'..'9', where `Integer.parseInt` accepts every Unicode decimal digit through `Character.digit`. Every text it reads here is written by `String.format("%d")`, `Settings.System.putInt`, the display daemon's mode list or the PPP daemon's address property, all of which write ASCII. A text with other decimal digits, which only an outside writer could leave, parses in Java and is `None` in the model.
- DisplayCommand.Command.SetResolution: takes the mode as a non-null string. A null mode for display 0 would throw a NullPointerException in `setMainDisplay`'s scan, and for another display would send a null mode to SurfaceFlinger; neither is modelled. Within the service no null mode reaches it: resolution messages are posted only by `commandDisplayMode`, which throws on a null mode before posting.
- DisplayCommand.Command.SetMainDisplay: takes the mode as a non-null string, for the same reason; a null mode's NullPointerException in the `lastIndexOf` scan is not modelled.

## Findings

| source | as written | input that shows it | evidently intended | confidence | as-written member | corrected member |
|---|---|---|---|---|---|---|
| core/java/android/net/PppoeManager.java:365-378 | a reference-counted `acquire` tests `++mRefCount > 0`, so every nested acquire increments the manager's active-lock count, while only the last release decrements it | acquire, acquire, release, release on one reference-counted lock leaves the active count at 1 instead of 0, and the 51st nested acquire of a single lock is refused by the 50-lock ceiling | `++mRefCount == 1`: count the lock once while it is held | high, not executed | PppoeManager.NestedPairLeaksActiveCount | PppoeManager.IntendedAcquireReleaseRestores |
| services/surfaceflinger/DisplayHardware/HWComposer.cpp:256-264 | `disable` frees the list without `freeAllocatedBuffer`, unlike the destructor at lines 62-68 | create a one-layer list, give the layer a visible region, overscan it (the region is copied), disable: the copy is leaked and `isAllocated` stays set | release region copies before dropping the list | high, not executed | HWComposer.DisableAfterOverScanLeaks | HWComposer.DisableReleasingAfterOverScan |
| services/surfaceflinger/DisplayHardware/HWComposer.cpp:116-122 | the overscan pass of `adjustRect` shrinks about the centre of a dw x dh box at the display origin, not about the display centre | 1920x1080 display, 1440x1080 frame, 10% horizontal overscan: the frame ends 288 pixels from the left and 336 from the right | shrink the fitted box and centre it in the display | medium, not executed | HWComposer.GeometryOverScanOffCentre | HWComposer.FitRectCentred |

=== FILE: display_command.dfy ===
/**
 * android.view.DisplayCommand: the client side of SurfaceFlinger's display
 * configuration call. Each command overwrites some fields of one shared parameter
 * block (ConfigParam), sets its operate code, and sends the whole block; the fields a
 * command does not set keep whatever an earlier command left there. Resolution
 * changes for display 0 instead rewrite the display config file and go to the window
 * manager.
 */
module DisplayCommand {
  import opened JavaLang
  import opened DisplayConfig

  const OPERATE_CODE_ENABLE: bv32 := 0x1000
  const OPERATE_CODE_DISABLE: bv32 := 0x2000
  const OPERATE_CODE_CHANGE: bv32 := 0x4000

  const OPERATE_CODE_CHANGE_RESOLUTION: bv32 := 0x1
  const OPERATE_CODE_CHANGE_OVERSCAN: bv32 := 0x2
  const OPERATE_CODE_CHANGE_MIRROR: bv32 := 0x4
  const OPERATE_CODE_CHANGE_COLORDEPTH: bv32 := 0x8
  const OPERATE_CODE_CHANGE_ROTATION: bv32 := 0x10

  /** What enable sends: ENABLE together with every change bit. */
  const OPERATE_CODE_ENABLE_ALL: bv32 :=
    OPERATE_CODE_ENABLE | OPERATE_CODE_CHANGE_RESOLUTION | OPERATE_CODE_CHANGE_OVERSCAN |
    OPERATE_CODE_CHANGE_MIRROR | OPERATE_CODE_CHANGE_COLORDEPTH | OPERATE_CODE_CHANGE_ROTATION

  /** IBinder.FIRST_CALL_TRANSACTION. */
  const FIRST_CALL_TRANSACTION: int := 1
  /** SurfaceFlinger's CONFIG_DISPLAY transaction. */
  const CONFIG_DISPLAY: int := FIRST_CALL_TRANSACTION + 100
  const SURFACE_COMPOSER_DESCRIPTOR: string := "android.ui.ISurfaceComposer"

  /** The contents of a ConfigParam. */
  datatype Param = Param(
    displayId: int,
    operateCode: bv32,
    rotation: int,
    overScan: int,
    mirror: int,
    colorDepth: int,
    mode: Option<string>)

  /** What `new ConfigParam()` holds. */
  const DEFAULT_PARAM: Param := Param(-1, 0, 0, 0, 0, 0, None)

  datatype ParcelItem = InterfaceToken(name: string) | IntItem(i: int) | StringItem(s: Option<string>)

  datatype Transaction = Transaction(code: int, data: seq<ParcelItem>)

  /**
   * The receiving side: a block read back in writeToParcel's order, displayId,
   * operateCode, rotation, overScan, mirror, colorDepth, mode.
   */
  function ReadParam(items: seq<ParcelItem>): Option<Param> {
    if |items| == 7 && items[0].IntItem? && items[1].IntItem? && items[2].IntItem? &&
       items[3].IntItem? && items[4].IntItem? && items[5].IntItem? && items[6].StringItem? &&
       0 <= items[1].i < 0x1_0000_0000
    then Some(Param(items[0].i, items[1].i as bv32, items[2].i, items[3].i, items[4].i,
                    items[5].i, items[6].s))
    else None
  }

  /** ConfigParam.writeToParcel: seven items that read back as the block itself. */
  function Parcel(p: Param): (out: seq<ParcelItem>)
    ensures |out| == 7
    ensures ReadParam(out) == Some(p)
  {
    [IntItem(p.displayId), IntItem(p.operateCode as int), IntItem(p.rotation),
     IntItem(p.overScan), IntItem(p.mirror), IntItem(p.colorDepth), StringItem(p.mode)]
  }

  /** The call transferParam makes. */
  function ConfigTransaction(p: Param): Transaction {
    Transaction(CONFIG_DISPLAY, [InterfaceToken(SURFACE_COMPOSER_DESCRIPTOR)] + Parcel(p))
  }

  /** The shared parameter block, updated field by field. */
  class ConfigParam {
    var displayId: int
    var operateCode: bv32
    var rotation: int
    var overScan: int
    var mirror: int
    var colorDepth: int
    var mode: Option<string>

    function Snapshot(): Param
      reads this
    {
      Param(displayId, operateCode, rotation, overScan, mirror, colorDepth, mode)
    }

    constructor ()
      ensures Snapshot() == DEFAULT_PARAM
    {
      displayId := -1;
      operateCode := 0;
      mode := None;
      rotation := 0;
      overScan := 0;
      mirror := 0;
      colorDepth := 0;
    }

    function WriteToParcel(): (out: seq<ParcelItem>)
      reads this
      ensures ReadParam(out) == Some(Snapshot())
    {
      Parcel(Snapshot())
    }
  }

  /** The commands that go through the parameter block. */
  datatype Cmd =
    | Enable(id: int, mode: Option<string>, rotation: int, overScan: int, mirror: int, colorDepth: int)
    | Disable(id: int)
    | Resolution(id: int, resolution: string)
    | OverScan(id: int, ratio: int)
    | Mirror(id: int, mirror: int)
    | ColorDepth(id: int, depth: int)
    | Rotation(id: int, rotation: int)

  /** The block a command leaves behind, given the block before it. */
  function Apply(p: Param, c: Cmd): Param {
    match c
    case Enable(id, m, r, o, mi, d) => Param(id, OPERATE_CODE_ENABLE_ALL, r, o, mi, d, m)
    case Disable(id) => p.(displayId := id, operateCode := OPERATE_CODE_DISABLE)
    case Resolution(id, m) =>
      p.(displayId := id, operateCode := OPERATE_CODE_CHANGE | OPERATE_CODE_CHANGE_RESOLUTION,
         mode := Some(m))
    case OverScan(id, v) =>
      p.(displayId := id, operateCode := OPERATE_CODE_CHANGE | OPERATE_CODE_CHANGE_OVERSCAN,
         overScan := v)
    case Mirror(id, v) =>
      p.(displayId := id, operateCode := OPERATE_CODE_CHANGE | OPERATE_CODE_CHANGE_MIRROR,
         mirror := v)
    case ColorDepth(id, v) =>
      p.(displayId := id, operateCode := OPERATE_CODE_CHANGE | OPERATE_CODE_CHANGE_COLORDEPTH,
         colorDepth := v)
    case Rotation(id, v) =>
      p.(displayId := id, operateCode := OPERATE_CODE_CHANGE | OPERATE_CODE_CHANGE_ROTATION,
         rotation := v)
  }

  /**
   * The operate code tells the receiver what to look at: every command names its
   * display, sets exactly one of ENABLE, DISABLE and CHANGE, and any parameter field
   * that differs from the previous block has its change bit set. Disable changes no
   * parameter field; enable sets them all.
   */
  lemma OperateCodeCoversChanges(p: Param, c: Cmd)
    ensures Apply(p, c).displayId == c.id
    ensures c.Enable? <==> Apply(p, c).operateCode & OPERATE_CODE_ENABLE != 0
    ensures c.Disable? <==> Apply(p, c).operateCode & OPERATE_CODE_DISABLE != 0
    ensures !c.Enable? && !c.Disable? <==> Apply(p, c).operateCode & OPERATE_CODE_CHANGE != 0
    ensures Apply(p, c).mode != p.mode ==>
      Apply(p, c).operateCode & OPERATE_CODE_CHANGE_RESOLUTION != 0
    ensures Apply(p, c).overScan != p.overScan ==>
      Apply(p, c).operateCode & OPERATE_CODE_CHANGE_OVERSCAN != 0
    ensures Apply(p, c).mirror != p.mirror ==>
      Apply(p, c).operateCode & OPERATE_CODE_CHANGE_MIRROR != 0
    ensures Apply(p, c).colorDepth != p.colorDepth ==>
      Apply(p, c).operateCode & OPERATE_CODE_CHANGE_COLORDEPTH != 0
    ensures Apply(p, c).rotation != p.rotation ==>
      Apply(p, c).operateCode & OPERATE_CODE_CHANGE_ROTATION != 0
    ensures c.Disable? ==> Apply(p, c) == p.(displayId := c.id, operateCode := OPERATE_CODE_DISABLE)
  {
  }

  /** enable's code is 0x101F. */
  lemma EnableCodeValue()
    ensures OPERATE_CODE_ENABLE_ALL == 0x101F
  {
  }

  datatype CommandError = MalformedMode(mode: string)

  /**
   * The colour depth setMainDisplay reads from the config file before rewriting it:
   * the number after "colordepth=" when both lines are long enough and the number
   * parses, 0 otherwise (every exception on the way is caught).
   */
  function StoredDepth(text: Option<string>): int {
    match text
    case None => 0
    case Some(t) =>
      var tokens := Tokens(t);
      if |tokens| < 2 || |tokens[0]| <= 5 || |tokens[1]| <= 11 then 0
      else match ParseInt(tokens[1][11..])
        case Some(d) => d
        case None => 0
  }

  /** A config file the manager wrote keeps its colour depth across setMainDisplay. */
  lemma StoredDepthOfConfigText(mode: Option<string>, depth: int)
    requires |ModeText(mode)| > 0 && '\n' !in ModeText(mode)
    requires IsInt32(depth)
    requires |ConfigText(mode, depth)| <= CONFIG_BUFFER_SIZE
    ensures StoredDepth(Some(ConfigText(mode, depth))) == depth
  {
    TokensOfConfigText(mode, depth);
    var t1 := Tokens(ConfigText(mode, depth))[1];
    assert t1[11..] == IntToString(depth);
    ParseIntOfIntToString(depth);
  }

  /**
   * The width and height setMainDisplay reads from a mode: width from just after the
   * last ':' to just before the last 'x', height from just after the last 'x' to just
   * before the last 'p' or 'i'. None stands for the exception a malformed mode raises.
   */
  function MainDisplaySize(mode: string): Option<(int, int)> {
    match WidthText(mode)
    case None => None
    case Some(wt) =>
      match ParseInt(wt)
      case None => None
      case Some(w) =>
        match HeightText(mode)
        case None => None
        case Some(ht) =>
          match ParseInt(ht)
          case None => None
          case Some(h) => Some((w, h))
  }

  /** The width text: from just after the last ':' to just before the last 'x'. */
  function WidthText(mode: string): Option<string> {
    Substring(mode, LastIndexOf(mode, ':') + 1, WidthEnd(mode) + 1)
  }

  /** The height text: from just after the last 'x' to just before the last 'p' or 'i'. */
  function HeightText(mode: string): Option<string> {
    Substring(mode, HeightStart(mode), HeightEnd(mode) + 1)
  }

  /**
   * A mode "<prefix><w>x<h><scan>-<rate>" gives its own width and height when its
   * prefix is empty or ends in its last ':' ("1920x1080p-60", "S:1920x1080p-60").
   */
  lemma MainDisplaySizeOfMode(prefix: string, w: nat, h: nat, scan: char, rate: nat)
    requires IsModePrefix(prefix) && IsScan(scan)
    requires LastIndexOf(prefix, ':') == |prefix| - 1
    requires w <= INT_MAX && h <= INT_MAX
    ensures MainDisplaySize(Mode(prefix, w, h, scan, rate)) == Some((w, h))
  {
    var m := Mode(prefix, w, h, scan, rate);
    ModeHasLayout(prefix, w, h, scan, rate);
    ModeColon(prefix, w, h, scan, rate);
    SizeTextsOfLayout(m, |prefix|, NatToString(w), NatToString(h));
    SizeOfTexts(m, w, h);
  }

  /** In a mode laid out as SizeLayout says, the two texts are the two numbers' digits. */
  lemma SizeTextsOfLayout(m: string, n: nat, dw: string, dh: string)
    requires SizeLayout(m, n, dw, dh) && LastIndexOf(m, ':') + 1 == n
    ensures WidthText(m) == Some(dw) && HeightText(m) == Some(dh)
  {
    WidthTextIs(m, n, dw);
    HeightTextIs(m, n + |dw|, dh);
  }

  lemma WidthTextIs(m: string, n: nat, t: string)
    requires LastIndexOf(m, ':') + 1 == n && LastIndexOf(m, 'x') == n + |t|
    requires m[n..n + |t|] == t
    ensures WidthText(m) == Some(t)
  {
    SubstringOfSlice(m, n, t);
  }

  lemma HeightTextIs(m: string, x: nat, t: string)
    requires LastIndexOf(m, 'x') == x && LastScanIndex(m) == x + 1 + |t|
    requires m[x + 1..x + 1 + |t|] == t
    ensures HeightText(m) == Some(t)
  {
    SubstringOfSlice(m, x + 1, t);
  }

  lemma SizeOfTexts(m: string, w: nat, h: nat)
    requires WidthText(m) == Some(NatToString(w)) && HeightText(m) == Some(NatToString(h))
    requires w <= INT_MAX && h <= INT_MAX
    ensures MainDisplaySize(m) == Some((w, h))
  {
    ParseNat(w);
    ParseNat(h);
  }

  /** A prefix with a digit before its ':' leaves the width text empty. */
  lemma MainDisplaySizeOfDigitBeforeColon()
    ensures MainDisplaySize("S1920:x1080p-60") == None
  {
    var m := "S1920:x1080p-60";
    assert m == "S1920" + [':'] + "x1080p-60";
    LastAt("S1920", ':', "x1080p-60");
    assert m == "S1920:" + ['x'] + "1080p-60";
    LastAt("S1920:", 'x', "1080p-60");
    assert WidthText(m) == Some("");
  }

  /** The scan and the two Integer.parseInt calls of setMainDisplay. */
  method ParseMainDisplaySize(mode: string) returns (size: Option<(int, int)>)
    ensures size == MainDisplaySize(mode)
  {
    var wt, ht := ModeTexts(mode);
    if wt.None? {
      return None;
    }
    var width := ParseInt(wt.value);
    if width.None? {
      return None;
    }
    if ht.None? {
      return None;
    }
    var height := ParseInt(ht.value);
    if height.None? {
      return None;
    }
    size := Some((width.value, height.value));
  }

  /** The two substrings setMainDisplay hands to Integer.parseInt. */
  method ModeTexts(mode: string) returns (wt: Option<string>, ht: Option<string>)
    ensures wt == WidthText(mode) && ht == HeightText(mode)
  {
    var ws, we, hs, he := ModeBounds(mode);
    wt := Substring(mode, ws, we + 1);
    ht := Substring(mode, hs, he + 1);
  }

  /** The index scan of setMainDisplay. */
  method ModeBounds(mode: string) returns (ws: int, we: int, hs: int, he: int)
    ensures ws == LastIndexOf(mode, ':') + 1
    ensures we == WidthEnd(mode) && hs == HeightStart(mode) && he == HeightEnd(mode)
  {
    ws, we, hs, he := 0, 0, 0, 0;
    var i := 0;
    while i < |mode|
      invariant 0 <= i <= |mode|
      invariant ws == LastIndexOf(mode[..i], ':') + 1
      invariant we == WidthEnd(mode[..i]) && hs == HeightStart(mode[..i])
      invariant he == HeightEnd(mode[..i])
    {
      LastIndexOfStep(mode, i, ':');
      LastIndexOfStep(mode, i, 'x');
      LastIndexOfStep(mode, i, 'p');
      LastIndexOfStep(mode, i, 'i');
      if mode[i] == ':' {
        ws := i + 1;
      }
      if mode[i] == 'x' {
        we := i - 1;
        hs := i + 1;
      }
      if mode[i] == 'p' || mode[i] == 'i' {
        he := i - 1;
      }
      i := i + 1;
    }
    assert mode[..i] == mode;
  }

  class Command {
    const cfg: ConfigParam
    const file: ConfigFile
    /** Whether ServiceManager had a SurfaceFlinger when the command object was made. */
    const hasSurfaceFlinger: bool
    /** Whether it had a window manager. */
    const hasWindowManager: bool
    /** The status SurfaceFlinger writes into its reply (an input of the model). */
    var flingerReply: int
    /** Every CONFIG_DISPLAY transaction sent, oldest first. */
    ghost var transactions: seq<Transaction>
    /** Every mode handed to IWindowManager.setDisplayMode, oldest first. */
    ghost var windowModes: seq<string>

    constructor (file: ConfigFile, hasSurfaceFlinger: bool, hasWindowManager: bool, flingerReply: int)
      ensures this.file == file && fresh(cfg) && cfg.Snapshot() == DEFAULT_PARAM
      ensures this.hasSurfaceFlinger == hasSurfaceFlinger && this.hasWindowManager == hasWindowManager
      ensures this.flingerReply == flingerReply
      ensures transactions == [] && windowModes == []
    {
      this.file := file;
      this.hasSurfaceFlinger := hasSurfaceFlinger;
      this.hasWindowManager := hasWindowManager;
      this.flingerReply := flingerReply;
      cfg := new ConfigParam();
      transactions := [];
      windowModes := [];
    }

    /**
     * The outcome of a command issued on the block `before`: without SurfaceFlinger,
     * -1 and nothing touched; otherwise the block the command leaves, sent as one
     * more transaction, and SurfaceFlinger's reply returned.
     */
    ghost predicate Issued(before: Param, sentBefore: seq<Transaction>, c: Cmd, ret: int)
      reads this, cfg
    {
      if hasSurfaceFlinger then
        cfg.Snapshot() == Apply(before, c) &&
        transactions == sentBefore + [ConfigTransaction(Apply(before, c))] &&
        ret == flingerReply
      else
        cfg.Snapshot() == before && transactions == sentBefore && ret == -1
    }

    method TransferParam() returns (ret: int)
      requires hasSurfaceFlinger
      modifies this
      ensures transactions == old(transactions) + [ConfigTransaction(cfg.Snapshot())]
      ensures ret == flingerReply && flingerReply == old(flingerReply)
      ensures windowModes == old(windowModes)
    {
      transactions := transactions + [Transaction(CONFIG_DISPLAY,
        [InterfaceToken(SURFACE_COMPOSER_DESCRIPTOR)] + cfg.WriteToParcel())];
      ret := flingerReply;
    }

    method Enable(displayId: int, mode: Option<string>, rotation: int, overScan: int, mirror: int, colorDepth: int)
      returns (ret: int)
      modifies this, cfg
      ensures Issued(old(cfg.Snapshot()), old(transactions),
        Cmd.Enable(displayId, mode, rotation, overScan, mirror, colorDepth), ret)
      ensures windowModes == old(windowModes) && flingerReply == old(flingerReply)
    {
      if !hasSurfaceFlinger {
        return -1;
      }
      cfg.displayId := displayId;
      cfg.operateCode := OPERATE_CODE_ENABLE_ALL;
      cfg.mode := mode;
      cfg.rotation := rotation;
      cfg.overScan := overScan;
      cfg.mirror := mirror;
      cfg.colorDepth := colorDepth;
      ret := TransferParam();
    }

    method Disable(displayId: int) returns (ret: int)
      modifies this, cfg
      ensures Issued(old(cfg.Snapshot()), old(transactions), Cmd.Disable(displayId), ret)
      ensures windowModes == old(windowModes) && flingerReply == old(flingerReply)
    {
      if !hasSurfaceFlinger {
        return -1;
      }
      cfg.displayId := displayId;
      cfg.operateCode := OPERATE_CODE_DISABLE;
      ret := TransferParam();
    }

    /**
     * Display 0 goes to setMainDisplay and leaves the block alone; any other display
     * gets a resolution change through the block.
     */
    method SetResolution(displayId: int, mode: string) returns (r: Result<int, CommandError>)
      modifies this, cfg, file
      ensures !hasSurfaceFlinger ==>
        r == Ok(-1) && file.text == old(file.text) && windowModes == old(windowModes)
      ensures !hasSurfaceFlinger || displayId != 0 ==>
        r.Ok? && Issued(old(cfg.Snapshot()), old(transactions), Cmd.Resolution(displayId, mode), r.value)
      ensures hasSurfaceFlinger && displayId != 0 ==>
        file.text == old(file.text) && windowModes == old(windowModes)
      ensures hasSurfaceFlinger && displayId == 0 ==>
        cfg.Snapshot() == old(cfg.Snapshot()) && transactions == old(transactions) &&
        MainDisplaySet(old(file.text), old(windowModes), mode, r)
      ensures flingerReply == old(flingerReply)
    {
      if !hasSurfaceFlinger {
        return Ok(-1);
      }
      if displayId == 0 {
        r := SetMainDisplay(mode);
        return;
      }
      cfg.displayId := displayId;
      cfg.operateCode := OPERATE_CODE_CHANGE | OPERATE_CODE_CHANGE_RESOLUTION;
      cfg.mode := Some(mode);
      var ret := TransferParam();
      r := Ok(ret);
    }

    /**
     * The outcome of setMainDisplay(mode) on a config file that held `textBefore`:
     * without a window manager, -1 and nothing touched. Otherwise the file is
     * rewritten with the mode and the colour depth it held, the mode is parsed (a
     * malformed one ends in an exception), and the window manager is told only when
     * width and height are both non-negative.
     */
    ghost predicate MainDisplaySet(textBefore: Option<string>, modesBefore: seq<string>, mode: string,
                                   r: Result<int, CommandError>)
      reads this, file
    {
      if !hasWindowManager then
        r == Ok(-1) && file.text == textBefore && windowModes == modesBefore
      else
        file.text == Some(ConfigText(Some(mode), StoredDepth(textBefore))) &&
        match MainDisplaySize(mode)
        case None => r == Err(MalformedMode(mode)) && windowModes == modesBefore
        case Some(size) =>
          r == Ok(0) &&
          windowModes == modesBefore + (if size.0 >= 0 && size.1 >= 0 then [mode] else [])
    }

    method SetMainDisplay(mode: string) returns (r: Result<int, CommandError>)
      modifies this, file
      ensures MainDisplaySet(old(file.text), old(windowModes), mode, r)
      ensures transactions == old(transactions) && flingerReply == old(flingerReply)
    {
      if !hasWindowManager {
        return Ok(-1);
      }
      var colordepth := StoredDepth(file.text);
      file.text := Some(ConfigText(Some(mode), colordepth));
      var size := ParseMainDisplaySize(mode);
      if size.None? {
        return Err(MalformedMode(mode));
      }
      if size.value.0 >= 0 && size.value.1 >= 0 {
        windowModes := windowModes + [mode];
      }
      r := Ok(0);
    }

    method SetOverScan(displayId: int, ratio: int) returns (ret: int)
      modifies this, cfg
      ensures Issued(old(cfg.Snapshot()), old(transactions), Cmd.OverScan(displayId, ratio), ret)
      ensures windowModes == old(windowModes) && flingerReply == old(flingerReply)
    {
      if !hasSurfaceFlinger {
        return -1;
      }
      cfg.displayId := displayId;
      cfg.operateCode := OPERATE_CODE_CHANGE | OPERATE_CODE_CHANGE_OVERSCAN;
      cfg.overScan := ratio;
      ret := TransferParam();
    }

    method SetMirror(displayId: int, mirror: int) returns (ret: int)
      modifies this, cfg
      ensures Issued(old(cfg.Snapshot()), old(transactions), Cmd.Mirror(displayId, mirror), ret)
      ensures windowModes == old(windowModes) && flingerReply == old(flingerReply)
    {
      if !hasSurfaceFlinger {
        return -1;
      }
      cfg.displayId := displayId;
      cfg.operateCode := OPERATE_CODE_CHANGE | OPERATE_CODE_CHANGE_MIRROR;
      cfg.mirror := mirror;
      ret := TransferParam();
    }

    method SetColorDepth(displayId: int, depth: int) returns (ret: int)
      modifies this, cfg
      ensures Issued(old(cfg.Snapshot()), old(transactions), Cmd.ColorDepth(displayId, depth), ret)
      ensures windowModes == old(windowModes) && flingerReply == old(flingerReply)
    {
      if !hasSurfaceFlinger {
        return -1;
      }
      cfg.displayId := displayId;
      cfg.operateCode := OPERATE_CODE_CHANGE | OPERATE_CODE_CHANGE_COLORDEPTH;
      cfg.colorDepth := depth;
      ret := TransferParam();
    }

    method SetRotation(displayId: int, rotation: int) returns (ret: int)
      modifies this, cfg
      ensures Issued(old(cfg.Snapshot()), old(transactions), Cmd.Rotation(displayId, rotation), ret)
      ensures windowModes == old(windowModes) && flingerReply == old(flingerReply)
    {
      if !hasSurfaceFlinger {
        return -1;
      }
      cfg.displayId := displayId;
      cfg.operateCode := OPERATE_CODE_CHANGE | OPERATE_CODE_CHANGE_ROTATION;
      cfg.rotation := rotation;
      ret := TransferParam();
    }
  }
}

=== FILE: display_config.dfy ===
/**
 * Display mode strings and the text of /data/misc/display.conf.
 *
 * A mode string is what the display daemon lists for a framebuffer, in the kernel's
 * fb mode syntax "<kind>:<width>x<height><p|i>-<refresh>" ("S:1920x1080p-60").
 * DisplayManagerService and DisplayCommand both cut it up by the LAST 'x', the LAST
 * 'p' or 'i' and the LAST '-' in it. The file holds display 0's default mode and
 * colour depth. DisplayManagerService keeps display 0's default
 * mode and colour depth there, and DisplayCommand.setMainDisplay reads the colour depth
 * back and rewrites the file; both read it the same way, into a 1024-char buffer that
 * is then split on newlines.
 */
module DisplayConfig {
  import opened JavaLang

  /** The size of the char buffer both readers fill from the file. */
  const CONFIG_BUFFER_SIZE: nat := 1024

  /** The file itself; `text` is None while it does not exist. */
  class ConfigFile {
    var text: Option<string>

    constructor (text: Option<string>)
      ensures this.text == text
    {
      this.text := text;
    }
  }

  /** How "%s" prints a String that may be null. */
  function ModeText(mode: Option<string>): (t: string)
    ensures mode.Some? ==> t == mode.value
    ensures mode.None? ==> t == "null"
  {
    if mode.Some? then mode.value else "null"
  }

  /** String.format("mode=%s\ncolordepth=%d\n", mode, depth). */
  function ConfigText(mode: Option<string>, depth: int): string {
    "mode=" + ModeText(mode) + "\ncolordepth=" + IntToString(depth) + "\n"
  }

  function Nuls(n: nat): (s: string)
    ensures |s| == n
    ensures forall i | 0 <= i < n :: s[i] == '\0'
  {
    seq(n, _ => '\0')
  }

  /**
   * new String(buffer) after read(buffer, 0, 1024) on a fresh buffer: the first 1024
   * chars of the file, padded with the NUL chars the buffer was created with.
   */
  function Buffer(text: string): (b: string)
    ensures |b| == CONFIG_BUFFER_SIZE
    ensures forall i | 0 <= i < |b| :: b[i] == if i < |text| then text[i] else '\0'
  {
    var k := if |text| < CONFIG_BUFFER_SIZE then |text| else CONFIG_BUFFER_SIZE;
    text[..k] + Nuls(CONFIG_BUFFER_SIZE - k)
  }

  /** config.split("\n") on that buffer. */
  function Tokens(text: string): seq<string> {
    Split(Buffer(text), '\n')
  }

  lemma NoNewlineInNumber(x: int)
    ensures '\n' !in IntToString(x)
  {
    var s := IntToString(x);
    if x < 0 {
      assert s == "-" + NatToString(-x);
      assert forall i | 1 <= i < |s| :: IsDigit(s[i]) by {
        forall i | 1 <= i < |s| ensures IsDigit(s[i]) {
          assert s[i] == NatToString(-x)[i - 1];
        }
      }
    }
  }

  /** A text that fits the buffer is read whole, followed by NUL padding. */
  lemma BufferOfShort(text: string)
    requires |text| <= CONFIG_BUFFER_SIZE
    ensures Buffer(text) == text + Nuls(CONFIG_BUFFER_SIZE - |text|)
  {
    assert text[..|text|] == text;
  }

  lemma {:induction false} SplitThreePieces(a: string, b: string, pad: string)
    requires '\n' !in a && '\n' !in b && '\n' !in pad
    requires b != ""
    ensures |Split(a + ['\n'] + (b + ['\n'] + pad), '\n')| >= 2
    ensures Split(a + ['\n'] + (b + ['\n'] + pad), '\n')[0] == a
    ensures Split(a + ['\n'] + (b + ['\n'] + pad), '\n')[1] == b
  {
    var buf := a + ['\n'] + (b + ['\n'] + pad);
    SplitAllPrefix(a, b + ['\n'] + pad, '\n');
    SplitAllPrefix(b, pad, '\n');
    SplitAllNoSep(pad, '\n');
    var all := SplitAll(buf, '\n');
    assert all == [a, b, pad];
    assert buf[|a|] == '\n';
    var r := DropTrailingEmpty(all);
    assert Split(buf, '\n') == r;
    assert all[1] != "";
    assert |r| >= 2;
    assert r[0] == all[0] && r[1] == all[1];
  }

  /**
   * What the writer puts in the file comes back as the first two tokens, "mode=<m>"
   * and "colordepth=<d>", as long as the mode has no newline and the text fits the
   * buffer (the NUL padding, if any, is a third token).
   */
  lemma TokensOfConfigText(mode: Option<string>, depth: int)
    requires '\n' !in ModeText(mode)
    requires |ConfigText(mode, depth)| <= CONFIG_BUFFER_SIZE
    ensures |Tokens(ConfigText(mode, depth))| >= 2
    ensures Tokens(ConfigText(mode, depth))[0] == "mode=" + ModeText(mode)
    ensures Tokens(ConfigText(mode, depth))[1] == "colordepth=" + IntToString(depth)
  {
    var a := "mode=" + ModeText(mode);
    var b := "colordepth=" + IntToString(depth);
    ConfigTextPieces(mode, depth);
    assert '\n' !in a;
    assert '\n' !in b by {
      NoNewlineInNumber(depth);
    }
    TokensOfLines(a, b);
  }

  /** Two lines without a newline of their own, read back through the buffer. */
  lemma TokensOfLines(a: string, b: string)
    requires '\n' !in a && '\n' !in b && b != ""
    requires |a| + |b| + 2 <= CONFIG_BUFFER_SIZE
    ensures var t := Tokens(a + ['\n'] + b + ['\n']); |t| >= 2 && t[0] == a && t[1] == b
  {
    var text := a + ['\n'] + b + ['\n'];
    var pad := Nuls(CONFIG_BUFFER_SIZE - |text|);
    BufferOfShort(text);
    assert text + pad == a + ['\n'] + (b + ['\n'] + pad);
    SplitThreePieces(a, b, pad);
  }

  /** The two lines of the config text. */
  lemma ConfigTextPieces(mode: Option<string>, depth: int)
    ensures ConfigText(mode, depth)
      == ("mode=" + ModeText(mode)) + ['\n'] + ("colordepth=" + IntToString(depth)) + ['\n']
  {
  }

  // ---------------------------------------------------------------------------
  // Mode strings

  /** The index of the last 'p' or 'i' (progressive or interlaced), or -1. */
  function LastScanIndex(mode: string): (k: int)
    ensures -1 <= k < |mode|
    ensures k >= 0 ==> mode[k] == 'p' || mode[k] == 'i'
    ensures forall j | k < j < |mode| :: mode[j] != 'p' && mode[j] != 'i'
  {
    var p := LastIndexOf(mode, 'p');
    var i := LastIndexOf(mode, 'i');
    if p < i then i else p
  }

  /** width_endIndex after the scan: just before the last 'x', or 0 without one. */
  function WidthEnd(mode: string): int {
    if LastIndexOf(mode, 'x') >= 0 then LastIndexOf(mode, 'x') - 1 else 0
  }

  /** height_startIndex after the scan: just after the last 'x', or 0 without one. */
  function HeightStart(mode: string): int {
    LastIndexOf(mode, 'x') + 1
  }

  /** height_endIndex after the scan: just before the last 'p' or 'i', or 0 without one. */
  function HeightEnd(mode: string): int {
    if LastScanIndex(mode) >= 0 then LastScanIndex(mode) - 1 else 0
  }

  /** The substring of a slice that holds t is t. */
  lemma SubstringOfSlice(m: string, b: nat, t: string)
    requires b + |t| <= |m| && m[b..b + |t|] == t
    ensures Substring(m, b, b + |t|) == Some(t)
  {
  }

  /** One more character scanned: the last c is either that character or an earlier one. */
  lemma LastIndexOfStep(s: string, i: nat, c: char)
    requires i < |s|
    ensures LastIndexOf(s[..i + 1], c) == if s[i] == c then i else LastIndexOf(s[..i], c)
  {
    assert s[..i + 1][..i] == s[..i];
  }

  lemma ParseNat(n: nat)
    requires n <= INT_MAX
    ensures ParseInt(NatToString(n)) == Some(n)
  {
    ParseIntOfIntToString(n);
  }

  /** The index of the first ASCII digit, or -1. */
  function FirstDigit(s: string): (k: int)
    ensures -1 <= k < |s|
    ensures k >= 0 ==> IsDigit(s[k])
    ensures forall j | 0 <= j < |s| && (k < 0 || j < k) :: !IsDigit(s[j])
  {
    if |s| == 0 then -1
    else if IsDigit(s[0]) then 0
    else
      var k := FirstDigit(s[1..]);
      assert forall j | 1 <= j < |s| :: s[j] == s[1..][j - 1];
      if k < 0 then -1 else k + 1
  }

  /** A character a mode's prefix may hold: none of those the parsers look for, ':' aside. */
  predicate IsPrefixChar(c: char) {
    !IsDigit(c) && c != 'x' && c != 'p' && c != 'i' && c != '-'
  }

  predicate IsModePrefix(prefix: string) {
    forall i | 0 <= i < |prefix| :: IsPrefixChar(prefix[i])
  }

  /** 'p' for progressive, 'i' for interlaced. */
  predicate IsScan(c: char) {
    c == 'p' || c == 'i'
  }

  /**
   * The mode string "<prefix><w>x<h><scan>-<rate>": "1920x1080p-60" with an empty
   * prefix, "S:1920x1080p-60" in the framebuffer driver's syntax.
   */
  function Mode(prefix: string, w: nat, h: nat, scan: char, rate: nat): string {
    prefix + NatToString(w) + "x" + NatToString(h) + [scan] + "-" + NatToString(rate)
  }

  /** Text without c appended after the last c leaves it the last one. */
  lemma {:induction false} LastOfAppend(p: string, q: string, c: char)
    requires c !in q
    ensures LastIndexOf(p + q, c) == LastIndexOf(p, c)
  {
    if |q| > 0 {
      var s := p + q;
      assert s[..|s| - 1] == p + q[..|q| - 1];
      LastOfAppend(p, q[..|q| - 1], c);
    } else {
      assert p + q == p;
    }
  }

  /** The last c is the one followed by no other. */
  lemma LastAt(p: string, c: char, q: string)
    requires c !in q
    ensures LastIndexOf(p + [c] + q, c) == |p|
  {
    LastOfAppend(p + [c], q, c);
  }

  lemma NoCharOfNumber(n: nat, c: char)
    requires !IsDigit(c)
    ensures c !in NatToString(n)
  {
  }

  lemma NoCharOfPrefix(prefix: string, c: char)
    requires IsModePrefix(prefix) && !IsPrefixChar(c)
    ensures c !in prefix
  {
  }

  /** The prefix's last ':' is the mode's last ':'. */
  lemma ModeColon(prefix: string, w: nat, h: nat, scan: char, rate: nat)
    requires IsScan(scan)
    ensures LastIndexOf(Mode(prefix, w, h, scan, rate), ':') == LastIndexOf(prefix, ':')
  {
    var dw, dh, dr := NatToString(w), NatToString(h), NatToString(rate);
    NoCharOfNumber(w, ':'); NoCharOfNumber(h, ':'); NoCharOfNumber(rate, ':');
    var rest := dw + "x" + dh + [scan] + "-" + dr;
    assert ':' !in rest;
    assert Mode(prefix, w, h, scan, rate) == prefix + rest;
    LastOfAppend(prefix, rest, ':');
  }

  lemma ModeX(prefix: string, w: nat, h: nat, scan: char, rate: nat)
    requires IsScan(scan)
    ensures LastIndexOf(Mode(prefix, w, h, scan, rate), 'x') == |prefix| + |NatToString(w)|
  {
    var dw, dh, dr := NatToString(w), NatToString(h), NatToString(rate);
    NoCharOfNumber(h, 'x'); NoCharOfNumber(rate, 'x');
    var rest := dh + [scan] + "-" + dr;
    assert 'x' !in rest;
    assert Mode(prefix, w, h, scan, rate) == prefix + dw + ['x'] + rest;
    LastAt(prefix + dw, 'x', rest);
  }

  lemma ModeScan(prefix: string, w: nat, h: nat, scan: char, rate: nat)
    requires IsModePrefix(prefix) && IsScan(scan)
    ensures LastScanIndex(Mode(prefix, w, h, scan, rate))
      == |prefix| + |NatToString(w)| + 1 + |NatToString(h)|
  {
    var m := Mode(prefix, w, h, scan, rate);
    var dw, dh, dr := NatToString(w), NatToString(h), NatToString(rate);
    var other := if scan == 'p' then 'i' else 'p';
    NoCharOfNumber(w, other); NoCharOfNumber(h, other); NoCharOfNumber(rate, other);
    NoCharOfNumber(rate, scan);
    NoCharOfPrefix(prefix, other);
    assert m == prefix + dw + "x" + dh + [scan] + ("-" + dr);
    LastAt(prefix + dw + "x" + dh, scan, "-" + dr);
    assert other !in m;
  }

  lemma ModeDash(prefix: string, w: nat, h: nat, scan: char, rate: nat)
    ensures LastIndexOf(Mode(prefix, w, h, scan, rate), '-')
      == |prefix| + |NatToString(w)| + |NatToString(h)| + 2
  {
    var dw, dh, dr := NatToString(w), NatToString(h), NatToString(rate);
    NoCharOfNumber(rate, '-');
    assert Mode(prefix, w, h, scan, rate) == prefix + dw + "x" + dh + [scan] + ['-'] + dr;
    LastAt(prefix + dw + "x" + dh + [scan], '-', dr);
  }

  lemma ModeFirstDigit(prefix: string, w: nat, h: nat, scan: char, rate: nat)
    requires IsModePrefix(prefix)
    ensures FirstDigit(Mode(prefix, w, h, scan, rate)) == |prefix|
  {
    var m := Mode(prefix, w, h, scan, rate);
    var dw := NatToString(w);
    assert m == prefix + (dw + "x" + NatToString(h) + [scan] + "-" + NatToString(rate));
    assert m[|prefix|] == dw[0];
    assert forall j | 0 <= j < |prefix| :: m[j] == prefix[j];
  }

  lemma Middle(p: string, q: string, r: string)
    ensures (p + q + r)[|p|..|p| + |q|] == q
    ensures (p + q + r)[|p| + |q|..] == r
  {
  }

  lemma ModeWidthText(prefix: string, w: nat, h: nat, scan: char, rate: nat)
    ensures var n := |prefix|;
      Mode(prefix, w, h, scan, rate)[n..n + |NatToString(w)|] == NatToString(w)
  {
    var dw, dh, dr := NatToString(w), NatToString(h), NatToString(rate);
    var tail := "x" + dh + [scan] + "-" + dr;
    assert Mode(prefix, w, h, scan, rate) == prefix + dw + tail;
    Middle(prefix, dw, tail);
  }

  lemma ModeHeightText(prefix: string, w: nat, h: nat, scan: char, rate: nat)
    ensures var n := |prefix| + |NatToString(w)| + 1;
      Mode(prefix, w, h, scan, rate)[n..n + |NatToString(h)|] == NatToString(h)
  {
    var dw, dh, dr := NatToString(w), NatToString(h), NatToString(rate);
    Regroup(prefix, dw, "x", dh, [scan], "-", dr);
    Middle(prefix + dw + "x", dh, [scan] + "-" + dr);
  }

  /** Seven pieces joined in a row, grouped as three, one and three. */
  lemma Regroup(a: string, b: string, c: string, d: string, e: string, f: string, g: string)
    ensures a + b + c + d + e + f + g == (a + b + c) + d + (e + f + g)
  {
    assert e + f + g == e + (f + g);
  }

  lemma ModeRateText(prefix: string, w: nat, h: nat, scan: char, rate: nat)
    ensures var n := |prefix| + |NatToString(w)| + |NatToString(h)| + 3;
      Mode(prefix, w, h, scan, rate)[n..] == NatToString(rate)
  {
    var dw, dh, dr := NatToString(w), NatToString(h), NatToString(rate);
    var front := prefix + dw + "x" + dh + [scan] + "-";
    assert Mode(prefix, w, h, scan, rate) == front + dr + "";
    Middle(front, dr, "");
  }

  /**
   * Where the width digits dw and the height digits dh of a mode string lie when the
   * numbers start at n: dw, then the last 'x', then dh, then the last 'p' or 'i'.
   */
  predicate SizeLayout(m: string, n: nat, dw: string, dh: string) {
    LastIndexOf(m, 'x') == n + |dw| && LastScanIndex(m) == n + |dw| + 1 + |dh| &&
    m[n..n + |dw|] == dw && m[n + |dw| + 1..n + |dw| + 1 + |dh|] == dh
  }

  /**
   * Where a mode string whose numbers start at n has its separators, and what lies
   * between them.
   */
  predicate ModeLayout(m: string, n: nat, w: nat, h: nat, rate: nat) {
    var a := |NatToString(w)|;
    var b := |NatToString(h)|;
    FirstDigit(m) == n && SizeLayout(m, n, NatToString(w), NatToString(h)) &&
    LastIndexOf(m, '-') == n + a + b + 2 &&
    |m| == n + a + b + 3 + |NatToString(rate)| && m[n + a + b + 3..] == NatToString(rate)
  }

  /** Every mode written as Mode(prefix, ...) has the layout of its own numbers. */
  lemma ModeHasLayout(prefix: string, w: nat, h: nat, scan: char, rate: nat)
    requires IsModePrefix(prefix) && IsScan(scan)
    ensures ModeLayout(Mode(prefix, w, h, scan, rate), |prefix|, w, h, rate)
  {
    ModeFirstDigit(prefix, w, h, scan, rate);
    ModeX(prefix, w, h, scan, rate);
    ModeScan(prefix, w, h, scan, rate);
    ModeDash(prefix, w, h, scan, rate);
    ModeWidthText(prefix, w, h, scan, rate);
    ModeHeightText(prefix, w, h, scan, rate);
    ModeRateText(prefix, w, h, scan, rate);
  }
}

=== FILE: display_handler.dfy ===
/**
 * The display manager's DisplayHandler: it debounces connection-state updates on its
 * looper and keeps the "display plugged" notification in step with the state.
 */
module DisplayHandlers {
  import opened JavaLang

  const MSG_UPDATE_STATE: int := 0
  const MSG_SYSTEM_READY: int := 1
  const MSG_BOOT_COMPLETED: int := 2

  /** The delay, in milliseconds, of an update that reports a disconnection. */
  const UPDATE_DELAY: int := 1000

  /** A message on the handler's looper; delay is the one it was sent with. */
  datatype HandlerMsg = HandlerMsg(what: int, arg1: int, arg2: int, delay: int)

  /** What the notification manager was asked to do. */
  datatype NotificationOp = Cancel(id: int) | Notify(id: int)

  /** The (connected, configured) flags updateState reports for a state name, if known. */
  function StateFlags(state: string): Option<(int, int)> {
    if state == "DISCONNECTED" then Some((0, 0))
    else if state == "CONNECTED" then Some((1, 0))
    else if state == "CONFIGURED" then Some((1, 1))
    else None
  }

  /** removeMessages(what): the queue without the messages of that kind, in order. */
  function RemoveWhat(q: seq<HandlerMsg>, what: int): (r: seq<HandlerMsg>)
    ensures forall m | m in r :: m in q && m.what != what
    ensures forall m | m in q && m.what != what :: m in r
  {
    if |q| == 0 then []
    else if q[|q| - 1].what == what then RemoveWhat(q[..|q| - 1], what)
    else RemoveWhat(q[..|q| - 1], what) + [q[|q| - 1]]
  }

  /** The number of pending messages of one kind. */
  function CountWhat(q: seq<HandlerMsg>, what: int): nat {
    if |q| == 0 then 0
    else CountWhat(q[..|q| - 1], what) + if q[|q| - 1].what == what then 1 else 0
  }

  lemma {:induction false} CountWhatAppend(q: seq<HandlerMsg>, m: HandlerMsg, what: int)
    ensures CountWhat(q + [m], what) == CountWhat(q, what) + if m.what == what then 1 else 0
  {
    assert (q + [m])[..|q|] == q;
  }

  lemma {:induction false} CountWhatRemoved(q: seq<HandlerMsg>, what: int)
    ensures CountWhat(RemoveWhat(q, what), what) == 0
  {
    if |q| > 0 {
      CountWhatRemoved(q[..|q| - 1], what);
      if q[|q| - 1].what != what {
        CountWhatAppend(RemoveWhat(q[..|q| - 1], what), q[|q| - 1], what);
      }
    }
  }

  /** Removing one message of a kind leaves one fewer of that kind. */
  lemma {:induction false} CountWhatDelete(q: seq<HandlerMsg>, k: nat, what: int)
    requires k < |q|
    ensures CountWhat(q[..k] + q[k + 1..], what) ==
      CountWhat(q, what) - if q[k].what == what then 1 else 0
  {
    if k == |q| - 1 {
      assert q[..k] + q[k + 1..] == q[..|q| - 1];
    } else {
      var p := q[..|q| - 1];
      CountWhatDelete(p, k, what);
      assert q[..k] + q[k + 1..] == (p[..k] + p[k + 1..]) + [q[|q| - 1]];
      CountWhatAppend(p[..k] + p[k + 1..], q[|q| - 1], what);
      assert p[k] == q[k];
    }
  }

  /** The queue after updateState(state). */
  function UpdateQueue(q: seq<HandlerMsg>, state: string): seq<HandlerMsg> {
    match StateFlags(state)
    case None => q
    case Some((c, f)) =>
      RemoveWhat(q, MSG_UPDATE_STATE) + [HandlerMsg(MSG_UPDATE_STATE, c, f, if c == 0 then UPDATE_DELAY else 0)]
  }

  /**
   * After updateState of a known state exactly one update is pending, the one just
   * sent; it is delayed exactly when it reports a disconnection.
   */
  lemma UpdateQueueOne(q: seq<HandlerMsg>, state: string)
    requires StateFlags(state).Some?
    ensures var r := UpdateQueue(q, state);
      CountWhat(r, MSG_UPDATE_STATE) == 1 &&
      r[|r| - 1] == HandlerMsg(MSG_UPDATE_STATE, StateFlags(state).value.0, StateFlags(state).value.1,
        if state == "DISCONNECTED" then UPDATE_DELAY else 0)
  {
    var (c, f) := StateFlags(state).value;
    var m := HandlerMsg(MSG_UPDATE_STATE, c, f, if c == 0 then UPDATE_DELAY else 0);
    CountWhatRemoved(q, MSG_UPDATE_STATE);
    CountWhatAppend(RemoveWhat(q, MSG_UPDATE_STATE), m, MSG_UPDATE_STATE);
  }

  /** An unknown state name leaves the queue as it was. */
  lemma UpdateQueueUnknown(q: seq<HandlerMsg>, state: string)
    requires state != "DISCONNECTED" && state != "CONNECTED" && state != "CONFIGURED"
    ensures UpdateQueue(q, state) == q
  {
  }

  /** Messages of other kinds survive updateState. */
  lemma UpdateQueueKeepsOthers(q: seq<HandlerMsg>, state: string, m: HandlerMsg)
    requires m in q && m.what != MSG_UPDATE_STATE
    ensures m in UpdateQueue(q, state)
  {
  }

  /**
   * The debounce: a disconnection reported less than UPDATE_DELAY before a
   * reconnection is never delivered; only the reconnection, undelayed, is pending.
   */
  lemma DisconnectThenConnectDebounced(q: seq<HandlerMsg>)
    ensures var r := UpdateQueue(UpdateQueue(q, "DISCONNECTED"), "CONNECTED");
      CountWhat(r, MSG_UPDATE_STATE) == 1 &&
      forall m | m in r && m.what == MSG_UPDATE_STATE :: m == HandlerMsg(MSG_UPDATE_STATE, 1, 0, 0)
  {
    var q1 := UpdateQueue(q, "DISCONNECTED");
    UpdateQueueOne(q1, "CONNECTED");
    var m := HandlerMsg(MSG_UPDATE_STATE, 1, 0, 0);
    assert UpdateQueue(q1, "CONNECTED") == RemoveWhat(q1, MSG_UPDATE_STATE) + [m];
  }

  /** The notification id updateDisplayNotification leaves when a manager is present. */
  function ShownId(connected: bool, titleId: int): int {
    if connected then titleId else 0
  }

  /** The id the notification manager shows after a sequence of requests. */
  function Shown(ops: seq<NotificationOp>): int {
    if |ops| == 0 then 0
    else match ops[|ops| - 1]
      case Cancel(_) => 0
      case Notify(id) => id
  }

  /**
   * The requests updateDisplayNotification makes to move the shown id from current to
   * target: a cancel of the old one, then a notify of the new one, each only if non-zero.
   */
  function NotificationOps(current: int, target: int): (ops: seq<NotificationOp>)
    ensures current == target ==> ops == []
    ensures current != target ==> |ops| > 0 && Shown(ops) == target
  {
    if target == current then []
    else (if current != 0 then [Cancel(current)] else []) + (if target != 0 then [Notify(target)] else [])
  }

  /** After the requests the manager shows the target, whatever it showed before. */
  lemma ShownAfterOps(log: seq<NotificationOp>, current: int, target: int)
    requires Shown(log) == current
    ensures Shown(log + NotificationOps(current, target)) == target
  {
    var ops := NotificationOps(current, target);
    if ops != [] {
      assert (log + ops)[|log + ops| - 1] == ops[|ops| - 1];
    } else {
      assert log + ops == log;
    }
  }

  class DisplayHandler {
    /** The resource id of the "display plugged" notification title, never 0. */
    const titleId: int
    var connected: bool
    var configured: bool
    var notificationId: int
    /** Whether systemReady has fetched the notification manager. */
    var hasNotificationManager: bool
    var bootCompleted: bool
    /** The messages pending on the handler's looper. */
    var queue: seq<HandlerMsg>
    /** Every request made to the notification manager, in order. */
    ghost var notifications: seq<NotificationOp>

    /**
     * At most one update is pending, the id the manager shows is the one the handler
     * holds, and with a manager it matches the connection state unless a SYSTEM_READY
     * or an update is still pending.
     */
    ghost predicate Valid()
      reads this
    {
      titleId != 0 &&
      CountWhat(queue, MSG_UPDATE_STATE) <= 1 &&
      Shown(notifications) == notificationId &&
      (notificationId == 0 || notificationId == titleId) &&
      (hasNotificationManager ==>
        notificationId == ShownId(connected, titleId) ||
        CountWhat(queue, MSG_SYSTEM_READY) > 0 || CountWhat(queue, MSG_UPDATE_STATE) > 0)
    }

    constructor(titleId: int)
      requires titleId != 0
      ensures Valid()
      ensures this.titleId == titleId && !connected && !configured && notificationId == 0
      ensures !hasNotificationManager && !bootCompleted && queue == [] && notifications == []
    {
      this.titleId := titleId;
      connected, configured, notificationId := false, false, 0;
      hasNotificationManager, bootCompleted := false, false;
      queue, notifications := [], [];
    }

    /** updateState: replace any pending update by one for this state. */
    method UpdateState(state: string)
      requires Valid()
      modifies this
      ensures Valid()
      ensures queue == UpdateQueue(old(queue), state)
      ensures connected == old(connected) && configured == old(configured)
      ensures notificationId == old(notificationId) && notifications == old(notifications)
      ensures hasNotificationManager == old(hasNotificationManager) && bootCompleted == old(bootCompleted)
    {
      var flags := StateFlags(state);
      if flags.None? {
        return;
      }
      var (c, f) := flags.value;
      UpdateQueueOne(queue, state);
      queue := RemoveWhat(queue, MSG_UPDATE_STATE) + [HandlerMsg(MSG_UPDATE_STATE, c, f, if c == 0 then UPDATE_DELAY else 0)];
    }

    /** systemReady: the manager is now available; a SYSTEM_READY message is sent. */
    method SystemReady()
      requires Valid()
      modifies this
      ensures Valid() && hasNotificationManager
      ensures queue == old(queue) + [HandlerMsg(MSG_SYSTEM_READY, 0, 0, 0)]
      ensures connected == old(connected) && configured == old(configured)
      ensures notificationId == old(notificationId) && notifications == old(notifications)
      ensures bootCompleted == old(bootCompleted)
    {
      CountWhatAppend(queue, HandlerMsg(MSG_SYSTEM_READY, 0, 0, 0), MSG_UPDATE_STATE);
      CountWhatAppend(queue, HandlerMsg(MSG_SYSTEM_READY, 0, 0, 0), MSG_SYSTEM_READY);
      hasNotificationManager := true;
      queue := queue + [HandlerMsg(MSG_SYSTEM_READY, 0, 0, 0)];
    }

    /** The boot-completed receiver: a BOOT_COMPLETED message is sent. */
    method BootCompletedReceived()
      requires Valid()
      modifies this
      ensures Valid()
      ensures queue == old(queue) + [HandlerMsg(MSG_BOOT_COMPLETED, 0, 0, 0)]
      ensures connected == old(connected) && configured == old(configured)
      ensures notificationId == old(notificationId) && notifications == old(notifications)
      ensures hasNotificationManager == old(hasNotificationManager) && bootCompleted == old(bootCompleted)
    {
      CountWhatAppend(queue, HandlerMsg(MSG_BOOT_COMPLETED, 0, 0, 0), MSG_UPDATE_STATE);
      CountWhatAppend(queue, HandlerMsg(MSG_BOOT_COMPLETED, 0, 0, 0), MSG_SYSTEM_READY);
      queue := queue + [HandlerMsg(MSG_BOOT_COMPLETED, 0, 0, 0)];
    }

    /** updateDisplayNotification: with a manager, show the notification iff connected. */
    method UpdateDisplayNotification()
      requires titleId != 0 && Shown(notifications) == notificationId
      requires notificationId == 0 || notificationId == titleId
      modifies this
      ensures Shown(notifications) == notificationId
      ensures !hasNotificationManager ==> notificationId == old(notificationId) && notifications == old(notifications)
      ensures hasNotificationManager ==> (notificationId == ShownId(connected, titleId) &&
        notifications == old(notifications) + NotificationOps(old(notificationId), notificationId))
      ensures connected == old(connected) && configured == old(configured) && queue == old(queue)
      ensures hasNotificationManager == old(hasNotificationManager) && bootCompleted == old(bootCompleted)
    {
      if !hasNotificationManager {
        return;
      }
      var id := if connected then titleId else 0;
      ShownAfterOps(notifications, notificationId, id);
      if id != notificationId {
        if notificationId != 0 {
          notifications := notifications + [Cancel(notificationId)];
          notificationId := 0;
        }
        if id != 0 {
          notifications := notifications + [Notify(id)];
          notificationId := id;
        }
      }
    }

    /** handleMessage for the three kinds the handler knows; others are ignored. */
    method HandleMessage(msg: HandlerMsg)
      requires titleId != 0 && Shown(notifications) == notificationId
      requires notificationId == 0 || notificationId == titleId
      modifies this
      ensures Shown(notifications) == notificationId
      ensures notificationId == 0 || notificationId == titleId
      ensures queue == old(queue) && hasNotificationManager == old(hasNotificationManager)
      ensures msg.what == MSG_UPDATE_STATE ==> connected == (msg.arg1 == 1) && configured == (msg.arg2 == 1)
      ensures msg.what != MSG_UPDATE_STATE ==> connected == old(connected) && configured == old(configured)
      ensures (msg.what == MSG_UPDATE_STATE || msg.what == MSG_SYSTEM_READY) && hasNotificationManager ==>
        notificationId == ShownId(connected, titleId)
        && notifications == old(notifications) + NotificationOps(old(notificationId), notificationId)
      ensures (msg.what != MSG_UPDATE_STATE && msg.what != MSG_SYSTEM_READY) || !hasNotificationManager ==>
        notificationId == old(notificationId) && notifications == old(notifications)
      ensures bootCompleted == (old(bootCompleted) || msg.what == MSG_BOOT_COMPLETED)
    {
      if msg.what == MSG_UPDATE_STATE {
        connected := msg.arg1 == 1;
        configured := msg.arg2 == 1;
        UpdateDisplayNotification();
      } else if msg.what == MSG_SYSTEM_READY {
        UpdateDisplayNotification();
      } else if msg.what == MSG_BOOT_COMPLETED {
        bootCompleted := true;
      }
    }

    /**
     * The looper delivers the pending message at index k; which one is due first
     * depends on the clock, so any index is allowed.
     */
    method DispatchAt(k: nat)
      requires Valid() && k < |queue|
      modifies this
      ensures Valid()
      ensures queue == old(queue[..k] + queue[k + 1..])
      ensures hasNotificationManager == old(hasNotificationManager)
      ensures var msg := old(queue[k]);
        msg.what == MSG_UPDATE_STATE ==> connected == (msg.arg1 == 1) && configured == (msg.arg2 == 1)
      ensures var msg := old(queue[k]);
        msg.what != MSG_UPDATE_STATE ==> connected == old(connected) && configured == old(configured)
      ensures var msg := old(queue[k]);
        (msg.what == MSG_UPDATE_STATE || msg.what == MSG_SYSTEM_READY) && hasNotificationManager ==>
          notificationId == ShownId(connected, titleId)
          && notifications == old(notifications) + NotificationOps(old(notificationId), notificationId)
      ensures var msg := old(queue[k]);
        (msg.what != MSG_UPDATE_STATE && msg.what != MSG_SYSTEM_READY) || !hasNotificationManager ==>
          notificationId == old(notificationId) && notifications == old(notifications)
      ensures bootCompleted == (old(bootCompleted) || old(queue[k]).what == MSG_BOOT_COMPLETED)
    {
      var msg := queue[k];
      CountWhatDelete(queue, k, MSG_UPDATE_STATE);
      CountWhatDelete(queue, k, MSG_SYSTEM_READY);
      queue := queue[..k] + queue[k + 1..];
      HandleMessage(msg);
    }
  }
}

=== FILE: display_manager_service.dfy ===
/**
 * DisplayManagerService: the system service that tracks which framebuffers the
 * display daemon reports as plugged, keeps each display's settings (enable, mirror,
 * rotation, overscan, mode, colour depth), persists them, and forwards changes to
 * SurfaceFlinger through DisplayCommand on its database handler.
 */
module DisplayManagerService {
  import opened JavaLang
  import opened DisplayConfig
  import opened DisplaySlots
  import opened DisplayModes
  import opened DisplayHandlers
  import DisplayCommand

  const DISPLAY_ENABLE_MSG: int := 1
  const DISPLAY_MIRROR_MSG: int := 2
  const DISPLAY_ROTATION_MSG: int := 3
  const DISPLAY_OVERSCAN_MSG: int := 4
  const DISPLAY_MODE_MSG: int := 5
  const DISPLAY_COLORDEPTH_MSG: int := 6

  /** The display daemon's event codes for a framebuffer plugged and unplugged. */
  const INTERFACE_CONNECTED: int := 600
  const INTERFACE_DISCONNECTED: int := 601

  // ---------------------------------------------------------------------------
  // Per-display settings

  /**
   * One display's entry in the six per-display tables (mDisplay_enable, _mirror,
   * _rotation, _overscan, _mode, _colordepth); Java's defaults are 0 and null.
   */
  datatype DisplaySettings = DisplaySettings(
    enable: int, mirror: int, rotation: int, overscan: int, mode: Option<string>, colordepth: int)

  const NO_SETTINGS: DisplaySettings := DisplaySettings(0, 0, 0, 0, None, 0)

  /** The tables as Java's array initialisation leaves them. */
  const DEFAULT_DISPLAYS: seq<DisplaySettings> := [NO_SETTINGS, NO_SETTINGS, NO_SETTINGS, NO_SETTINGS]

  /** The integer settings a command method changes. */
  datatype Knob = EnableKnob | MirrorKnob | RotationKnob | OverScanKnob | ColorDepthKnob

  function Get(d: DisplaySettings, k: Knob): int {
    match k
    case EnableKnob => d.enable
    case MirrorKnob => d.mirror
    case RotationKnob => d.rotation
    case OverScanKnob => d.overscan
    case ColorDepthKnob => d.colordepth
  }

  function Put(d: DisplaySettings, k: Knob, v: int): (e: DisplaySettings)
    ensures Get(e, k) == v && e.mode == d.mode
    ensures forall k2 | k2 != k :: Get(e, k2) == Get(d, k2)
  {
    match k
    case EnableKnob => d.(enable := v)
    case MirrorKnob => d.(mirror := v)
    case RotationKnob => d.(rotation := v)
    case OverScanKnob => d.(overscan := v)
    case ColorDepthKnob => d.(colordepth := v)
  }

  /** The database handler message each command posts. */
  function MsgOf(k: Knob): int {
    match k
    case EnableKnob => DISPLAY_ENABLE_MSG
    case MirrorKnob => DISPLAY_MIRROR_MSG
    case RotationKnob => DISPLAY_ROTATION_MSG
    case OverScanKnob => DISPLAY_OVERSCAN_MSG
    case ColorDepthKnob => DISPLAY_COLORDEPTH_MSG
  }

  /** A message's obj: a boxed Integer or a String. */
  datatype DbObj = IntObj(i: int) | ModeObj(s: string)

  /** A message to the database handler: what, arg1 (the fbid), arg2 (save) and obj. */
  datatype DbMsg = DbMsg(what: int, fbid: int, save: int, obj: DbObj)

  /** The exceptions the service's code paths raise, by cause. */
  datatype DisplayError =
    | NoSuchDisplay(dispid: int)     // a display index outside 0..3
    | NoSuchFramebuffer(fbid: int)   // a framebuffer index outside 0..9
    | MissingField                   // an event without its third field
    | BadNumber(text: string)        // Integer.parseInt refused the text
    | NoMode(cause: SelectError)     // selectDisplayDefaultMode found no mode
    | DaemonFailed                   // the mode list query to the daemon failed
    | CommandFailed(mode: string)    // setResolution on display 0 with a malformed mode
    | WrongObject                    // a mode message whose obj is not a String
    | NullModeString                 // a null mode String dereferenced (NullPointerException)

  /** What the command methods read and write: the tables, the queue, the config file. */
  datatype Tables = Tables(displays: seq<DisplaySettings>, dbQueue: seq<DbMsg>, configText: Option<string>)

  /**
   * commandDisplayEnable, _Mirror, _Rotation, _OverScan and _ColorDepth, for the
   * display dispid whose framebuffer is fbid. Enable stores its value only when asked
   * to save; overscan and colour depth return early when the value is unchanged;
   * colour depth on display 0 rewrites the config file. Every other path posts one
   * message.
   */
  function KnobCommand(t: Tables, k: Knob, dispid: int, fbid: int, save: int, v: int): Result<Tables, DisplayError>
    requires |t.displays| == MAX_DISPLAY_DEVICE
  {
    var posted := t.dbQueue + [DbMsg(MsgOf(k), fbid, save, IntObj(v))];
    if k == EnableKnob && save != 1 then Ok(t.(dbQueue := posted))
    else if !(0 <= dispid < MAX_DISPLAY_DEVICE) then Err(NoSuchDisplay(dispid))
    else if (k == OverScanKnob || k == ColorDepthKnob) && Get(t.displays[dispid], k) == v then Ok(t)
    else
      var ds := t.displays[dispid := Put(t.displays[dispid], k, v)];
      Ok(Tables(ds, posted,
        if k == ColorDepthKnob && dispid == 0 then Some(ConfigText(ds[0].mode, v)) else t.configText))
  }

  /**
   * commandDisplayMode: like colour depth, with the mode as a String message. The mode
   * comes from a binder caller and may be null; comparing it with the stored mode then
   * throws, after the stored mode was looked up.
   */
  function ModeCommand(t: Tables, dispid: int, fbid: int, save: int, mode: Option<string>): (r: Result<Tables, DisplayError>)
    requires |t.displays| == MAX_DISPLAY_DEVICE
    ensures r.Err? <==> !(0 <= dispid < MAX_DISPLAY_DEVICE) || mode.None?
    ensures r.Err? && 0 <= dispid < MAX_DISPLAY_DEVICE ==> r.error == NullModeString
    ensures r.Ok? ==> |r.value.displays| == MAX_DISPLAY_DEVICE && r.value.displays[dispid].mode == mode
  {
    if !(0 <= dispid < MAX_DISPLAY_DEVICE) then Err(NoSuchDisplay(dispid))
    else if mode.None? then Err(NullModeString)
    else if t.displays[dispid].mode == mode then Ok(t)
    else
      var ds := t.displays[dispid := t.displays[dispid].(mode := mode)];
      Ok(Tables(ds, t.dbQueue + [DbMsg(DISPLAY_MODE_MSG, fbid, save, ModeObj(mode.value))],
        if dispid == 0 then Some(ConfigText(mode, ds[0].colordepth)) else t.configText))
  }

  /**
   * A command on a display in range stores its value there and nowhere else; only
   * enable without save leaves the tables alone.
   */
  lemma KnobCommandStores(t: Tables, k: Knob, dispid: int, fbid: int, save: int, v: int)
    requires |t.displays| == MAX_DISPLAY_DEVICE && 0 <= dispid < MAX_DISPLAY_DEVICE
    ensures var r := KnobCommand(t, k, dispid, fbid, save, v);
      r.Ok? && |r.value.displays| == MAX_DISPLAY_DEVICE &&
      (k != EnableKnob || save == 1 ==> Get(r.value.displays[dispid], k) == v) &&
      (k == EnableKnob && save != 1 ==> r.value.displays == t.displays) &&
      r.value.displays[dispid].mode == t.displays[dispid].mode &&
      (forall k2 | k2 != k :: Get(r.value.displays[dispid], k2) == Get(t.displays[dispid], k2)) &&
      (forall j | 0 <= j < MAX_DISPLAY_DEVICE && j != dispid :: r.value.displays[j] == t.displays[j])
  {
  }

  /** Overscan and colour depth: repeating a command changes nothing more. */
  lemma KnobCommandIdempotent(t: Tables, k: Knob, dispid: int, fbid: int, save: int, v: int)
    requires |t.displays| == MAX_DISPLAY_DEVICE
    requires k == OverScanKnob || k == ColorDepthKnob
    requires KnobCommand(t, k, dispid, fbid, save, v).Ok?
    ensures var t1 := KnobCommand(t, k, dispid, fbid, save, v).value;
      |t1.displays| == MAX_DISPLAY_DEVICE && KnobCommand(t1, k, dispid, fbid, save, v) == Ok(t1)
  {
    var t1 := KnobCommand(t, k, dispid, fbid, save, v).value;
    assert Get(t1.displays[dispid], k) == v;
  }

  /** Mirror and rotation have no early return: a repeated command posts again. */
  lemma KnobCommandRepeatsPost(t: Tables, k: Knob, dispid: int, fbid: int, save: int, v: int)
    requires |t.displays| == MAX_DISPLAY_DEVICE && 0 <= dispid < MAX_DISPLAY_DEVICE
    requires k == MirrorKnob || k == RotationKnob
    ensures var t1 := KnobCommand(t, k, dispid, fbid, save, v).value;
      |t1.displays| == MAX_DISPLAY_DEVICE &&
      KnobCommand(t1, k, dispid, fbid, save, v).value.displays == t1.displays &&
      |KnobCommand(t1, k, dispid, fbid, save, v).value.dbQueue| == |t.dbQueue| + 2
  {
    var t1 := KnobCommand(t, k, dispid, fbid, save, v).value;
    assert Get(t1.displays[dispid], k) == v;
    assert t1.displays[dispid := Put(t1.displays[dispid], k, v)] == t1.displays;
  }

  /** Repeating a mode command changes nothing more. */
  lemma ModeCommandIdempotent(t: Tables, dispid: int, fbid: int, save: int, mode: Option<string>)
    requires |t.displays| == MAX_DISPLAY_DEVICE
    requires ModeCommand(t, dispid, fbid, save, mode).Ok?
    ensures var t1 := ModeCommand(t, dispid, fbid, save, mode).value;
      |t1.displays| == MAX_DISPLAY_DEVICE && ModeCommand(t1, dispid, fbid, save, mode) == Ok(t1) &&
      t1.displays[dispid].mode == mode
  {
  }

  /** Whenever a command rewrites the config file, it holds display 0's mode and depth. */
  lemma ConfigFileFollowsDisplayZero(t: Tables, k: Knob, dispid: int, fbid: int, save: int, v: int, mode: Option<string>)
    requires |t.displays| == MAX_DISPLAY_DEVICE
    ensures var r := KnobCommand(t, k, dispid, fbid, save, v);
      r.Ok? && r.value.configText != t.configText ==>
        r.value.configText == Some(ConfigText(r.value.displays[0].mode, r.value.displays[0].colordepth))
    ensures var r := ModeCommand(t, dispid, fbid, save, mode);
      r.Ok? && r.value.configText != t.configText ==>
        r.value.configText == Some(ConfigText(r.value.displays[0].mode, r.value.displays[0].colordepth))
  {
  }

  /**
   * getDisplayEnable, _Mirror and _Rotation (as value == 1), getDisplayOverScan and
   * _ColorDepth: the stored value; an index outside the tables throws.
   */
  function GetKnob(t: Tables, dispid: int, k: Knob): (r: Result<int, DisplayError>)
    requires |t.displays| == MAX_DISPLAY_DEVICE
    ensures r.Err? <==> !(0 <= dispid < MAX_DISPLAY_DEVICE)
  {
    if 0 <= dispid < MAX_DISPLAY_DEVICE then Ok(Get(t.displays[dispid], k)) else Err(NoSuchDisplay(dispid))
  }

  /** getDisplayEnable, _Mirror and _Rotation: true exactly when the stored value is 1. */
  function GetFlag(t: Tables, dispid: int, k: Knob): (r: Result<bool, DisplayError>)
    requires |t.displays| == MAX_DISPLAY_DEVICE
    requires k == EnableKnob || k == MirrorKnob || k == RotationKnob
    ensures r.Err? <==> !(0 <= dispid < MAX_DISPLAY_DEVICE)
    ensures r.Ok? ==> (r.value <==> Get(t.displays[dispid], k) == 1)
  {
    match GetKnob(t, dispid, k)
    case Ok(v) => Ok(v == 1)
    case Err(e) => Err(e)
  }

  /** getDisplayMode: the stored mode, which may be null. */
  function GetMode(t: Tables, dispid: int): (r: Result<Option<string>, DisplayError>)
    requires |t.displays| == MAX_DISPLAY_DEVICE
    ensures r.Err? <==> !(0 <= dispid < MAX_DISPLAY_DEVICE)
  {
    if 0 <= dispid < MAX_DISPLAY_DEVICE then Ok(t.displays[dispid].mode) else Err(NoSuchDisplay(dispid))
  }

  /**
   * A getter after a command that went through returns the value the command set,
   * and every other value of every display as it was (enable without save sets nothing).
   */
  lemma {:induction false} GetAfterCommand(t: Tables, k: Knob, dispid: int, fbid: int, save: int, v: int,
                                           d2: int, k2: Knob)
    requires |t.displays| == MAX_DISPLAY_DEVICE
    requires KnobCommand(t, k, dispid, fbid, save, v).Ok?
    ensures var t1 := KnobCommand(t, k, dispid, fbid, save, v).value;
      |t1.displays| == MAX_DISPLAY_DEVICE &&
      (k != EnableKnob || save == 1 ==> GetKnob(t1, dispid, k) == Ok(v)) &&
      (d2 != dispid || k2 != k ==> GetKnob(t1, d2, k2) == GetKnob(t, d2, k2)) &&
      GetMode(t1, d2) == GetMode(t, d2)
  {
    var t1 := KnobCommand(t, k, dispid, fbid, save, v).value;
    if k != EnableKnob || save == 1 {
      KnobCommandStores(t, k, dispid, fbid, save, v);
    }
    if 0 <= dispid < MAX_DISPLAY_DEVICE {
      KnobCommandStores(t, k, dispid, fbid, save, v);
    }
  }

  /**
   * commandDisplayEnable (saved), _Mirror and _Rotation take a boolean and store it as
   * 1 or 0; the boolean getter then reads back that boolean.
   */
  lemma {:induction false} FlagAfterCommand(t: Tables, k: Knob, dispid: int, fbid: int, save: int, enable: bool)
    requires |t.displays| == MAX_DISPLAY_DEVICE && 0 <= dispid < MAX_DISPLAY_DEVICE
    requires k == MirrorKnob || k == RotationKnob || (k == EnableKnob && save == 1)
    ensures var r := KnobCommand(t, k, dispid, fbid, save, if enable then 1 else 0);
      r.Ok? && |r.value.displays| == MAX_DISPLAY_DEVICE && GetFlag(r.value, dispid, k) == Ok(enable)
  {
    var v := if enable then 1 else 0;
    KnobCommandStores(t, k, dispid, fbid, save, v);
    GetAfterCommand(t, k, dispid, fbid, save, v, dispid, k);
  }

  /** After a mode command went through, getDisplayMode returns that mode. */
  lemma GetModeAfterCommand(t: Tables, dispid: int, fbid: int, save: int, mode: Option<string>, d2: int, k2: Knob)
    requires |t.displays| == MAX_DISPLAY_DEVICE
    requires ModeCommand(t, dispid, fbid, save, mode).Ok?
    ensures var t1 := ModeCommand(t, dispid, fbid, save, mode).value;
      |t1.displays| == MAX_DISPLAY_DEVICE && GetMode(t1, dispid) == Ok(mode) &&
      (d2 != dispid ==> GetMode(t1, d2) == GetMode(t, d2)) &&
      GetKnob(t1, d2, k2) == GetKnob(t, d2, k2)
  {
  }

  // ---------------------------------------------------------------------------
  // The config file of display 0

  datatype ConfigError =
    | TooFewLines                      // tokens[1] of a file with one line
    | BadDepth(mode: Option<string>)   // the depth did not parse; the mode was already read

  /**
   * readConfigFile: the mode after "mode=" and the depth after "colordepth=", each only
   * when its line is longer than the key; no file, nothing read.
   */
  function ReadConfig(text: Option<string>): Result<(Option<string>, Option<int>), ConfigError> {
    match text
    case None => Ok((None, None))
    case Some(t) =>
      var tokens := Tokens(t);
      if |tokens| < 2 then Err(TooFewLines)
      else
        var mode := if |tokens[0]| > 5 then Some(tokens[0][5..]) else None;
        if |tokens[1]| > 11 then
          match ParseInt(tokens[1][11..])
          case None => Err(BadDepth(mode))
          case Some(d) => Ok((mode, Some(d)))
        else Ok((mode, None))
  }

  /** What writeConfigFile stores, readConfigFile reads back. */
  lemma ReadConfigOfWritten(mode: string, depth: int)
    requires |mode| > 0 && '\n' !in mode && IsInt32(depth)
    requires |ConfigText(Some(mode), depth)| <= CONFIG_BUFFER_SIZE
    ensures ReadConfig(Some(ConfigText(Some(mode), depth))) == Ok((Some(mode), Some(depth)))
  {
    TokensOfConfigText(Some(mode), depth);
    var tokens := Tokens(ConfigText(Some(mode), depth));
    assert tokens[0][5..] == mode;
    assert tokens[1][11..] == IntToString(depth);
    ParseIntOfIntToString(depth);
  }

  /** A null mode is written as "null" and read back as the mode "null"... */
  lemma ReadConfigOfNullMode(depth: int)
    requires IsInt32(depth) && |ConfigText(None, depth)| <= CONFIG_BUFFER_SIZE
    ensures ReadConfig(Some(ConfigText(None, depth))) == Ok((Some("null"), Some(depth)))
  {
    TokensOfConfigText(None, depth);
    var tokens := Tokens(ConfigText(None, depth));
    assert tokens[0][5..] == "null";
    assert tokens[1][11..] == IntToString(depth);
    ParseIntOfIntToString(depth);
  }

  /** ... and getResolutionInString cannot parse "null": its width text is "n". */
  lemma NullModeUnparsable()
    ensures ResolutionOf("null") == None
  {
    var m := "null";
    assert forall j | 0 <= j < |m| :: !IsDigit(m[j]) && m[j] != 'x';
    assert FirstDigit(m) == -1 && LastIndexOf(m, 'x') == -1;
    assert WidthStart(m) == 0 && WidthEnd(m) == 0 && m[0..1] == "n";
    assert WidthText(m) == Some("n");
    assert ParseInt("n") == None;
  }

  /** An existing empty file makes readConfigFile throw. */
  lemma ReadConfigOfEmptyFile()
    ensures ReadConfig(Some("")) == Err(TooFewLines)
  {
    BufferOfShort("");
    assert '\n' !in Buffer("");
  }

  /** The config file's values applied to display 0's entry. */
  function ApplyConfig(d: DisplaySettings, mode: Option<string>, depth: Option<int>): DisplaySettings {
    d.(mode := if mode.Some? then mode else d.mode,
       colordepth := if depth.Some? then depth.value else d.colordepth)
  }

  /**
   * The displays readConfigFile leaves: display 0 takes the mode and depth it read; when
   * the depth does not parse the mode has already been stored, and when the file has
   * one line nothing has.
   */
  function AfterReadConfig(ds: seq<DisplaySettings>, rc: Result<(Option<string>, Option<int>), ConfigError>)
    : (r: seq<DisplaySettings>)
    requires |ds| == MAX_DISPLAY_DEVICE
    ensures |r| == MAX_DISPLAY_DEVICE && r[1..] == ds[1..]
  {
    match rc
    case Ok((m, d)) => ds[0 := ApplyConfig(ds[0], m, d)]
    case Err(TooFewLines) => ds
    case Err(BadDepth(m)) => ds[0 := ApplyConfig(ds[0], m, None)]
  }

  // ---------------------------------------------------------------------------
  // Settings.System

  datatype SettingKind = EnableSetting | MirrorSetting | RotationSetting | OverscanSetting | ModeSetting | ColorDepthSetting

  /** Settings.System as the service uses it: one value, possibly null, per display and kind. */
  type Settings = map<(SettingKind, int), Option<string>>

  /**
   * Settings.System.getInt, with the service's catch: a setting that is missing, null
   * or not a number leaves the old value dflt.
   */
  function GetIntOr(s: Settings, key: (SettingKind, int), dflt: int): int {
    if key in s && s[key].Some? && ParseInt(s[key].value).Some? then ParseInt(s[key].value).value
    else dflt
  }

  /** Settings.System.getString: null for a missing setting. */
  function GetString(s: Settings, key: (SettingKind, int)): Option<string> {
    if key in s then s[key] else None
  }

  /** Settings.System.putInt stores the decimal text of the value. */
  function PutInt(s: Settings, key: (SettingKind, int), v: int): Settings {
    s[key := Some(IntToString(v))]
  }

  /** getInt reads back what putInt stored, whatever the old value. */
  lemma GetIntOfPutInt(s: Settings, key: (SettingKind, int), v: int, dflt: int)
    requires IsInt32(v)
    ensures GetIntOr(PutInt(s, key, v), key, dflt) == v
  {
    ParseIntOfIntToString(v);
  }

  /** getDefaultValue's reading of display i's entry from the settings. */
  function Loaded(s: Settings, d: DisplaySettings, i: int): DisplaySettings {
    DisplaySettings(
      GetIntOr(s, (EnableSetting, i), d.enable),
      GetIntOr(s, (MirrorSetting, i), d.mirror),
      GetIntOr(s, (RotationSetting, i), d.rotation),
      GetIntOr(s, (OverscanSetting, i), d.overscan),
      GetString(s, (ModeSetting, i)),
      GetIntOr(s, (ColorDepthSetting, i), d.colordepth))
  }

  /** getDefaultValue's loop: every display's entry as the settings give it. */
  function LoadedAll(s: Settings, ds: seq<DisplaySettings>): (r: seq<DisplaySettings>)
    requires |ds| == MAX_DISPLAY_DEVICE
    ensures |r| == MAX_DISPLAY_DEVICE
  {
    seq(MAX_DISPLAY_DEVICE, i requires 0 <= i < MAX_DISPLAY_DEVICE => Loaded(s, ds[i], i))
  }

  /** The six settings the enable message saves for display i. */
  function SaveAll(s: Settings, i: int, d: DisplaySettings, enable: int): Settings {
    PutInt(PutInt(PutInt(PutInt(s, (EnableSetting, i), enable), (MirrorSetting, i), d.mirror),
      (RotationSetting, i), d.rotation), (OverscanSetting, i), d.overscan)
      [(ModeSetting, i) := d.mode][(ColorDepthSetting, i) := Some(IntToString(d.colordepth))]
  }

  predicate Int32Settings(d: DisplaySettings) {
    IsInt32(d.enable) && IsInt32(d.mirror) && IsInt32(d.rotation) && IsInt32(d.overscan) &&
    IsInt32(d.colordepth)
  }

  /** What SaveAll leaves under each of display i's six keys. */
  lemma SaveAllEntries(s: Settings, i: int, d: DisplaySettings, enable: int)
    ensures var s2 := SaveAll(s, i, d, enable);
      s2[(EnableSetting, i)] == Some(IntToString(enable)) &&
      s2[(MirrorSetting, i)] == Some(IntToString(d.mirror)) &&
      s2[(RotationSetting, i)] == Some(IntToString(d.rotation)) &&
      s2[(OverscanSetting, i)] == Some(IntToString(d.overscan)) &&
      s2[(ModeSetting, i)] == d.mode &&
      s2[(ColorDepthSetting, i)] == Some(IntToString(d.colordepth))
  {
  }

  /** getInt of a key holding the decimal text of an int gives that int back. */
  lemma GetIntOfStored(s: Settings, key: (SettingKind, int), v: int, dflt: int)
    requires key in s && s[key] == Some(IntToString(v)) && IsInt32(v)
    ensures GetIntOr(s, key, dflt) == v
  {
    ParseIntOfIntToString(v);
  }

  /** A display's saved settings are what the next getDefaultValue loads for it. */
  lemma LoadedOfSaveAll(s: Settings, i: int, d: DisplaySettings, before: DisplaySettings)
    requires Int32Settings(d)
    ensures Loaded(SaveAll(s, i, d, d.enable), before, i) == d
  {
    var s2 := SaveAll(s, i, d, d.enable);
    SaveAllEntries(s, i, d, d.enable);
    GetIntOfStored(s2, (EnableSetting, i), d.enable, before.enable);
    GetIntOfStored(s2, (MirrorSetting, i), d.mirror, before.mirror);
    GetIntOfStored(s2, (RotationSetting, i), d.rotation, before.rotation);
    GetIntOfStored(s2, (OverscanSetting, i), d.overscan, before.overscan);
    GetIntOfStored(s2, (ColorDepthSetting, i), d.colordepth, before.colordepth);
  }
  /**
   * getDefaultValue over a config file writeConfigFile wrote: display 0 takes the written
   * mode and depth over what the settings hold, and every other display is as the
   * settings give it.
   */
  lemma {:induction false} LoadedOverWrittenConfig(s: Settings, ds: seq<DisplaySettings>, mode: string, depth: int)
    requires |ds| == MAX_DISPLAY_DEVICE
    requires |mode| > 0 && '\n' !in mode && IsInt32(depth)
    requires |ConfigText(Some(mode), depth)| <= CONFIG_BUFFER_SIZE
    ensures var r := AfterReadConfig(LoadedAll(s, ds), ReadConfig(Some(ConfigText(Some(mode), depth))));
      r[0] == Loaded(s, ds[0], 0).(mode := Some(mode), colordepth := depth)
      && forall i | 1 <= i < MAX_DISPLAY_DEVICE :: r[i] == Loaded(s, ds[i], i)
  {
    ReadConfigOfWritten(mode, depth);
  }


  // ---------------------------------------------------------------------------
  // The database handler

  /** Integer.parseInt(msg.obj.toString()): an Integer gives back its own value. */
  function ObjInt(o: DbObj): Result<int, DisplayError> {
    match o
    case IntObj(i) => Ok(i)
    case ModeObj(t) =>
      match ParseInt(t)
      case None => Err(BadNumber(t))
      case Some(n) => Ok(n)
  }

  /**
   * What the database handler does for one message: the command it gives DisplayCommand,
   * the HDMI audio state it broadcasts, the settings it leaves, and an exception raised
   * after the command went out (enable's save on a display no longer mapped).
   */
  datatype DbAction = DbAction(
    cmd: Option<DisplayCommand.Cmd>, audio: Option<int>, settings: Settings, late: Option<DisplayError>)

  /** The setting each per-value message writes. */
  function SettingOf(what: int): SettingKind {
    if what == DISPLAY_MIRROR_MSG then MirrorSetting
    else if what == DISPLAY_ROTATION_MSG then RotationSetting
    else if what == DISPLAY_OVERSCAN_MSG then OverscanSetting
    else ColorDepthSetting
  }

  /** The DisplayCommand call for a per-value message. */
  function ValueCmd(what: int, fbid: int, v: int): DisplayCommand.Cmd {
    if what == DISPLAY_MIRROR_MSG then DisplayCommand.Mirror(fbid, v)
    else if what == DISPLAY_ROTATION_MSG then DisplayCommand.Rotation(fbid, v)
    else if what == DISPLAY_OVERSCAN_MSG then DisplayCommand.OverScan(fbid, v)
    else DisplayCommand.ColorDepth(fbid, v)
  }

  /**
   * The database handler's handleMessage for a message to the framebuffer whose display
   * is dispid, given the tables ds and the settings s; Err where it throws first.
   */
  function DbStep(msg: DbMsg, dispid: int, ds: seq<DisplaySettings>, s: Settings): Result<DbAction, DisplayError>
    requires |ds| == MAX_DISPLAY_DEVICE
  {
    var inRange := 0 <= dispid < MAX_DISPLAY_DEVICE;
    if msg.what == DISPLAY_ENABLE_MSG then
      match ObjInt(msg.obj)
      case Err(e) => Err(e)
      case Ok(v) =>
        if v == 1 then
          if !inRange then Err(NoSuchDisplay(dispid))
          else
            var d := ds[dispid];
            Ok(DbAction(Some(DisplayCommand.Enable(msg.fbid, d.mode, d.rotation, d.overscan, d.mirror, d.colordepth)),
              Some(1), if msg.save == 1 then SaveAll(s, dispid, d, v) else s, None))
        else if msg.save == 1 && !inRange then
          Ok(DbAction(Some(DisplayCommand.Disable(msg.fbid)), Some(0), s, Some(NoSuchDisplay(dispid))))
        else
          Ok(DbAction(Some(DisplayCommand.Disable(msg.fbid)), Some(0),
            if msg.save == 1 then SaveAll(s, dispid, ds[dispid], v) else s, None))
    else if msg.what == DISPLAY_MODE_MSG then
      if !inRange then Err(NoSuchDisplay(dispid))
      else match msg.obj
        case IntObj(_) => Err(WrongObject)
        case ModeObj(m) =>
          Ok(DbAction(if ds[dispid].enable == 1 then Some(DisplayCommand.Resolution(msg.fbid, m)) else None,
            None, s[(ModeSetting, dispid) := Some(m)], None))
    else if DISPLAY_MIRROR_MSG <= msg.what <= DISPLAY_COLORDEPTH_MSG then
      if !inRange then Err(NoSuchDisplay(dispid))
      else match ObjInt(msg.obj)
        case Err(e) => Err(e)
        case Ok(v) =>
          Ok(DbAction(if ds[dispid].enable == 1 then Some(ValueCmd(msg.what, msg.fbid, v)) else None,
            None, PutInt(s, (SettingOf(msg.what), dispid), v), None))
    else Ok(DbAction(None, None, s, None))
  }

  /**
   * A message a command method posted for a display still mapped to the same
   * framebuffer is handled without an exception when it carries an Integer.
   */
  lemma DbStepOfPosted(t: Tables, k: Knob, dispid: int, fbid: int, save: int, v: int, s: Settings)
    requires |t.displays| == MAX_DISPLAY_DEVICE && 0 <= dispid < MAX_DISPLAY_DEVICE
    requires KnobCommand(t, k, dispid, fbid, save, v).Ok?
    requires var t1 := KnobCommand(t, k, dispid, fbid, save, v).value; |t1.dbQueue| > |t.dbQueue|
    ensures var t1 := KnobCommand(t, k, dispid, fbid, save, v).value;
      |t1.displays| == MAX_DISPLAY_DEVICE &&
      DbStep(t1.dbQueue[|t1.dbQueue| - 1], dispid, t1.displays, s).Ok? &&
      DbStep(t1.dbQueue[|t1.dbQueue| - 1], dispid, t1.displays, s).value.late.None?
  {
  }

  /**
   * An enable message saved on display d stores that display's whole entry: the next
   * getDefaultValue loads it back.
   */
  lemma EnableSaveReloads(msg: DbMsg, dispid: int, ds: seq<DisplaySettings>, s: Settings, before: DisplaySettings)
    requires |ds| == MAX_DISPLAY_DEVICE && 0 <= dispid < MAX_DISPLAY_DEVICE
    requires msg.what == DISPLAY_ENABLE_MSG && msg.save == 1 && msg.obj == IntObj(ds[dispid].enable)
    requires Int32Settings(ds[dispid])
    ensures DbStep(msg, dispid, ds, s).Ok?
    ensures Loaded(DbStep(msg, dispid, ds, s).value.settings, before, dispid) == ds[dispid]
  {
    LoadedOfSaveAll(s, dispid, ds[dispid], before);
  }

  /** The selected default mode, or why there is none; the list is the daemon's reply. */
  function DefaultMode(current: Option<string>, reply: Option<seq<string>>): Result<string, DisplayError> {
    match current
    case None => Err(NoMode(NullMode))
    case Some(c) =>
      match ResolutionOf(c)
      case None => Err(NoMode(MalformedMode(c)))
      case Some(req) =>
        match reply
        case None => Err(DaemonFailed)
        case Some(list) =>
          match SelectMode(c, req, list)
          case Err(e) => Err(NoMode(e))
          case Ok(m) => Ok(m)
  }

  /** With a reply, the outcome is SelectDefault's. */
  lemma DefaultModeOfReply(current: Option<string>, list: seq<string>)
    ensures SelectDefault(current, list).Ok? <==> DefaultMode(current, Some(list)).Ok?
    ensures SelectDefault(current, list).Ok? ==>
      DefaultMode(current, Some(list)).value == SelectDefault(current, list).value
    ensures SelectDefault(current, list).Err? ==>
      DefaultMode(current, Some(list)) == Err(NoMode(SelectDefault(current, list).error))
  {
  }

  /** Whether selectDisplayDefaultMode gets as far as asking the daemon for the list. */
  predicate Queries(current: Option<string>) {
    current.Some? && ResolutionOf(current.value).Some?
  }

  /** selectDisplayDefaultMode's decision, computed in the source's order. */
  method ChooseDefault(current: Option<string>, reply: Option<seq<string>>)
    returns (r: Result<string, DisplayError>, queried: bool)
    ensures r == DefaultMode(current, reply)
    ensures queried <==> Queries(current)
  {
    if current.None? {
      return Err(NoMode(NullMode)), false;
    }
    var req := ParseResolution(current.value);
    if req.None? {
      return Err(NoMode(MalformedMode(current.value))), false;
    }
    if reply.None? {
      return Err(DaemonFailed), true;
    }
    var chosen := ChooseMode(current.value, req.value, reply.value);
    if chosen.Err? {
      return Err(NoMode(chosen.error)), true;
    }
    r, queried := Ok(chosen.value), true;
  }

  datatype Broadcast =
    | DisplayAttached(dispid: int, connected: bool)   // ACTION_DISPLAY_DEVICE_<n>_ATTACHED
    | HdmiAudioPlug(state: int)                       // ACTION_HDMI_AUDIO_PLUG

  /** The HDMI audio broadcast the database handler sends, if any. */
  function AudioBroadcast(audio: Option<int>): seq<Broadcast> {
    if audio.Some? then [HdmiAudioPlug(audio.value)] else []
  }

  /** The third field of a daemon event, as a framebuffer number. */
  function EventFb(cooked: seq<string>): Result<int, DisplayError> {
    if |cooked| < 3 then Err(MissingField)
    else match ParseInt(cooked[2])
      case None => Err(BadNumber(cooked[2]))
      case Some(fb) => Ok(fb)
  }

  /** The state a command method's outcome leaves, and what it returns. */
  predicate Outcome(res: Result<Tables, DisplayError>, before: Tables, after: Tables, r: Result<bool, DisplayError>) {
    match res
    case Ok(t) => after == t && r == Ok(true)
    case Err(e) => after == before && r == Err(e)
  }

  /** The exception a call threw, if any. */
  function ErrorOf<T>(r: Result<T, DisplayError>): Option<DisplayError> {
    if r.Err? then Some(r.error) else None
  }

  /** The list command sent to the display daemon for framebuffer fbid. */
  function ListCommand(fbid: int): string {
    "get_display_modelist " + IntToString(fbid)
  }

  class Service {
    const slots: DisplayState
    const handler: DisplayHandler
    const command: DisplayCommand.Command
    /** /data/misc/display.conf, shared with the command object. */
    const configFile: ConfigFile
    var displays: seq<DisplaySettings>
    /** mDisplay_modes: the last mode list fetched for each display. */
    var modeLists: seq<Option<seq<string>>>
    /** The messages pending on the database handler (each sent with a 10 ms delay). */
    var dbQueue: seq<DbMsg>
    var settings: Settings
    /** Every sticky broadcast sent, in order. */
    ghost var broadcasts: seq<Broadcast>
    /** Every command sent to the display daemon, in order. */
    ghost var daemonCommands: seq<string>

    ghost predicate Valid()
      reads this, slots, handler
    {
      slots.Valid() && handler.Valid() && command.file == configFile &&
      |displays| == MAX_DISPLAY_DEVICE && |modeLists| == MAX_DISPLAY_DEVICE
    }

    function Snap(): Tables
      reads this, configFile
    {
      Tables(displays, dbQueue, configFile.text)
    }

    /** getfbid(dispid): the first framebuffer mapped to the display, or -1. */
    ghost function FbOf(dispid: int): int
      reads this, slots, slots.displayFb, slots.stateFb, slots.stateDisplay
      requires slots.Valid()
    {
      FirstIndex(slots.Snapshot().displayFb, dispid)
    }

    /** getdispid(fbid): the display the framebuffer is mapped to, or -1. */
    ghost function DispOf(fbid: int): int
      reads this, slots, slots.displayFb, slots.stateFb, slots.stateDisplay
      requires slots.Valid() && 0 <= fbid < MAX_FB_DEVICE
    {
      slots.Snapshot().displayFb[fbid]
    }

    /**
     * The service as its constructor leaves it before getDefaultValue: no framebuffer
     * connected, Java's default tables, nothing pending.
     */
    constructor(file: ConfigFile, settings: Settings, titleId: int,
                hasSurfaceFlinger: bool, hasWindowManager: bool, flingerReply: int)
      requires titleId != 0
      ensures Valid() && fresh(slots) && fresh(slots.displayFb) && fresh(slots.stateFb) &&
        fresh(slots.stateDisplay) && fresh(handler) && fresh(command) && fresh(command.cfg)
      ensures slots.Snapshot() == Initial() && configFile == file && this.settings == settings
      ensures displays == DEFAULT_DISPLAYS
      ensures modeLists == [None, None, None, None] && dbQueue == []
      ensures handler.queue == [] && broadcasts == [] && daemonCommands == []
    {
      slots := new DisplayState();
      handler := new DisplayHandler(titleId);
      command := new DisplayCommand.Command(file, hasSurfaceFlinger, hasWindowManager, flingerReply);
      configFile := file;
      this.settings := settings;
      displays := DEFAULT_DISPLAYS;
      modeLists := [None, None, None, None];
      dbQueue := [];
      broadcasts := [];
      daemonCommands := [];
    }

    /** getDefaultValue's loop: every display's entry from the settings. */
    method LoadSettings()
      requires Valid()
      modifies this
      ensures Valid()
      ensures forall i | 0 <= i < MAX_DISPLAY_DEVICE :: displays[i] == Loaded(settings, old(displays[i]), i)
      ensures modeLists == old(modeLists) && dbQueue == old(dbQueue) && settings == old(settings)
      ensures broadcasts == old(broadcasts) && daemonCommands == old(daemonCommands)
    {
      for i := 0 to MAX_DISPLAY_DEVICE
        invariant |displays| == MAX_DISPLAY_DEVICE
        invariant forall j | 0 <= j < i :: displays[j] == Loaded(settings, old(displays[j]), j)
        invariant forall j | i <= j < MAX_DISPLAY_DEVICE :: displays[j] == old(displays[j])
        invariant modeLists == old(modeLists) && dbQueue == old(dbQueue) && settings == old(settings)
        invariant broadcasts == old(broadcasts) && daemonCommands == old(daemonCommands)
      {
        displays := displays[i := Loaded(settings, displays[i], i)];
      }
    }

    /** readConfigFile: display 0's mode and depth from the config file. */
    method ReadConfigFile() returns (r: Result<(), ConfigError>)
      requires Valid()
      modifies this
      ensures Valid()
      ensures match ReadConfig(configFile.text)
        case Ok((m, d)) => r.Ok? && displays == old(displays)[0 := ApplyConfig(old(displays[0]), m, d)]
        case Err(TooFewLines) => r == Err(TooFewLines) && displays == old(displays)
        case Err(BadDepth(m)) => r == Err(BadDepth(m)) && displays == old(displays)[0 := ApplyConfig(old(displays[0]), m, None)]
      ensures modeLists == old(modeLists) && dbQueue == old(dbQueue) && settings == old(settings)
      ensures broadcasts == old(broadcasts) && daemonCommands == old(daemonCommands)
    {
      var rc := ReadConfig(configFile.text);
      match rc
      case Ok((m, d)) =>
        displays := displays[0 := ApplyConfig(displays[0], m, d)];
        r := Ok(());
      case Err(TooFewLines) =>
        r := Err(TooFewLines);
      case Err(BadDepth(m)) =>
        displays := displays[0 := ApplyConfig(displays[0], m, None)];
        r := Err(BadDepth(m));
    }

    /**
     * getDefaultValue: the settings, then the config file for display 0; an exception
     * from readConfigFile leaves what was stored before it.
     */
    method GetDefaultValue() returns (r: Result<(), ConfigError>)
      requires Valid()
      modifies this
      ensures Valid()
      ensures displays == AfterReadConfig(LoadedAll(settings, old(displays)), ReadConfig(configFile.text))
      ensures r.Ok? <==> ReadConfig(configFile.text).Ok?
      ensures r.Err? ==> r.error == ReadConfig(configFile.text).error
      ensures modeLists == old(modeLists) && dbQueue == old(dbQueue) && settings == old(settings)
      ensures broadcasts == old(broadcasts) && daemonCommands == old(daemonCommands)
    {
      LoadSettings();
      assert displays == LoadedAll(settings, old(displays));
      r := ReadConfigFile();
    }

    /**
     * new DisplayManagerService: the constructor's fields, then getDefaultValue; the
     * exception readConfigFile throws escapes the constructor.
     */
    static method Create(file: ConfigFile, settings: Settings, titleId: int,
                         hasSurfaceFlinger: bool, hasWindowManager: bool, flingerReply: int)
      returns (r: Result<Service, ConfigError>)
      requires titleId != 0
      ensures r.Ok? <==> ReadConfig(file.text).Ok?
      ensures r.Err? ==> r.error == ReadConfig(file.text).error
      ensures r.Ok? ==> var svc := r.value;
        fresh(svc) && svc.Valid() && svc.configFile == file && svc.settings == settings
        && svc.slots.Snapshot() == Initial()
        && svc.displays == AfterReadConfig(LoadedAll(settings, DEFAULT_DISPLAYS), ReadConfig(file.text))
        && svc.modeLists == [None, None, None, None] && svc.dbQueue == []
        && svc.handler.queue == [] && svc.broadcasts == [] && svc.daemonCommands == []
    {
      var svc := new Service(file, settings, titleId, hasSurfaceFlinger, hasWindowManager, flingerReply);
      var loaded := svc.GetDefaultValue();
      if loaded.Err? {
        return Err(loaded.error);
      }
      return Ok(svc);
    }

    /** commandDisplayEnable: stores the value only when asked to save, always posts. */
    method CommandDisplayEnable(dispid: int, save: int, enable: bool) returns (r: Result<bool, DisplayError>)
      requires Valid()
      modifies this
      ensures Valid()
      ensures Outcome(KnobCommand(old(Snap()), EnableKnob, dispid, FbOf(dispid), save, if enable then 1 else 0),
        old(Snap()), Snap(), r)
      ensures modeLists == old(modeLists) && settings == old(settings)
      ensures broadcasts == old(broadcasts) && daemonCommands == old(daemonCommands)
    {
      var fbid := slots.GetFbId(dispid);
      var v := if enable then 1 else 0;
      if save == 1 {
        if !(0 <= dispid < MAX_DISPLAY_DEVICE) {
          return Err(NoSuchDisplay(dispid));
        }
        displays := displays[dispid := displays[dispid].(enable := v)];
      }
      dbQueue := dbQueue + [DbMsg(DISPLAY_ENABLE_MSG, fbid, save, IntObj(v))];
      r := Ok(true);
    }

    /** commandDisplayMirror: stores and posts. */
    method CommandDisplayMirror(dispid: int, save: int, enable: bool) returns (r: Result<bool, DisplayError>)
      requires Valid()
      modifies this
      ensures Valid()
      ensures Outcome(KnobCommand(old(Snap()), MirrorKnob, dispid, FbOf(dispid), save, if enable then 1 else 0),
        old(Snap()), Snap(), r)
      ensures modeLists == old(modeLists) && settings == old(settings)
      ensures broadcasts == old(broadcasts) && daemonCommands == old(daemonCommands)
    {
      var fbid := slots.GetFbId(dispid);
      var v := if enable then 1 else 0;
      if !(0 <= dispid < MAX_DISPLAY_DEVICE) {
        return Err(NoSuchDisplay(dispid));
      }
      displays := displays[dispid := displays[dispid].(mirror := v)];
      dbQueue := dbQueue + [DbMsg(DISPLAY_MIRROR_MSG, fbid, save, IntObj(v))];
      r := Ok(true);
    }

    /** commandDisplayRotation: stores and posts. */
    method CommandDisplayRotation(dispid: int, save: int, enable: bool) returns (r: Result<bool, DisplayError>)
      requires Valid()
      modifies this
      ensures Valid()
      ensures Outcome(KnobCommand(old(Snap()), RotationKnob, dispid, FbOf(dispid), save, if enable then 1 else 0),
        old(Snap()), Snap(), r)
      ensures modeLists == old(modeLists) && settings == old(settings)
      ensures broadcasts == old(broadcasts) && daemonCommands == old(daemonCommands)
    {
      var fbid := slots.GetFbId(dispid);
      var v := if enable then 1 else 0;
      if !(0 <= dispid < MAX_DISPLAY_DEVICE) {
        return Err(NoSuchDisplay(dispid));
      }
      displays := displays[dispid := displays[dispid].(rotation := v)];
      dbQueue := dbQueue + [DbMsg(DISPLAY_ROTATION_MSG, fbid, save, IntObj(v))];
      r := Ok(true);
    }

    /** commandDisplayOverScan: nothing to do when the value is already stored. */
    method CommandDisplayOverScan(dispid: int, save: int, overscan: int) returns (r: Result<bool, DisplayError>)
      requires Valid()
      modifies this
      ensures Valid()
      ensures Outcome(KnobCommand(old(Snap()), OverScanKnob, dispid, FbOf(dispid), save, overscan),
        old(Snap()), Snap(), r)
      ensures modeLists == old(modeLists) && settings == old(settings)
      ensures broadcasts == old(broadcasts) && daemonCommands == old(daemonCommands)
    {
      var fbid := slots.GetFbId(dispid);
      if !(0 <= dispid < MAX_DISPLAY_DEVICE) {
        return Err(NoSuchDisplay(dispid));
      }
      if overscan == displays[dispid].overscan {
        return Ok(true);
      }
      displays := displays[dispid := displays[dispid].(overscan := overscan)];
      dbQueue := dbQueue + [DbMsg(DISPLAY_OVERSCAN_MSG, fbid, save, IntObj(overscan))];
      r := Ok(true);
    }

    /**
     * commandDisplayColorDepth: nothing to do when the value is already stored;
     * display 0's depth is also written to the config file.
     */
    method CommandDisplayColorDepth(dispid: int, save: int, colordepth: int) returns (r: Result<bool, DisplayError>)
      requires Valid()
      modifies this, configFile
      ensures Valid()
      ensures Outcome(KnobCommand(old(Snap()), ColorDepthKnob, dispid, FbOf(dispid), save, colordepth),
        old(Snap()), Snap(), r)
      ensures modeLists == old(modeLists) && settings == old(settings)
      ensures broadcasts == old(broadcasts) && daemonCommands == old(daemonCommands)
    {
      var fbid := slots.GetFbId(dispid);
      if !(0 <= dispid < MAX_DISPLAY_DEVICE) {
        return Err(NoSuchDisplay(dispid));
      }
      if colordepth == displays[dispid].colordepth {
        return Ok(true);
      }
      displays := displays[dispid := displays[dispid].(colordepth := colordepth)];
      if dispid == 0 {
        configFile.text := Some(ConfigText(displays[0].mode, colordepth));
      }
      dbQueue := dbQueue + [DbMsg(DISPLAY_COLORDEPTH_MSG, fbid, save, IntObj(colordepth))];
      r := Ok(true);
    }

    /**
     * commandDisplayMode: a null mode throws once the display is known to exist; nothing
     * to do when the mode is already stored; display 0's mode is also written to the
     * config file.
     */
    method CommandDisplayMode(dispid: int, save: int, mode: Option<string>) returns (r: Result<bool, DisplayError>)
      requires Valid()
      modifies this, configFile
      ensures Valid()
      ensures Outcome(ModeCommand(old(Snap()), dispid, FbOf(dispid), save, mode), old(Snap()), Snap(), r)
      ensures modeLists == old(modeLists) && settings == old(settings)
      ensures broadcasts == old(broadcasts) && daemonCommands == old(daemonCommands)
    {
      var fbid := slots.GetFbId(dispid);
      if !(0 <= dispid < MAX_DISPLAY_DEVICE) {
        return Err(NoSuchDisplay(dispid));
      }
      if mode.None? {
        return Err(NullModeString);
      }
      if displays[dispid].mode == mode {
        return Ok(true);
      }
      displays := displays[dispid := displays[dispid].(mode := mode)];
      if dispid == 0 {
        configFile.text := Some(ConfigText(mode, displays[0].colordepth));
      }
      dbQueue := dbQueue + [DbMsg(DISPLAY_MODE_MSG, fbid, save, ModeObj(mode.value))];
      r := Ok(true);
    }

    /**
     * selectDisplayDefaultMode: the stored mode must be present and parse, then the
     * daemon's list is fetched and kept, then a listed mode is chosen and stored.
     */
    method SelectDisplayDefaultMode(dispid: int, reply: Option<seq<string>>) returns (r: Result<(), DisplayError>)
      requires Valid()
      modifies this
      ensures Valid()
      ensures !(0 <= dispid < MAX_DISPLAY_DEVICE) ==>
        r == Err(NoSuchDisplay(dispid)) && displays == old(displays) &&
        modeLists == old(modeLists) && daemonCommands == old(daemonCommands)
      ensures 0 <= dispid < MAX_DISPLAY_DEVICE ==>
        var res := DefaultMode(old(displays[dispid].mode), reply);
        (res.Ok? ==> r.Ok? && displays == old(displays)[dispid := old(displays[dispid]).(mode := Some(res.value))]) &&
        (res.Err? ==> r == Err(res.error) && displays == old(displays))
      ensures 0 <= dispid < MAX_DISPLAY_DEVICE && Queries(old(displays[dispid].mode)) ==>
        daemonCommands == old(daemonCommands) + [ListCommand(FbOf(dispid))] &&
        modeLists == (if reply.Some? then old(modeLists)[dispid := reply] else old(modeLists))
      ensures 0 <= dispid < MAX_DISPLAY_DEVICE && !Queries(old(displays[dispid].mode)) ==>
        daemonCommands == old(daemonCommands) && modeLists == old(modeLists)
      ensures 0 <= dispid < MAX_DISPLAY_DEVICE ==>
        QueryEffect(Queries(old(displays[dispid].mode)), dispid, FbOf(dispid), reply)
      ensures dbQueue == old(dbQueue) && settings == old(settings) && broadcasts == old(broadcasts)
    {
      if !(0 <= dispid < MAX_DISPLAY_DEVICE) {
        return Err(NoSuchDisplay(dispid));
      }
      var res, queried := ChooseDefault(displays[dispid].mode, reply);
      r := ApplyDefault(dispid, res, queried, reply);
    }

    /** What selectDisplayDefaultMode leaves once its choice is known. */
    method ApplyDefault(dispid: int, res: Result<string, DisplayError>, queried: bool, reply: Option<seq<string>>)
      returns (r: Result<(), DisplayError>)
      requires Valid() && 0 <= dispid < MAX_DISPLAY_DEVICE
      modifies this
      ensures Valid()
      ensures res.Ok? ==> r.Ok? && displays == old(displays)[dispid := old(displays[dispid]).(mode := Some(res.value))]
      ensures res.Err? ==> r == Err(res.error) && displays == old(displays)
      ensures queried ==> (daemonCommands == old(daemonCommands) + [ListCommand(FbOf(dispid))] &&
        modeLists == (if reply.Some? then old(modeLists)[dispid := reply] else old(modeLists)))
      ensures !queried ==> daemonCommands == old(daemonCommands) && modeLists == old(modeLists)
      ensures dbQueue == old(dbQueue) && settings == old(settings) && broadcasts == old(broadcasts)
    {
      if queried {
        var fbid := slots.GetFbId(dispid);
        daemonCommands := daemonCommands + [ListCommand(fbid)];
        if reply.Some? {
          modeLists := modeLists[dispid := reply];
        }
      }
      if res.Err? {
        return Err(res.error);
      }
      displays := displays[dispid := displays[dispid].(mode := Some(res.value))];
      r := Ok(());
    }

    /**
     * What setDisplayConnectState leaves for display d, whose first framebuffer is fbOfD:
     * on connect the default mode is chosen first (asking the daemon for the mode list
     * when the stored mode parses), and its exception ends the call; then the display's
     * attach broadcast goes out and an enabled secondary display gets an unsaved enable
     * (connect) or disable command; a display past the last throws at mDisplay_enable
     * after the broadcast check. `err` is the exception thrown, if any.
     */
    twostate predicate ConnectStateEffect(d: int, fbOfD: int, connect: bool, reply: Option<seq<string>>,
                                          new err: Option<DisplayError>)
      requires old(|displays|) == MAX_DISPLAY_DEVICE && old(|modeLists|) == MAX_DISPLAY_DEVICE
      reads this, configFile
    {
      var known := 0 <= d < MAX_DISPLAY_DEVICE;
      QueryEffect(connect && known && Queries(old(displays[d].mode)), d, fbOfD, reply)
      && settings == old(settings) && configFile.text == old(configFile.text)
      && if connect && !known then err == Some(NoSuchDisplay(d)) && TablesKept()
         else if connect && DefaultMode(old(displays[d].mode), reply).Err? then
           err == Some(DefaultMode(old(displays[d].mode), reply).error) && TablesKept()
         else
           displays == (if connect then old(displays)[d := old(displays[d]).(mode := Some(DefaultMode(old(displays[d].mode), reply).value))]
                        else old(displays))
           && AnnounceEffect(d, fbOfD, connect, err)
    }

    /** The daemon is asked for display d's mode list exactly when `queried`. */
    twostate predicate QueryEffect(queried: bool, d: int, fbOfD: int, reply: Option<seq<string>>)
      requires queried ==> 0 <= d < old(|modeLists|)
      reads this
    {
      daemonCommands == old(daemonCommands) + (if queried then [ListCommand(fbOfD)] else [])
      && modeLists == (if queried && reply.Some? then old(modeLists)[d := reply] else old(modeLists))
    }

    /** An exception before the broadcast: the displays, queue and broadcasts are kept. */
    twostate predicate TablesKept()
      reads this
    {
      displays == old(displays) && dbQueue == old(dbQueue) && broadcasts == old(broadcasts)
    }

    /**
     * The broadcast and the enable command of setDisplayConnectState for display d; a
     * display past the last throws at mDisplay_enable.
     */
    twostate predicate AnnounceEffect(d: int, fbOfD: int, connect: bool, new err: Option<DisplayError>)
      requires old(|displays|) == MAX_DISPLAY_DEVICE
      reads this
    {
      broadcasts == old(broadcasts) + (if 0 <= d < MAX_DISPLAY_DEVICE then [DisplayAttached(d, connect)] else [])
      && (d >= MAX_DISPLAY_DEVICE ==> err == Some(NoSuchDisplay(d)) && dbQueue == old(dbQueue))
      && (d < MAX_DISPLAY_DEVICE ==>
            err == None && dbQueue == old(dbQueue)
              + (if 0 < d && old(displays[d].enable) == 1
                 then [DbMsg(DISPLAY_ENABLE_MSG, fbOfD, 0, IntObj(if connect then 1 else 0))] else []))
    }

    /** setDisplayConnectState for framebuffer fbid: the effect above for its display. */
    method SetDisplayConnectState(fbid: int, connect: bool, reply: Option<seq<string>>) returns (r: Result<(), DisplayError>)
      requires Valid() && 0 <= fbid < MAX_FB_DEVICE
      modifies this
      ensures Valid()
      ensures ConnectStateEffect(DispOf(fbid), FbOf(DispOf(fbid)), connect, reply, ErrorOf(r))
    {
      var dispid := slots.GetDispId(fbid);
      if connect {
        r := ConnectDisplay(dispid, reply);
        assert ConnectStateEffect(dispid, FbOf(dispid), true, reply, ErrorOf(r));
      } else {
        r := AnnounceConnectState(dispid, false);
        assert ConnectStateEffect(dispid, FbOf(dispid), false, reply, ErrorOf(r));
      }
    }

    /** setDisplayConnectState's connect path for display dispid. */
    method ConnectDisplay(dispid: int, reply: Option<seq<string>>) returns (r: Result<(), DisplayError>)
      requires Valid()
      modifies this
      ensures Valid()
      ensures ConnectStateEffect(dispid, FbOf(dispid), true, reply, ErrorOf(r))
    {
      var sel := SelectDisplayDefaultMode(dispid, reply);
      if sel.Err? {
        return Err(sel.error);
      }
      label selected:
      r := AnnounceConnectState(dispid, true);
      assert old@selected(displays[dispid].enable) == old(displays[dispid].enable);
      assert old@selected(broadcasts) == old(broadcasts) && old@selected(dbQueue) == old(dbQueue);
      assert AnnounceEffect(dispid, FbOf(dispid), true, ErrorOf(r));
      assert QueryEffect(Queries(old(displays[dispid].mode)), dispid, FbOf(dispid), reply);
    }

    /**
     * The rest of setDisplayConnectState: the attach broadcast, then the enable
     * command for a secondary display that is enabled.
     */
    method AnnounceConnectState(dispid: int, connect: bool) returns (r: Result<(), DisplayError>)
      requires Valid()
      modifies this
      ensures Valid()
      ensures AnnounceEffect(dispid, FbOf(dispid), connect, ErrorOf(r))
      ensures displays == old(displays) && modeLists == old(modeLists) && settings == old(settings)
      ensures daemonCommands == old(daemonCommands) && configFile.text == old(configFile.text)
    {
      if 0 <= dispid < MAX_DISPLAY_DEVICE {
        broadcasts := broadcasts + [DisplayAttached(dispid, connect)];
      }
      if dispid > 0 {
        if dispid >= MAX_DISPLAY_DEVICE {
          return Err(NoSuchDisplay(dispid));
        }
        if displays[dispid].enable == 1 {
          var e := CommandDisplayEnable(dispid, 0, connect);
        }
      }
      r := Ok(());
    }

    /** Nothing the service, its slots or its handler hold has changed. */
    twostate predicate Untouched()
      requires old(slots.Valid()) && slots.Valid()
      reads this, slots, slots.displayFb, slots.stateFb, slots.stateDisplay, handler, configFile
    {
      slots.Snapshot() == old(slots.Snapshot()) && handler.queue == old(handler.queue)
      && Snap() == old(Snap()) && broadcasts == old(broadcasts) && daemonCommands == old(daemonCommands)
      && modeLists == old(modeLists) && settings == old(settings)
    }

    /**
     * The InterfaceConnected case for framebuffer fb: the slots connect it, a secondary
     * framebuffer queues a CONNECTED update, and then setDisplayConnectState runs for
     * the display the connect gave it.
     */
    twostate predicate ConnectedEffect(fb: int, reply: Option<seq<string>>, new r: Result<bool, DisplayError>)
      requires old(Valid()) && Valid() && 0 <= fb < MAX_FB_DEVICE
      reads this, slots, slots.displayFb, slots.stateFb, slots.stateDisplay, handler, configFile
    {
      var after := ConnectSpec(old(slots.Snapshot()), fb);
      var d := after.displayFb[fb];
      slots.Snapshot() == after
      && handler.queue == (if fb != 0 then UpdateQueue(old(handler.queue), "CONNECTED") else old(handler.queue))
      && ConnectStateEffect(d, FirstIndex(after.displayFb, d), true, reply, ErrorOf(r))
      && (r.Ok? ==> r == Ok(true))
    }

    /**
     * The InterfaceDisconnected case for framebuffer fb: nothing unless it is connected;
     * then setDisplayConnectState runs for its display, the slots remove it, and a
     * DISCONNECTED update is queued when at most one secondary display remains. Every
     * exception names the framebuffer's display: one from setDisplayConnectState leaves
     * the slots alone, one from the removal comes after it cleared the connected flag,
     * and neither queues an update.
     */
    twostate predicate DisconnectedEffect(fb: int, new r: Result<bool, DisplayError>)
      requires old(Valid()) && Valid() && 0 <= fb < MAX_FB_DEVICE
      reads this, slots, slots.displayFb, slots.stateFb, slots.stateDisplay, handler, configFile
    {
      if old(slots.Snapshot()).stateFb[fb] != 1 then r == Ok(true) && Untouched()
      else TearDownEffect(fb, r)
    }

    /** The InterfaceDisconnected case for a connected framebuffer fb. */
    twostate predicate TearDownEffect(fb: int, new r: Result<bool, DisplayError>)
      requires old(Valid()) && Valid() && 0 <= fb < MAX_FB_DEVICE
      reads this, slots, slots.displayFb, slots.stateFb, slots.stateDisplay, handler, configFile
    {
      var before := old(slots.Snapshot());
      var d := before.displayFb[fb];
      ConnectStateEffect(d, FirstIndex(before.displayFb, d), false, None,
                         if d >= MAX_DISPLAY_DEVICE then Some(NoSuchDisplay(d)) else None)
      && (r.Ok? <==> 0 <= d < MAX_DISPLAY_DEVICE)
      && (r.Err? ==> r == Err(NoSuchDisplay(d)))
      && (r.Ok? ==> r == Ok(true))
      && var after := if d < MAX_DISPLAY_DEVICE then RemoveSpec(before, fb).0 else before;
         slots.Snapshot() == after
         && handler.queue == (if r.Ok? && after.count - 1 <= 1 then UpdateQueue(old(handler.queue), "DISCONNECTED")
                              else old(handler.queue))
    }

    /**
     * The daemon callback's onEvent: the framebuffer number comes first, then a
     * connect or disconnect event updates the slots, the display and the handler;
     * any other code returns false.
     */
    method OnEvent(code: int, cooked: seq<string>, reply: Option<seq<string>>) returns (r: Result<bool, DisplayError>)
      requires Valid()
      modifies this, slots, slots.displayFb, slots.stateFb, slots.stateDisplay, handler
      ensures Valid()
      ensures EventFb(cooked).Err? ==> r == Err(EventFb(cooked).error) && Untouched()
      ensures EventFb(cooked).Ok? && code != INTERFACE_CONNECTED && code != INTERFACE_DISCONNECTED ==>
        r == Ok(false) && Untouched()
      ensures (EventFb(cooked).Ok? && (code == INTERFACE_CONNECTED || code == INTERFACE_DISCONNECTED) &&
        !(0 <= EventFb(cooked).value < MAX_FB_DEVICE)) ==>
        r == Err(NoSuchFramebuffer(EventFb(cooked).value)) && Untouched()
      ensures EventFb(cooked).Ok? && code == INTERFACE_CONNECTED && 0 <= EventFb(cooked).value < MAX_FB_DEVICE ==>
        ConnectedEffect(EventFb(cooked).value, reply, r)
      ensures EventFb(cooked).Ok? && code == INTERFACE_DISCONNECTED && 0 <= EventFb(cooked).value < MAX_FB_DEVICE ==>
        DisconnectedEffect(EventFb(cooked).value, r)
    {
      var e := EventFb(cooked);
      if e.Err? {
        return Err(e.error);
      }
      var fb := e.value;
      if code != INTERFACE_CONNECTED && code != INTERFACE_DISCONNECTED {
        return Ok(false);
      }
      if !(0 <= fb < MAX_FB_DEVICE) {
        return Err(NoSuchFramebuffer(fb));
      }
      if code == INTERFACE_CONNECTED {
        r := Connected(fb, reply);
      } else {
        r := Disconnected(fb);
      }
    }

    /** The connected event for framebuffer fb. */
    method Connected(fb: int, reply: Option<seq<string>>) returns (r: Result<bool, DisplayError>)
      requires Valid() && 0 <= fb < MAX_FB_DEVICE
      modifies this, slots, slots.displayFb, slots.stateFb, slots.stateDisplay, handler
      ensures Valid()
      ensures ConnectedEffect(fb, reply, r)
    {
      ghost var after := ConnectSpec(slots.Snapshot(), fb);
      slots.Connect(fb);
      if fb != 0 {
        handler.UpdateState("CONNECTED");
      }
      label connected:
      ghost var d := after.displayFb[fb];
      assert DispOf(fb) == d && FbOf(d) == FirstIndex(after.displayFb, d);
      var c := SetDisplayConnectState(fb, true, reply);
      r := if c.Err? then Err(c.error) else Ok(true);
      assert ErrorOf(r) == ErrorOf(c);
      assert old@connected(Snap()) == old(Snap()) && old@connected(broadcasts) == old(broadcasts);
      assert old@connected(daemonCommands) == old(daemonCommands) && old@connected(modeLists) == old(modeLists);
      assert ConnectStateEffect(d, FirstIndex(after.displayFb, d), true, reply, ErrorOf(r));
    }

    /**
     * The disconnected event for framebuffer fb: only a connected framebuffer is torn
     * down, and on a consistent table it never throws.
     */
    method Disconnected(fb: int) returns (r: Result<bool, DisplayError>)
      requires Valid() && 0 <= fb < MAX_FB_DEVICE
      modifies this, slots, slots.displayFb, slots.stateFb, slots.stateDisplay, handler
      ensures Valid()
      ensures DisconnectedEffect(fb, r)
      ensures Consistent(old(slots.Snapshot())) ==> r == Ok(true)
    {
      var connected := slots.IsConnect(fb);
      if !connected {
        return Ok(true);
      }
      r := TearDown(fb);
    }

    /**
     * A connected framebuffer fb is disconnected: setDisplayConnectState for its display,
     * then the removal; on a consistent table neither throws.
     */
    method TearDown(fb: int) returns (r: Result<bool, DisplayError>)
      requires Valid() && 0 <= fb < MAX_FB_DEVICE && slots.Snapshot().stateFb[fb] == 1
      modifies this, slots, slots.displayFb, slots.stateFb, slots.stateDisplay, handler
      ensures Valid()
      ensures TearDownEffect(fb, r)
      ensures Consistent(old(slots.Snapshot())) ==> r == Ok(true)
    {
      ghost var s0 := slots.Snapshot();
      ghost var d0 := s0.displayFb[fb];
      var c := SetDisplayConnectState(fb, false, None);
      assert ConnectStateEffect(d0, FirstIndex(s0.displayFb, d0), false, None, ErrorOf(c));
      if c.Err? {
        if Consistent(s0) {
          assert false;
        }
        return Err(c.error);
      }
      label announced:
      r := RemoveFramebuffer(fb);
      if Consistent(s0) && r.Err? {
        assert false;
      }
      assert old@announced(Snap()) == Snap() && old@announced(broadcasts) == broadcasts;
      assert old@announced(daemonCommands) == daemonCommands && old@announced(modeLists) == modeLists;
    }

    /**
     * The rest of the disconnected event: the slots remove framebuffer fb, and a
     * DISCONNECTED update is queued when at most one secondary display remains; the
     * removal throws when the framebuffer has no display, after clearing its connected
     * flag and without queueing anything.
     */
    method RemoveFramebuffer(fb: int) returns (r: Result<bool, DisplayError>)
      requires Valid() && 0 <= fb < MAX_FB_DEVICE && slots.Snapshot().stateFb[fb] == 1
      modifies slots, slots.displayFb, slots.stateFb, slots.stateDisplay, handler
      ensures Valid()
      ensures var d := old(slots.Snapshot()).displayFb[fb];
        (r.Ok? <==> 0 <= d < MAX_DISPLAY_DEVICE) && (r.Err? ==> r == Err(NoSuchDisplay(d)))
      ensures r.Ok? ==> r == Ok(true)
      ensures var after := RemoveSpec(old(slots.Snapshot()), fb).0;
        slots.Snapshot() == after
        && handler.queue == (if r.Ok? && after.count - 1 <= 1 then UpdateQueue(old(handler.queue), "DISCONNECTED")
                             else old(handler.queue))
    {
      var d := slots.GetDispId(fb);
      var ok := slots.Remove(fb);
      if !ok {
        return Err(NoSuchDisplay(d));
      }
      var count := slots.GetCount();
      if count <= 1 {
        handler.UpdateState("DISCONNECTED");
      }
      r := Ok(true);
    }

    /**
     * What the DisplayCommand object and the config file show after the database
     * handler gave it cmd: nothing for no command; display 0's resolution goes to
     * setMainDisplay (failed when it throws); every other command is issued once.
     */
    ghost predicate Executed(before: DisplayCommand.Param, sentBefore: seq<DisplayCommand.Transaction>,
                             textBefore: Option<string>, modesBefore: seq<string>,
                             cmd: Option<DisplayCommand.Cmd>, failed: bool)
      reads command, command.cfg, command.file, configFile
    {
      match cmd
      case None =>
        !failed && command.cfg.Snapshot() == before && command.transactions == sentBefore &&
        configFile.text == textBefore && command.windowModes == modesBefore
      case Some(c) =>
        if c.Resolution? && c.id == 0 && command.hasSurfaceFlinger then
          command.cfg.Snapshot() == before && command.transactions == sentBefore &&
          command.MainDisplaySet(textBefore, modesBefore, c.resolution,
            if failed then Err(DisplayCommand.MalformedMode(c.resolution))
            else if command.hasWindowManager then Ok(0) else Ok(-1))
        else
          !failed && configFile.text == textBefore && command.windowModes == modesBefore &&
          command.Issued(before, sentBefore, c, if command.hasSurfaceFlinger then command.flingerReply else -1)
    }

    /** The DisplayCommand call the database handler makes for cmd. */
    method ExecuteCmd(cmd: Option<DisplayCommand.Cmd>) returns (failed: bool)
      requires command.file == configFile
      modifies command, command.cfg, configFile
      ensures Executed(old(command.cfg.Snapshot()), old(command.transactions), old(configFile.text),
        old(command.windowModes), cmd, failed)
      ensures command.flingerReply == old(command.flingerReply)
    {
      failed := false;
      if cmd.None? {
        return;
      }
      match cmd.value
      case Enable(id, m, rot, o, mi, d) =>
        var _ := command.Enable(id, m, rot, o, mi, d);
      case Disable(id) =>
        var _ := command.Disable(id);
      case Resolution(id, m) =>
        var res := command.SetResolution(id, m);
        failed := res.Err?;
      case OverScan(id, v) =>
        var _ := command.SetOverScan(id, v);
      case Mirror(id, v) =>
        var _ := command.SetMirror(id, v);
      case ColorDepth(id, v) =>
        var _ := command.SetColorDepth(id, v);
      case Rotation(id, v) =>
        var _ := command.SetRotation(id, v);
    }

    /**
     * mDatabaseHandler's handleMessage: the display the message's framebuffer maps to
     * now, the command for it, the audio broadcast, then the settings.
     */
    method HandleDbMessage(msg: DbMsg) returns (r: Result<(), DisplayError>)
      requires Valid()
      modifies this, command, command.cfg, configFile
      ensures Valid()
      ensures displays == old(displays) && dbQueue == old(dbQueue) && modeLists == old(modeLists)
      ensures daemonCommands == old(daemonCommands)
      ensures !(0 <= msg.fbid < MAX_FB_DEVICE) ==>
        r == Err(NoSuchFramebuffer(msg.fbid)) && settings == old(settings) && broadcasts == old(broadcasts) &&
        Executed(old(command.cfg.Snapshot()), old(command.transactions), old(configFile.text),
          old(command.windowModes), None, false)
      ensures 0 <= msg.fbid < MAX_FB_DEVICE && DbStep(msg, DispOf(msg.fbid), old(displays), old(settings)).Err? ==>
        r == Err(DbStep(msg, DispOf(msg.fbid), old(displays), old(settings)).error) &&
        settings == old(settings) && broadcasts == old(broadcasts) &&
        Executed(old(command.cfg.Snapshot()), old(command.transactions), old(configFile.text),
          old(command.windowModes), None, false)
      ensures 0 <= msg.fbid < MAX_FB_DEVICE && DbStep(msg, DispOf(msg.fbid), old(displays), old(settings)).Ok? ==>
        var a := DbStep(msg, DispOf(msg.fbid), old(displays), old(settings)).value;
        broadcasts == old(broadcasts) + AudioBroadcast(a.audio) &&
        Executed(old(command.cfg.Snapshot()), old(command.transactions), old(configFile.text),
          old(command.windowModes), a.cmd, r.Err? && r.error.CommandFailed?) &&
        (a.late.Some? && !(r.Err? && r.error.CommandFailed?) ==> r == Err(a.late.value)) &&
        (r.Ok? ==> a.late.None? && settings == a.settings) &&
        (r.Err? ==> settings == old(settings))
    {
      if !(0 <= msg.fbid < MAX_FB_DEVICE) {
        return Err(NoSuchFramebuffer(msg.fbid));
      }
      var dispid := slots.GetDispId(msg.fbid);
      var step := DbStep(msg, dispid, displays, settings);
      if step.Err? {
        return Err(step.error);
      }
      r := RunDbAction(step.value);
    }

    /** The part of handleMessage after the display was found: command, broadcast, settings. */
    method RunDbAction(a: DbAction) returns (r: Result<(), DisplayError>)
      requires Valid() && (a.late.Some? ==> !a.late.value.CommandFailed?)
      modifies this, command, command.cfg, configFile
      ensures Valid()
      ensures displays == old(displays) && dbQueue == old(dbQueue) && modeLists == old(modeLists)
      ensures daemonCommands == old(daemonCommands)
      ensures broadcasts == old(broadcasts) + AudioBroadcast(a.audio)
      ensures Executed(old(command.cfg.Snapshot()), old(command.transactions), old(configFile.text),
        old(command.windowModes), a.cmd, r.Err? && r.error.CommandFailed?)
      ensures a.late.Some? && !(r.Err? && r.error.CommandFailed?) ==> r == Err(a.late.value)
      ensures r.Ok? ==> a.late.None? && settings == a.settings
      ensures r.Err? ==> settings == old(settings)
    {
      var failed := ExecuteCmd(a.cmd);
      broadcasts := broadcasts + AudioBroadcast(a.audio);
      if failed {
        return Err(CommandFailed(a.cmd.value.resolution));
      }
      if a.late.Some? {
        return Err(a.late.value);
      }
      settings := a.settings;
      r := Ok(());
    }

    /** The database handler takes its messages in the order they were posted. */
    method NextDbMessage() returns (msg: DbMsg)
      requires Valid() && |dbQueue| > 0
      modifies this
      ensures Valid()
      ensures msg == old(dbQueue[0]) && dbQueue == old(dbQueue[1..])
      ensures displays == old(displays) && modeLists == old(modeLists) && settings == old(settings)
      ensures broadcasts == old(broadcasts) && daemonCommands == old(daemonCommands)
    {
      msg := dbQueue[0];
      dbQueue := dbQueue[1..];
    }

    /** systemReady: the notification manager is fetched and the handler told. */
    method SystemReady()
      requires Valid()
      modifies handler
      ensures Valid() && handler.hasNotificationManager
      ensures handler.queue == old(handler.queue) + [HandlerMsg(MSG_SYSTEM_READY, 0, 0, 0)]
    {
      handler.SystemReady();
    }

    /** getDisplayModeList: the list last fetched for the display, null before any. */
    function GetDisplayModeList(dispid: int): (r: Result<Option<seq<string>>, DisplayError>)
      reads this
      requires |modeLists| == MAX_DISPLAY_DEVICE
      ensures r.Err? <==> !(0 <= dispid < MAX_DISPLAY_DEVICE)
    {
      if 0 <= dispid < MAX_DISPLAY_DEVICE then Ok(modeLists[dispid]) else Err(NoSuchDisplay(dispid))
    }
  }
}

=== FILE: display_modes.dfy ===
/**
 * The display manager's reading of mode strings ("1920x1080p-60") into width, height
 * and refresh rate, and its choice of a default mode from the list the display
 * daemon reports for a newly connected display.
 */
module DisplayModes {
  import opened JavaLang
  import opened DisplayConfig
  import DisplayCommand

  // ---------------------------------------------------------------------------
  // getResolutionInString

  /** width_startIndex after the scan: the first digit, or 0 without one. */
  function WidthStart(mode: string): int {
    if FirstDigit(mode) >= 0 then FirstDigit(mode) else 0
  }

  /** freq_startIndex after the scan: just after the last '-', or 0 without one. */
  function RateStart(mode: string): int {
    LastIndexOf(mode, '-') + 1
  }

  /** freq_endIndex after the scan: the last index once a '-' was seen, 0 otherwise. */
  function RateEnd(mode: string, len: int): int {
    if LastIndexOf(mode, '-') >= 0 then len - 1 else 0
  }

  /** The width text: from the first digit to just before the last 'x'. */
  function WidthText(mode: string): Option<string> {
    Substring(mode, WidthStart(mode), WidthEnd(mode) + 1)
  }

  /** The rate text: from just after the last '-' to the end. */
  function RateText(mode: string): Option<string> {
    Substring(mode, RateStart(mode), RateEnd(mode, |mode|) + 1)
  }

  datatype Resolution = Resolution(width: int, height: int, rate: int)

  /**
   * The three numbers getResolutionInString reads; None stands for the exception
   * that a substring out of range or a text Integer.parseInt refuses raises.
   */
  function ResolutionOf(mode: string): Option<Resolution> {
    match WidthText(mode)
    case None => None
    case Some(wt) =>
      match ParseInt(wt)
      case None => None
      case Some(w) =>
        match DisplayCommand.HeightText(mode)
        case None => None
        case Some(ht) =>
          match ParseInt(ht)
          case None => None
          case Some(h) =>
            match RateText(mode)
            case None => None
            case Some(rt) =>
              match ParseInt(rt)
              case None => None
              case Some(f) => Some(Resolution(w, h, f))
  }

  /** Every mode "<prefix><w>x<h><scan>-<rate>" reads back as its own three numbers. */
  lemma ResolutionOfMode(prefix: string, w: nat, h: nat, scan: char, rate: nat)
    requires IsModePrefix(prefix) && IsScan(scan)
    requires w <= INT_MAX && h <= INT_MAX && rate <= INT_MAX
    ensures ResolutionOf(Mode(prefix, w, h, scan, rate)) == Some(Resolution(w, h, rate))
  {
    var m := Mode(prefix, w, h, scan, rate);
    ModeHasLayout(prefix, w, h, scan, rate);
    TextsOfLayout(m, |prefix|, w, h, rate);
    ResolutionOfTexts(m, w, h, rate);
  }

  lemma TextsOfLayout(m: string, n: nat, w: nat, h: nat, rate: nat)
    requires ModeLayout(m, n, w, h, rate)
    ensures WidthText(m) == Some(NatToString(w))
    ensures DisplayCommand.HeightText(m) == Some(NatToString(h))
    ensures RateText(m) == Some(NatToString(rate))
  {
    var dw, dh := NatToString(w), NatToString(h);
    WidthTextIs(m, n, dw);
    DisplayCommand.HeightTextIs(m, n + |dw|, dh);
    RateTextIs(m, n + |dw| + |dh| + 2, NatToString(rate));
  }

  lemma WidthTextIs(m: string, n: nat, t: string)
    requires FirstDigit(m) == n && LastIndexOf(m, 'x') == n + |t|
    requires m[n..n + |t|] == t
    ensures WidthText(m) == Some(t)
  {
    SubstringOfSlice(m, n, t);
  }

  lemma RateTextIs(m: string, d: nat, t: string)
    requires LastIndexOf(m, '-') == d && |m| == d + 1 + |t| && m[d + 1..] == t
    ensures RateText(m) == Some(t)
  {
    assert RateStart(m) == d + 1 && RateEnd(m, |m|) + 1 == |m|;
    SubstringOfDrop(m, d + 1, t);
  }

  /** substring(b, length()) is the tail from b. */
  lemma SubstringOfDrop(m: string, b: nat, t: string)
    requires b <= |m| && m[b..] == t
    ensures Substring(m, b, |m|) == Some(t)
  {
    assert m[b..|m|] == m[b..];
  }

  lemma ResolutionOfTexts(m: string, w: nat, h: nat, rate: nat)
    requires WidthText(m) == Some(NatToString(w))
    requires DisplayCommand.HeightText(m) == Some(NatToString(h))
    requires RateText(m) == Some(NatToString(rate))
    requires w <= INT_MAX && h <= INT_MAX && rate <= INT_MAX
    ensures ResolutionOf(m) == Some(Resolution(w, h, rate))
  {
    ParseNat(w);
    ParseNat(h);
    ParseNat(rate);
  }

  /** A mode without a '-' takes its rate from its first character. */
  lemma RateOfModeWithoutDash(m: string)
    requires '-' !in m && |m| > 0
    ensures RateText(m) == Some(m[..1])
  {
  }

  /** One more character scanned: the first digit is an earlier one or this one. */
  lemma FirstDigitStep(s: string, i: nat)
    requires i < |s|
    ensures FirstDigit(s[..i + 1]) ==
      if FirstDigit(s[..i]) >= 0 then FirstDigit(s[..i])
      else if IsDigit(s[i]) then i else -1
  {
    var p, q := s[..i], s[..i + 1];
    assert forall j | 0 <= j < i :: q[j] == p[j];
    var k := FirstDigit(p);
    if k >= 0 {
      assert IsDigit(q[k]);
    } else if IsDigit(s[i]) {
      assert IsDigit(q[i]);
    }
  }

  /** One more character scanned, for each index getResolutionInString keeps. */
  lemma ScanStep(mode: string, i: nat)
    requires i < |mode|
    ensures WidthStart(mode[..i + 1]) ==
      if FirstDigit(mode[..i]) < 0 && IsDigit(mode[i]) then i else WidthStart(mode[..i])
    ensures FirstDigit(mode[..i + 1]) < 0 <==> FirstDigit(mode[..i]) < 0 && !IsDigit(mode[i])
    ensures WidthEnd(mode[..i + 1]) == if mode[i] == 'x' then i - 1 else WidthEnd(mode[..i])
    ensures HeightStart(mode[..i + 1]) == if mode[i] == 'x' then i + 1 else HeightStart(mode[..i])
    ensures HeightEnd(mode[..i + 1]) ==
      if mode[i] == 'p' || mode[i] == 'i' then i - 1 else HeightEnd(mode[..i])
    ensures RateStart(mode[..i + 1]) == if mode[i] == '-' then i + 1 else RateStart(mode[..i])
    ensures RateEnd(mode[..i + 1], |mode|) ==
      if mode[i] == '-' then |mode| - 1 else RateEnd(mode[..i], |mode|)
  {
    FirstDigitStep(mode, i);
    LastIndexOfStep(mode, i, 'x');
    LastIndexOfStep(mode, i, 'p');
    LastIndexOfStep(mode, i, 'i');
    LastIndexOfStep(mode, i, '-');
  }

  /** The index scan of getResolutionInString. */
  method ResolutionBounds(mode: string) returns (ws: int, we: int, hs: int, he: int, fs: int, fe: int)
    ensures ws == WidthStart(mode) && we == WidthEnd(mode)
    ensures hs == HeightStart(mode) && he == HeightEnd(mode)
    ensures fs == RateStart(mode) && fe == RateEnd(mode, |mode|)
  {
    ws, we, hs, he, fs, fe := 0, 0, 0, 0, 0, 0;
    var findStart := true;
    var i := 0;
    while i < |mode|
      invariant 0 <= i <= |mode|
      invariant findStart == (FirstDigit(mode[..i]) < 0)
      invariant ws == WidthStart(mode[..i])
      invariant we == WidthEnd(mode[..i]) && hs == HeightStart(mode[..i])
      invariant he == HeightEnd(mode[..i])
      invariant fs == RateStart(mode[..i]) && fe == RateEnd(mode[..i], |mode|)
    {
      ScanStep(mode, i);
      if IsDigit(mode[i]) && findStart {
        findStart := false;
        ws := i;
      }
      if mode[i] == 'x' {
        we := i - 1;
        hs := i + 1;
      }
      if mode[i] == 'p' || mode[i] == 'i' {
        he := i - 1;
      }
      if mode[i] == '-' {
        fs := i + 1;
        fe := |mode| - 1;
      }
      i := i + 1;
    }
    assert mode[..i] == mode;
  }

  method ResolutionTexts(mode: string) returns (wt: Option<string>, ht: Option<string>, rt: Option<string>)
    ensures wt == WidthText(mode) && ht == DisplayCommand.HeightText(mode)
    ensures rt == RateText(mode)
  {
    var ws, we, hs, he, fs, fe := ResolutionBounds(mode);
    wt := Substring(mode, ws, we + 1);
    ht := Substring(mode, hs, he + 1);
    rt := Substring(mode, fs, fe + 1);
  }

  /** getResolutionInString: None where the source throws. */
  method ParseResolution(mode: string) returns (r: Option<Resolution>)
    ensures r == ResolutionOf(mode)
  {
    var wt, ht, rt := ResolutionTexts(mode);
    if wt.None? {
      return None;
    }
    var w := ParseInt(wt.value);
    if w.None? {
      return None;
    }
    if ht.None? {
      return None;
    }
    var h := ParseInt(ht.value);
    if h.None? {
      return None;
    }
    if rt.None? {
      return None;
    }
    var f := ParseInt(rt.value);
    if f.None? {
      return None;
    }
    r := Some(Resolution(w.value, h.value, f.value));
  }

  // ---------------------------------------------------------------------------
  // selectDisplayDefaultMode

  /** A mode no larger than the requested one in width, height and rate. */
  predicate NotAbove(r: Resolution, req: Resolution) {
    r.width <= req.width && r.height <= req.height && r.rate <= req.rate
  }

  /** An entry the second search passes over: it parses and does not fit. */
  predicate Skipped(p: Option<Resolution>, req: Resolution) {
    p.Some? && !NotAbove(p.value, req)
  }

  /** The outcome of the second search: a fitting entry, none, or an entry that throws. */
  datatype Fit = Fits(index: nat) | NoFit | Unparsable(index: nat)

  /** Each entry of a mode list as getResolutionInString reads it. */
  function Parsed(list: seq<string>): (ps: seq<Option<Resolution>>)
    ensures |ps| == |list|
  {
    if |list| == 0 then [] else [ResolutionOf(list[0])] + Parsed(list[1..])
  }

  /** Entry k of the readings is the reading of entry k. */
  lemma {:induction false} ParsedAt(list: seq<string>, k: nat)
    requires k < |list|
    ensures Parsed(list)[k] == ResolutionOf(list[k])
  {
    if k > 0 {
      ParsedAt(list[1..], k - 1);
    }
  }

  /**
   * The search for the first entry no larger than req, in list order, given each
   * entry's reading; the search stops at the first entry that does not parse.
   */
  function FirstFit(ps: seq<Option<Resolution>>, req: Resolution): (r: Fit)
    ensures r.Fits? ==> (r.index < |ps| && ps[r.index].Some? && NotAbove(ps[r.index].value, req) &&
      forall j | 0 <= j < r.index :: Skipped(ps[j], req))
    ensures r.NoFit? ==> forall j | 0 <= j < |ps| :: Skipped(ps[j], req)
    ensures r.Unparsable? ==> (r.index < |ps| && ps[r.index].None? &&
      forall j | 0 <= j < r.index :: Skipped(ps[j], req))
  {
    if |ps| == 0 then NoFit
    else match ps[0]
      case None => Unparsable(0)
      case Some(r0) =>
        if NotAbove(r0, req) then Fits(0)
        else
          var rest := FirstFit(ps[1..], req);
          assert forall j | 1 <= j < |ps| :: ps[j] == ps[1..][j - 1];
          match rest
          case Fits(i) => Fits(i + 1)
          case NoFit => NoFit
          case Unparsable(i) => Unparsable(i + 1)
  }

  datatype SelectError =
    | NullMode                        // the stored mode is null
    | MalformedMode(mode: string)     // a mode getResolutionInString throws on
    | EmptyModeList                   // display_modes[0] of an empty list

  /**
   * The mode chosen for a display whose stored mode reads as req: the stored mode
   * itself when listed, else the first listed mode no larger, else the first one.
   */
  function SelectMode(current: string, req: Resolution, list: seq<string>): (r: Result<string, SelectError>)
    ensures r.Ok? ==> r.value in list
    ensures current in list ==> r == Ok(current)
  {
    if current in list then Ok(current)
    else match FirstFit(Parsed(list), req)
      case Fits(i) => Ok(list[i])
      case Unparsable(i) => Err(MalformedMode(list[i]))
      case NoFit => if |list| == 0 then Err(EmptyModeList) else Ok(list[0])
  }

  /**
   * The default mode for a display: the stored mode must be present and parse (the
   * source reads it before it fetches the list), then SelectMode.
   */
  function SelectDefault(current: Option<string>, list: seq<string>): Result<string, SelectError> {
    match current
    case None => Err(NullMode)
    case Some(c) =>
      match ResolutionOf(c)
      case None => Err(MalformedMode(c))
      case Some(req) => SelectMode(c, req, list)
  }

  /**
   * A mode chosen in place of an unlisted stored mode is the first listed mode no
   * larger than the stored one, or, when no listed mode is, the list's first entry.
   */
  lemma SelectedFitsOrFirst(current: string, req: Resolution, list: seq<string>)
    requires current !in list && SelectMode(current, req, list).Ok?
    ensures var m := SelectMode(current, req, list).value;
      (exists i | 0 <= i < |list| :: list[i] == m &&
         ResolutionOf(m).Some? && NotAbove(ResolutionOf(m).value, req) &&
         forall j | 0 <= j < i :: Skipped(ResolutionOf(list[j]), req)) ||
      (m == list[0] && forall j | 0 <= j < |list| :: Skipped(ResolutionOf(list[j]), req))
  {
    var ps := Parsed(list);
    forall j | 0 <= j < |list|
      ensures ps[j] == ResolutionOf(list[j])
    {
      ParsedAt(list, j);
    }
    match FirstFit(ps, req)
    case Fits(i) =>
      assert list[i] == SelectMode(current, req, list).value;
    case NoFit =>
    case Unparsable(_) =>
  }

  /** A non-empty list of modes that all parse always yields a mode. */
  lemma SelectModeOfParsedList(current: string, req: Resolution, list: seq<string>)
    requires |list| > 0
    requires forall j | 0 <= j < |list| :: ResolutionOf(list[j]).Some?
    ensures SelectMode(current, req, list).Ok?
  {
    var ps := Parsed(list);
    forall j | 0 <= j < |list|
      ensures ps[j].Some?
    {
      ParsedAt(list, j);
    }
    FirstFitOfReadable(ps, req);
  }

  /** When every entry reads, the second search never stops at an unreadable one. */
  lemma FirstFitOfReadable(ps: seq<Option<Resolution>>, req: Resolution)
    requires forall j | 0 <= j < |ps| :: ps[j].Some?
    ensures !FirstFit(ps, req).Unparsable?
  {
  }

  /** A stored mode the display lists is kept. */
  lemma SelectDefaultKeepsListed(current: string, list: seq<string>)
    requires ResolutionOf(current).Some? && current in list
    ensures SelectDefault(Some(current), list) == Ok(current)
  {
  }

  /** The two searches of selectDisplayDefaultMode over the daemon's list. */
  method ChooseMode(current: string, req: Resolution, list: seq<string>) returns (r: Result<string, SelectError>)
    ensures r == SelectMode(current, req, list)
  {
    var i := 0;
    while i < |list| && list[i] != current
      invariant 0 <= i <= |list|
      invariant forall j | 0 <= j < i :: list[j] != current
    {
      i := i + 1;
    }
    if i < |list| {
      return Ok(current);
    }
    var f := SearchFit(req, list);
    match f
    case Fits(k) => r := Ok(list[k]);
    case Unparsable(k) => r := Err(MalformedMode(list[k]));
    case NoFit => r := if |list| == 0 then Err(EmptyModeList) else Ok(list[0]);
  }

  /** The second search: the first entry that parses and fits, or the first that throws. */
  method SearchFit(req: Resolution, list: seq<string>) returns (f: Fit)
    ensures f == FirstFit(Parsed(list), req)
  {
    ghost var ps := Parsed(list);
    var k := 0;
    while k < |list|
      invariant 0 <= k <= |list|
      invariant forall j | 0 <= j < k :: Skipped(ps[j], req)
    {
      var src := ParseEntry(list, k);
      if src.None? || NotAbove(src.value, req) {
        FirstFitIs(ps, req, k);
        return if src.None? then Unparsable(k) else Fits(k);
      }
      k := k + 1;
    }
    FirstFitIs(ps, req, k);
    f := NoFit;
  }

  /** getResolutionInString on entry k of the list. */
  method ParseEntry(list: seq<string>, k: nat) returns (src: Option<Resolution>)
    requires k < |list|
    ensures src == Parsed(list)[k]
  {
    src := ParseResolution(list[k]);
    ParsedAt(list, k);
  }

  /** The first entry the second search stops at is the one FirstFit names. */
  lemma FirstFitIs(ps: seq<Option<Resolution>>, req: Resolution, k: nat)
    requires k <= |ps| && forall j | 0 <= j < k :: Skipped(ps[j], req)
    requires k < |ps| ==> !Skipped(ps[k], req)
    ensures k == |ps| ==> FirstFit(ps, req) == NoFit
    ensures k < |ps| && ps[k].None? ==> FirstFit(ps, req) == Unparsable(k)
    ensures k < |ps| && ps[k].Some? ==> FirstFit(ps, req) == Fits(k)
  {
  }
}

=== FILE: display_state.dfy ===
/**
 * The framebuffer/display table of the display manager (the inner class display_state):
 * framebuffers 0..9 are mapped first-fit onto display slots 0..3 when the display daemon
 * reports them attached, and unmapped when it reports them detached.
 *
 * The three int arrays are kept as arrays; Slots is the value they hold, and the
 * operations are specified by functions on Slots.
 */
module DisplaySlots {

  const MAX_FB_DEVICE: int := 10
  const MAX_DISPLAY_DEVICE: int := 4

  /** The contents of display_fb, state_fb, state_display and connect_count. */
  datatype Slots = Slots(displayFb: seq<int>, stateFb: seq<int>, stateDisplay: seq<int>, count: int)

  /** The lowest index holding v, or -1. */
  function FirstIndex(s: seq<int>, v: int): (k: int)
    ensures -1 <= k < |s|
    ensures k >= 0 ==> s[k] == v && forall j | 0 <= j < k :: s[j] != v
    ensures k < 0 ==> forall j | 0 <= j < |s| :: s[j] != v
  {
    if |s| == 0 then -1
    else if s[0] == v then 0
    else
      var k := FirstIndex(s[1..], v);
      if k < 0 then -1 else k + 1
  }

  /** How many entries of s are v. */
  function CountOf(s: seq<int>, v: int): nat {
    if |s| == 0 then 0 else CountOf(s[..|s| - 1], v) + (if s[|s| - 1] == v then 1 else 0)
  }

  /** Overwriting one entry that is not v with v counts one more v, and back again. */
  lemma {:induction false} CountOfUpdate(s: seq<int>, i: nat, v: int, x: int)
    requires i < |s|
    ensures CountOf(s[i := x], v) ==
            CountOf(s, v) - (if s[i] == v then 1 else 0) + (if x == v then 1 else 0)
    decreases |s|
  {
    var n := |s| - 1;
    if i < n {
      assert s[i := x][..n] == s[..n][i := x];
      CountOfUpdate(s[..n], i, v, x);
    } else {
      assert s[i := x][..n] == s[..n];
    }
  }

  /** The state the constructor sets up: nothing connected, nothing mapped. */
  function Initial(): (s: Slots)
    ensures |s.displayFb| == MAX_FB_DEVICE && |s.stateFb| == MAX_FB_DEVICE
    ensures |s.stateDisplay| == MAX_DISPLAY_DEVICE
    ensures forall f | 0 <= f < MAX_FB_DEVICE :: s.displayFb[f] == -1 && s.stateFb[f] == 0
    ensures forall d | 0 <= d < MAX_DISPLAY_DEVICE :: s.stateDisplay[d] == 0
    ensures s.count == 0
  {
    Slots(seq(MAX_FB_DEVICE, _ => -1), seq(MAX_FB_DEVICE, _ => 0), seq(MAX_DISPLAY_DEVICE, _ => 0), 0)
  }

  predicate Shaped(s: Slots) {
    |s.displayFb| == MAX_FB_DEVICE && |s.stateFb| == MAX_FB_DEVICE &&
    |s.stateDisplay| == MAX_DISPLAY_DEVICE
  }

  /**
   * connect(fbid): the framebuffer is marked connected, mapped onto the lowest free
   * slot if there is one (which is marked used), and the count goes up in every case.
   */
  function ConnectSpec(s: Slots, fb: nat): Slots
    requires Shaped(s) && fb < MAX_FB_DEVICE
  {
    var j := FirstIndex(s.stateDisplay, 0);
    Slots(if j >= 0 then s.displayFb[fb := j] else s.displayFb,
          s.stateFb[fb := 1],
          if j >= 0 then s.stateDisplay[j := 1] else s.stateDisplay,
          s.count + 1)
  }

  /**
   * remove(fbid): nothing happens unless the framebuffer is connected. Otherwise it is
   * marked disconnected, its slot freed, its mapping cleared and the count lowered. The
   * flag is cleared before the slot is looked up, so when the framebuffer has no slot
   * (display_fb is -1) only the flag has changed when the array access throws; the
   * second component is false then.
   */
  function RemoveSpec(s: Slots, fb: nat): (Slots, bool)
    requires Shaped(s) && fb < MAX_FB_DEVICE
  {
    if s.stateFb[fb] != 1 then (s, true)
    else
      var d := s.displayFb[fb];
      if 0 <= d < MAX_DISPLAY_DEVICE then
        (Slots(s.displayFb[fb := -1], s.stateFb[fb := 0], s.stateDisplay[d := 0], s.count - 1), true)
      else
        (s.(stateFb := s.stateFb[fb := 0]), false)
  }

  /**
   * The table is a one-to-one map between connected framebuffers and used slots, and
   * the count is the number of connected framebuffers.
   */
  predicate Consistent(s: Slots) {
    Shaped(s) &&
    (forall f | 0 <= f < MAX_FB_DEVICE :: s.stateFb[f] == 0 || s.stateFb[f] == 1) &&
    (forall d | 0 <= d < MAX_DISPLAY_DEVICE :: s.stateDisplay[d] == 0 || s.stateDisplay[d] == 1) &&
    (forall f | 0 <= f < MAX_FB_DEVICE :: (s.stateFb[f] == 1) == (s.displayFb[f] != -1)) &&
    (forall f | 0 <= f < MAX_FB_DEVICE && s.displayFb[f] != -1 ::
       0 <= s.displayFb[f] < MAX_DISPLAY_DEVICE && s.stateDisplay[s.displayFb[f]] == 1) &&
    (forall f, g | 0 <= f < MAX_FB_DEVICE && 0 <= g < MAX_FB_DEVICE &&
       s.displayFb[f] != -1 && s.displayFb[f] == s.displayFb[g] :: f == g) &&
    (forall d | 0 <= d < MAX_DISPLAY_DEVICE && s.stateDisplay[d] == 1 :: FirstIndex(s.displayFb, d) >= 0) &&
    s.count == CountOf(s.stateFb, 1)
  }

  lemma InitialConsistent()
    ensures Consistent(Initial())
  {
    CountOfAbsent(Initial().stateFb, 1);
  }

  lemma {:induction false} CountOfAbsent(s: seq<int>, v: int)
    requires forall i | 0 <= i < |s| :: s[i] != v
    ensures CountOf(s, v) == 0
  {
    if |s| > 0 {
      CountOfAbsent(s[..|s| - 1], v);
    }
  }

  /** Connecting a disconnected framebuffer while a slot is free keeps the table consistent. */
  lemma ConnectKeepsConsistent(s: Slots, fb: nat)
    requires Consistent(s) && fb < MAX_FB_DEVICE && s.stateFb[fb] == 0
    requires FirstIndex(s.stateDisplay, 0) >= 0
    ensures Consistent(ConnectSpec(s, fb))
  {
    CountOfUpdate(s.stateFb, fb, 1, 1);
    ConnectKeepsMapping(s, fb);
    ConnectKeepsInjective(s, fb);
    ConnectKeepsUsedMapped(s, fb);
  }

  /** After the connect, exactly the connected framebuffers are mapped, each onto a used slot. */
  lemma ConnectKeepsMapping(s: Slots, fb: nat)
    requires Consistent(s) && fb < MAX_FB_DEVICE && s.stateFb[fb] == 0
    requires FirstIndex(s.stateDisplay, 0) >= 0
    ensures var t := ConnectSpec(s, fb);
      (forall f | 0 <= f < MAX_FB_DEVICE :: (t.stateFb[f] == 1) == (t.displayFb[f] != -1)) &&
      (forall f | 0 <= f < MAX_FB_DEVICE && t.displayFb[f] != -1 ::
         0 <= t.displayFb[f] < MAX_DISPLAY_DEVICE && t.stateDisplay[t.displayFb[f]] == 1)
  {
  }

  /** The free slot the connect takes was nobody's, so no two framebuffers share a slot. */
  lemma ConnectKeepsInjective(s: Slots, fb: nat)
    requires Consistent(s) && fb < MAX_FB_DEVICE && s.stateFb[fb] == 0
    requires FirstIndex(s.stateDisplay, 0) >= 0
    ensures var t := ConnectSpec(s, fb);
      forall f, g | 0 <= f < MAX_FB_DEVICE && 0 <= g < MAX_FB_DEVICE &&
        t.displayFb[f] != -1 && t.displayFb[f] == t.displayFb[g] :: f == g
  {
    var t := ConnectSpec(s, fb);
    var j := FirstIndex(s.stateDisplay, 0);
    forall f, g | 0 <= f < MAX_FB_DEVICE && 0 <= g < MAX_FB_DEVICE &&
        t.displayFb[f] != -1 && t.displayFb[f] == t.displayFb[g]
      ensures f == g
    {
      if f != g && (f == fb || g == fb) {
        // the other one would already sit on the free slot j
        assert false;
      }
    }
  }

  lemma ConnectKeepsUsedMapped(s: Slots, fb: nat)
    requires Consistent(s) && fb < MAX_FB_DEVICE && s.stateFb[fb] == 0
    requires FirstIndex(s.stateDisplay, 0) >= 0
    ensures var t := ConnectSpec(s, fb);
            forall d | 0 <= d < MAX_DISPLAY_DEVICE && t.stateDisplay[d] == 1 :: FirstIndex(t.displayFb, d) >= 0
  {
    var t := ConnectSpec(s, fb);
    var j := FirstIndex(s.stateDisplay, 0);
    forall d | 0 <= d < MAX_DISPLAY_DEVICE && t.stateDisplay[d] == 1
      ensures FirstIndex(t.displayFb, d) >= 0
    {
      if d == j {
        assert t.displayFb[fb] == d;
      } else {
        var f := FirstIndex(s.displayFb, d);
        assert f != fb;
        assert t.displayFb[f] == d;
      }
    }
  }

  /** Removing a framebuffer from a consistent table never throws and keeps it consistent. */
  lemma RemoveKeepsConsistent(s: Slots, fb: nat)
    requires Consistent(s) && fb < MAX_FB_DEVICE
    ensures RemoveSpec(s, fb).1 && Consistent(RemoveSpec(s, fb).0)
  {
    if s.stateFb[fb] == 1 {
      CountOfUpdate(s.stateFb, fb, 1, 0);
      RemoveKeepsUsedMapped(s, fb);
    }
  }

  lemma RemoveKeepsUsedMapped(s: Slots, fb: nat)
    requires Consistent(s) && fb < MAX_FB_DEVICE && s.stateFb[fb] == 1
    ensures var t := RemoveSpec(s, fb).0;
            forall d | 0 <= d < MAX_DISPLAY_DEVICE && t.stateDisplay[d] == 1 :: FirstIndex(t.displayFb, d) >= 0
  {
    var t := RemoveSpec(s, fb).0;
    forall d | 0 <= d < MAX_DISPLAY_DEVICE && t.stateDisplay[d] == 1
      ensures FirstIndex(t.displayFb, d) >= 0
    {
      var f := FirstIndex(s.displayFb, d);
      assert f != fb;
      assert t.displayFb[f] == d;
    }
  }

  /** Connecting a framebuffer and removing it again gives back the table it started from. */
  lemma ConnectThenRemoveRestores(s: Slots, fb: nat)
    requires Consistent(s) && fb < MAX_FB_DEVICE && s.stateFb[fb] == 0
    requires FirstIndex(s.stateDisplay, 0) >= 0
    ensures RemoveSpec(ConnectSpec(s, fb), fb) == (s, true)
  {
    var j := FirstIndex(s.stateDisplay, 0);
    assert s.displayFb[fb := j][fb := -1] == s.displayFb;
    assert s.stateFb[fb := 1][fb := 0] == s.stateFb;
    assert s.stateDisplay[j := 1][j := 0] == s.stateDisplay;
  }

  /**
   * With every slot in use, connect leaves the framebuffer connected but unmapped, and
   * removing it afterwards indexes state_display with -1, after clearing its connected
   * flag, so a second remove finds nothing to do.
   */
  lemma NoFreeSlotThenRemoveFails(s: Slots, fb: nat)
    requires Consistent(s) && fb < MAX_FB_DEVICE && s.stateFb[fb] == 0
    requires FirstIndex(s.stateDisplay, 0) < 0
    ensures ConnectSpec(s, fb).stateFb[fb] == 1 && ConnectSpec(s, fb).displayFb[fb] == -1
    ensures !RemoveSpec(ConnectSpec(s, fb), fb).1
    ensures var t := RemoveSpec(ConnectSpec(s, fb), fb).0;
      Shaped(t) && t.stateFb[fb] == 0 && RemoveSpec(t, fb) == (t, true)
  {
  }

  /**
   * connect on a framebuffer that is already connected still raises the count, so the
   * count runs ahead of the connected framebuffers (and a second slot is taken).
   */
  lemma ConnectTwiceOvercounts(s: Slots, fb: nat)
    requires Consistent(s) && fb < MAX_FB_DEVICE
    ensures var t := ConnectSpec(ConnectSpec(s, fb), fb);
            t.count == CountOf(t.stateFb, 1) + 1 + (if s.stateFb[fb] == 1 then 1 else 0)
  {
    var t1 := ConnectSpec(s, fb);
    CountOfUpdate(s.stateFb, fb, 1, 1);
    CountOfUpdate(t1.stateFb, fb, 1, 1);
  }

  /** getfbid is the inverse of getdispid on a connected framebuffer of a consistent table. */
  lemma FbOfDisplayOfConnected(s: Slots, fb: nat)
    requires Consistent(s) && fb < MAX_FB_DEVICE && s.stateFb[fb] == 1
    ensures 0 <= s.displayFb[fb] < MAX_DISPLAY_DEVICE
    ensures FirstIndex(s.displayFb, s.displayFb[fb]) == fb
  {
    var f := FirstIndex(s.displayFb, s.displayFb[fb]);
    assert s.displayFb[f] == s.displayFb[fb];
  }

  /** A used slot of a consistent table belongs to a connected framebuffer that maps back to it. */
  lemma DisplayOfFbOfUsed(s: Slots, d: int)
    requires Consistent(s) && 0 <= d < MAX_DISPLAY_DEVICE && s.stateDisplay[d] == 1
    ensures var f := FirstIndex(s.displayFb, d); 0 <= f && s.stateFb[f] == 1 && s.displayFb[f] == d
  {
  }

  class DisplayState {
    const displayFb: array<int>
    const stateFb: array<int>
    const stateDisplay: array<int>
    var connectCount: int

    ghost predicate Valid()
      reads this
    {
      displayFb.Length == MAX_FB_DEVICE && stateFb.Length == MAX_FB_DEVICE &&
      stateDisplay.Length == MAX_DISPLAY_DEVICE && displayFb != stateFb
    }

    function Snapshot(): (s: Slots)
      reads this, displayFb, stateFb, stateDisplay
      requires Valid()
      ensures Shaped(s)
    {
      Slots(displayFb[..], stateFb[..], stateDisplay[..], connectCount)
    }

    constructor()
      ensures Valid() && Snapshot() == Initial()
      ensures fresh(displayFb) && fresh(stateFb) && fresh(stateDisplay)
    {
      displayFb := new int[MAX_FB_DEVICE](_ => -1);
      stateFb := new int[MAX_FB_DEVICE](_ => 0);
      stateDisplay := new int[MAX_DISPLAY_DEVICE](_ => 0);
      connectCount := 0;
      new;
      assert displayFb[..] == Initial().displayFb;
      assert stateFb[..] == Initial().stateFb;
      assert stateDisplay[..] == Initial().stateDisplay;
    }

    method Connect(fb: int)
      requires Valid() && 0 <= fb < MAX_FB_DEVICE
      modifies this, displayFb, stateFb, stateDisplay
      ensures Valid() && Snapshot() == ConnectSpec(old(Snapshot()), fb)
    {
      stateFb[fb] := 1;
      var j := 0;
      while j < MAX_DISPLAY_DEVICE
        invariant 0 <= j <= MAX_DISPLAY_DEVICE
        invariant stateFb[..] == old(stateFb[..])[fb := 1]
        invariant displayFb[..] == old(displayFb[..]) && stateDisplay[..] == old(stateDisplay[..])
        invariant forall k | 0 <= k < j :: stateDisplay[k] != 0
      {
        if stateDisplay[j] == 0 {
          displayFb[fb] := j;
          stateDisplay[j] := 1;
          break;
        }
        j := j + 1;
      }
      connectCount := connectCount + 1;
    }

    method Remove(fb: int) returns (ok: bool)
      requires Valid() && 0 <= fb < MAX_FB_DEVICE
      modifies this, displayFb, stateFb, stateDisplay
      ensures Valid() && (Snapshot(), ok) == RemoveSpec(old(Snapshot()), fb)
    {
      if stateFb[fb] == 1 {
        stateFb[fb] := 0;
        var d := displayFb[fb];
        if !(0 <= d < MAX_DISPLAY_DEVICE) {
          return false;
        }
        stateDisplay[d] := 0;
        displayFb[fb] := -1;
        connectCount := connectCount - 1;
      }
      ok := true;
    }

    method IsConnect(fb: int) returns (r: bool)
      requires Valid() && 0 <= fb < MAX_FB_DEVICE
      ensures r <==> Snapshot().stateFb[fb] == 1
    {
      r := stateFb[fb] == 1;
    }

    /** The number of connected framebuffers besides the main one. */
    method GetCount() returns (r: int)
      requires Valid()
      ensures r == Snapshot().count - 1
      ensures Consistent(Snapshot()) ==> r == CountOf(Snapshot().stateFb, 1) - 1
    {
      r := connectCount - 1;
    }

    /** The lowest framebuffer mapped onto display slot d, or -1. */
    method GetFbId(d: int) returns (r: int)
      requires Valid()
      ensures r == FirstIndex(Snapshot().displayFb, d)
    {
      var i := 0;
      while i < MAX_FB_DEVICE
        invariant 0 <= i <= MAX_FB_DEVICE
        invariant forall k | 0 <= k < i :: displayFb[k] != d
      {
        if displayFb[i] == d {
          return i;
        }
        i := i + 1;
      }
      return -1;
    }

    method GetDispId(fb: int) returns (r: int)
      requires Valid() && 0 <= fb < MAX_FB_DEVICE
      ensures r == Snapshot().displayFb[fb]
    {
      r := displayFb[fb];
    }
  }
}

=== FILE: hwcomposer.dfy ===
/**
 * SurfaceFlinger's hardware composer wrapper: the work list of layers handed to the
 * composer device, the counting of overlay and framebuffer layers after the device's
 * prepare, and the geometry rewrite that letterboxes a layer into the display
 * (aspect fit) and shrinks it for overscan.
 *
 * The work list is an array of Layer values (capacity entries, numHwLayers in use);
 * a layer's visible region is a sequence of rectangles (numRects == |region|).
 * C integer semantics are written out: `/` truncates toward zero (TDiv) and `>> 1`
 * on a signed int is a floor halving (Dafny's `/ 2`). Ints are unbounded here.
 *
 * Which region buffers were copied by this class is kept as ghost state (owned), with
 * a ghost count of copies whose last reference was dropped without being freed (leaked).
 */
module HWComposer {

  const NO_ERROR: int := 0
  /** -ENODEV, returned by initCheck when no composer device was opened. */
  const NO_INIT: int := -19

  /** hwcomposer.h values. */
  const HWC_GEOMETRY_CHANGED: bv32 := 1
  const HWC_SKIP_LAYER: bv32 := 1
  const HWC_FRAMEBUFFER: int := 0
  const HWC_OVERLAY: int := 1

  datatype Rect = Rect(left: int, top: int, right: int, bottom: int)

  /** The parts of hwc_layer_t this class reads or writes. */
  datatype Layer = Layer(flags: bv32, compositionType: int, frame: Rect, region: seq<Rect>)

  const EMPTY_LAYER: Layer := Layer(0, HWC_FRAMEBUFFER, Rect(0, 0, 0, 0), [])

  /** C's `a / b` on int: the quotient truncated toward zero. */
  function TDiv(a: int, b: int): (q: int)
    requires b != 0
    ensures a >= 0 && b > 0 ==> q == a / b
    ensures (a >= 0) == (b > 0) ==> q >= 0
  {
    if a >= 0 && b > 0 then a / b
    else if a < 0 && b < 0 then (-a) / (-b)
    else if a < 0 then -((-a) / b)
    else -(a / (-b))
  }

  /** Truncation is symmetric in sign, unlike Dafny's Euclidean `/`. */
  lemma TDivSymmetric(a: int, b: int)
    requires b != 0
    ensures TDiv(-a, b) == -TDiv(a, b) && TDiv(a, -b) == -TDiv(a, b)
  {
    if a == 0 {
      assert 0 / b == 0 && 0 / (-b) == 0;
    }
  }

  lemma MulMonotone(f: int, x: int, y: int)
    requires 0 < f && x <= y
    ensures f * x <= f * y
  {
    assert f * y - f * x == f * (y - x);
  }

  /** A quotient of non-negatives is at most c when the dividend is below (c + 1) * f. */
  lemma DivAtMost(a: int, c: int, f: int)
    requires 0 <= a && 0 < f && a < (c + 1) * f
    ensures a / f <= c
  {
    var q := a / f;
    assert f * q <= a by { assert a == f * q + a % f; }
    if c < q {
      MulMonotone(f, c + 1, q);
      assert false;
    }
  }

  /** Division of non-negatives by a positive number is monotone. */
  lemma DivMonotone(a: int, b: int, f: int)
    requires 0 <= a <= b && 0 < f
    ensures a / f <= b / f
  {
    var qb := b / f;
    assert b == f * qb + b % f;
    assert a < (qb + 1) * f;
    DivAtMost(a, qb, f);
  }

  // ---------------------------------------------------------------------------------
  // adjustRect and the aspect fit

  /** One coordinate of one adjustRect pass: scaled by d/f, then shifted by half the slack. */
  function Place(x: int, d: int, f: int, extent: int): int
    requires f != 0
  {
    TDiv(x * d, f) + (extent - d) / 2
  }

  /** The first pass of adjustRect, on all four edges. */
  function ScaleRect(r: Rect, displayWidth: int, displayHeight: int, dw: int, dh: int, fw: int, fh: int): Rect
    requires fw != 0 && fh != 0
  {
    Rect(Place(r.left, dw, fw, displayWidth), Place(r.top, dh, fh, displayHeight),
         Place(r.right, dw, fw, displayWidth), Place(r.bottom, dh, fh, displayHeight))
  }

  /** Shrinks a size by scale percent, as C computes `d * (100 - scale) / 100`. */
  function Shrink(d: int, scale: int): int {
    TDiv(d * (100 - scale), 100)
  }

  /**
   * adjustRect: scale by dw/fw and dh/fh and centre in the display; with a nonzero
   * scale, a second pass shrinks the result inside a dw x dh box.
   */
  function AdjustRect(r: Rect, displayWidth: int, displayHeight: int, dw: int, dh: int,
                      fw: int, fh: int, xScale: int, yScale: int): (a: Rect)
    requires fw != 0 && fh != 0
    requires xScale != 0 || yScale != 0 ==> dw != 0 && dh != 0
    ensures xScale == 0 && yScale == 0 ==>
      a.left == TDiv(r.left * dw, fw) + (displayWidth - dw) / 2 &&
      a.right == TDiv(r.right * dw, fw) + (displayWidth - dw) / 2 &&
      a.top == TDiv(r.top * dh, fh) + (displayHeight - dh) / 2 &&
      a.bottom == TDiv(r.bottom * dh, fh) + (displayHeight - dh) / 2
    decreases if xScale == 0 && yScale == 0 then 0 else 1
  {
    var p := ScaleRect(r, displayWidth, displayHeight, dw, dh, fw, fh);
    if xScale == 0 && yScale == 0 then p
    else AdjustRect(p, dw, dh, Shrink(dw, xScale), Shrink(dh, yScale), dw, dh, 0, 0)
  }

  /** The region after adjustRect on each rect. */
  function AdjustAll(rs: seq<Rect>, displayWidth: int, displayHeight: int, dw: int, dh: int,
                     fw: int, fh: int, xScale: int, yScale: int): seq<Rect>
    requires fw != 0 && fh != 0
    requires xScale != 0 || yScale != 0 ==> dw != 0 && dh != 0
  {
    seq(|rs|, i requires 0 <= i < |rs| =>
      AdjustRect(rs[i], displayWidth, displayHeight, dw, dh, fw, fh, xScale, yScale))
  }

  /** A rect lying inside the w x h box at the origin, edges in order. */
  predicate Within(r: Rect, w: int, h: int) {
    0 <= r.left <= r.right <= w && 0 <= r.top <= r.bottom <= h
  }

  /** x * d / f stays between 0 and d and is monotone for 0 <= x <= f. */
  lemma ScaledBetween(x: int, y: int, d: int, f: int)
    requires 0 <= x <= y <= f && 0 < f && 0 <= d
    ensures 0 <= TDiv(x * d, f) <= TDiv(y * d, f) <= d
  {
    assert 0 <= x * d <= y * d by { assert (y - x) * d >= 0; }
    assert y * d < (d + 1) * f by { assert (f - y) * d >= 0; }
    DivMonotone(x * d, y * d, f);
    DivAtMost(y * d, d, f);
  }

  /** One placement pass maps [0, f] into [0, extent] when 0 <= d <= extent. */
  lemma PlaceWithin(x: int, y: int, d: int, f: int, extent: int)
    requires 0 <= x <= y <= f && 0 < f && 0 <= d <= extent
    ensures 0 <= Place(x, d, f, extent) <= Place(y, d, f, extent) <= extent
  {
    ScaledBetween(x, y, d, f);
  }

  /**
   * The second pass treats a d x d box as the display and shrinks to d2 <= d: it maps
   * [0, bound] into [0, bound] for any bound >= d.
   */
  lemma ShrinkPassWithin(x: int, y: int, d2: int, d: int, bound: int)
    requires 0 <= x <= y <= bound && 0 <= d2 <= d <= bound && 0 < d
    ensures 0 <= Place(x, d2, d, d) <= Place(y, d2, d, d) <= bound
  {
    ShrinkProducts(x, y, d2, d, bound);
    DivMonotone(x * d2, y * d2, d);
    DivAtMost(y * d2, bound - d + d2, d);
  }

  /** The products the shrink pass divides: ordered, and y * d2 below (bound - d + d2 + 1) * d. */
  lemma ShrinkProducts(x: int, y: int, d2: int, d: int, bound: int)
    requires 0 <= x <= y <= bound && 0 <= d2 <= d <= bound && 0 < d
    ensures 0 <= x * d2 <= y * d2 < (bound - d + d2 + 1) * d
  {
    assert 0 <= x * d2 <= y * d2 by { assert (y - x) * d2 >= 0; }
    // y * d2 <= bound * d2 <= (bound - d + d2) * d, as (bound - d) * (d - d2) >= 0
    assert y * d2 <= bound * d2 by { assert bound * d2 - y * d2 == (bound - y) * d2; }
    assert bound * d2 <= (bound - d + d2) * d by {
      assert (bound - d + d2) * d - bound * d2 == (bound - d) * (d - d2);
      assert (bound - d) * (d - d2) >= 0;
    }
    assert (bound - d + d2 + 1) * d == (bound - d + d2) * d + d;
  }

  /**
   * Every rect inside the source frame lands, edges still in order, inside the
   * display, when the target size fits the display and the overscan percentages are
   * between 0 and 100.
   */
  lemma AdjustRectWithin(r: Rect, displayWidth: int, displayHeight: int, dw: int, dh: int,
                         fw: int, fh: int, xScale: int, yScale: int)
    requires 0 < fw && 0 < fh && 0 < dw <= displayWidth && 0 < dh <= displayHeight
    requires 0 <= xScale <= 100 && 0 <= yScale <= 100
    requires Within(r, fw, fh)
    ensures Within(AdjustRect(r, displayWidth, displayHeight, dw, dh, fw, fh, xScale, yScale),
                   displayWidth, displayHeight)
  {
    PlaceWithin(r.left, r.right, dw, fw, displayWidth);
    PlaceWithin(r.top, r.bottom, dh, fh, displayHeight);
    var p := ScaleRect(r, displayWidth, displayHeight, dw, dh, fw, fh);
    if xScale != 0 || yScale != 0 {
      ShrinkBounds(dw, xScale);
      ShrinkBounds(dh, yScale);
      ShrinkPassWithin(p.left, p.right, Shrink(dw, xScale), dw, displayWidth);
      ShrinkPassWithin(p.top, p.bottom, Shrink(dh, yScale), dh, displayHeight);
    }
  }

  lemma ShrinkBounds(d: int, scale: int)
    requires 0 <= d && 0 <= scale <= 100
    ensures 0 <= Shrink(d, scale) <= d
  {
    assert 0 <= d * (100 - scale) <= d * 100 by { assert d * scale >= 0; }
  }

  /**
   * The aspect fit of adjustGeometry: the largest box of the frame's proportions
   * (up to truncation) inside the display.
   */
  function AspectFit(displayWidth: int, displayHeight: int, fw: int, fh: int): (int, int)
    requires fw != 0 && fh != 0
  {
    if displayWidth >= TDiv(displayHeight * fw, fh) then (TDiv(displayHeight * fw, fh), displayHeight)
    else (displayWidth, TDiv(displayWidth * fh, fw))
  }

  /** For positive sizes the fitted box lies in the display and fills it in one direction. */
  lemma AspectFitBounds(displayWidth: int, displayHeight: int, fw: int, fh: int)
    requires 0 < displayWidth && 0 < displayHeight && 0 < fw && 0 < fh
    ensures var (dw, dh) := AspectFit(displayWidth, displayHeight, fw, fh);
      0 <= dw <= displayWidth && 0 <= dh <= displayHeight &&
      (dw == displayWidth || dh == displayHeight)
  {
    var q := TDiv(displayHeight * fw, fh);
    if displayWidth < q {
      // displayWidth < H*fw/fh, so displayWidth*fh < H*fw, so displayWidth*fh/fw < H.
      assert q * fh <= displayHeight * fw;
      assert displayWidth * fh < q * fh;
      assert displayWidth * fh < displayHeight * fw;
      var p := TDiv(displayWidth * fh, fw);
      assert p * fw <= displayWidth * fh;
      assert p * fw < displayHeight * fw;
      assert p < displayHeight;
    }
  }

  /** Pins down a quotient of non-negatives from its defining bounds. */
  lemma DivIs(a: int, f: int, q: int)
    requires 0 < f && 0 <= q && f * q <= a < f * (q + 1)
    ensures a / f == q
  {
    DivAtMost(a, q, f);
    var r := a / f;
    assert f * r + a % f == a;
    if r < q {
      MulMonotone(f, r + 1, q);
      assert false;
    }
  }

  lemma MulDivCancel(d: int, f: int)
    requires 0 <= d && 0 < f
    ensures (f * d) / f == d
  {
    var q := (f * d) / f;
    assert f * q + (f * d) % f == f * d;
    DivAtMost(f * d, d, f);
    if q < d {
      MulMonotone(f, q, d - 1);
      assert false;
    }
  }

  /** a is a w x h box centred in the W x H display, the odd pixel of slack on the far side. */
  predicate Centred(a: Rect, displayWidth: int, displayHeight: int, w: int, h: int) {
    a.right - a.left == w && a.bottom - a.top == h &&
    0 <= (displayWidth - a.right) - a.left <= 1 && 0 <= (displayHeight - a.bottom) - a.top <= 1
  }

  /** Without overscan, the whole source frame becomes the dw x dh box centred in the display. */
  lemma FrameCentred(displayWidth: int, displayHeight: int, dw: int, dh: int, fw: int, fh: int)
    requires 0 < fw && 0 < fh && 0 <= dw && 0 <= dh
    ensures Centred(AdjustRect(Rect(0, 0, fw, fh), displayWidth, displayHeight, dw, dh, fw, fh, 0, 0),
                    displayWidth, displayHeight, dw, dh)
  {
    MulDivCancel(dw, fw);
    MulDivCancel(dh, fh);
    assert 0 * dw == 0 && 0 * dh == 0;
    assert 0 / fw == 0 && 0 / fh == 0;
  }

  /** adjustOverScan's shrink: the whole display becomes the shrunk box centred in it. */
  lemma OverScanCentred(displayWidth: int, displayHeight: int, xScale: int, yScale: int)
    requires 0 < displayWidth && 0 < displayHeight
    requires 0 <= xScale <= 100 && 0 <= yScale <= 100
    ensures var dw, dh := Shrink(displayWidth, xScale), Shrink(displayHeight, yScale);
      Centred(AdjustRect(Rect(0, 0, displayWidth, displayHeight), displayWidth, displayHeight,
                         dw, dh, displayWidth, displayHeight, 0, 0),
              displayWidth, displayHeight, dw, dh)
  {
    ShrinkBounds(displayWidth, xScale);
    ShrinkBounds(displayHeight, yScale);
    FrameCentred(displayWidth, displayHeight, Shrink(displayWidth, xScale), Shrink(displayHeight, yScale),
                 displayWidth, displayHeight);
  }

  // ---------------------------------------------------------------------------------
  // adjustGeometry's overscan pass

  /**
   * As written, the overscan pass of adjustRect shrinks about the centre of the dw x dh
   * box at the display origin. A pillar-boxed 1440x1080 frame on a 1920x1080 display
   * with 10% horizontal overscan ends 288 pixels from the left edge and 336 from the
   * right: it drifts left by 24 pixels instead of staying centred.
   */
  lemma GeometryOverScanOffCentre()
    ensures AspectFit(1920, 1080, 1440, 1080) == (1440, 1080)
    ensures var a := AdjustRect(Rect(0, 0, 1440, 1080), 1920, 1080, 1440, 1080, 1440, 1080, 10, 0);
      a.left == 288 && 1920 - a.right == 336 &&
      !Centred(a, 1920, 1080, Shrink(1440, 10), Shrink(1080, 0))
  {
    DivIs(1080 * 1440, 1080, 1440);
    OffCentreExample();
    ShrinkPassPlaces();
  }

  /** The two passes of adjustRect on the example frame. */
  lemma OffCentreExample()
    ensures AdjustRect(Rect(0, 0, 1440, 1080), 1920, 1080, 1440, 1080, 1440, 1080, 10, 0) ==
      Rect(288, 0, 1584, 1080)
  {
    AdjustRectTwoPasses(Rect(0, 0, 1440, 1080), 1920, 1080, 1440, 1080, 1440, 1080, 10, 0);
    FitPassExample();
    ShrinkPassPlaces();
    AdjustRectOnePass(Rect(240, 0, 1680, 1080), 1440, 1080, 1296, 1080, 1440, 1080);
    ShrinkPassExample();
  }

  lemma FitPassExample()
    ensures ScaleRect(Rect(0, 0, 1440, 1080), 1920, 1080, 1440, 1080, 1440, 1080) == Rect(240, 0, 1680, 1080)
  {
    FitPassPlaces();
  }

  lemma ShrinkPassExample()
    ensures ScaleRect(Rect(240, 0, 1680, 1080), 1440, 1080, 1296, 1080, 1440, 1080) == Rect(288, 0, 1584, 1080)
  {
    FitPassPlaces();
    ShrinkPassPlaces();
  }

  /** Without overscan adjustRect is its first pass. */
  lemma AdjustRectOnePass(r: Rect, displayWidth: int, displayHeight: int, dw: int, dh: int, fw: int, fh: int)
    requires fw != 0 && fh != 0
    ensures AdjustRect(r, displayWidth, displayHeight, dw, dh, fw, fh, 0, 0) ==
      ScaleRect(r, displayWidth, displayHeight, dw, dh, fw, fh)
  {
  }

  /** With overscan adjustRect is its first pass followed by the shrink pass in the dw x dh box. */
  lemma AdjustRectTwoPasses(r: Rect, displayWidth: int, displayHeight: int, dw: int, dh: int,
                            fw: int, fh: int, xScale: int, yScale: int)
    requires fw != 0 && fh != 0 && dw != 0 && dh != 0 && (xScale != 0 || yScale != 0)
    ensures AdjustRect(r, displayWidth, displayHeight, dw, dh, fw, fh, xScale, yScale) ==
      AdjustRect(ScaleRect(r, displayWidth, displayHeight, dw, dh, fw, fh), dw, dh,
                 Shrink(dw, xScale), Shrink(dh, yScale), dw, dh, 0, 0)
  {
  }

  /** The first pass of the example: the 1440x1080 frame moved right by 240. */
  lemma FitPassPlaces()
    ensures Place(0, 1440, 1440, 1920) == 240 && Place(1440, 1440, 1440, 1920) == 1680
    ensures Place(0, 1080, 1080, 1080) == 0 && Place(1080, 1080, 1080, 1080) == 1080
  {
    DivIs(0, 1440, 0);
    DivIs(1440 * 1440, 1440, 1440);
    DivIs(0, 1080, 0);
    DivIs(1080 * 1080, 1080, 1080);
  }

  /** The overscan pass of the example: 90% of 1440 is 1296, placed in a 1440-wide box. */
  lemma ShrinkPassPlaces()
    ensures Shrink(1440, 10) == 1296 && Shrink(1080, 0) == 1080
    ensures Place(240, 1296, 1440, 1440) == 288 && Place(1680, 1296, 1440, 1440) == 1584
  {
    DivIs(1440 * 90, 100, 1296);
    DivIs(1080 * 100, 100, 1080);
    DivIs(240 * 1296, 1440, 216);
    DivIs(1680 * 1296, 1440, 1512);
  }

  /**
   * The evident intent: shrink the fitted box by the overscan percentages and centre
   * that in the display, in one pass.
   */
  function FitRect(r: Rect, displayWidth: int, displayHeight: int, dw: int, dh: int,
                   fw: int, fh: int, xScale: int, yScale: int): Rect
    requires fw != 0 && fh != 0
  {
    AdjustRect(r, displayWidth, displayHeight, Shrink(dw, xScale), Shrink(dh, yScale), fw, fh, 0, 0)
  }

  /** With FitRect the whole frame becomes the shrunk box centred in the display. */
  lemma FitRectCentred(displayWidth: int, displayHeight: int, dw: int, dh: int, fw: int, fh: int,
                       xScale: int, yScale: int)
    requires 0 < fw && 0 < fh && 0 <= dw && 0 <= dh
    requires 0 <= xScale <= 100 && 0 <= yScale <= 100
    ensures Centred(FitRect(Rect(0, 0, fw, fh), displayWidth, displayHeight, dw, dh, fw, fh, xScale, yScale),
                    displayWidth, displayHeight, Shrink(dw, xScale), Shrink(dh, yScale))
  {
    ShrinkBounds(dw, xScale);
    ShrinkBounds(dh, yScale);
    FrameCentred(displayWidth, displayHeight, Shrink(dw, xScale), Shrink(dh, yScale), fw, fh);
  }

  // ---------------------------------------------------------------------------------
  // The work list

  /** prepare's rule for one layer: a layer flagged SKIP is composed by the framebuffer. */
  function Settle(l: Layer): (s: Layer)
    ensures s.flags & HWC_SKIP_LAYER != 0 ==> s.compositionType == HWC_FRAMEBUFFER
    ensures s.flags & HWC_SKIP_LAYER == 0 ==> s == l
    ensures s.(compositionType := l.compositionType) == l
  {
    if l.flags & HWC_SKIP_LAYER != 0 then l.(compositionType := HWC_FRAMEBUFFER) else l
  }

  /** The list after prepare's loop over its first n layers. */
  function Settled(ls: seq<Layer>, n: nat): seq<Layer> {
    seq(|ls|, j requires 0 <= j < |ls| => if j < n then Settle(ls[j]) else ls[j])
  }

  /** The list after freeAllocatedBuffer: the first n layers lose their visible region. */
  function Released(ls: seq<Layer>, n: nat): seq<Layer> {
    seq(|ls|, j requires 0 <= j < |ls| => if j < n then ls[j].(region := []) else ls[j])
  }

  /** How many layers are composed as t. */
  function CountType(ls: seq<Layer>, t: int): nat {
    if |ls| == 0 then 0
    else CountType(ls[..|ls| - 1], t) + (if ls[|ls| - 1].compositionType == t then 1 else 0)
  }

  /** Overlay and framebuffer layers are disjoint, so together they are at most all layers. */
  lemma {:induction false} CountsBounded(ls: seq<Layer>)
    ensures CountType(ls, HWC_OVERLAY) + CountType(ls, HWC_FRAMEBUFFER) <= |ls|
  {
    if |ls| > 0 {
      CountsBounded(ls[..|ls| - 1]);
    }
  }

  /** `flags & ~HWC_GEOMETRY_CHANGED`. */
  function ClearGeometryChanged(f: bv32): (g: bv32)
    ensures g & HWC_GEOMETRY_CHANGED == 0
    ensures g | (f & HWC_GEOMETRY_CHANGED) == f
  {
    f & !HWC_GEOMETRY_CHANGED
  }

  /** The fields of the composer that only createWorkList and prepare write. */
  datatype ListHead = ListHead(hasList: bool, capacity: nat, numHwLayers: nat, flags: bv32,
                               numOVLayers: nat, numFBLayers: nat)

  /** adjustOverScan's rewrite of one layer. */
  function OverScanned(l: Layer, displayWidth: int, displayHeight: int, xScale: int, yScale: int): Layer
    requires displayWidth != 0 && displayHeight != 0
  {
    var dw, dh := Shrink(displayWidth, xScale), Shrink(displayHeight, yScale);
    l.(frame := AdjustRect(l.frame, displayWidth, displayHeight, dw, dh, displayWidth, displayHeight, 0, 0),
       region := AdjustAll(l.region, displayWidth, displayHeight, dw, dh, displayWidth, displayHeight, 0, 0))
  }

  /** What adjustGeometry needs for its divisions not to be by zero. */
  predicate GeometryDefined(defaultWidth: int, defaultHeight: int, displayWidth: int, displayHeight: int,
                            xScale: int, yScale: int)
  {
    defaultWidth != 0 && defaultHeight != 0 &&
    ((xScale != 0 || yScale != 0) ==>
      AspectFit(displayWidth, displayHeight, defaultWidth, defaultHeight).0 != 0 &&
      AspectFit(displayWidth, displayHeight, defaultWidth, defaultHeight).1 != 0)
  }

  /** adjustGeometry's rewrite of one layer: aspect fit, then adjustRect on frame and region. */
  function Fitted(l: Layer, defaultWidth: int, defaultHeight: int, displayWidth: int, displayHeight: int,
                  xScale: int, yScale: int): Layer
    requires GeometryDefined(defaultWidth, defaultHeight, displayWidth, displayHeight, xScale, yScale)
  {
    var (dw, dh) := AspectFit(displayWidth, displayHeight, defaultWidth, defaultHeight);
    l.(frame := AdjustRect(l.frame, displayWidth, displayHeight, dw, dh, defaultWidth, defaultHeight, xScale, yScale),
       region := AdjustAll(l.region, displayWidth, displayHeight, dw, dh, defaultWidth, defaultHeight, xScale, yScale))
  }

  /** The loop of adjustOverScan and adjustGeometry over the visible rects. */
  method AdjustRegion(rs: seq<Rect>, displayWidth: int, displayHeight: int, dw: int, dh: int,
                      fw: int, fh: int, xScale: int, yScale: int) returns (out: seq<Rect>)
    requires fw != 0 && fh != 0
    requires xScale != 0 || yScale != 0 ==> dw != 0 && dh != 0
    ensures out == AdjustAll(rs, displayWidth, displayHeight, dw, dh, fw, fh, xScale, yScale)
  {
    out := rs;
    var m := 0;
    while m < |rs|
      invariant m <= |rs| && |out| == |rs|
      invariant forall j | 0 <= j < m ::
        out[j] == AdjustRect(rs[j], displayWidth, displayHeight, dw, dh, fw, fh, xScale, yScale)
      invariant forall j | m <= j < |rs| :: out[j] == rs[j]
    {
      out := out[m := AdjustRect(out[m], displayWidth, displayHeight, dw, dh, fw, fh, xScale, yScale)];
      m := m + 1;
    }
  }

  /**
   * The composer: the device handle (present or not), the work list (hwLayers with
   * capacity entries, numHwLayers in use, its flags), the counts of the last prepare,
   * and whether region copies are outstanding.
   */
  class Composer {
    const hasDevice: bool
    var hasList: bool
    var layers: array<Layer>
    var capacity: nat
    var numHwLayers: nat
    var listFlags: bv32
    var numOVLayers: nat
    var numFBLayers: nat
    var isAllocated: bool
    /** Layers whose visible region is a copy this class allocated. */
    ghost var owned: set<nat>
    /** Copies whose last reference was dropped without being freed. */
    ghost var leaked: nat

    ghost predicate Valid()
      reads this
    {
      (hasList ==> layers.Length == capacity && numHwLayers <= capacity) &&
      (forall k | k in owned :: k < numHwLayers) &&
      (owned != {} ==> hasList && isAllocated)
    }

    ghost function Head(): ListHead
      reads this
    {
      ListHead(hasList, capacity, numHwLayers, listFlags, numOVLayers, numFBLayers)
    }

    constructor(device: bool)
      ensures Valid() && hasDevice == device && !hasList && capacity == 0
      ensures numOVLayers == 0 && numFBLayers == 0 && !isAllocated
      ensures owned == {} && leaked == 0 && fresh(layers)
    {
      hasDevice := device;
      hasList := false;
      layers := new Layer[0];
      capacity := 0;
      numHwLayers := 0;
      listFlags := 0;
      numOVLayers := 0;
      numFBLayers := 0;
      isAllocated := false;
      owned := {};
      leaked := 0;
    }

    /** initCheck: the composer is usable exactly when a device was opened. */
    function InitCheck(): (r: int)
      ensures r == NO_ERROR <==> hasDevice
      ensures r != NO_ERROR ==> r == NO_INIT
    {
      if hasDevice then NO_ERROR else NO_INIT
    }

    /**
     * release, given the device's result err for a set with no display, surface or list:
     * without a device there is nothing to release. The list itself is kept.
     */
    method Release(err: int) returns (status: int)
      ensures hasDevice ==> status == err
      ensures !hasDevice ==> status == NO_ERROR
    {
      status := if hasDevice then err else NO_ERROR;
    }

    /** getNumLayers. */
    function GetNumLayers(): (n: nat)
      reads this
      ensures !hasList ==> n == 0
      ensures hasList ==> n == numHwLayers
    {
      if hasList then numHwLayers else 0
    }

    /** getLayerCount. */
    function GetLayerCount(t: int): (n: nat)
      reads this
      ensures t == HWC_OVERLAY ==> n == numOVLayers
      ensures t == HWC_FRAMEBUFFER ==> n == numFBLayers
      ensures t != HWC_OVERLAY && t != HWC_FRAMEBUFFER ==> n == 0
    {
      if t == HWC_OVERLAY then numOVLayers
      else if t == HWC_FRAMEBUFFER then numFBLayers
      else 0
    }

    /** freeAllocatedBuffer: drop every in-use layer's region when copies are outstanding. */
    method FreeAllocatedBuffer()
      requires Valid()
      modifies this, layers
      ensures Valid() && Head() == old(Head()) && layers == old(layers) && leaked == old(leaked)
      ensures !(old(hasList) && old(isAllocated)) ==> unchanged(this) && unchanged(layers)
      ensures old(hasList) && old(isAllocated) ==>
        !isAllocated && owned == {} && layers[..] == Released(old(layers[..]), numHwLayers)
    {
      if !hasList || !isAllocated {
        return;
      }
      var i := 0;
      while i < numHwLayers
        invariant i <= numHwLayers
        modifies layers
        invariant forall j | 0 <= j < i :: layers[j] == old(layers[j]).(region := [])
        invariant forall j | i <= j < layers.Length :: layers[j] == old(layers[j])
      {
        if |layers[i].region| > 0 {
          layers[i] := layers[i].(region := []);
        }
        i := i + 1;
      }
      isAllocated := false;
      owned := {};
    }

    /**
     * createWorkList: with a device, release outstanding copies, reallocate the list only
     * when there is none or it is too small, and mark the geometry changed.
     */
    method CreateWorkList(numLayers: nat) returns (status: int)
      requires Valid()
      modifies this, layers
      ensures Valid() && status == NO_ERROR && leaked == old(leaked)
      ensures !hasDevice ==> unchanged(this) && unchanged(layers)
      ensures hasDevice ==>
        hasList && GetNumLayers() == numLayers && numHwLayers <= capacity &&
        listFlags == HWC_GEOMETRY_CHANGED &&
        numOVLayers == old(numOVLayers) && numFBLayers == old(numFBLayers)
      ensures hasDevice ==> owned == {}
      ensures hasDevice && old(hasList) ==> !isAllocated
      ensures hasDevice && !old(hasList) ==> isAllocated == old(isAllocated)
      ensures hasDevice && old(hasList) && numLayers <= old(capacity) ==>
        layers == old(layers) && capacity == old(capacity) &&
        layers[..] == (if old(isAllocated) then Released(old(layers[..]), old(numHwLayers)) else old(layers[..]))
      ensures hasDevice && !(old(hasList) && numLayers <= old(capacity)) ==>
        fresh(layers) && capacity == numLayers
    {
      status := NO_ERROR;
      if !hasDevice {
        return;
      }
      FreeAllocatedBuffer();
      if !hasList || capacity < numLayers {
        // the new list's entries are whatever malloc returns; EMPTY_LAYER stands in for them
        layers := new Layer[numLayers](_ => EMPTY_LAYER);
        hasList := true;
        capacity := numLayers;
      }
      listFlags := HWC_GEOMETRY_CHANGED;
      numHwLayers := numLayers;
    }

    /**
     * prepare, given the device's result err: on success, SKIP layers become framebuffer
     * layers and the overlay and framebuffer layers are counted.
     */
    method Prepare(err: int) returns (status: int)
      requires Valid() && hasDevice && hasList
      modifies this, layers
      ensures Valid() && status == err && layers == old(layers)
      ensures err != NO_ERROR ==> unchanged(this) && unchanged(layers)
      ensures err == NO_ERROR ==>
        hasList == old(hasList) && capacity == old(capacity) && numHwLayers == old(numHwLayers) &&
        listFlags == old(listFlags) && isAllocated == old(isAllocated) &&
        owned == old(owned) && leaked == old(leaked) &&
        layers[..] == Settled(old(layers[..]), numHwLayers) &&
        GetLayerCount(HWC_OVERLAY) == CountType(layers[..numHwLayers], HWC_OVERLAY) &&
        GetLayerCount(HWC_FRAMEBUFFER) == CountType(layers[..numHwLayers], HWC_FRAMEBUFFER) &&
        GetLayerCount(HWC_OVERLAY) + GetLayerCount(HWC_FRAMEBUFFER) <= numHwLayers
    {
      status := err;
      if err != NO_ERROR {
        return;
      }
      var ov, fb := SettleAndCount();
      numOVLayers := ov;
      numFBLayers := fb;
    }

    /** The loop of prepare: settle SKIP layers and count overlay and framebuffer layers. */
    method SettleAndCount() returns (ov: nat, fb: nat)
      requires numHwLayers <= layers.Length
      modifies layers
      ensures layers[..] == Settled(old(layers[..]), numHwLayers)
      ensures ov == CountType(layers[..numHwLayers], HWC_OVERLAY)
      ensures fb == CountType(layers[..numHwLayers], HWC_FRAMEBUFFER)
      ensures ov + fb <= numHwLayers
    {
      ghost var before := layers[..];
      var n := numHwLayers;
      ov, fb := 0, 0;
      var i := 0;
      while i < n
        invariant i <= n
        invariant forall j | 0 <= j < i :: layers[j] == Settle(before[j])
        invariant forall j | i <= j < layers.Length :: layers[j] == before[j]
        invariant ov == CountType(layers[..i], HWC_OVERLAY)
        invariant fb == CountType(layers[..i], HWC_FRAMEBUFFER)
      {
        var l := layers[i];
        if l.flags & HWC_SKIP_LAYER != 0 {
          l := l.(compositionType := HWC_FRAMEBUFFER);
          layers[i] := l;
        }
        assert layers[..i + 1][..i] == layers[..i];
        if l.compositionType == HWC_OVERLAY {
          ov := ov + 1;
        } else if l.compositionType == HWC_FRAMEBUFFER {
          fb := fb + 1;
        }
        i := i + 1;
      }
      CountsBounded(layers[..numHwLayers]);
    }

    /** commit, given the device's result err: clears GEOMETRY_CHANGED in the list's flags. */
    method Commit(err: int) returns (status: int)
      requires hasDevice
      modifies this
      ensures status == err
      ensures !old(hasList) ==> unchanged(this)
      ensures old(hasList) ==>
        listFlags == ClearGeometryChanged(old(listFlags)) &&
        Head() == old(Head()).(flags := listFlags) && layers == old(layers) &&
        isAllocated == old(isAllocated) && owned == old(owned) && leaked == old(leaked)
    {
      if hasList {
        listFlags := ClearGeometryChanged(listFlags);
      }
      status := err;
    }

    /**
     * disable, as written: drops the list and hands err from the device's prepare back.
     * Region copies still held by the list are not released, and isAllocated stays set.
     */
    method Disable(err: int) returns (status: int)
      requires Valid()
      modifies this
      ensures Valid()
      ensures !hasDevice ==> status == NO_ERROR && unchanged(this)
      ensures hasDevice ==>
        status == err && !hasList && GetNumLayers() == 0 &&
        capacity == old(capacity) && numOVLayers == old(numOVLayers) && numFBLayers == old(numFBLayers) &&
        isAllocated == old(isAllocated) && owned == {} && leaked == old(leaked) + |old(owned)|
    {
      if !hasDevice {
        return NO_ERROR;
      }
      hasList := false;
      leaked := leaked + |owned|;
      owned := {};
      status := err;
    }

    /** disable as the destructor does it: release the copies before dropping the list. */
    method DisableReleasing(err: int) returns (status: int)
      requires Valid()
      modifies this, layers
      ensures Valid()
      ensures !hasDevice ==> status == NO_ERROR && unchanged(this) && unchanged(layers)
      ensures hasDevice ==>
        status == err && !hasList && GetNumLayers() == 0 &&
        capacity == old(capacity) && numOVLayers == old(numOVLayers) && numFBLayers == old(numFBLayers) &&
        (old(hasList) ==> !isAllocated) && owned == {} && leaked == old(leaked)
    {
      if !hasDevice {
        return NO_ERROR;
      }
      FreeAllocatedBuffer();
      hasList := false;
      status := err;
    }

    /** What SurfaceFlinger writes through getLayers() into layer k. */
    method SetLayer(k: nat, l: Layer)
      requires Valid() && hasList && k < numHwLayers
      modifies this, layers
      ensures Valid() && Head() == old(Head()) && layers == old(layers) && isAllocated == old(isAllocated)
      ensures layers[..] == old(layers[..])[k := l]
      ensures owned == old(owned) - {k} && leaked == old(leaked) + (if k in old(owned) then 1 else 0)
    {
      layers[k] := l;
      if k in owned {
        leaked := leaked + 1;
        owned := owned - {k};
      }
    }

    /** Records that layer k's region (if any) is now a fresh copy owned by this class. */
    method TakeRegion(k: nat)
      requires Valid() && hasList && k < numHwLayers && |layers[k].region| > 0
      modifies this
      ensures Valid() && Head() == old(Head()) && layers == old(layers)
      ensures isAllocated && owned == old(owned) + {k}
      ensures leaked == old(leaked) + (if k in old(owned) then 1 else 0)
    {
      if k in owned {
        leaked := leaked + 1;
      }
      owned := owned + {k};
      isAllocated := true;
    }

    /** adjustOverScan on layer k: shrink frame and region about the display centre. */
    method AdjustOverScan(k: nat, displayWidth: int, displayHeight: int, xScale: int, yScale: int)
      requires Valid() && hasList && k < numHwLayers
      requires xScale != 0 || yScale != 0 ==> displayWidth != 0 && displayHeight != 0
      modifies this, layers
      ensures Valid() && Head() == old(Head()) && layers == old(layers)
      ensures xScale == 0 && yScale == 0 ==> unchanged(this) && unchanged(layers)
      ensures xScale != 0 || yScale != 0 ==>
        layers[..] == old(layers[..])[k := OverScanned(old(layers[k]), displayWidth, displayHeight, xScale, yScale)]
      ensures var copied := (xScale != 0 || yScale != 0) && |old(layers[k].region)| > 0;
        isAllocated == (old(isAllocated) || copied) &&
        owned == old(owned) + (if copied then {k} else {}) &&
        leaked == old(leaked) + (if copied && k in old(owned) then 1 else 0)
    {
      if xScale == 0 && yScale == 0 {
        return;
      }
      var dw := Shrink(displayWidth, xScale);
      var dh := Shrink(displayHeight, yScale);
      var l := layers[k];
      var frame := AdjustRect(l.frame, displayWidth, displayHeight, dw, dh, displayWidth, displayHeight, 0, 0);
      if |l.region| > 0 {
        TakeRegion(k);
      }
      var region := AdjustRegion(l.region, displayWidth, displayHeight, dw, dh, displayWidth, displayHeight, 0, 0);
      layers[k] := l.(frame := frame, region := region);
    }

    /** adjustGeometry on layer k: aspect fit into the display, then adjustRect with overscan. */
    method AdjustGeometry(k: nat, defaultWidth: int, defaultHeight: int, displayWidth: int, displayHeight: int,
                          xScale: int, yScale: int)
      requires Valid()
      requires hasList ==>
        (k < numHwLayers && GeometryDefined(defaultWidth, defaultHeight, displayWidth, displayHeight, xScale, yScale))
      modifies this, layers
      ensures Valid() && Head() == old(Head()) && layers == old(layers)
      ensures !hasList ==> unchanged(this) && unchanged(layers)
      ensures hasList ==>
        layers[..] == old(layers[..])[k := Fitted(old(layers[k]), defaultWidth, defaultHeight,
                                                  displayWidth, displayHeight, xScale, yScale)] &&
        isAllocated == (old(isAllocated) || |old(layers[k].region)| > 0) &&
        owned == old(owned) + (if |old(layers[k].region)| > 0 then {k} else {}) &&
        leaked == old(leaked) + (if |old(layers[k].region)| > 0 && k in old(owned) then 1 else 0)
    {
      if !hasList {
        return;
      }
      var dw, dh := displayWidth, displayHeight;
      var fw, fh := defaultWidth, defaultHeight;
      if dw >= TDiv(dh * fw, fh) {
        dw := TDiv(dh * fw, fh);
      } else {
        dh := TDiv(dw * fh, fw);
      }
      var l := layers[k];
      var frame := AdjustRect(l.frame, displayWidth, displayHeight, dw, dh, fw, fh, xScale, yScale);
      if |l.region| > 0 {
        TakeRegion(k);
      }
      var region := AdjustRegion(l.region, displayWidth, displayHeight, dw, dh, fw, fh, xScale, yScale);
      layers[k] := l.(frame := frame, region := region);
    }
  }

  /**
   * As written, disabling after an overscan of a layer with a visible region loses the
   * region copy: the list is gone, nothing frees the copy, and isAllocated stays set.
   */
  method DisableAfterOverScanLeaks() returns (c: Composer)
    ensures !c.hasList && c.isAllocated && c.leaked == 1
  {
    c := new Composer(true);
    var status := c.CreateWorkList(1);
    c.SetLayer(0, Layer(0, HWC_OVERLAY, Rect(0, 0, 1920, 1080), [Rect(0, 0, 1920, 1080)]));
    c.AdjustOverScan(0, 1920, 1080, 5, 5);
    status := c.Disable(NO_ERROR);
  }

  /** The same steps with DisableReleasing free the copy and clear isAllocated. */
  method DisableReleasingAfterOverScan() returns (c: Composer)
    ensures !c.hasList && !c.isAllocated && c.leaked == 0
  {
    c := new Composer(true);
    var status := c.CreateWorkList(1);
    c.SetLayer(0, Layer(0, HWC_OVERLAY, Rect(0, 0, 1920, 1080), [Rect(0, 0, 1920, 1080)]));
    c.AdjustOverScan(0, 1920, 1080, 5, 5);
    status := c.DisableReleasing(NO_ERROR);
  }
}

=== FILE: java_lang.dfy ===
/**
 * The slice of java.lang the core relies on, written out so that the models of the
 * Java files can use exactly the same string and integer behaviour:
 * Integer.parseInt (radix 10), String.valueOf / "%d", String.split on a single
 * literal character (trailing empty strings removed), String.substring with its
 * bounds check, String.replace on characters, and two's-complement int bits.
 */
module JavaLang {

  datatype Option<+T> = None | Some(value: T)

  datatype Result<+T, +E> = Ok(value: T) | Err(error: E)

  const INT_MIN: int := -0x8000_0000
  const INT_MAX: int := 0x7FFF_FFFF

  /** A value a Java `int` can hold. */
  predicate IsInt32(x: int) {
    INT_MIN <= x <= INT_MAX
  }

  // ---------------------------------------------------------------------------
  // Decimal digits

  predicate IsDigit(c: char) {
    '0' <= c <= '9'
  }

  predicate AllDigits(s: string) {
    forall i | 0 <= i < |s| :: IsDigit(s[i])
  }

  function DigitValue(c: char): (d: nat)
    requires IsDigit(c)
    ensures d < 10
  {
    (c as int) - ('0' as int)
  }

  function DigitChar(d: nat): (c: char)
    requires d < 10
    ensures IsDigit(c) && DigitValue(c) == d
  {
    (('0' as int) + d) as char
  }

  /** The number a string of decimal digits denotes (most significant digit first). */
  function DigitsValue(s: string): nat
    requires AllDigits(s)
  {
    if s == [] then 0 else DigitsValue(s[..|s| - 1]) * 10 + DigitValue(s[|s| - 1])
  }

  /**
   * Integer.parseInt(s) as the platform's class library implements it: an optional '-'
   * (a leading '+' is not a sign there) followed by at least one ASCII digit, whose value
   * fits in an int. None stands for NumberFormatException.
   */
  function ParseInt(s: string): (r: Option<int>)
    ensures r.Some? ==> IsInt32(r.value)
    ensures r.Some? ==> exists k | 0 <= k <= 1 :: k < |s| && AllDigits(s[k..])
    ensures r.Some? && IsDigit(s[0]) ==> r.value >= 0
    ensures r.Some? ==> s[0] == '-' || IsDigit(s[0])
  {
    if |s| == 0 then None
    else
      var signed := s[0] == '-';
      var digits := if signed then s[1..] else s;
      if |digits| == 0 || !AllDigits(digits) then None
      else
        var v: int := if signed then 0 - DigitsValue(digits) as int else DigitsValue(digits);
        if IsInt32(v) then
          assert AllDigits(s[if signed then 1 else 0..]);
          Some(v)
        else None
  }

  /** String.valueOf(n) for n >= 0: no sign, no leading zero. */
  function NatToString(n: nat): (s: string)
    ensures |s| > 0 && AllDigits(s)
    ensures |s| > 1 ==> s[0] != '0'
  {
    if n < 10 then [DigitChar(n)] else NatToString(n / 10) + [DigitChar(n % 10)]
  }

  /** String.valueOf(x) / String.format("%d", x). */
  function IntToString(x: int): (s: string)
    ensures |s| > 0
    ensures (s[0] == '-') <==> x < 0
  {
    if x < 0 then "-" + NatToString(-x) else NatToString(x)
  }

  lemma {:induction false} DigitsValueOfNatToString(n: nat)
    ensures DigitsValue(NatToString(n)) == n
  {
    if n >= 10 {
      var s := NatToString(n);
      assert s[..|s| - 1] == NatToString(n / 10);
      DigitsValueOfNatToString(n / 10);
    }
  }

  /** Integer.parseInt reads back what String.valueOf writes, for every int. */
  lemma ParseIntOfIntToString(x: int)
    requires IsInt32(x)
    ensures ParseInt(IntToString(x)) == Some(x)
  {
    var s := IntToString(x);
    if x < 0 {
      assert s[1..] == NatToString(-x);
      DigitsValueOfNatToString(-x);
    } else {
      DigitsValueOfNatToString(x);
    }
  }

  // ---------------------------------------------------------------------------
  // Searching, substrings, replacement

  /** The index of the last occurrence of c in s, or -1 (String.lastIndexOf). */
  function LastIndexOf(s: string, c: char): (k: int)
    ensures -1 <= k < |s|
    ensures k >= 0 ==> s[k] == c
    ensures forall j | k < j < |s| :: s[j] != c
  {
    if |s| == 0 then -1
    else if s[|s| - 1] == c then |s| - 1
    else LastIndexOf(s[..|s| - 1], c)
  }

  /** String.substring(b, e); None stands for StringIndexOutOfBoundsException. */
  function Substring(s: string, b: int, e: int): (r: Option<string>)
    ensures r.Some? <==> 0 <= b <= e <= |s|
    ensures r.Some? ==> |r.value| == e - b
  {
    if 0 <= b <= e <= |s| then Some(s[b..e]) else None
  }

  /** String.replace(a, b) on characters. */
  function ReplaceChar(s: string, a: char, b: char): (r: string)
    ensures |r| == |s|
    ensures forall i | 0 <= i < |s| :: r[i] == (if s[i] == a then b else s[i])
  {
    if |s| == 0 then "" else ReplaceChar(s[..|s| - 1], a, b) + [if s[|s| - 1] == a then b else s[|s| - 1]]
  }

  // ---------------------------------------------------------------------------
  // String.split on one literal character

  /** Every piece of s between occurrences of sep, empty ones included. */
  function SplitAll(s: string, sep: char): (r: seq<string>)
    ensures |r| >= 1
    ensures forall i | 0 <= i < |r| :: sep !in r[i]
  {
    if |s| == 0 then [""]
    else
      var rest := SplitAll(s[1..], sep);
      if s[0] == sep then [""] + rest else [[s[0]] + rest[0]] + rest[1..]
  }

  /** The pieces joined back with sep between consecutive ones. */
  function Join(ps: seq<string>, sep: char): string {
    if |ps| == 0 then "" else if |ps| == 1 then ps[0] else ps[0] + [sep] + Join(ps[1..], sep)
  }

  /** Splitting loses nothing: joining the pieces gives the input back. */
  lemma {:induction false} JoinSplitAll(s: string, sep: char)
    ensures Join(SplitAll(s, sep), sep) == s
  {
    if |s| > 0 {
      var rest := SplitAll(s[1..], sep);
      JoinSplitAll(s[1..], sep);
      if s[0] != sep {
        if |rest| > 1 {
          assert ([[s[0]] + rest[0]] + rest[1..])[1..] == rest[1..];
        }
      }
    }
  }

  /** Splitting pieces that do not contain sep, joined with sep, gives the pieces back. */
  lemma {:induction false} SplitAllJoin(ps: seq<string>, sep: char)
    requires |ps| >= 1
    requires forall i | 0 <= i < |ps| :: sep !in ps[i]
    ensures SplitAll(Join(ps, sep), sep) == ps
  {
    if |ps| == 1 {
      SplitAllNoSep(ps[0], sep);
    } else {
      SplitAllJoin(ps[1..], sep);
      SplitAllPrefix(ps[0], Join(ps[1..], sep), sep);
      assert ps == [ps[0]] + ps[1..];
    }
  }

  lemma {:induction false} SplitAllNoSep(s: string, sep: char)
    requires sep !in s
    ensures SplitAll(s, sep) == [s]
  {
    if |s| > 0 {
      SplitAllNoSep(s[1..], sep);
      assert [s[0]] + s[1..] == s;
    }
  }

  lemma {:induction false} SplitAllPrefix(a: string, b: string, sep: char)
    requires sep !in a
    ensures SplitAll(a + [sep] + b, sep) == [a] + SplitAll(b, sep)
  {
    var s := a + [sep] + b;
    if |a| == 0 {
      assert s[1..] == b;
    } else {
      assert s[1..] == a[1..] + [sep] + b;
      SplitAllPrefix(a[1..], b, sep);
      assert [a[0]] + a[1..] == a;
    }
  }

  /** The trailing empty strings removed, as String.split does. */
  function DropTrailingEmpty(ps: seq<string>): (r: seq<string>)
    ensures |r| <= |ps| && r == ps[..|r|]
    ensures |r| > 0 ==> r[|r| - 1] != ""
    ensures forall i | |r| <= i < |ps| :: ps[i] == ""
  {
    if |ps| == 0 then []
    else if ps[|ps| - 1] == "" then DropTrailingEmpty(ps[..|ps| - 1])
    else ps
  }

  /**
   * s.split(regex for sep): with no occurrence the input itself; otherwise the
   * pieces with the trailing empty ones removed.
   */
  function Split(s: string, sep: char): (r: seq<string>)
    ensures sep !in s ==> r == [s]
    ensures r == DropTrailingEmpty(SplitAll(s, sep)) || sep !in s
  {
    if sep !in s then [s] else DropTrailingEmpty(SplitAll(s, sep))
  }

  /** Pieces without sep whose last one is non-empty split back exactly. */
  lemma SplitJoin(ps: seq<string>, sep: char)
    requires |ps| >= 2
    requires forall i | 0 <= i < |ps| :: sep !in ps[i]
    requires ps[|ps| - 1] != ""
    ensures Split(Join(ps, sep), sep) == ps
  {
    SplitAllJoin(ps, sep);
    JoinHasSep(ps, sep);
  }

  lemma JoinHasSep(ps: seq<string>, sep: char)
    requires |ps| >= 2
    ensures sep in Join(ps, sep)
  {
    assert Join(ps, sep)[|ps[0]|] == sep;
  }

  // ---------------------------------------------------------------------------
  // int bits

  /** The 32-bit two's-complement pattern of a Java int. */
  function Bits(x: int): (b: bv32)
    requires IsInt32(x)
  {
    if x >= 0 then x as bv32 else !((-x - 1) as bv32)
  }
}

=== FILE: pppoe_manager.dfy ===
/**
 * The client side of the PPPoE service: the public state codes, the state query and
 * PppoeLock, a keep-awake lock that is either reference-counted or not, whose holders
 * are counted per manager against a ceiling of 50.
 *
 * Calls into the service (acquire, release, work-source update) are recorded in a ghost
 * log on the manager; RemoteException never happens in this model.
 */
module PppoeManager {
  import opened JavaLang

  // Enabled-state codes (the last four are only broadcast by the state tracker).
  const PPPOE_STATE_DISABLING: int := 0
  const PPPOE_STATE_DISABLED: int := 1
  const PPPOE_STATE_ENABLING: int := 2
  const PPPOE_STATE_ENABLED: int := 3
  const PPPOE_STATE_UNKNOWN: int := 4
  const PPPOE_STATE_CHECK_CONNNECT: int := 5
  const PPPOE_STATE_NO_ACCOUNT: int := 6
  const PPPOE_STATE_MODEM_HUNGUP: int := 7
  const PPPOE_STATE_ACCOUNT_UNCORRECT: int := 8

  /** At most this many locks of one manager may be active at once. */
  const MAX_ACTIVE_LOCKS: int := 50

  /** A work source is a set of uids; null is None. */
  type WorkSource = Option<set<int>>

  /** A call from a lock into the service, identified by the lock's binder. */
  datatype ServiceCall =
    | AcquireAtService(binder: int, ws: WorkSource)
    | ReleaseAtService(binder: int)
    | UpdateAtService(binder: int, ws: WorkSource)

  datatype LockError =
    | UnsupportedOperation   // "Exceeded maximum number of Pppoe locks"
    | UnderLocked            // "PppoeLock under-locked"

  /**
   * getPppoeState: the service's answer, or UNKNOWN when the call fails
   * (`reply` is None for a RemoteException).
   */
  function GetPppoeState(reply: Option<int>): (r: int)
    ensures reply.None? ==> r == PPPOE_STATE_UNKNOWN
    ensures reply.Some? ==> r == reply.value
  {
    if reply.Some? then reply.value else PPPOE_STATE_UNKNOWN
  }

  /** isPppoeEnabled: whether getPppoeState reports ENABLED. */
  function IsPppoeEnabled(reply: Option<int>): (r: bool)
    ensures r <==> reply == Some(PPPOE_STATE_ENABLED)
  {
    GetPppoeState(reply) == PPPOE_STATE_ENABLED
  }

  // ---------------------------------------------------------------------------
  // Specification of one lock, together with its manager's active-lock count

  datatype LockState = LockState(
    refCount: int,
    refCounted: bool,
    held: bool,
    workSource: WorkSource,
    activeCount: int)

  /** What one call does: the state after it, the service calls it made, and what it throws. */
  datatype Step = Step(after: LockState, calls: seq<ServiceCall>, err: Option<LockError>)

  /** The state of a lock right after construction, for a manager with `active` locks. */
  function NewLockState(active: int): LockState {
    LockState(0, true, false, None, active)
  }

  /** acquire(), as written: a reference-counted lock acts whenever the new count is positive. */
  function AcquireStep(s: LockState, binder: int): Step {
    var rc := if s.refCounted then s.refCount + 1 else s.refCount;
    var acts := if s.refCounted then rc > 0 else !s.held;
    if !acts then
      Step(s.(refCount := rc), [], None)
    else if s.activeCount >= MAX_ACTIVE_LOCKS then
      Step(s.(refCount := rc),
           [AcquireAtService(binder, s.workSource), ReleaseAtService(binder)],
           Some(UnsupportedOperation))
    else
      Step(s.(refCount := rc, activeCount := s.activeCount + 1, held := true),
           [AcquireAtService(binder, s.workSource)], None)
  }

  /** release(): a reference-counted lock acts exactly when the count drops to zero. */
  function ReleaseStep(s: LockState, binder: int): Step {
    var rc := if s.refCounted then s.refCount - 1 else s.refCount;
    var acts := if s.refCounted then rc == 0 else s.held;
    var s' := if acts then s.(refCount := rc, activeCount := s.activeCount - 1, held := false)
              else s.(refCount := rc);
    Step(s', if acts then [ReleaseAtService(binder)] else [],
         if rc < 0 then Some(UnderLocked) else None)
  }

  /** An empty work source counts as null. */
  function NormalizeWorkSource(ws: WorkSource): WorkSource {
    if ws.Some? && ws.value == {} then None else ws
  }

  /** setWorkSource(ws) */
  function SetWorkSourceStep(s: LockState, binder: int, ws: WorkSource): Step {
    var w := NormalizeWorkSource(ws);
    var changed := if w.None? then true
                   else if s.workSource.None? then false
                   else s.workSource.value != w.value;
    Step(s.(workSource := w), if changed && s.held then [UpdateAtService(binder, w)] else [], None)
  }

  /** finalize(): a held lock is released at the service and uncounted. */
  function FinalizeStep(s: LockState, binder: int): Step {
    if s.held then Step(s.(activeCount := s.activeCount - 1), [ReleaseAtService(binder)], None)
    else Step(s, [], None)
  }

  /** For a reference-counted lock: held exactly while the count is positive. */
  predicate HeldMatchesCount(s: LockState) {
    s.refCounted ==> (s.held <==> s.refCount > 0)
  }

  // ---------------------------------------------------------------------------
  // Properties of the specification

  /** A fresh lock is reference-counted, unheld, with count 0 and no work source. */
  lemma NewLockIsIdle(active: int)
    ensures var s := NewLockState(active);
      s.refCounted && !s.held && s.refCount == 0 && s.workSource.None? && HeldMatchesCount(s)
  {
  }

  /**
   * Every reference-counted acquire below the ceiling calls the service and bumps the
   * active count, not only the first one.
   */
  lemma AcquireRefCountedAlwaysCounts(s: LockState, binder: int)
    requires s.refCounted && s.refCount >= 0 && s.activeCount < MAX_ACTIVE_LOCKS
    ensures var r := AcquireStep(s, binder);
      r.err.None? && r.after.held && r.after.refCount == s.refCount + 1
      && r.after.activeCount == s.activeCount + 1
      && r.calls == [AcquireAtService(binder, s.workSource)]
  {
  }

  /**
   * At the ceiling an acquiring call is undone at the service and throws; the active count
   * and the held flag are unchanged but a reference count keeps its increment.
   */
  lemma AcquireAtCeiling(s: LockState, binder: int)
    requires s.activeCount >= MAX_ACTIVE_LOCKS
    requires if s.refCounted then s.refCount >= 0 else !s.held
    ensures var r := AcquireStep(s, binder);
      r.err == Some(UnsupportedOperation)
      && r.after.activeCount == s.activeCount && r.after.held == s.held
      && r.after.refCount == (if s.refCounted then s.refCount + 1 else s.refCount)
      && r.calls == [AcquireAtService(binder, s.workSource), ReleaseAtService(binder)]
      && (s.refCounted && !s.held ==> !HeldMatchesCount(r.after))
  {
  }

  /** A non-counted lock: repeating acquire or release changes nothing and never throws. */
  lemma NonRefCountedIdempotent(s: LockState, binder: int)
    requires !s.refCounted && s.refCount >= 0
    ensures var a := AcquireStep(s, binder);
      a.err.None? ==> AcquireStep(a.after, binder) == Step(a.after, [], None) && a.after.held
    ensures var r := ReleaseStep(s, binder);
      r.err.None? && !r.after.held && ReleaseStep(r.after, binder) == Step(r.after, [], None)
    ensures s.held ==> AcquireStep(s, binder) == Step(s, [], None)
    ensures !s.held ==> ReleaseStep(s, binder) == Step(s, [], None)
  {
  }

  /**
   * A counted release always decrements; the service release happens exactly when the
   * count reaches zero, and a negative count throws with the decrement kept.
   */
  lemma ReleaseRefCounted(s: LockState, binder: int)
    requires s.refCounted
    ensures var r := ReleaseStep(s, binder);
      r.after.refCount == s.refCount - 1
      && (r.calls != [] <==> s.refCount == 1)
      && (s.refCount == 1 ==> !r.after.held && r.after.activeCount == s.activeCount - 1)
      && (s.refCount != 1 ==> r.after.held == s.held && r.after.activeCount == s.activeCount)
      && (r.err == Some(UnderLocked) <==> s.refCount <= 0)
  {
  }

  /** held <==> count > 0 survives every call that does not throw at the ceiling. */
  lemma HeldMatchesCountPreserved(s: LockState, binder: int, ws: WorkSource)
    requires HeldMatchesCount(s)
    ensures AcquireStep(s, binder).err.None? ==> HeldMatchesCount(AcquireStep(s, binder).after)
    ensures HeldMatchesCount(ReleaseStep(s, binder).after)
    ensures HeldMatchesCount(SetWorkSourceStep(s, binder, ws).after)
  {
  }

  /**
   * setWorkSource stores the argument (null when null or empty) and tells the service
   * exactly when the lock is held and the source changed: a null or empty argument always
   * counts as a change, null to non-null never does, and between two non-null sources it
   * is a change exactly when they differ.
   */
  lemma SetWorkSourceEffect(s: LockState, binder: int, ws: WorkSource)
    ensures var r := SetWorkSourceStep(s, binder, ws);
      r.after == s.(workSource := if ws == Some({}) then None else ws)
      && (r.calls != [] ==> r.calls == [UpdateAtService(binder, r.after.workSource)])
      && (r.calls != [] <==>
            s.held && (ws.None? || ws == Some({}) || (s.workSource.Some? && s.workSource != ws)))
      && (s.workSource.None? && ws.Some? && ws.value != {} ==> r.calls == [])
      && r.err.None?
  {
  }

  /** finalize releases at the service only a held lock. */
  lemma FinalizeReleasesOnlyHeld(s: LockState, binder: int)
    ensures var r := FinalizeStep(s, binder);
      (r.calls == [ReleaseAtService(binder)] && r.after.activeCount == s.activeCount - 1) <==> s.held
  {
  }

  /**
   * As written, acquire, acquire, release, release on a fresh counted lock ends unheld
   * with the count back to 0 but one more active lock than before.
   */
  lemma NestedPairLeaksActiveCount(active: int, binder: int)
    requires active + 2 < MAX_ACTIVE_LOCKS
    ensures var s0 := NewLockState(active);
      var s1 := AcquireStep(s0, binder).after;
      var s2 := AcquireStep(s1, binder).after;
      var s3 := ReleaseStep(s2, binder).after;
      var s4 := ReleaseStep(s3, binder).after;
      !s4.held && s4.refCount == 0 && s4.activeCount == active + 1
  {
  }

  /** acquire() as evidently intended: a counted lock acts only when the count becomes 1. */
  function IntendedAcquireStep(s: LockState, binder: int): Step {
    if s.refCounted && s.refCount + 1 != 1 then Step(s.(refCount := s.refCount + 1), [], None)
    else AcquireStep(s, binder)
  }

  /**
   * With the intended acquire, an acquire followed by a release restores the lock and the
   * active count exactly, so every balanced nesting of pairs does.
   */
  lemma IntendedAcquireReleaseRestores(s: LockState, binder: int)
    requires s.refCounted && HeldMatchesCount(s) && s.refCount >= 0
    requires s.activeCount < MAX_ACTIVE_LOCKS
    ensures var a := IntendedAcquireStep(s, binder);
      a.err.None? && HeldMatchesCount(a.after) && ReleaseStep(a.after, binder).after == s
  {
  }

  // ---------------------------------------------------------------------------
  // The imperative lock

  class Manager {
    /** mActiveLockCount */
    var activeLockCount: int
    /** Every call the locks of this manager made into the service, oldest first. */
    ghost var serviceCalls: seq<ServiceCall>

    constructor ()
      ensures activeLockCount == 0 && serviceCalls == []
    {
      activeLockCount := 0;
      serviceCalls := [];
    }

    /** createPppoeLock */
    method CreateLock(lockType: int, tag: string, binder: int) returns (l: PppoeLock)
      ensures fresh(l) && l.manager == this && l.binder == binder
      ensures l.Snapshot() == NewLockState(activeLockCount)
    {
      l := new PppoeLock(this, lockType, tag, binder);
    }
  }

  class PppoeLock {
    const manager: Manager
    const binder: int
    const lockType: int
    const tag: string
    var refCount: int
    var refCounted: bool
    var held: bool
    var workSource: WorkSource

    ghost function Snapshot(): LockState
      reads this, manager
    {
      LockState(refCount, refCounted, held, workSource, manager.activeLockCount)
    }

    constructor (manager: Manager, lockType: int, tag: string, binder: int)
      ensures this.manager == manager && this.binder == binder
      ensures this.lockType == lockType && this.tag == tag
      ensures Snapshot() == NewLockState(manager.activeLockCount)
    {
      this.manager := manager;
      this.binder := binder;
      this.lockType := lockType;
      this.tag := tag;
      refCount := 0;
      refCounted := true;
      held := false;
      workSource := None;
    }

    method Acquire() returns (err: Option<LockError>)
      modifies this, manager
      ensures var r := AcquireStep(old(Snapshot()), binder);
        Snapshot() == r.after && err == r.err
        && manager.serviceCalls == old(manager.serviceCalls) + r.calls
    {
      var acts: bool;
      if refCounted {
        refCount := refCount + 1;
        acts := refCount > 0;
      } else {
        acts := !held;
      }
      if acts {
        manager.serviceCalls := manager.serviceCalls + [AcquireAtService(binder, workSource)];
        if manager.activeLockCount >= MAX_ACTIVE_LOCKS {
          manager.serviceCalls := manager.serviceCalls + [ReleaseAtService(binder)];
          return Some(UnsupportedOperation);
        }
        manager.activeLockCount := manager.activeLockCount + 1;
        held := true;
      }
      return None;
    }

    method Release() returns (err: Option<LockError>)
      modifies this, manager
      ensures var r := ReleaseStep(old(Snapshot()), binder);
        Snapshot() == r.after && err == r.err
        && manager.serviceCalls == old(manager.serviceCalls) + r.calls
    {
      var acts: bool;
      if refCounted {
        refCount := refCount - 1;
        acts := refCount == 0;
      } else {
        acts := held;
      }
      if acts {
        manager.serviceCalls := manager.serviceCalls + [ReleaseAtService(binder)];
        manager.activeLockCount := manager.activeLockCount - 1;
        held := false;
      }
      if refCount < 0 {
        return Some(UnderLocked);
      }
      return None;
    }

    method SetReferenceCounted(counted: bool)
      modifies this
      ensures Snapshot() == old(Snapshot()).(refCounted := counted)
    {
      refCounted := counted;
    }

    method IsHeld() returns (h: bool)
      ensures h == held
    {
      h := held;
    }

    method SetWorkSource(ws: WorkSource)
      modifies this, manager
      ensures var r := SetWorkSourceStep(old(Snapshot()), binder, ws);
        Snapshot() == r.after && manager.serviceCalls == old(manager.serviceCalls) + r.calls
    {
      var w := ws;
      if w.Some? && w.value == {} {
        w := None;
      }
      var changed := true;
      if w.None? {
        workSource := None;
      } else if workSource.None? {
        changed := false;
        workSource := w;
      } else {
        changed := workSource.value != w.value;
        if changed {
          workSource := w;
        }
      }
      if changed && held {
        manager.serviceCalls := manager.serviceCalls + [UpdateAtService(binder, workSource)];
      }
    }

    method Finalize()
      modifies this, manager
      ensures var r := FinalizeStep(old(Snapshot()), binder);
        Snapshot() == r.after && manager.serviceCalls == old(manager.serviceCalls) + r.calls
    {
      if held {
        manager.serviceCalls := manager.serviceCalls + [ReleaseAtService(binder)];
        manager.activeLockCount := manager.activeLockCount - 1;
      }
    }
  }
}

=== FILE: pppoe_service.dfy ===
/**
 * The PPPoE system service: it serialises enable/disable requests on its own handler
 * thread, keeps the persisted PPPoE setting, tracks the PPPoE locks clients hold, decides
 * from the screen/idle state whether the connection should be up, and holds wake locks
 * while requests are pending.
 *
 * The service's collaborators are objects of their own: the tracker (its PPPoE state and
 * event loop), the secure settings, the lock list, the two wake locks and the handler's
 * message queue. Broadcasts of PPPOE_STATE_CHANGED_ACTION are recorded in a ghost log.
 * Binder identities, uids and permission checks are plain integers or left out.
 */
module PppoeService {
  import opened JavaLang
  import opened PppoeManager
  import PppoeStateTracker

  const MESSAGE_ENABLE_PPPOE: int := 0
  const MESSAGE_DISABLE_PPPOE: int := 1
  const MESSAGE_STOP_PPPOE: int := 2
  const MESSAGE_START_PPPOE: int := 3
  const MESSAGE_RELEASE_WAKELOCK: int := 4
  const MESSAGE_UPDATE_STATE: int := 5
  const MESSAGE_ENABLE_NETWORKS: int := 9
  const MESSAGE_REPORT_WORKSOURCE: int := 11

  /** How long the driver-stop wake lock is kept after a stop, in milliseconds. */
  const DEFAULT_WAKELOCK_TIMEOUT: int := 8000

  // ---------------------------------------------------------------------------
  // String helpers

  /** removeDoubleQuotes: the string without its first and last character, or "" when too short. */
  function RemoveDoubleQuotes(s: string): (r: string)
    ensures |s| <= 2 ==> r == ""
    ensures |s| > 2 ==> |r| == |s| - 2 && s == [s[0]] + r + [s[|s| - 1]]
  {
    if |s| <= 2 then "" else s[1..|s| - 1]
  }

  /** convertToQuotedString */
  function ConvertToQuotedString(s: string): (r: string)
    ensures |r| == |s| + 2 && r[0] == '"' && r[|r| - 1] == '"'
  {
    "\"" + s + "\""
  }

  /** Unquoting undoes quoting for every string, the empty one included. */
  lemma {:induction false} RemoveQuotesOfQuoted(s: string)
    ensures RemoveDoubleQuotes(ConvertToQuotedString(s)) == s
  {
    var q := ConvertToQuotedString(s);
    assert q[1..|q| - 1] == s;
  }

  /** A name as makeString writes it: '_' replaced by '-'. */
  function Dashed(s: string): string {
    ReplaceChar(s, '_', '-')
  }

  /** The bits of `bits` in [from, n), in increasing order. */
  function SetBits(bits: set<nat>, from: nat, n: nat): (r: seq<nat>)
    ensures forall i | 0 <= i < |r| :: from <= r[i] < n
    decreases n - from
  {
    if from >= n then [] else (if from in bits then [from] else []) + SetBits(bits, from + 1, n)
  }

  /** SetBits lists exactly the set bits of the range. */
  lemma {:induction false} SetBitsExact(bits: set<nat>, from: nat, n: nat, k: nat)
    ensures k in SetBits(bits, from, n) <==> from <= k < n && k in bits
    decreases n - from
  {
    if from < n {
      SetBitsExact(bits, from + 1, n, k);
    }
  }

  /** SetBits lists the bits in increasing order. */
  lemma {:induction false} SetBitsIncreasing(bits: set<nat>, from: nat, n: nat)
    ensures forall i, j | 0 <= i < j < |SetBits(bits, from, n)| :: SetBits(bits, from, n)[i] < SetBits(bits, from, n)[j]
    decreases n - from
  {
    if from < n {
      SetBitsIncreasing(bits, from + 1, n);
      var rest := SetBits(bits, from + 1, n);
      var r := SetBits(bits, from, n);
      if from in bits {
        assert r == [from] + rest;
        forall i, j | 0 <= i < j < |r|
          ensures r[i] < r[j]
        {
          assert r[j] == rest[j - 1];
          if i > 0 {
            assert r[i] == rest[i - 1];
          } else {
            assert r[i] == from;
          }
        }
      }
    }
  }

  /** BitSet.nextSetBit on the bits below n: the least set bit at or after `from`, or -1. */
  function NextSetBit(bits: set<nat>, from: nat, n: nat): (k: int)
    ensures k == -1 || (from <= k < n && k in bits)
    ensures forall j | from <= j < (if k == -1 then n else k) :: j !in bits
    decreases n - from
  {
    if from >= n then -1 else if from in bits then from else NextSetBit(bits, from + 1, n)
  }

  /** The set bits from `from` on are the next set bit followed by those after it. */
  lemma {:induction false} SetBitsFromNext(bits: set<nat>, from: nat, n: nat)
    ensures var k := NextSetBit(bits, from, n);
      SetBits(bits, from, n) == if k == -1 then [] else [k as nat] + SetBits(bits, k + 1, n)
    decreases n - from
  {
    if from < n && from !in bits {
      SetBitsFromNext(bits, from + 1, n);
    }
  }

  /** The dashed names at the given indices. */
  function Words(strings: seq<string>, idx: seq<nat>): seq<string>
    requires forall i | 0 <= i < |idx| :: idx[i] < |strings|
  {
    if idx == [] then [] else [Dashed(strings[idx[0]])] + Words(strings, idx[1..])
  }

  /** Every word followed by one space. */
  function Spaced(ws: seq<string>): string {
    if ws == [] then "" else ws[0] + " " + Spaced(ws[1..])
  }

  lemma {:induction false} SpacedIsJoinPlusSpace(ws: seq<string>)
    requires ws != []
    ensures Spaced(ws) == Join(ws, ' ') + " "
  {
    if |ws| > 1 {
      SpacedIsJoinPlusSpace(ws[1..]);
    }
  }

  /** What the loop of makeString appends from the set bit `next` on. */
  function Appended(bits: set<nat>, strings: seq<string>, next: int): string
    requires next == -1 || 0 <= next < |strings|
    decreases if next == -1 then 0 else |strings| - next + 1
  {
    if next == -1 then ""
    else Dashed(strings[next]) + " " + Appended(bits, strings, NextSetBit(bits, next + 1, |strings|))
  }

  lemma SpacedWordsCons(strings: seq<string>, x: nat, rest: seq<nat>)
    requires x < |strings| && forall i | 0 <= i < |rest| :: rest[i] < |strings|
    ensures Spaced(Words(strings, [x] + rest)) == Dashed(strings[x]) + " " + Spaced(Words(strings, rest))
  {
    var idx := [x] + rest;
    assert idx[0] == x && idx[1..] == rest;
  }

  /** From any bit on, the loop appends each name of the set bits followed by a space. */
  lemma {:induction false} AppendedIsSpaced(bits: set<nat>, strings: seq<string>, from: nat)
    ensures Appended(bits, strings, NextSetBit(bits, from, |strings|)) == Spaced(Words(strings, SetBits(bits, from, |strings|)))
    decreases |strings| - from
  {
    if from < |strings| {
      AppendedIsSpaced(bits, strings, from + 1);
      var rest := SetBits(bits, from + 1, |strings|);
      if from in bits {
        assert SetBits(bits, from, |strings|) == [from] + rest;
        assert Appended(bits, strings, from) == Dashed(strings[from]) + " " + Appended(bits, strings, NextSetBit(bits, from + 1, |strings|));
        SpacedWordsCons(strings, from, rest);
      } else {
        assert SetBits(bits, from, |strings|) == [] + rest == rest;
      }
    }
  }

  /**
   * makeString: the names of the set bits below |strings|, in increasing order, with
   * '_' written as '-', separated by single spaces.
   */
  method MakeString(bits: set<nat>, strings: seq<string>) returns (r: string)
    ensures r == Join(Words(strings, SetBits(bits, 0, |strings|)), ' ')
  {
    var n := |strings|;
    var buf := "";
    var next := NextSetBit(bits, 0, n);
    ghost var first := next;
    while next != -1
      invariant next == -1 || 0 <= next < n
      invariant buf + Appended(bits, strings, next) == Appended(bits, strings, first)
      decreases if next == -1 then 0 else n - next + 1
    {
      var name := Dashed(strings[next]) + " ";
      var after := NextSetBit(bits, next + 1, n);
      assert Appended(bits, strings, next) == name + Appended(bits, strings, after);
      assert (buf + name) + Appended(bits, strings, after) == buf + Appended(bits, strings, next);
      buf := buf + name;
      next := after;
    }
    AppendedIsJoin(bits, strings);
    if |buf| > 0 {
      buf := buf[..|buf| - 1];
    }
    r := buf;
  }

  /** Dropping the last space of everything the loop appends leaves the joined names. */
  lemma AppendedIsJoin(bits: set<nat>, strings: seq<string>)
    ensures var a := Appended(bits, strings, NextSetBit(bits, 0, |strings|));
      var joined := Join(Words(strings, SetBits(bits, 0, |strings|)), ' ');
      (|a| == 0 ==> joined == "") && (|a| > 0 ==> a[..|a| - 1] == joined)
  {
    var n := |strings|;
    var first := NextSetBit(bits, 0, n);
    AppendedIsSpaced(bits, strings, 0);
    SetBitsFromNext(bits, 0, n);
    if first != -1 {
      var words := Words(strings, SetBits(bits, 0, n));
      SpacedIsJoinPlusSpace(words);
      var a := Join(words, ' ') + " ";
      assert a[..|a| - 1] == Join(words, ' ');
    }
  }

  /** The first index of s in strings, or -1. */
  function FirstIndex(strings: seq<string>, s: string): (r: int)
    ensures -1 <= r < |strings|
    ensures r >= 0 ==> strings[r] == s
    ensures forall j | 0 <= j < (if r == -1 then |strings| else r) :: strings[j] != s
  {
    if |strings| == 0 then -1
    else if strings[0] == s then 0
    else
      var k := FirstIndex(strings[1..], s);
      if k == -1 then -1 else k + 1
  }

  /** lookupString: '-' read back as '_', then the first equal entry. */
  method LookupString(s: string, strings: seq<string>) returns (r: int)
    ensures r == FirstIndex(strings, ReplaceChar(s, '-', '_'))
  {
    var name := ReplaceChar(s, '-', '_');
    var i := 0;
    while i < |strings|
      invariant 0 <= i <= |strings|
      invariant forall j | 0 <= j < i :: strings[j] != name
    {
      if name == strings[i] {
        return i;
      }
      i := i + 1;
    }
    return -1;
  }

  /**
   * lookupString finds a name written by makeString: a name without '-' that has no
   * earlier duplicate is found at its own index.
   */
  lemma LookupOfDashed(strings: seq<string>, i: nat)
    requires i < |strings| && '-' !in strings[i]
    requires forall j | 0 <= j < i :: strings[j] != strings[i]
    ensures FirstIndex(strings, ReplaceChar(Dashed(strings[i]), '-', '_')) == i
  {
    var s := strings[i];
    var back := ReplaceChar(Dashed(s), '-', '_');
    assert forall k | 0 <= k < |s| :: back[k] == s[k];
    assert back == s;
  }

  /** stateName */
  function StateName(state: int): (r: string)
    ensures r == "[invalid state]" <==> !(PPPOE_STATE_DISABLING <= state <= PPPOE_STATE_UNKNOWN)
  {
    if state == PPPOE_STATE_DISABLING then "disabling"
    else if state == PPPOE_STATE_DISABLED then "disabled"
    else if state == PPPOE_STATE_ENABLING then "enabling"
    else if state == PPPOE_STATE_ENABLED then "enabled"
    else if state == PPPOE_STATE_UNKNOWN then "unknown state"
    else "[invalid state]"
  }

  /** Different valid states have different names. */
  lemma StateNamesDistinct(a: int, b: int)
    requires PPPOE_STATE_DISABLING <= a <= PPPOE_STATE_UNKNOWN && PPPOE_STATE_DISABLING <= b <= PPPOE_STATE_UNKNOWN
    ensures StateName(a) == StateName(b) <==> a == b
  {
  }

  // ---------------------------------------------------------------------------
  // PPPoE locks held by clients

  /** A lock a client holds: its mode, tag, binder and the uids it is charged to. */
  datatype ServiceLock = ServiceLock(mode: int, tag: string, binder: int, workSource: set<int>)

  /** The index of the last lock with this binder, or -1. */
  function BinderIndex(list: seq<ServiceLock>, binder: int): (k: int)
    ensures -1 <= k < |list|
    ensures k >= 0 ==> list[k].binder == binder
    ensures forall j | k < j < |list| :: list[j].binder != binder
  {
    if |list| == 0 then -1
    else if list[|list| - 1].binder == binder then |list| - 1
    else BinderIndex(list[..|list| - 1], binder)
  }

  /** No two locks share a binder. */
  predicate UniqueBinders(list: seq<ServiceLock>) {
    forall i, j | 0 <= i < j < |list| :: list[i].binder != list[j].binder
  }

  /** addLock: appended unless a lock with the same binder is already there. */
  function WithLock(list: seq<ServiceLock>, lock: ServiceLock): seq<ServiceLock> {
    if BinderIndex(list, lock.binder) < 0 then list + [lock] else list
  }

  datatype Removal = Removal(rest: seq<ServiceLock>, removed: Option<ServiceLock>)

  /** removeLock: the last lock with the binder taken out and returned. */
  function WithoutBinder(list: seq<ServiceLock>, binder: int): Removal {
    var k := BinderIndex(list, binder);
    if k >= 0 then Removal(list[..k] + list[k + 1..], Some(list[k])) else Removal(list, None)
  }

  /** addLock never creates a second lock with the same binder. */
  lemma AddLockKeepsUnique(list: seq<ServiceLock>, lock: ServiceLock)
    requires UniqueBinders(list)
    ensures UniqueBinders(WithLock(list, lock))
    ensures lock.binder in set l | l in WithLock(list, lock) :: l.binder
  {
    var k := BinderIndex(list, lock.binder);
    if k < 0 {
      var r := list + [lock];
      assert r[|list|] == lock;
    } else {
      assert list[k] in list;
    }
  }

  /**
   * removeLock returns the lock and removes it when one has the binder; otherwise it
   * returns null and changes nothing. With unique binders nothing with that binder is left.
   */
  lemma RemoveLockEffect(list: seq<ServiceLock>, binder: int)
    ensures var r := WithoutBinder(list, binder);
      (r.removed.None? <==> forall i | 0 <= i < |list| :: list[i].binder != binder)
      && (r.removed.None? ==> r.rest == list)
      && (r.removed.Some? ==>
            r.removed.value.binder == binder && |r.rest| == |list| - 1
            && multiset(r.rest) + multiset{r.removed.value} == multiset(list))
  {
    var k := BinderIndex(list, binder);
    if k >= 0 {
      assert list == list[..k] + [list[k]] + list[k + 1..];
    }
  }

  /** With unique binders, nothing with the binder is left after removeLock. */
  lemma RemoveLockKeepsUnique(list: seq<ServiceLock>, binder: int)
    requires UniqueBinders(list)
    ensures UniqueBinders(WithoutBinder(list, binder).rest)
    ensures forall i | 0 <= i < |WithoutBinder(list, binder).rest| :: WithoutBinder(list, binder).rest[i].binder != binder
  {
    var k := BinderIndex(list, binder);
    if k >= 0 {
      var rest := list[..k] + list[k + 1..];
      assert forall i | 0 <= i < |rest| :: rest[i] == (if i < k then list[i] else list[i + 1]);
    }
  }

  /** Adding a lock for a new binder and then removing that binder restores the list. */
  lemma AddThenRemove(list: seq<ServiceLock>, lock: ServiceLock)
    requires forall i | 0 <= i < |list| :: list[i].binder != lock.binder
    ensures WithoutBinder(WithLock(list, lock), lock.binder) == Removal(list, Some(lock))
  {
    assert BinderIndex(list, lock.binder) == -1;
    var r := list + [lock];
    assert r[..|list|] == list;
  }

  /** The service's LockList. */
  class LockList {
    var list: seq<ServiceLock>

    constructor ()
      ensures list == []
    {
      list := [];
    }

    /** hasLocks */
    function HasLocks(): (r: bool)
      reads this
      ensures r <==> |list| > 0
    {
      list != []
    }

    /** findLockByBinder: scans from the end. */
    method FindLockByBinder(binder: int) returns (index: int)
      ensures index == BinderIndex(list, binder)
    {
      var i := |list| - 1;
      while i >= 0
        invariant -1 <= i < |list|
        invariant forall j | i < j < |list| :: list[j].binder != binder
      {
        if list[i].binder == binder {
          BinderIndexIsLast(list, binder, i);
          return i;
        }
        i := i - 1;
      }
      BinderIndexIsLast(list, binder, -1);
      return -1;
    }

    method AddLock(lock: ServiceLock)
      modifies this
      ensures list == WithLock(old(list), lock)
    {
      var index := FindLockByBinder(lock.binder);
      if index < 0 {
        list := list + [lock];
      }
    }

    method RemoveLock(binder: int) returns (removed: Option<ServiceLock>)
      modifies this
      ensures Removal(list, removed) == WithoutBinder(old(list), binder)
    {
      var index := FindLockByBinder(binder);
      if index >= 0 {
        removed := Some(list[index]);
        list := list[..index] + list[index + 1..];
      } else {
        removed := None;
      }
    }
  }

  /** The last match is unique: any index with the last-match property is BinderIndex. */
  lemma BinderIndexIsLast(list: seq<ServiceLock>, binder: int, i: int)
    requires -1 <= i < |list|
    requires i >= 0 ==> list[i].binder == binder
    requires forall j | i < j < |list| :: list[j].binder != binder
    ensures BinderIndex(list, binder) == i
  {
  }

  /** The uids charged for a lock: the caller when no (or an empty) work source is given. */
  function LockSource(ws: Option<set<int>>, callingUid: int): (r: set<int>)
    ensures r != {}
    ensures ws.Some? && ws.value != {} ==> r == ws.value
  {
    if ws.Some? && ws.value != {} then ws.value else {callingUid}
  }

  /** The union of the work sources of all locks. */
  function UnionOfSources(list: seq<ServiceLock>): set<int> {
    if list == [] then {} else UnionOfSources(list[..|list| - 1]) + list[|list| - 1].workSource
  }

  /** A uid is in the union exactly when some lock is charged to it. */
  lemma {:induction false} UnionOfSourcesMembers(list: seq<ServiceLock>, uid: int)
    ensures uid in UnionOfSources(list) <==> exists i | 0 <= i < |list| :: uid in list[i].workSource
  {
    if list != [] {
      var init := list[..|list| - 1];
      UnionOfSourcesMembers(init, uid);
      if uid in UnionOfSources(init) {
        var i :| 0 <= i < |init| && uid in init[i].workSource;
        assert list[i] == init[i];
      }
      if exists i | 0 <= i < |list| :: uid in list[i].workSource {
        var i :| 0 <= i < |list| && uid in list[i].workSource;
        if i < |init| {
          assert init[i] == list[i];
        }
      }
    }
  }

  // ---------------------------------------------------------------------------
  // Wake locks, settings, messages

  /**
   * A reference-counted PowerManager wake lock: release when the count is already zero
   * is the "WakeLock under-locked" RuntimeException.
   */
  class WakeLock {
    var count: int
    var workSource: set<int>

    constructor ()
      ensures count == 0 && workSource == {}
    {
      count := 0;
      workSource := {};
    }

    method Acquire()
      modifies this
      ensures count == old(count) + 1 && workSource == old(workSource)
    {
      count := count + 1;
    }

    /** `ok` is false exactly when the release throws. */
    method Release() returns (ok: bool)
      modifies this
      ensures count == old(count) - 1 && workSource == old(workSource)
      ensures ok <==> old(count) > 0
    {
      count := count - 1;
      ok := count >= 0;
    }

    method SetWorkSource(ws: set<int>)
      modifies this
      ensures workSource == ws && count == old(count)
    {
      workSource := ws;
    }
  }

  /** The Settings.Secure values the service reads and writes; None is a missing setting. */
  class SecureSettings {
    var pppoeOn: Option<int>
    var savedState: Option<int>
    var username: Option<string>
    var password: Option<string>

    constructor (pppoeOn: Option<int>, savedState: Option<int>, username: Option<string>, password: Option<string>)
      ensures this.pppoeOn == pppoeOn && this.savedState == savedState
      ensures this.username == username && this.password == password
    {
      this.pppoeOn := pppoeOn;
      this.savedState := savedState;
      this.username := username;
      this.password := password;
    }
  }

  /** A message to the service's handler; `delay` in milliseconds. */
  datatype ServiceMsg = ServiceMsg(what: int, arg1: int, arg2: int, delay: int)

  /** sendEnableMessage */
  function EnableMsg(enable: bool, persist: bool, uid: int): ServiceMsg {
    ServiceMsg(if enable then MESSAGE_ENABLE_PPPOE else MESSAGE_DISABLE_PPPOE, if persist then 1 else 0, uid, 0)
  }

  function PlainMsg(what: int): ServiceMsg {
    ServiceMsg(what, 0, 0, 0)
  }

  /** The messages whose handling releases the general wake lock. */
  const WAKE_RELEASING: set<int> := {MESSAGE_ENABLE_PPPOE, MESSAGE_DISABLE_PPPOE, MESSAGE_START_PPPOE}

  /** The message whose handling releases the driver-stop wake lock. */
  const DRIVER_STOP_RELEASING: set<int> := {MESSAGE_RELEASE_WAKELOCK}

  predicate ReleasesWakeLock(m: ServiceMsg) {
    m.what in WAKE_RELEASING
  }

  predicate ReleasesDriverStopWakeLock(m: ServiceMsg) {
    m.what in DRIVER_STOP_RELEASING
  }

  /** The number of messages whose code is in `whats`. */
  function Count(ms: seq<ServiceMsg>, whats: set<int>): nat {
    if ms == [] then 0 else Count(ms[..|ms| - 1], whats) + (if ms[|ms| - 1].what in whats then 1 else 0)
  }

  function CountWake(ms: seq<ServiceMsg>): nat {
    Count(ms, WAKE_RELEASING)
  }

  function CountDriverStop(ms: seq<ServiceMsg>): nat {
    Count(ms, DRIVER_STOP_RELEASING)
  }

  lemma {:induction false} CountAppend(a: seq<ServiceMsg>, b: seq<ServiceMsg>, whats: set<int>)
    ensures Count(a + b, whats) == Count(a, whats) + Count(b, whats)
    decreases |b|
  {
    if b == [] {
      assert a + b == a;
    } else {
      var ab := a + b;
      assert ab[..|ab| - 1] == a + b[..|b| - 1];
      assert ab[|ab| - 1] == b[|b| - 1];
      CountAppend(a, b[..|b| - 1], whats);
    }
  }

  lemma CountSingle(m: ServiceMsg, whats: set<int>)
    ensures Count([m], whats) == (if m.what in whats then 1 else 0)
  {
    assert [m][..0] == [];
  }

  lemma CountRemove(ms: seq<ServiceMsg>, i: nat, whats: set<int>)
    requires i < |ms|
    ensures Count(ms, whats) == Count(ms[..i] + ms[i + 1..], whats) + (if ms[i].what in whats then 1 else 0)
  {
    var pre, post := ms[..i], ms[i + 1..];
    var left := pre + [ms[i]];
    assert ms == left + post;
    CountAppend(left, post, whats);
    CountAppend(pre, [ms[i]], whats);
    CountAppend(pre, post, whats);
    CountSingle(ms[i], whats);
  }

  lemma CountsAppend(a: seq<ServiceMsg>, b: seq<ServiceMsg>)
    ensures CountWake(a + b) == CountWake(a) + CountWake(b)
    ensures CountDriverStop(a + b) == CountDriverStop(a) + CountDriverStop(b)
  {
    CountAppend(a, b, WAKE_RELEASING);
    CountAppend(a, b, DRIVER_STOP_RELEASING);
  }

  lemma CountsSingle(m: ServiceMsg)
    ensures CountWake([m]) == (if ReleasesWakeLock(m) then 1 else 0)
    ensures CountDriverStop([m]) == (if ReleasesDriverStopWakeLock(m) then 1 else 0)
  {
    CountSingle(m, WAKE_RELEASING);
    CountSingle(m, DRIVER_STOP_RELEASING);
  }

  /** Taking message i out of the queue takes its share out of the counts. */
  lemma CountsRemove(ms: seq<ServiceMsg>, i: nat)
    requires i < |ms|
    ensures CountWake(ms) == CountWake(ms[..i] + ms[i + 1..]) + (if ReleasesWakeLock(ms[i]) then 1 else 0)
    ensures CountDriverStop(ms) == CountDriverStop(ms[..i] + ms[i + 1..]) + (if ReleasesDriverStopWakeLock(ms[i]) then 1 else 0)
  {
    CountRemove(ms, i, WAKE_RELEASING);
    CountRemove(ms, i, DRIVER_STOP_RELEASING);
  }

  /** The service handler's message queue. */
  class ServiceQueue {
    var items: seq<ServiceMsg>

    constructor ()
      ensures items == []
    {
      items := [];
    }
  }

  // ---------------------------------------------------------------------------
  // Decisions

  /** A PPPOE_STATE_CHANGED_ACTION broadcast: the new state and the previous one. */
  datatype StateBroadcast = StateBroadcast(state: int, previous: int)

  /** Each broadcast names as previous the state the one before it announced. */
  predicate Chained(bs: seq<StateBroadcast>, start: int) {
    (|bs| > 0 ==> bs[0].previous == start)
    && forall i | 0 < i < |bs| :: bs[i].previous == bs[i - 1].state
  }

  function LastState(bs: seq<StateBroadcast>, start: int): int {
    if bs == [] then start else bs[|bs| - 1].state
  }

  lemma ChainedSnoc(bs: seq<StateBroadcast>, start: int, state: int)
    requires Chained(bs, start)
    ensures Chained(bs + [StateBroadcast(state, LastState(bs, start))], start)
    ensures LastState(bs + [StateBroadcast(state, LastState(bs, start))], start) == state
  {
    var bs2 := bs + [StateBroadcast(state, LastState(bs, start))];
    forall i | 0 < i < |bs2|
      ensures bs2[i].previous == bs2[i - 1].state
    {
      assert bs2[i - 1] == bs[i - 1];
      if i < |bs| {
        assert bs2[i] == bs[i];
      }
    }
  }

  /** What setPppoeEnabledBlocking returns, whether it acts, and what it broadcasts. */
  datatype Blocking = Blocking(ok: bool, acted: bool, broadcasts: seq<StateBroadcast>)

  function EnableBlocking(current: int, enable: bool): Blocking {
    var target := if enable then PPPOE_STATE_ENABLED else PPPOE_STATE_DISABLED;
    if current == target then Blocking(true, false, [])
    else if current == PPPOE_STATE_UNKNOWN && !enable then Blocking(false, false, [])
    else
      var mid := if enable then PPPOE_STATE_ENABLING else PPPOE_STATE_DISABLING;
      Blocking(true, true, [StateBroadcast(mid, current), StateBroadcast(target, mid)])
  }

  /**
   * setPppoeEnabledBlocking succeeds without change when the state is already the target,
   * fails without change when disabling from UNKNOWN, and otherwise passes through
   * ENABLING/DISABLING to the target, each change broadcast with the state before it.
   * A second identical request after one that acted does nothing.
   */
  lemma EnableBlockingEffect(current: int, enable: bool)
    ensures var b := EnableBlocking(current, enable);
      var target := if enable then PPPOE_STATE_ENABLED else PPPOE_STATE_DISABLED;
      (!b.ok <==> current == PPPOE_STATE_UNKNOWN && !enable && current != target)
      && (b.acted <==> b.ok && current != target)
      && (!b.acted ==> b.broadcasts == [])
      && (b.acted ==>
            Chained(b.broadcasts, current) && LastState(b.broadcasts, current) == target
            && b.broadcasts[0].state == (if enable then PPPOE_STATE_ENABLING else PPPOE_STATE_DISABLING))
      && (b.acted ==> EnableBlocking(LastState(b.broadcasts, current), enable) == Blocking(true, false, []))
  {
  }

  /**
   * What the tracker's event queue receives when tracking starts (startEventLoop: a
   * plugged-and-up event when the link is up, then ENABLED) or stops (DISABLED, posted
   * only while its loop runs).
   */
  function TrackingEvents(enable: bool, linkUp: bool, running: bool): seq<int> {
    if enable then (if linkUp then [PppoeStateTracker.EVENT_PPPOE_PLUGGED_AND_UP] else []) + [PppoeStateTracker.EVENT_PPPOE_ENABLED]
    else if running then [PppoeStateTracker.EVENT_PPPOE_DISABLED]
    else []
  }

  /** The tracker's fields once tracking starts (last event reset) or stops (connections reset). */
  function TrackingState(s: PppoeStateTracker.TrackerState, enable: bool): PppoeStateTracker.TrackerState {
    if enable then s.(lastEvent := PppoeStateTracker.EVENT_PPPOE_UNPLUGGED_AND_DOWN)
    else PppoeStateTracker.ResetConnections(s)
  }

  /**
   * doUpdatePppoeState: nothing while ENABLING; with the persisted setting on, an enable
   * request when the connection should be started (device not idle, or a lock held), else
   * a stop and a delayed wake-lock release unless the driver is already stopped; with the
   * setting off, a disable request.
   */
  function UpdateMessages(state: int, persistedOn: bool, deviceIdle: bool, lockHeld: bool,
                          driverStopped: bool, uid: int): seq<ServiceMsg> {
    if state == PPPOE_STATE_ENABLING then []
    else if persistedOn then
      if !deviceIdle || lockHeld then [EnableMsg(true, false, uid)]
      else if !driverStopped then
        [PlainMsg(MESSAGE_STOP_PPPOE), ServiceMsg(MESSAGE_RELEASE_WAKELOCK, 0, 0, DEFAULT_WAKELOCK_TIMEOUT)]
      else []
    else [EnableMsg(false, false, uid)]
  }

  /**
   * The decision table: at most one enable/disable request, never persisted; an enable
   * exactly when the setting is on and the connection should be started; the stop comes
   * with its delayed release.
   */
  lemma UpdateMessagesTable(state: int, on: bool, idle: bool, held: bool, stopped: bool, uid: int)
    ensures var ms := UpdateMessages(state, on, idle, held, stopped, uid);
      CountWake(ms) <= 1
      && (EnableMsg(true, false, uid) in ms <==> state != PPPOE_STATE_ENABLING && on && (!idle || held))
      && (EnableMsg(false, false, uid) in ms <==> state != PPPOE_STATE_ENABLING && !on)
      && (PlainMsg(MESSAGE_STOP_PPPOE) in ms <==> state != PPPOE_STATE_ENABLING && on && idle && !held && !stopped)
      && CountDriverStop(ms) == (if PlainMsg(MESSAGE_STOP_PPPOE) in ms then 1 else 0)
      && forall m | m in ms :: m.arg1 == 0
  {
    var ms := UpdateMessages(state, on, idle, held, stopped, uid);
    if |ms| == 2 {
      CountsSingle(ms[0]);
      CountsSingle(ms[1]);
      CountsAppend([ms[0]], [ms[1]]);
      assert ms == [ms[0]] + [ms[1]];
    } else if |ms| == 1 {
      CountsSingle(ms[0]);
    }
  }


  /** startPppoe's decision: the persisted flag, or else the saved state. */
  function BootEnable(pppoeOn: Option<int>, savedState: Option<int>): bool {
    pppoeOn == Some(1) || savedState == Some(1)
  }

  /** The actions the service's broadcast receiver handles. */
  datatype Action = ScreenOn | ScreenOff | DeviceIdle | BatteryChanged(plugged: int) | OtherAction

  /** What the receiver posts for an action, in order. */
  function ReceiverMessages(action: Action, anyNetworkDisabled: bool): seq<ServiceMsg> {
    match action
    case ScreenOn =>
      [PlainMsg(MESSAGE_REPORT_WORKSOURCE)]
      + (if anyNetworkDisabled then [PlainMsg(MESSAGE_ENABLE_NETWORKS)] else [])
      + [PlainMsg(MESSAGE_UPDATE_STATE)]
    case DeviceIdle => [PlainMsg(MESSAGE_REPORT_WORKSOURCE), PlainMsg(MESSAGE_UPDATE_STATE)]
    case BatteryChanged(_) => [PlainMsg(MESSAGE_UPDATE_STATE)]
    case _ => []
  }

  /** The receiver only posts work-source reports, network re-enables and state updates. */
  lemma ReceiverMessagesPlain(action: Action, anyNetworkDisabled: bool)
    ensures forall k | 0 <= k < |ReceiverMessages(action, anyNetworkDisabled)| ::
      ReceiverMessages(action, anyNetworkDisabled)[k].what
        in {MESSAGE_REPORT_WORKSOURCE, MESSAGE_ENABLE_NETWORKS, MESSAGE_UPDATE_STATE}
  {
  }

  lemma {:induction false} CountsPrefixZero(ms: seq<ServiceMsg>, k: nat)
    requires k <= |ms|
    requires forall i | 0 <= i < |ms| :: ms[i].what in {MESSAGE_REPORT_WORKSOURCE, MESSAGE_ENABLE_NETWORKS, MESSAGE_UPDATE_STATE}
    ensures CountWake(ms[..k]) == 0 && CountDriverStop(ms[..k]) == 0
  {
    if k > 0 {
      CountsPrefixZero(ms, k - 1);
      assert ms[..k][..k - 1] == ms[..k - 1];
    }
  }

  // ---------------------------------------------------------------------------
  // The service

  /** PppoeService */
  class Service {
    const tracker: PppoeStateTracker.Tracker
    const settings: SecureSettings
    const locks: LockList
    const wakeLock: WakeLock
    const driverStopWakeLock: WakeLock
    const handler: ServiceQueue
    var deviceIdle: bool
    var screenOff: bool
    var pluggedType: int
    var lastEnableUid: int
    var receiverRegistered: bool
    ghost var broadcasts: seq<StateBroadcast>

    /** Each pending message that will release a wake lock accounts for one acquisition. */
    ghost predicate WakeLocksPaired()
      reads this, wakeLock, driverStopWakeLock, handler
    {
      wakeLock != driverStopWakeLock
      && wakeLock.count == CountWake(handler.items)
      && driverStopWakeLock.count == CountDriverStop(handler.items)
    }

    /** The broadcasts chain from DISABLED to the tracker's current PPPoE state. */
    ghost predicate StateReported()
      reads this, tracker.inputs
    {
      Chained(broadcasts, PPPOE_STATE_DISABLED) && tracker.inputs.pppoeState == LastState(broadcasts, PPPOE_STATE_DISABLED)
    }

    ghost predicate Valid()
      reads this, wakeLock, driverStopWakeLock, handler, tracker.inputs
    {
      WakeLocksPaired() && StateReported()
    }

    /** The constructor: the tracker starts DISABLED, nothing is pending. */
    constructor (tracker: PppoeStateTracker.Tracker, settings: SecureSettings, uid: int)
      modifies tracker.inputs
      ensures Valid() && this.tracker == tracker && this.settings == settings
      ensures fresh(locks) && fresh(wakeLock) && fresh(driverStopWakeLock) && fresh(handler)
      ensures locks.list == [] && handler.items == [] && broadcasts == [] && lastEnableUid == uid
      ensures tracker.inputs.Snapshot() == old(tracker.inputs.Snapshot()).(pppoeState := PPPOE_STATE_DISABLED)
      ensures tracker.inputs.iface == old(tracker.inputs.iface)
      ensures !deviceIdle && !screenOff && pluggedType == 0 && !receiverRegistered
    {
      this.tracker := tracker;
      this.settings := settings;
      locks := new LockList();
      wakeLock := new WakeLock();
      driverStopWakeLock := new WakeLock();
      handler := new ServiceQueue();
      deviceIdle := false;
      screenOff := false;
      pluggedType := 0;
      lastEnableUid := uid;
      receiverRegistered := false;
      broadcasts := [];
      new;
      tracker.SetPppoeState(PPPOE_STATE_DISABLED);
    }

    /** getPersistedPppoeEnabled: a missing setting is written as 0 and read as off. */
    method GetPersistedPppoeEnabled() returns (on: bool)
      modifies settings
      ensures on <==> old(settings.pppoeOn) == Some(1)
      ensures settings.pppoeOn == (if old(settings.pppoeOn).None? then Some(0) else old(settings.pppoeOn))
      ensures settings.savedState == old(settings.savedState)
      ensures settings.username == old(settings.username) && settings.password == old(settings.password)
    {
      if settings.pppoeOn.None? {
        settings.pppoeOn := Some(0);
        return false;
      }
      return settings.pppoeOn.value == 1;
    }

    /** testAndClearPppoeSavedState: a saved 1 is reported and cleared to 0. */
    method TestAndClearSavedState() returns (saved: bool)
      modifies settings
      ensures saved <==> old(settings.savedState) == Some(1)
      ensures settings.savedState == (if saved then Some(0) else old(settings.savedState))
      ensures settings.pppoeOn == old(settings.pppoeOn)
      ensures settings.username == old(settings.username) && settings.password == old(settings.password)
    {
      var state := if settings.savedState.Some? then settings.savedState.value else 0;
      if state == 1 {
        settings.savedState := Some(0);
      }
      return state == 1;
    }

    /**
     * startPppoe: enable iff the persisted flag or the saved state is 1; the saved state is
     * read (and cleared) only when the persisted flag is off.
     */
    method StartPppoe(uid: int)
      requires Valid()
      modifies this, settings, wakeLock, handler
      ensures Valid()
      ensures handler.items == old(handler.items) + [EnableMsg(BootEnable(old(settings.pppoeOn), old(settings.savedState)), true, uid)]
      ensures settings.pppoeOn == (if old(settings.pppoeOn).None? then Some(0) else old(settings.pppoeOn))
      ensures settings.savedState ==
        (if old(settings.pppoeOn) != Some(1) && old(settings.savedState) == Some(1) then Some(0) else old(settings.savedState))
    {
      var enabled := GetPersistedPppoeEnabled();
      if !enabled {
        enabled := TestAndClearSavedState();
      }
      var _ := SetPppoeEnabled(enabled, uid);
    }

    /** setPppoeEnabled: hold the wake lock and queue the request, persisted. */
    method SetPppoeEnabled(enable: bool, uid: int) returns (r: bool)
      requires Valid()
      modifies this, wakeLock, handler
      ensures Valid() && r
      ensures handler.items == old(handler.items) + [EnableMsg(enable, true, uid)]
      ensures lastEnableUid == uid && broadcasts == old(broadcasts)
      ensures deviceIdle == old(deviceIdle) && screenOff == old(screenOff)
    {
      lastEnableUid := uid;
      PostHoldingWakeLock(EnableMsg(enable, true, uid));
      return true;
    }

    /** Acquire the general wake lock and post a message whose handling releases it. */
    method PostHoldingWakeLock(m: ServiceMsg)
      requires WakeLocksPaired() && ReleasesWakeLock(m)
      modifies wakeLock, handler
      ensures WakeLocksPaired() && wakeLock.workSource == old(wakeLock.workSource)
      ensures handler.items == old(handler.items) + [m]
    {
      wakeLock.Acquire();
      CountsSingle(m);
      CountsAppend(handler.items, [m]);
      handler.items := handler.items + [m];
    }

    /** Acquire the driver-stop wake lock, post a stop and, delayed, the release. */
    method PostDriverStop()
      requires WakeLocksPaired()
      modifies driverStopWakeLock, handler
      ensures WakeLocksPaired()
      ensures handler.items == old(handler.items)
        + [PlainMsg(MESSAGE_STOP_PPPOE), ServiceMsg(MESSAGE_RELEASE_WAKELOCK, 0, 0, DEFAULT_WAKELOCK_TIMEOUT)]
    {
      var ms := [PlainMsg(MESSAGE_STOP_PPPOE), ServiceMsg(MESSAGE_RELEASE_WAKELOCK, 0, 0, DEFAULT_WAKELOCK_TIMEOUT)];
      driverStopWakeLock.Acquire();
      CountsSingle(ms[0]);
      CountsSingle(ms[1]);
      CountsAppend([ms[0]], [ms[1]]);
      assert ms == [ms[0]] + [ms[1]];
      CountsAppend(handler.items, ms);
      handler.items := handler.items + ms;
    }

    /** setPppoeEnabledState: set the tracker's state and broadcast it with the previous one. */
    method SetPppoeEnabledState(state: int)
      requires StateReported()
      modifies this, tracker.inputs
      ensures StateReported()
      ensures broadcasts == old(broadcasts) + [StateBroadcast(state, old(tracker.inputs.pppoeState))]
      ensures tracker.inputs.Snapshot() == old(tracker.inputs.Snapshot()).(pppoeState := state)
      ensures receiverRegistered == old(receiverRegistered)
      ensures deviceIdle == old(deviceIdle) && lastEnableUid == old(lastEnableUid)
    {
      var previous := tracker.inputs.pppoeState;
      ChainedSnoc(broadcasts, PPPOE_STATE_DISABLED, state);
      tracker.SetPppoeState(state);
      broadcasts := broadcasts + [StateBroadcast(state, previous)];
    }

    /**
     * setPppoeEnabledBlocking: the state change of EnableBlocking; an enable registers the
     * receiver and starts the tracker's event loop, a disable unregisters it, asks the
     * tracker to disable, resets its connections and stops its event loop; the setting is
     * persisted only when asked to.
     */
    method SetPppoeEnabledBlocking(enable: bool, persist: bool, uid: int) returns (ok: bool)
      requires StateReported()
      modifies this, settings, tracker, tracker.inputs, tracker.queue
      ensures StateReported()
      ensures var b := EnableBlocking(old(tracker.inputs.pppoeState), enable);
        ok == b.ok && broadcasts == old(broadcasts) + b.broadcasts
        && (b.acted ==> tracker.inputs.stateTrackerRunning == enable && receiverRegistered == enable)
        && (!b.acted ==> receiverRegistered == old(receiverRegistered))
        && settings.pppoeOn == (if b.acted && persist then Some(if enable then 1 else 0) else old(settings.pppoeOn))
      ensures var b := EnableBlocking(old(tracker.inputs.pppoeState), enable);
        b.acted ==>
          tracker.queue.items == old(tracker.queue.items)
            + TrackingEvents(enable, old(tracker.inputs.linkUp), old(tracker.inputs.stateTrackerRunning))
          && tracker.Snapshot() == TrackingState(old(tracker.Snapshot()), enable)
          && tracker.inputs.Snapshot()
             == old(tracker.inputs.Snapshot()).(running := enable, pppoeState := if enable then PPPOE_STATE_ENABLED else PPPOE_STATE_DISABLED)
      ensures var b := EnableBlocking(old(tracker.inputs.pppoeState), enable);
        !b.acted ==>
          tracker.queue.items == old(tracker.queue.items) && tracker.Snapshot() == old(tracker.Snapshot())
          && tracker.inputs.Snapshot() == old(tracker.inputs.Snapshot())
      ensures settings.savedState == old(settings.savedState)
      ensures deviceIdle == old(deviceIdle) && lastEnableUid == old(lastEnableUid)
    {
      var target := if enable then PPPOE_STATE_ENABLED else PPPOE_STATE_DISABLED;
      var state := tracker.inputs.pppoeState;
      if state == target {
        return true;
      }
      if state == PPPOE_STATE_UNKNOWN && !enable {
        return false;
      }
      ChangeEnabled(enable, persist);
      return true;
    }

    /**
     * The acting path of setPppoeEnabledBlocking: ENABLING or DISABLING is broadcast, the
     * tracking starts or stops, the setting is persisted when asked to, and the target
     * state is broadcast.
     */
    method ChangeEnabled(enable: bool, persist: bool)
      requires StateReported() && EnableBlocking(tracker.inputs.pppoeState, enable).acted
      modifies this, settings, tracker, tracker.inputs, tracker.queue
      ensures StateReported()
      ensures broadcasts == old(broadcasts) + EnableBlocking(old(tracker.inputs.pppoeState), enable).broadcasts
      ensures receiverRegistered == enable
      ensures tracker.queue.items == old(tracker.queue.items)
        + TrackingEvents(enable, old(tracker.inputs.linkUp), old(tracker.inputs.stateTrackerRunning))
      ensures tracker.Snapshot() == TrackingState(old(tracker.Snapshot()), enable)
      ensures tracker.inputs.Snapshot()
        == old(tracker.inputs.Snapshot()).(running := enable, pppoeState := if enable then PPPOE_STATE_ENABLED else PPPOE_STATE_DISABLED)
      ensures settings.pppoeOn == (if persist then Some(if enable then 1 else 0) else old(settings.pppoeOn))
      ensures settings.savedState == old(settings.savedState)
      ensures deviceIdle == old(deviceIdle) && lastEnableUid == old(lastEnableUid)
    {
      SetPppoeEnabledState(if enable then PPPOE_STATE_ENABLING else PPPOE_STATE_DISABLING);
      if enable {
        StartTracking();
      } else {
        StopTracking();
      }
      if persist {
        settings.pppoeOn := Some(if enable then 1 else 0);
      }
      SetPppoeEnabledState(if enable then PPPOE_STATE_ENABLED else PPPOE_STATE_DISABLED);
    }

    /** registerForBroadcasts, then the tracker's event loop starts. */
    method StartTracking()
      modifies this, tracker, tracker.inputs, tracker.queue
      ensures receiverRegistered
      ensures tracker.inputs.Snapshot() == old(tracker.inputs.Snapshot()).(running := true)
      ensures tracker.queue.items == old(tracker.queue.items)
        + TrackingEvents(true, old(tracker.inputs.linkUp), old(tracker.inputs.stateTrackerRunning))
      ensures tracker.Snapshot() == TrackingState(old(tracker.Snapshot()), true)
      ensures broadcasts == old(broadcasts) && deviceIdle == old(deviceIdle) && lastEnableUid == old(lastEnableUid)
    {
      receiverRegistered := true;
      tracker.StartEventLoop();
    }

    /**
     * The receiver is unregistered, the tracker told of the disable (posted only while its
     * loop runs), its connection flags reset and its event loop stopped.
     */
    method StopTracking()
      modifies this, tracker, tracker.inputs, tracker.queue
      ensures !receiverRegistered
      ensures tracker.inputs.Snapshot() == old(tracker.inputs.Snapshot()).(running := false)
      ensures tracker.queue.items == old(tracker.queue.items)
        + TrackingEvents(false, old(tracker.inputs.linkUp), old(tracker.inputs.stateTrackerRunning))
      ensures tracker.Snapshot() == TrackingState(old(tracker.Snapshot()), false)
      ensures broadcasts == old(broadcasts) && deviceIdle == old(deviceIdle) && lastEnableUid == old(lastEnableUid)
    {
      receiverRegistered := false;
      tracker.Notify(PppoeStateTracker.EVENT_PPPOE_DISABLED);
      tracker.ResetConnectionsNow();
      tracker.StopEventLoop();
    }

    /** doUpdatePppoeState */
    method DoUpdatePppoeState()
      requires Valid()
      modifies settings, wakeLock, driverStopWakeLock, handler
      ensures Valid()
      ensures handler.items == old(handler.items)
        + UpdateMessages(tracker.inputs.pppoeState, old(settings.pppoeOn) == Some(1), deviceIdle,
                         locks.list != [], PppoeStateTracker.IsDriverStopped(tracker.runState), lastEnableUid)
      ensures settings.pppoeOn == (if old(settings.pppoeOn).None? then Some(0) else old(settings.pppoeOn))
      ensures settings.savedState == old(settings.savedState)
      ensures wakeLock.workSource == old(wakeLock.workSource)
    {
      var enabled := GetPersistedPppoeEnabled();
      var lockHeld := locks.HasLocks();
      var shouldBeStarted := !deviceIdle || lockHeld;
      if tracker.inputs.pppoeState == PPPOE_STATE_ENABLING {
        return;
      }
      if enabled {
        if shouldBeStarted {
          PostHoldingWakeLock(EnableMsg(true, false, lastEnableUid));
        } else if !PppoeStateTracker.IsDriverStopped(tracker.runState) {
          PostDriverStop();
        }
      } else {
        PostHoldingWakeLock(EnableMsg(false, false, lastEnableUid));
      }
    }

    /** reportStartWorkSource: the union of the locks' sources while idle, else empty. */
    method ReportStartWorkSource()
      modifies wakeLock
      ensures wakeLock.workSource == (if deviceIdle then UnionOfSources(locks.list) else {})
      ensures wakeLock.count == old(wakeLock.count)
    {
      var tmp: set<int> := {};
      if deviceIdle {
        var i := 0;
        while i < |locks.list|
          invariant 0 <= i <= |locks.list|
          invariant tmp == UnionOfSources(locks.list[..i])
        {
          assert locks.list[..i + 1][..i] == locks.list[..i];
          tmp := tmp + locks.list[i].workSource;
          i := i + 1;
        }
        assert locks.list[..i] == locks.list;
      }
      wakeLock.SetWorkSource(tmp);
    }

    /**
     * The handler thread takes message i (delayed messages may come due after later
     * ones) and handles it. Every release it performs finds its wake lock held.
     */
    method DispatchAt(i: nat) returns (released: bool)
      requires Valid() && i < |handler.items|
      modifies this, settings, wakeLock, driverStopWakeLock, handler, tracker, tracker.inputs, tracker.queue
      ensures Valid() && released
      ensures var m := old(handler.items[i]);
        handler.items == old(handler.items[..i] + handler.items[i + 1..])
          + (if m.what == MESSAGE_UPDATE_STATE
             then UpdateMessages(old(tracker.inputs.pppoeState), old(settings.pppoeOn) == Some(1), old(deviceIdle),
                                 old(locks.list) != [], PppoeStateTracker.IsDriverStopped(old(tracker.runState)),
                                 old(lastEnableUid))
             else [])
      ensures var m := old(handler.items[i]);
        (m.what == MESSAGE_ENABLE_PPPOE || m.what == MESSAGE_DISABLE_PPPOE) ==>
          var b := EnableBlocking(old(tracker.inputs.pppoeState), m.what == MESSAGE_ENABLE_PPPOE);
          broadcasts == old(broadcasts) + b.broadcasts
          && (b.acted ==> tracker.inputs.stateTrackerRunning == (m.what == MESSAGE_ENABLE_PPPOE)
                          && receiverRegistered == (m.what == MESSAGE_ENABLE_PPPOE))
          && settings.pppoeOn ==
               (if b.acted && m.arg1 == 1 then Some(if m.what == MESSAGE_ENABLE_PPPOE then 1 else 0)
                else old(settings.pppoeOn))
          && wakeLock.workSource == old(wakeLock.workSource)
      ensures var m := old(handler.items[i]);
        (m.what == MESSAGE_ENABLE_PPPOE || m.what == MESSAGE_DISABLE_PPPOE) ==>
          var enable := m.what == MESSAGE_ENABLE_PPPOE;
          var b := EnableBlocking(old(tracker.inputs.pppoeState), enable);
          (b.acted ==>
             tracker.queue.items == old(tracker.queue.items)
               + TrackingEvents(enable, old(tracker.inputs.linkUp), old(tracker.inputs.stateTrackerRunning))
             && tracker.Snapshot() == TrackingState(old(tracker.Snapshot()), enable))
          && (!b.acted ==>
             tracker.queue.items == old(tracker.queue.items) && tracker.Snapshot() == old(tracker.Snapshot())
             && tracker.inputs.Snapshot() == old(tracker.inputs.Snapshot()))
      ensures var m := old(handler.items[i]);
        m.what != MESSAGE_ENABLE_PPPOE && m.what != MESSAGE_DISABLE_PPPOE ==>
          tracker.queue.items == old(tracker.queue.items)
      ensures var m := old(handler.items[i]);
        m.what == MESSAGE_START_PPPOE ==>
          tracker.Snapshot() == PppoeStateTracker.Restart(old(tracker.Snapshot()), old(tracker.inputs.pppoeState)).state
      ensures var m := old(handler.items[i]);
        m.what == MESSAGE_STOP_PPPOE ==>
          tracker.Snapshot()
            == PppoeStateTracker.DisconnectAndStop(old(tracker.Snapshot()), old(tracker.inputs.pppoeState)).state
      ensures var m := old(handler.items[i]);
        m.what != MESSAGE_START_PPPOE && m.what != MESSAGE_STOP_PPPOE
        && m.what != MESSAGE_ENABLE_PPPOE && m.what != MESSAGE_DISABLE_PPPOE ==>
          tracker.Snapshot() == old(tracker.Snapshot())
      ensures var m := old(handler.items[i]);
        m.what != MESSAGE_ENABLE_PPPOE && m.what != MESSAGE_DISABLE_PPPOE ==>
          broadcasts == old(broadcasts) && tracker.inputs.Snapshot() == old(tracker.inputs.Snapshot())
          && receiverRegistered == old(receiverRegistered)
      ensures var m := old(handler.items[i]);
        m.what == MESSAGE_START_PPPOE || m.what == MESSAGE_REPORT_WORKSOURCE ==>
          wakeLock.workSource == (if old(deviceIdle) then UnionOfSources(old(locks.list)) else {})
      ensures var m := old(handler.items[i]);
        m.what != MESSAGE_START_PPPOE && m.what != MESSAGE_REPORT_WORKSOURCE ==>
          wakeLock.workSource == old(wakeLock.workSource)
      ensures var m := old(handler.items[i]);
        m.what != MESSAGE_ENABLE_PPPOE && m.what != MESSAGE_DISABLE_PPPOE ==>
          settings.pppoeOn == (if m.what == MESSAGE_UPDATE_STATE && old(settings.pppoeOn).None? then Some(0)
                               else old(settings.pppoeOn))
    {
      var m := handler.items[i];
      CountsRemove(handler.items, i);
      handler.items := handler.items[..i] + handler.items[i + 1..];
      released := true;
      if m.what == MESSAGE_ENABLE_PPPOE || m.what == MESSAGE_DISABLE_PPPOE {
        var _ := SetPppoeEnabledBlocking(m.what == MESSAGE_ENABLE_PPPOE, m.arg1 == 1, m.arg2);
        released := wakeLock.Release();
      } else if m.what == MESSAGE_START_PPPOE {
        ReportStartWorkSource();
        var _ := tracker.RestartNow();
        released := wakeLock.Release();
      } else if m.what == MESSAGE_UPDATE_STATE {
        DoUpdatePppoeState();
      } else if m.what == MESSAGE_STOP_PPPOE {
        var _ := tracker.DisconnectAndStopNow();
      } else if m.what == MESSAGE_RELEASE_WAKELOCK {
        released := driverStopWakeLock.Release();
      } else if m.what == MESSAGE_REPORT_WORKSOURCE {
        ReportStartWorkSource();
      }
    }

    /**
     * mReceiver.onReceive: screen on clears the idle and screen-off flags and posts a
     * work-source report (and a network re-enable when a network is disabled); screen off
     * only records it; device idle sets the flag and posts a report; a battery change
     * records the plug type. All but screen off and unknown actions then post a state
     * update.
     */
    method OnReceive(action: Action, anyNetworkDisabled: bool)
      requires Valid()
      modifies this, handler
      ensures Valid()
      ensures handler.items == old(handler.items) + ReceiverMessages(action, anyNetworkDisabled)
      ensures deviceIdle == (if action.ScreenOn? then false else if action.DeviceIdle? then true else old(deviceIdle))
      ensures screenOff == (if action.ScreenOn? then false else if action.ScreenOff? then true else old(screenOff))
      ensures pluggedType == (if action.BatteryChanged? then action.plugged else old(pluggedType))
      ensures broadcasts == old(broadcasts) && lastEnableUid == old(lastEnableUid)
    {
      match action {
        case ScreenOn =>
          deviceIdle := false;
          screenOff := false;
        case ScreenOff =>
          screenOff := true;
        case DeviceIdle =>
          deviceIdle := true;
        case BatteryChanged(plugged) =>
          pluggedType := plugged;
        case OtherAction =>
      }
      ReceiverMessagesPlain(action, anyNetworkDisabled);
      PostPlain(ReceiverMessages(action, anyNetworkDisabled));
    }

    /** acquirePppoeLock: the lock is added (once per binder), then a report and an update are posted. */
    method AcquirePppoeLock(binder: int, mode: int, tag: string, ws: Option<set<int>>, callingUid: int) returns (r: bool)
      requires Valid()
      modifies locks, handler
      ensures Valid() && r
      ensures locks.list == WithLock(old(locks.list), ServiceLock(mode, tag, binder, LockSource(ws, callingUid)))
      ensures handler.items == old(handler.items) + [PlainMsg(MESSAGE_REPORT_WORKSOURCE), PlainMsg(MESSAGE_UPDATE_STATE)]
    {
      locks.AddLock(ServiceLock(mode, tag, binder, LockSource(ws, callingUid)));
      PostPlain([PlainMsg(MESSAGE_REPORT_WORKSOURCE), PlainMsg(MESSAGE_UPDATE_STATE)]);
      return true;
    }

    /** Post messages that neither hold nor release a wake lock. */
    method PostPlain(ms: seq<ServiceMsg>)
      requires Valid()
      requires forall k | 0 <= k < |ms| :: ms[k].what in {MESSAGE_REPORT_WORKSOURCE, MESSAGE_ENABLE_NETWORKS, MESSAGE_UPDATE_STATE}
      modifies handler
      ensures Valid()
      ensures handler.items == old(handler.items) + ms
    {
      CountsPrefixZero(ms, |ms|);
      assert ms[..|ms|] == ms;
      CountsAppend(handler.items, ms);
      handler.items := handler.items + ms;
    }

    /**
     * updatePppoeLockWorkSource: IllegalArgumentException when no lock has the binder;
     * otherwise only that lock's work source changes.
     */
    method UpdatePppoeLockWorkSource(binder: int, ws: Option<set<int>>, uid: int) returns (r: Result<int, string>)
      modifies locks
      ensures var k := BinderIndex(old(locks.list), binder);
        (k < 0 <==> r.Err?)
        && (k < 0 ==> locks.list == old(locks.list))
        && (k >= 0 ==>
              r == Ok(k)
              && locks.list == old(locks.list)[k := old(locks.list)[k].(workSource := LockSource(ws, uid))])
    {
      var index := locks.FindLockByBinder(binder);
      if index < 0 {
        return Err("Pppoe lock not active");
      }
      var wl := locks.list[index];
      locks.list := locks.list[index := wl.(workSource := LockSource(ws, uid))];
      return Ok(index);
    }

    /** releasePppoeLock (and a lock holder's death): remove the lock, then post an update. */
    method ReleasePppoeLock(binder: int) returns (hadLock: bool)
      requires Valid()
      modifies locks, handler
      ensures Valid()
      ensures hadLock <==> BinderIndex(old(locks.list), binder) >= 0
      ensures locks.list == WithoutBinder(old(locks.list), binder).rest
      ensures handler.items == old(handler.items) + [PlainMsg(MESSAGE_UPDATE_STATE)]
    {
      var removed := locks.RemoveLock(binder);
      PostPlain([PlainMsg(MESSAGE_UPDATE_STATE)]);
      return removed.Some?;
    }

    /** setPppoeAccount: persisted, then handed to the tracker. */
    method SetPppoeAccount(username: string, password: string) returns (r: bool)
      modifies settings, tracker.inputs, tracker.queue
      ensures r && settings.username == Some(username) && settings.password == Some(password)
      ensures tracker.inputs.username == username && tracker.inputs.password == password
      ensures settings.pppoeOn == old(settings.pppoeOn) && settings.savedState == old(settings.savedState)
    {
      settings.username := Some(username);
      settings.password := Some(password);
      tracker.SetAdslAccount(username, password);
      return true;
    }

    /** removePppoeAccount: empty strings persisted, the tracker's account cleared. */
    method RemovePppoeAccount() returns (r: bool)
      modifies settings, tracker.inputs, tracker.queue
      ensures r && settings.username == Some("") && settings.password == Some("")
      ensures tracker.inputs.username == "" && tracker.inputs.password == ""
      ensures settings.pppoeOn == old(settings.pppoeOn) && settings.savedState == old(settings.savedState)
    {
      settings.username := Some("");
      settings.password := Some("");
      tracker.RemoveAdslAccount();
      return true;
    }
  }
}

=== FILE: pppoe_state_tracker.dfy ===
/**
 * The PPPoE link controller: a handler that reacts to link, account and configuration
 * events by starting or stopping the external pppd, creating or dropping the DHCP poller
 * and broadcasting states; the poller (DhcpHandler) that decides, from the pppd exit code
 * and the first DNS server it left behind, whether configuration succeeded, failed or
 * must be retried; the small driver helpers; and the dotted-quad parser.
 *
 * The tracker's looper queue is a MessageQueue object; one call of HandleMessage is one
 * message handled. The fields the handler only reads (the event-loop flag, link state,
 * account and PPPoE state) live in a TrackerInputs object beside the tracker. Calls out
 * of the tracker (pppd, broadcasts, the poller's looper, the connectivity service) are
 * recorded in the ghost effect log `log`. Each poller is known by a number. The two
 * system properties the code reads, and whether pppd start/stop throws, are inputs.
 */
module PppoeStateTracker {
  import opened JavaLang
  import PppoeManager

  // Message codes
  const EVENT_PPPOE_PLUGGED_AND_UP: int := 1
  const EVENT_PPPOE_PLUGGED_AND_DOWN: int := 2
  const EVENT_PPPOE_UNPLUGGED_AND_DOWN: int := 3
  const EVENT_NETWORK_STATE_CHANGED: int := 4
  const EVENT_INTERFACE_CONFIGURATION_SUCCEEDED: int := 6
  const EVENT_INTERFACE_CONFIGURATION_FAILED: int := 7
  const EVENT_CHECK_PPPOE_CONNECTION: int := 9
  const EVENT_PPPOE_UNKNOWN: int := 16
  const EVENT_PPPOE_DISABLED: int := 17
  const EVENT_PPPOE_SET_ACCOUNT: int := 19
  const EVENT_PPPOE_REMOVE_ACCOUNT: int := 20
  const EVENT_INTERFACE_CONFIGURATION_WAIT: int := 21
  const EVENT_PPPOE_ENABLED: int := 22

  // Run states
  const RUN_STATE_STARTING: int := 1
  const RUN_STATE_RUNNING: int := 2
  const RUN_STATE_STOPPING: int := 3
  const RUN_STATE_STOPPED: int := 4

  /** The poller gives up on the 20th check. */
  const MAX_CHECKS: int := 20

  /** The part of NetworkInfo's detailed state the tracker sets (it starts as Idle). */
  datatype DetailedState = Idle | Connecting | Connected | Disconnected | Failed

  /** Something the tracker does outside its own fields. */
  datatype Effect =
    | StartPppd(user: string, password: string)    // startPppd_pppoe (a call that throws is still recorded)
    | StopPppd                                     // stopPppd_pppoe
    | PppoeStateBroadcast(code: int)               // PPPOE_STATE_CHANGED_ACTION with a state code
    | NetworkStateBroadcast(state: DetailedState)  // sticky NETWORK_STATE_CHANGED_ACTION
    | ConfigurationChanged                         // EVENT_CONFIGURATION_CHANGED to the connectivity service
    | CreatePoller(id: nat)                        // new HandlerThread + DhcpHandler
    | QuitPoller(id: nat)                          // the poller's looper quits
    | PollerCheck(id: nat)                         // EVENT_CHECK_PPPOE_CONNECTION to a poller
    | EnableInterface                              // NetworkUtils.enableInterface

  /** The world as one message sees it. */
  datatype Env = Env(startThrows: bool, stopThrows: bool, pppExit: string)

  /** The fields handleMessage writes (NetworkInfo's availability and detailed state included). */
  datatype TrackerState = TrackerState(
    runState: int,
    starting: bool,          // mPppoeStarting: pppd has been started and not stopped
    haveIp: bool,
    obtainingIp: bool,
    tornDown: bool,          // mTornDownByConnMgr
    available: bool,         // NetworkInfo.isAvailable
    detailed: DetailedState,
    dhcpTarget: Option<nat>, // the current poller
    nextPoller: nat,         // the number the next poller gets
    reconnectCount: int,
    lastEvent: int)

  /**
   * The fields handleMessage only reads: whether the event loop runs, the link state,
   * the account and the PPPoE enabled state.
   */
  datatype Inputs = Inputs(running: bool, linkUp: bool, username: string, password: string, pppoeState: int)

  predicate IsUpEvent(what: int) {
    what == EVENT_PPPOE_ENABLED || what == EVENT_PPPOE_PLUGGED_AND_UP || what == EVENT_PPPOE_SET_ACCOUNT
  }

  predicate IsDownEvent(what: int) {
    what == EVENT_PPPOE_PLUGGED_AND_DOWN || what == EVENT_PPPOE_DISABLED || what == EVENT_PPPOE_REMOVE_ACCOUNT
  }

  /** The events after which pppd counts as stopped. */
  predicate ClearsStarting(what: int) {
    IsDownEvent(what) || what == EVENT_INTERFACE_CONFIGURATION_FAILED
  }

  /** The state code broadcast for a pppd exit code, or None when the failure is generic. */
  function PppExitState(exit: string): (r: Option<int>)
    ensures r == Some(PppoeManager.PPPOE_STATE_CHECK_CONNNECT) <==> exit == "0"
    ensures r == Some(PppoeManager.PPPOE_STATE_MODEM_HUNGUP) <==> exit == "16"
    ensures r == Some(PppoeManager.PPPOE_STATE_ACCOUNT_UNCORRECT) <==> exit == "19"
    ensures r.None? <==> exit !in {"0", "16", "19"}
  {
    if exit == "0" then Some(PppoeManager.PPPOE_STATE_CHECK_CONNNECT)
    else if exit == "16" then Some(PppoeManager.PPPOE_STATE_MODEM_HUNGUP)
    else if exit == "19" then Some(PppoeManager.PPPOE_STATE_ACCOUNT_UNCORRECT)
    else None
  }

  /** The fields after handling a message, and the effects on the way. */
  datatype Outcome = Outcome(state: TrackerState, effects: seq<Effect>)

  /** The outcome of the stop step; `aborted` when stopPppd threw and the message ends. */
  datatype StopOutcome = StopOutcome(state: TrackerState, effects: seq<Effect>, aborted: bool)

  /** Stop pppd if it was started; the flag is cleared before the call. */
  function StopIfStarted(s: TrackerState, env: Env): StopOutcome {
    if !s.starting then StopOutcome(s, [], false)
    else if env.stopThrows then
      StopOutcome(s.(starting := false, detailed := Failed), [StopPppd, NetworkStateBroadcast(Failed)], true)
    else StopOutcome(s.(starting := false), [StopPppd], false)
  }

  /** Quit and forget the current poller, if any. */
  function DropPoller(s: TrackerState): Outcome {
    if s.dhcpTarget.Some? then Outcome(s.(dhcpTarget := None), [QuitPoller(s.dhcpTarget.value)])
    else Outcome(s, [])
  }

  /** PLUGGED_AND_UP, SET_ACCOUNT and ENABLED. */
  function HandleUp(s: TrackerState, c: Inputs, what: int, env: Env): Outcome {
    var s1 := s.(runState := RUN_STATE_RUNNING);
    if !c.running then Outcome(s1, [])
    else if !c.linkUp then Outcome(s1, [PppoeStateBroadcast(PppoeManager.PPPOE_STATE_CHECK_CONNNECT)])
    else if c.username == "" || c.password == "" then
      Outcome(s1, [PppoeStateBroadcast(PppoeManager.PPPOE_STATE_NO_ACCOUNT)])
    else StartAndPoll(s1, c.username, c.password, what, env)
  }

  /**
   * The guarded part of an up message: start pppd unless already started (ending the
   * message if the start throws), then hand the connection to a new poller.
   */
  function StartAndPoll(s: TrackerState, user: string, password: string, what: int, env: Env): Outcome {
    if !s.starting && env.startThrows then
      Outcome(s.(starting := true, detailed := Failed), [StartPppd(user, password), NetworkStateBroadcast(Failed)])
    else
      var start := if s.starting then [] else [StartPppd(user, password)];
      var id := s.nextPoller;
      Outcome(s.(starting := true, dhcpTarget := Some(id), nextPoller := id + 1, tornDown := false, lastEvent := what),
              start + [CreatePoller(id), PollerCheck(id)])
  }

  /** PLUGGED_AND_DOWN, DISABLED and REMOVE_ACCOUNT. */
  function HandleDown(s: TrackerState, what: int, env: Env): Outcome {
    var r := StopIfStarted(s.(runState := RUN_STATE_STOPPED), env);
    if r.aborted then Outcome(r.state, r.effects)
    else
      var d := Disconnect(r.state, what);
      Outcome(d.state, r.effects + d.effects)
  }

  /** Once pppd is stopped: drop the poller and report DISCONNECTED. */
  function Disconnect(s: TrackerState, what: int): Outcome {
    var d := DropPoller(s);
    Outcome(d.state.(detailed := Disconnected, lastEvent := what), d.effects + [NetworkStateBroadcast(Disconnected)])
  }

  /** INTERFACE_CONFIGURATION_SUCCEEDED */
  function HandleSucceeded(s: TrackerState, what: int): Outcome {
    var s1 := s.(reconnectCount := 0, haveIp := true, obtainingIp := false, lastEvent := what);
    if s.detailed != Connected then Outcome(s1.(detailed := Connected), [NetworkStateBroadcast(Connected)])
    else Outcome(s1, [ConfigurationChanged])
  }

  /** INTERFACE_CONFIGURATION_FAILED */
  function HandleFailed(s: TrackerState, what: int, env: Env): Outcome {
    var r := StopIfStarted(ResetConnections(s.(runState := RUN_STATE_STOPPED)), env);
    if r.aborted then Outcome(r.state, r.effects)
    else
      var f := ReportFailure(r.state, what, env.pppExit);
      Outcome(f.state, r.effects + f.effects)
  }

  /** Once pppd is stopped after a failed configuration: drop the poller and report the exit. */
  function ReportFailure(s: TrackerState, what: int, exit: string): Outcome {
    var d := DropPoller(s);
    var e := ReportExit(d.state, what, exit);
    Outcome(e.state, d.effects + e.effects)
  }

  /** The broadcast that reports how pppd exited, once it is stopped. */
  function ReportExit(s: TrackerState, what: int, exit: string): Outcome {
    var code := PppExitState(exit);
    if code.Some? then Outcome(s.(lastEvent := what), [PppoeStateBroadcast(code.value)])
    else Outcome(s.(detailed := Failed, lastEvent := what), [NetworkStateBroadcast(Failed)])
  }

  /** INTERFACE_CONFIGURATION_WAIT: report CONNECTING and ask the current poller to check again. */
  function HandleWait(s: TrackerState, what: int): Outcome {
    Outcome(s.(detailed := Connecting, lastEvent := what),
            [NetworkStateBroadcast(Connecting)] + (if s.dhcpTarget.Some? then [PollerCheck(s.dhcpTarget.value)] else []))
  }

  /** handleMessage: the new fields and the effects of handling one message. */
  function Handle(s: TrackerState, c: Inputs, what: int, env: Env): Outcome {
    if IsUpEvent(what) then HandleUp(s, c, what, env)
    else if what == EVENT_PPPOE_UNKNOWN then Outcome(s.(runState := RUN_STATE_STARTING), [])
    else if IsDownEvent(what) then HandleDown(s, what, env)
    else if what == EVENT_NETWORK_STATE_CHANGED then Outcome(s.(lastEvent := what), [])
    else if what == EVENT_INTERFACE_CONFIGURATION_SUCCEEDED then HandleSucceeded(s, what)
    else if what == EVENT_INTERFACE_CONFIGURATION_FAILED then HandleFailed(s, what, env)
    else if what == EVENT_INTERFACE_CONFIGURATION_WAIT then HandleWait(s, what)
    else Outcome(s, [])
  }

  // ---------------------------------------------------------------------------
  // Properties of one message

  /**
   * An up, set-account or enable message always makes the tracker Running; when the
   * event loop is stopped, the link is down or the account is incomplete, it only
   * broadcasts (nothing, CHECK_CONNNECT or NO_ACCOUNT): no pppd, no poller.
   */
  lemma UpEventGuards(s: TrackerState, c: Inputs, what: int, env: Env)
    requires IsUpEvent(what)
    ensures Handle(s, c, what, env).state.runState == RUN_STATE_RUNNING
    ensures !c.running ==> Handle(s, c, what, env) == Outcome(s.(runState := RUN_STATE_RUNNING), [])
    ensures c.running && !c.linkUp ==>
      Handle(s, c, what, env) == Outcome(s.(runState := RUN_STATE_RUNNING), [PppoeStateBroadcast(PppoeManager.PPPOE_STATE_CHECK_CONNNECT)])
    ensures c.running && c.linkUp && (c.username == "" || c.password == "") ==>
      Handle(s, c, what, env) == Outcome(s.(runState := RUN_STATE_RUNNING), [PppoeStateBroadcast(PppoeManager.PPPOE_STATE_NO_ACCOUNT)])
  {
  }

  /** The guards passed: the inputs allow pppd to be started. */
  predicate ReadyToStart(c: Inputs) {
    c.running && c.linkUp && c.username != "" && c.password != ""
  }

  /**
   * pppd is started only when the flag was clear, and the flag is set before the call;
   * a start that throws reports FAILED, keeps the flag set and creates no poller. Otherwise
   * a fresh poller replaces the current one, which is not quit.
   */
  lemma UpEventStartsPppdOnce(s: TrackerState, c: Inputs, what: int, env: Env)
    requires IsUpEvent(what) && ReadyToStart(c)
    ensures Handle(s, c, what, env).state.starting
    ensures StartPppd(c.username, c.password) in Handle(s, c, what, env).effects <==> !s.starting
    ensures !s.starting && env.startThrows ==>
      Handle(s, c, what, env).state.detailed == Failed && Handle(s, c, what, env).state.dhcpTarget == s.dhcpTarget
      && Handle(s, c, what, env).effects == [StartPppd(c.username, c.password), NetworkStateBroadcast(Failed)]
    ensures s.starting || !env.startThrows ==>
      var o := Handle(s, c, what, env);
      o.state.dhcpTarget == Some(s.nextPoller) && !o.state.tornDown && o.state.lastEvent == what
      && EndsWith(o.effects, [CreatePoller(s.nextPoller), PollerCheck(s.nextPoller)])
      && forall id :: QuitPoller(id) !in o.effects
  {
    var o := StartAndPoll(s.(runState := RUN_STATE_RUNNING), c.username, c.password, what, env);
    var id := s.nextPoller;
    if s.starting {
      assert o.effects == [CreatePoller(id), PollerCheck(id)];
    } else if !env.startThrows {
      assert o.effects == [StartPppd(c.username, c.password), CreatePoller(id), PollerCheck(id)];
    } else {
      assert o.effects == [StartPppd(c.username, c.password), NetworkStateBroadcast(Failed)];
    }
  }

  /** The effects end with `tail`. */
  predicate EndsWith(es: seq<Effect>, tail: seq<Effect>) {
    |tail| <= |es| && es[|es| - |tail|..] == tail
  }

  /**
   * Down, disable and remove-account messages stop the tracker; pppd is stopped exactly
   * when it was started, and the flag is clear afterwards. Unless the stop throws, the
   * poller is dropped and DISCONNECTED is broadcast last.
   */
  lemma DownEventStops(s: TrackerState, c: Inputs, what: int, env: Env)
    requires IsDownEvent(what)
    ensures Handle(s, c, what, env).state.runState == RUN_STATE_STOPPED
    ensures !Handle(s, c, what, env).state.starting
    ensures StopPppd in Handle(s, c, what, env).effects <==> s.starting
    ensures s.starting && env.stopThrows ==>
      Handle(s, c, what, env).state.detailed == Failed
      && Handle(s, c, what, env).effects == [StopPppd, NetworkStateBroadcast(Failed)]
    ensures !(s.starting && env.stopThrows) ==>
      var o := Handle(s, c, what, env);
      o.state.dhcpTarget.None? && o.state.detailed == Disconnected && o.state.lastEvent == what
      && (s.dhcpTarget.Some? ==> QuitPoller(s.dhcpTarget.value) in o.effects)
      && EndsWith(o.effects, [NetworkStateBroadcast(Disconnected)])
  {
    var o := HandleDown(s, what, env);
    var r := StopIfStarted(s.(runState := RUN_STATE_STOPPED), env);
    if !r.aborted {
      var stop: seq<Effect> := if s.starting then [StopPppd] else [];
      assert r.effects == stop && r.state.dhcpTarget == s.dhcpTarget;
      DisconnectEffect(r.state, what);
      var d := Disconnect(r.state, what);
      assert o.effects == stop + d.effects;
      assert StopPppd !in d.effects;
    }
  }

  lemma DisconnectEffect(s: TrackerState, what: int)
    ensures var d := Disconnect(s, what);
      d.effects == (if s.dhcpTarget.Some? then [QuitPoller(s.dhcpTarget.value)] else []) + [NetworkStateBroadcast(Disconnected)]
      && d.state.dhcpTarget.None? && d.state.detailed == Disconnected && d.state.lastEvent == what
      && d.state.runState == s.runState && d.state.starting == s.starting
  {
  }

  /**
   * Configuration success records the address and resets the reconnect count; it
   * broadcasts CONNECTED only on a change, and otherwise tells the connectivity service.
   */
  lemma SucceededEffect(s: TrackerState, c: Inputs, env: Env)
    ensures var o := Handle(s, c, EVENT_INTERFACE_CONFIGURATION_SUCCEEDED, env);
      o.state.haveIp && !o.state.obtainingIp && o.state.reconnectCount == 0 && o.state.detailed == Connected
      && o.state.runState == s.runState && o.state.starting == s.starting
      && (s.detailed != Connected <==> o.effects == [NetworkStateBroadcast(Connected)])
      && (s.detailed == Connected <==> o.effects == [ConfigurationChanged])
  {
  }

  /** The broadcast a configuration failure ends with, once pppd is stopped cleanly. */
  function ExitReport(exit: string): Effect {
    if PppExitState(exit).Some? then PppoeStateBroadcast(PppExitState(exit).value) else NetworkStateBroadcast(Failed)
  }

  /**
   * Configuration failure stops the tracker and clears the address flags; when pppd is
   * stopped cleanly, the exit code decides the last broadcast: 0, 16 and 19 map to state
   * codes 5, 7 and 8, anything else to a FAILED network state.
   */
  lemma FailedEffect(s: TrackerState, c: Inputs, env: Env)
    ensures var t := Handle(s, c, EVENT_INTERFACE_CONFIGURATION_FAILED, env).state;
      t.runState == RUN_STATE_STOPPED && !t.haveIp && !t.obtainingIp && !t.starting
    ensures StopPppd in Handle(s, c, EVENT_INTERFACE_CONFIGURATION_FAILED, env).effects <==> s.starting
    ensures !(s.starting && env.stopThrows) ==>
      var o := Handle(s, c, EVENT_INTERFACE_CONFIGURATION_FAILED, env);
      o.state.dhcpTarget.None? && EndsWith(o.effects, [ExitReport(env.pppExit)])
      && o.state.detailed == (if PppExitState(env.pppExit).None? then Failed else s.detailed)
  {
    var what := EVENT_INTERFACE_CONFIGURATION_FAILED;
    var o := HandleFailed(s, what, env);
    var r := StopIfStarted(ResetConnections(s.(runState := RUN_STATE_STOPPED)), env);
    if !r.aborted {
      var stop: seq<Effect> := if s.starting then [StopPppd] else [];
      assert r.effects == stop && r.state.dhcpTarget == s.dhcpTarget && r.state.detailed == s.detailed;
      ReportFailureEffect(r.state, what, env.pppExit);
      var f := ReportFailure(r.state, what, env.pppExit);
      assert o.effects == stop + f.effects;
      assert StopPppd !in f.effects;
    }
  }

  lemma ReportFailureEffect(s: TrackerState, what: int, exit: string)
    ensures var f := ReportFailure(s, what, exit);
      f.effects == (if s.dhcpTarget.Some? then [QuitPoller(s.dhcpTarget.value)] else []) + [ExitReport(exit)]
      && f.state.dhcpTarget.None?
      && f.state.detailed == (if PppExitState(exit).None? then Failed else s.detailed)
  {
  }

  // ---------------------------------------------------------------------------
  // Properties of message sequences

  datatype Msg = Msg(what: int, env: Env)

  /** The messages handled one after the other. */
  function Run(s: TrackerState, c: Inputs, msgs: seq<Msg>): Outcome
    decreases |msgs|
  {
    if msgs == [] then Outcome(s, [])
    else
      var first := Handle(s, c, msgs[0].what, msgs[0].env);
      var rest := Run(first.state, c, msgs[1..]);
      Outcome(rest.state, first.effects + rest.effects)
  }

  /** How many times pppd was started. */
  function CountStarts(es: seq<Effect>): nat {
    if es == [] then 0 else CountStarts(es[..|es| - 1]) + (if es[|es| - 1].StartPppd? then 1 else 0)
  }

  lemma {:induction false} CountStartsAppend(a: seq<Effect>, b: seq<Effect>)
    ensures CountStarts(a + b) == CountStarts(a) + CountStarts(b)
    decreases |b|
  {
    if b == [] {
      assert a + b == a;
    } else {
      var ab := a + b;
      assert ab[..|ab| - 1] == a + b[..|b| - 1];
      assert ab[|ab| - 1] == b[|b| - 1];
      CountStartsAppend(a, b[..|b| - 1]);
    }
  }

  lemma {:induction false} CountStartsNone(es: seq<Effect>)
    requires forall i | 0 <= i < |es| :: !es[i].StartPppd?
    ensures CountStarts(es) == 0
  {
    if es != [] {
      CountStartsNone(es[..|es| - 1]);
    }
  }

  /** One message that does not clear the flag starts pppd at most once, and only from clear. */
  lemma HandleKeepsStarting(s: TrackerState, c: Inputs, m: Msg)
    requires !ClearsStarting(m.what)
    ensures s.starting ==> Handle(s, c, m.what, m.env).state.starting
    ensures CountStarts(Handle(s, c, m.what, m.env).effects) <= (if s.starting then 0 else 1)
  {
    var o := Handle(s, c, m.what, m.env);
    var u, p := c.username, c.password;
    if IsUpEvent(m.what) && ReadyToStart(c) {
      var id := s.nextPoller;
      if !s.starting && m.env.startThrows {
        assert o.effects == [StartPppd(u, p)] + [NetworkStateBroadcast(Failed)];
        CountStartsAppend([StartPppd(u, p)], [NetworkStateBroadcast(Failed)]);
        CountStartsNone([NetworkStateBroadcast(Failed)]);
        assert CountStarts([StartPppd(u, p)]) == 1;
      } else {
        var start := if s.starting then [] else [StartPppd(u, p)];
        assert o.effects == start + [CreatePoller(id), PollerCheck(id)];
        CountStartsAppend(start, [CreatePoller(id), PollerCheck(id)]);
        CountStartsNone([CreatePoller(id), PollerCheck(id)]);
        assert CountStarts(start) == if s.starting then 0 else 1;
      }
    } else {
      assert forall i | 0 <= i < |o.effects| :: !o.effects[i].StartPppd?;
      CountStartsNone(o.effects);
    }
  }

  /**
   * However many up, set-account or enable messages arrive, pppd is started at most once
   * until a down, disable, remove-account or configuration-failed message clears the flag
   * (and not at all while the flag is already set).
   */
  lemma {:induction false} StartsAtMostOnce(s: TrackerState, c: Inputs, msgs: seq<Msg>)
    requires forall i | 0 <= i < |msgs| :: !ClearsStarting(msgs[i].what)
    ensures CountStarts(Run(s, c, msgs).effects) <= (if s.starting then 0 else 1)
    ensures s.starting ==> Run(s, c, msgs).state.starting
    decreases |msgs|
  {
    if msgs != [] {
      var first := Handle(s, c, msgs[0].what, msgs[0].env);
      HandleKeepsStarting(s, c, msgs[0]);
      StartsAtMostOnce(first.state, c, msgs[1..]);
      CountStartsAppend(first.effects, Run(first.state, c, msgs[1..]).effects);
      if !first.state.starting {
        // a message that leaves the flag clear did not start pppd
        assert CountStarts(first.effects) == 0 by {
          if CountStarts(first.effects) != 0 {
            StartSetsStarting(s, c, msgs[0]);
          }
        }
      }
    }
  }

  /** A message that starts pppd leaves the flag set. */
  lemma StartSetsStarting(s: TrackerState, c: Inputs, m: Msg)
    requires !ClearsStarting(m.what)
    requires CountStarts(Handle(s, c, m.what, m.env).effects) != 0
    ensures Handle(s, c, m.what, m.env).state.starting
  {
    var o := Handle(s, c, m.what, m.env);
    if !(IsUpEvent(m.what) && ReadyToStart(c)) {
      assert forall i | 0 <= i < |o.effects| :: !o.effects[i].StartPppd?;
      CountStartsNone(o.effects);
    }
  }

  /**
   * The "at most one live poller" invariant does not hold: two up messages on a connected
   * link create two pollers and quit neither.
   */
  lemma TwoUpEventsLeakPoller(s: TrackerState, c: Inputs, env: Env)
    requires ReadyToStart(c) && !env.startThrows
    ensures var o := Run(s, c, [Msg(EVENT_PPPOE_PLUGGED_AND_UP, env), Msg(EVENT_PPPOE_SET_ACCOUNT, env)]);
      CreatePoller(s.nextPoller) in o.effects && CreatePoller(s.nextPoller + 1) in o.effects
      && QuitPoller(s.nextPoller) !in o.effects && o.state.dhcpTarget == Some(s.nextPoller + 1)
  {
    var m1 := Msg(EVENT_PPPOE_PLUGGED_AND_UP, env);
    var m2 := Msg(EVENT_PPPOE_SET_ACCOUNT, env);
    var o1 := Handle(s, c, m1.what, env);
    var o2 := Handle(o1.state, c, m2.what, env);
    var start: seq<Effect> := if s.starting then [] else [StartPppd(c.username, c.password)];
    assert o1.effects == start + [CreatePoller(s.nextPoller), PollerCheck(s.nextPoller)];
    assert o1.state.starting && o1.state.nextPoller == s.nextPoller + 1;
    assert o2.effects == [CreatePoller(s.nextPoller + 1), PollerCheck(s.nextPoller + 1)];
    assert [m1, m2][1..] == [m2];
    assert Run(o1.state, c, [m2]) == Outcome(o2.state, o2.effects + []);
    assert Run(s, c, [m1, m2]) == Outcome(o2.state, o1.effects + (o2.effects + []));
  }

  // ---------------------------------------------------------------------------
  // Driver helpers

  /** isDriverStopped */
  predicate IsDriverStopped(runState: int) {
    runState == RUN_STATE_STOPPED || runState == RUN_STATE_STOPPING
  }

  /** isAvailable: a teardown can be undone, any other stop cannot. */
  predicate IsAvailable(s: TrackerState) {
    s.tornDown || !IsDriverStopped(s.runState)
  }

  /** setTornDownByConnMgr: the flag, then NetworkInfo's availability recomputed. */
  function SetTornDown(s: TrackerState, flag: bool): (t: TrackerState)
    ensures t.tornDown == flag && t.available == IsAvailable(t)
    ensures t.(tornDown := s.tornDown, available := s.available) == s
  {
    var t := s.(tornDown := flag);
    t.(available := IsAvailable(t))
  }

  /** resetConnections */
  function ResetConnections(s: TrackerState): TrackerState {
    s.(haveIp := false, obtainingIp := false)
  }

  /** The new fields and the boolean a driver call returns. */
  datatype DriverResult = DriverResult(state: TrackerState, ok: bool)

  /** disconnectAndStop: stopDriver succeeds only when PPPoE is enabled. */
  function DisconnectAndStop(s: TrackerState, pppoeState: int): DriverResult {
    if s.runState != RUN_STATE_STOPPING && s.runState != RUN_STATE_STOPPED then
      DriverResult(ResetConnections(s).(runState := RUN_STATE_STOPPING),
                   !(pppoeState != PppoeManager.PPPOE_STATE_ENABLED || s.runState == RUN_STATE_STOPPED))
    else DriverResult(s, true)
  }

  /** restart: startDriver succeeds only when PPPoE is enabled. */
  function Restart(s: TrackerState, pppoeState: int): DriverResult {
    if IsDriverStopped(s.runState) then
      DriverResult(ResetConnections(s.(runState := RUN_STATE_STARTING)), pppoeState == PppoeManager.PPPOE_STATE_ENABLED)
    else DriverResult(s, true)
  }

  /** teardown */
  function Teardown(s: TrackerState, pppoeState: int): DriverResult {
    if !s.tornDown then
      var d := DisconnectAndStop(s, pppoeState);
      if d.ok then DriverResult(SetTornDown(d.state, true), true) else d
    else DriverResult(s, true)
  }

  /** reconnect */
  function Reconnect(s: TrackerState, pppoeState: int): DriverResult {
    if s.tornDown then
      var d := Restart(s, pppoeState);
      if d.ok then DriverResult(SetTornDown(d.state, false), true) else d
    else DriverResult(s, true)
  }

  /**
   * disconnectAndStop succeeds without change when already stopping or stopped; otherwise
   * it clears the address flags, moves to Stopping and reports whether PPPoE is enabled.
   * restart acts only when stopped: Starting, and success iff PPPoE is enabled.
   */
  lemma DriverTransitions(s: TrackerState, pppoeState: int)
    ensures IsDriverStopped(s.runState) ==> DisconnectAndStop(s, pppoeState) == DriverResult(s, true)
    ensures !IsDriverStopped(s.runState) ==>
      DisconnectAndStop(s, pppoeState)
        == DriverResult(s.(haveIp := false, obtainingIp := false, runState := RUN_STATE_STOPPING),
                        pppoeState == PppoeManager.PPPOE_STATE_ENABLED)
    ensures !IsDriverStopped(s.runState) ==> Restart(s, pppoeState) == DriverResult(s, true)
    ensures IsDriverStopped(s.runState) ==>
      Restart(s, pppoeState)
        == DriverResult(s.(haveIp := false, obtainingIp := false, runState := RUN_STATE_STARTING),
                        pppoeState == PppoeManager.PPPOE_STATE_ENABLED)
  {
  }

  /**
   * teardown and reconnect do nothing and succeed when the torn-down flag already has their
   * target value; when they act and succeed, the flag flips and availability is recomputed.
   * A successful teardown leaves the driver stopped yet available; a successful
   * reconnect leaves it not stopped. A teardown that fails leaves the flag clear.
   */
  lemma TeardownReconnect(s: TrackerState, pppoeState: int)
    ensures s.tornDown ==> Teardown(s, pppoeState) == DriverResult(s, true)
    ensures !s.tornDown ==> Reconnect(s, pppoeState) == DriverResult(s, true)
    ensures !s.tornDown && Teardown(s, pppoeState).ok ==>
      var t := Teardown(s, pppoeState).state;
      t.tornDown && t.available && IsDriverStopped(t.runState)
    ensures s.tornDown && Reconnect(s, pppoeState).ok ==>
      var t := Reconnect(s, pppoeState).state;
      !t.tornDown && t.available && !IsDriverStopped(t.runState)
    ensures !s.tornDown && !Teardown(s, pppoeState).ok ==> !Teardown(s, pppoeState).state.tornDown
  {
  }

  // ---------------------------------------------------------------------------
  // stringToIpAddr

  datatype IpError = UnknownHost(address: string)

  /** The four parsed parts combined as a | b<<8 | c<<16 | d<<24 on 32-bit ints. */
  function CombineParts(a: int, b: int, c: int, d: int): bv32
    requires IsInt32(a) && IsInt32(b) && IsInt32(c) && IsInt32(d)
  {
    Bits(a) | (Bits(b) << 8) | (Bits(c) << 16) | (Bits(d) << 24)
  }

  /**
   * Integer.parseInt on each part in order; None at the first part that throws
   * NumberFormatException.
   */
  function ParseParts(parts: seq<string>): (r: Option<seq<int>>)
    ensures r.Some? <==> forall i | 0 <= i < |parts| :: ParseInt(parts[i]).Some?
    ensures r.Some? ==> |r.value| == |parts|
    ensures r.Some? ==> forall i | 0 <= i < |parts| :: ParseInt(parts[i]) == Some(r.value[i])
    decreases |parts|
  {
    if parts == [] then Some([])
    else
      var first := ParseInt(parts[0]);
      var rest := ParseParts(parts[1..]);
      if first.None? then None
      else if rest.None? then None
      else Some([first.value] + rest.value)
  }

  /**
   * stringToIpAddr: exactly four parts between dots (after String.split's removal of
   * trailing empty parts), each accepted by Integer.parseInt, combined by CombineParts;
   * anything else is an UnknownHostException naming the address.
   */
  function StringToIpAddr(addr: string): (r: Result<bv32, IpError>)
    ensures r.Ok? <==> |Split(addr, '.')| == 4 && forall i | 0 <= i < 4 :: ParseInt(Split(addr, '.')[i]).Some?
    ensures r.Err? ==> r.error == UnknownHost(addr)
  {
    var parts := Split(addr, '.');
    if |parts| != 4 then Err(UnknownHost(addr))
    else
      match ParseParts(parts)
      case None => Err(UnknownHost(addr))
      case Some(v) => Ok(CombineParts(v[0], v[1], v[2], v[3]))
  }

  /** a.b.c.d written out in decimal */
  function DottedQuad(a: int, b: int, c: int, d: int): string {
    Join([IntToString(a), IntToString(b), IntToString(c), IntToString(d)], '.')
  }

  /** The dotted quad of four ints is parsed back into exactly those four ints. */
  lemma StringToIpAddrOfDottedQuad(a: int, b: int, c: int, d: int)
    requires IsInt32(a) && IsInt32(b) && IsInt32(c) && IsInt32(d)
    ensures StringToIpAddr(DottedQuad(a, b, c, d)) == Ok(CombineParts(a, b, c, d))
  {
    var ps := [IntToString(a), IntToString(b), IntToString(c), IntToString(d)];
    forall i | 0 <= i < 4 ensures '.' !in ps[i] {
      NoDotInIntToString(if i == 0 then a else if i == 1 then b else if i == 2 then c else d);
    }
    SplitJoin(ps, '.');
    ParseIntOfIntToString(a);
    ParseIntOfIntToString(b);
    ParseIntOfIntToString(c);
    ParseIntOfIntToString(d);
    var v := [a, b, c, d];
    assert ParseInt(ps[0]) == Some(v[0]) && ParseInt(ps[1]) == Some(v[1]);
    assert ParseInt(ps[2]) == Some(v[2]) && ParseInt(ps[3]) == Some(v[3]);
    ParsePartsOf(ps, v);
    StringToIpAddrOfParts(DottedQuad(a, b, c, d), v);
  }

  /** Parts that each parse give exactly their values. */
  lemma ParsePartsOf(ps: seq<string>, v: seq<int>)
    requires |ps| == |v| && forall i | 0 <= i < |ps| :: ParseInt(ps[i]) == Some(v[i])
    ensures ParseParts(ps) == Some(v)
  {
    var r := ParseParts(ps);
    assert r.Some?;
    assert r.value == v;
  }

  lemma StringToIpAddrOfParts(addr: string, v: seq<int>)
    requires |Split(addr, '.')| == 4 && ParseParts(Split(addr, '.')) == Some(v)
    ensures |v| == 4 && forall i | 0 <= i < 4 :: IsInt32(v[i])
    ensures StringToIpAddr(addr) == Ok(CombineParts(v[0], v[1], v[2], v[3]))
  {
    assert forall i | 0 <= i < 4 :: ParseInt(Split(addr, '.')[i]) == Some(v[i]);
  }

  lemma NoDotInIntToString(x: int)
    ensures '.' !in IntToString(x)
  {
    var s := IntToString(x);
    if x < 0 {
      assert s[1..] == NatToString(-x);
      assert forall i | 1 <= i < |s| :: s[i] == s[1..][i - 1];
    }
  }

  /** Bytes 0..255 land in separate octets, a in the least significant one. */
  lemma IpOctets(a: int, b: int, c: int, d: int)
    requires 0 <= a < 256 && 0 <= b < 256 && 0 <= c < 256 && 0 <= d < 256
    ensures var r := CombineParts(a, b, c, d);
      r & 0xFF == Bits(a) && (r >> 8) & 0xFF == Bits(b)
      && (r >> 16) & 0xFF == Bits(c) && (r >> 24) & 0xFF == Bits(d)
  {
    SmallBits(a);
    SmallBits(b);
    SmallBits(c);
    SmallBits(d);
    OctetsOfBits(Bits(a), Bits(b), Bits(c), Bits(d));
  }

  lemma SmallBits(x: int)
    requires 0 <= x < 256
    ensures Bits(x) < 256
  {
  }

  lemma OctetsOfBits(a: bv32, b: bv32, c: bv32, d: bv32)
    requires a < 256 && b < 256 && c < 256 && d < 256
    ensures var r := a | (b << 8) | (c << 16) | (d << 24);
      r & 0xFF == a && (r >> 8) & 0xFF == b && (r >> 16) & 0xFF == c && (r >> 24) & 0xFF == d
  {
  }

  /**
   * Split drops trailing empty parts, so a dotted quad followed by one more dot is
   * accepted and gives the same address.
   */
  lemma TrailingDotAccepted(a: int, b: int, c: int, d: int)
    requires IsInt32(a) && IsInt32(b) && IsInt32(c) && IsInt32(d)
    ensures StringToIpAddr(DottedQuad(a, b, c, d) + ".") == Ok(CombineParts(a, b, c, d))
  {
    var q := DottedQuad(a, b, c, d);
    SplitTrailingDot(a, b, c, d);
    StringToIpAddrOfDottedQuad(a, b, c, d);
    SameSplitSameAddress(q + ".", q);
  }

  /** The address depends on the address text only through its parts. */
  lemma SameSplitSameAddress(x: string, y: string)
    requires Split(x, '.') == Split(y, '.') && StringToIpAddr(y).Ok?
    ensures StringToIpAddr(x) == StringToIpAddr(y)
  {
  }

  lemma SplitTrailingDot(a: int, b: int, c: int, d: int)
    ensures Split(DottedQuad(a, b, c, d) + ".", '.') == Split(DottedQuad(a, b, c, d), '.')
  {
    var ps := [IntToString(a), IntToString(b), IntToString(c), IntToString(d)];
    forall i | 0 <= i < 4 ensures '.' !in ps[i] {
      NoDotInIntToString(if i == 0 then a else if i == 1 then b else if i == 2 then c else d);
    }
    SplitJoin(ps, '.');
    var qs := ps + [""];
    JoinAppendEmpty(ps, '.');
    SplitAllJoin(qs, '.');
    assert DropTrailingEmpty(qs) == DropTrailingEmpty(ps) == ps;
    assert '.' in DottedQuad(a, b, c, d) + ".";
  }

  lemma {:induction false} JoinAppendEmpty(ps: seq<string>, sep: char)
    requires |ps| >= 1
    ensures Join(ps + [""], sep) == Join(ps, sep) + [sep]
  {
    if |ps| > 1 {
      assert (ps + [""])[1..] == ps[1..] + [""];
      JoinAppendEmpty(ps[1..], sep);
    }
  }

  // ---------------------------------------------------------------------------
  // DhcpHandler

  /**
   * The poller's verdict for its `count`-th check (count already incremented), given the
   * pppd exit code and the first DNS server.
   */
  function PollVerdict(count: int, exit: string, dns: string): int {
    if count < MAX_CHECKS then
      if exit == "" then
        (if dns == "" then EVENT_INTERFACE_CONFIGURATION_WAIT else EVENT_INTERFACE_CONFIGURATION_SUCCEEDED)
      else if exit == "0" then
        (if dns == "" then EVENT_INTERFACE_CONFIGURATION_FAILED else EVENT_INTERFACE_CONFIGURATION_SUCCEEDED)
      else EVENT_INTERFACE_CONFIGURATION_FAILED
    else EVENT_INTERFACE_CONFIGURATION_FAILED
  }

  /**
   * The decision table: from the 20th check on, always FAILED; before it, WAIT exactly when
   * both properties are empty, SUCCEEDED exactly when a DNS server is known and pppd has
   * not exited or exited with 0, and FAILED otherwise.
   */
  lemma PollVerdictTable(count: int, exit: string, dns: string)
    ensures var v := PollVerdict(count, exit, dns);
      (count >= MAX_CHECKS ==> v == EVENT_INTERFACE_CONFIGURATION_FAILED)
      && (v == EVENT_INTERFACE_CONFIGURATION_WAIT <==> count < MAX_CHECKS && exit == "" && dns == "")
      && (v == EVENT_INTERFACE_CONFIGURATION_SUCCEEDED <==> count < MAX_CHECKS && dns != "" && (exit == "" || exit == "0"))
      && (v == EVENT_INTERFACE_CONFIGURATION_FAILED <==>
            count >= MAX_CHECKS || (exit != "" && exit != "0") || (exit == "0" && dns == ""))
  {
  }

  /** The properties read at each check. */
  datatype Reading = Reading(exit: string, dns: string)

  /** The verdicts of consecutive checks of a poller whose counter starts at `count`. */
  function PollRun(count: int, rs: seq<Reading>): (vs: seq<int>)
    ensures |vs| == |rs|
    decreases |rs|
  {
    if rs == [] then [] else [PollVerdict(count + 1, rs[0].exit, rs[0].dns)] + PollRun(count + 1, rs[1..])
  }

  /** The i-th check of a run is the (count + 1 + i)-th check of the poller. */
  lemma {:induction false} PollRunAt(count: int, rs: seq<Reading>, i: nat)
    requires i < |rs|
    ensures PollRun(count, rs)[i] == PollVerdict(count + 1 + i, rs[i].exit, rs[i].dns)
    decreases i
  {
    if i > 0 {
      PollRunAt(count + 1, rs[1..], i - 1);
    }
  }

  /**
   * Bounded retry: a fresh poller answers WAIT only on its first 19 checks; from the 20th
   * on it fails whatever it reads.
   */
  lemma PollerGivesUp(rs: seq<Reading>)
    ensures forall i | MAX_CHECKS - 1 <= i < |rs| :: PollRun(0, rs)[i] == EVENT_INTERFACE_CONFIGURATION_FAILED
    ensures forall i | 0 <= i < |rs| && PollRun(0, rs)[i] == EVENT_INTERFACE_CONFIGURATION_WAIT :: i < MAX_CHECKS - 1
  {
    forall i | 0 <= i < |rs|
      ensures PollRun(0, rs)[i] == PollVerdict(i + 1, rs[i].exit, rs[i].dns)
    {
      PollRunAt(0, rs, i);
    }
  }

  /** The message queue of the tracker's looper: message codes in arrival order. */
  class MessageQueue {
    var items: seq<int>

    constructor ()
      ensures items == []
    {
      items := [];
    }
  }

  /** The tracker fields that handleMessage reads and never writes. */
  class TrackerInputs {
    var stateTrackerRunning: bool
    var linkUp: bool
    var iface: string
    var username: string
    var password: string
    var pppoeState: int

    ghost function Snapshot(): Inputs
      reads this
    {
      Inputs(stateTrackerRunning, linkUp, username, password, pppoeState)
    }

    /** Null account strings read from the settings are kept as "". */
    constructor (iface: string, linkUp: bool, username: Option<string>, password: Option<string>)
      ensures Snapshot() == Inputs(false, linkUp, if username.Some? then username.value else "",
                                   if password.Some? then password.value else "", PppoeManager.PPPOE_STATE_UNKNOWN)
      ensures this.iface == iface
    {
      stateTrackerRunning := false;
      this.linkUp := linkUp;
      this.iface := iface;
      this.username := if username.Some? then username.value else "";
      this.password := if password.Some? then password.value else "";
      pppoeState := PppoeManager.PPPOE_STATE_UNKNOWN;
    }
  }

  /** The tracker's message handler, as a class: one call per handled message. */
  class Tracker {
    const inputs: TrackerInputs
    const queue: MessageQueue
    var runState: int
    var pppoeStarting: bool
    var haveIpAddress: bool
    var obtainingIpAddress: bool
    var tornDownByConnMgr: bool
    var available: bool
    var detailedState: DetailedState
    var dhcpTarget: Option<nat>
    var nextPoller: nat
    var reconnectCount: int
    var lastEvent: int
    ghost var log: seq<Effect>

    ghost function Snapshot(): TrackerState
      reads this
    {
      TrackerState(runState, pppoeStarting, haveIpAddress, obtainingIpAddress, tornDownByConnMgr,
                   available, detailedState, dhcpTarget, nextPoller, reconnectCount, lastEvent)
    }

    /**
     * The tracker after construction and startMonitoring: `iface` is the matched
     * interface, `linkUp` its state, and the account is the one read from the settings.
     * setTornDownByConnMgr(false) runs before the run state is first set, while it still
     * holds Java's default 0, which is neither Stopping nor Stopped; so the network info
     * is left available, and setting Starting afterwards does not recompute it.
     */
    constructor (iface: string, linkUp: bool, username: Option<string>, password: Option<string>)
      ensures Snapshot() == TrackerState(RUN_STATE_STARTING, false, false, false, false, true, Idle, None, 0, 0,
                                         EVENT_PPPOE_UNPLUGGED_AND_DOWN)
      ensures fresh(inputs) && fresh(queue) && queue.items == [] && log == []
      ensures inputs.Snapshot() == Inputs(false, linkUp, if username.Some? then username.value else "",
                                          if password.Some? then password.value else "", PppoeManager.PPPOE_STATE_UNKNOWN)
      ensures inputs.iface == iface
    {
      inputs := new TrackerInputs(iface, linkUp, username, password);
      queue := new MessageQueue();
      pppoeStarting := false;
      haveIpAddress := false;
      obtainingIpAddress := false;
      detailedState := Idle;
      dhcpTarget := None;
      nextPoller := 0;
      reconnectCount := 0;
      lastEvent := EVENT_PPPOE_UNPLUGGED_AND_DOWN;
      log := [];
      // setTornDownByConnMgr(false) sees the run state's default 0
      var defaultRunState, tornDown := 0, false;
      tornDownByConnMgr := tornDown;
      available := tornDown || !IsDriverStopped(defaultRunState);
      runState := RUN_STATE_STARTING;
    }

    /** Stop pppd if started; false when the stop threw and the message ends here. */
    method StopPppdIfStarted(env: Env) returns (ok: bool)
      modifies this
      ensures var r := StopIfStarted(old(Snapshot()), env);
        Snapshot() == r.state && log == old(log) + r.effects && ok == !r.aborted
    {
      ok := true;
      if pppoeStarting {
        pppoeStarting := false;
        log := log + [StopPppd];
        if env.stopThrows {
          detailedState := Failed;
          log := log + [NetworkStateBroadcast(Failed)];
          ok := false;
        }
      }
    }

    method QuitPollerIfAny()
      modifies this
      ensures var o := DropPoller(old(Snapshot()));
        Snapshot() == o.state && log == old(log) + o.effects
    {
      if dhcpTarget.Some? {
        log := log + [QuitPoller(dhcpTarget.value)];
        dhcpTarget := None;
      }
    }

    method HandleUpNow(what: int, env: Env)
      requires IsUpEvent(what)
      modifies this
      ensures var o := HandleUp(old(Snapshot()), inputs.Snapshot(), what, env);
        Snapshot() == o.state && log == old(log) + o.effects
    {
      runState := RUN_STATE_RUNNING;
      if !inputs.stateTrackerRunning {
        return;
      }
      if !inputs.linkUp {
        log := log + [PppoeStateBroadcast(PppoeManager.PPPOE_STATE_CHECK_CONNNECT)];
        return;
      }
      if inputs.username == "" || inputs.password == "" {
        log := log + [PppoeStateBroadcast(PppoeManager.PPPOE_STATE_NO_ACCOUNT)];
        return;
      }
      StartAndPollNow(inputs.username, inputs.password, what, env);
    }

    method StartAndPollNow(user: string, pass: string, what: int, env: Env)
      modifies this
      ensures var o := StartAndPoll(old(Snapshot()), user, pass, what, env);
        Snapshot() == o.state && log == old(log) + o.effects
    {
      if !pppoeStarting {
        pppoeStarting := true;
        log := log + [StartPppd(user, pass)];
        if env.startThrows {
          detailedState := Failed;
          log := log + [NetworkStateBroadcast(Failed)];
          return;
        }
      }
      var id := nextPoller;
      nextPoller := nextPoller + 1;
      dhcpTarget := Some(id);
      log := log + [CreatePoller(id), PollerCheck(id)];
      tornDownByConnMgr := false;
      lastEvent := what;
    }

    method HandleDownNow(what: int, env: Env)
      modifies this
      ensures var o := HandleDown(old(Snapshot()), what, env);
        Snapshot() == o.state && log == old(log) + o.effects
    {
      runState := RUN_STATE_STOPPED;
      var ok := StopPppdIfStarted(env);
      if ok {
        DisconnectNow(what);
      }
    }

    method DisconnectNow(what: int)
      modifies this
      ensures var o := Disconnect(old(Snapshot()), what);
        Snapshot() == o.state && log == old(log) + o.effects
    {
      QuitPollerIfAny();
      detailedState := Disconnected;
      log := log + [NetworkStateBroadcast(Disconnected)];
      lastEvent := what;
    }

    method HandleSucceededNow(what: int)
      modifies this
      ensures var o := HandleSucceeded(old(Snapshot()), what);
        Snapshot() == o.state && log == old(log) + o.effects
    {
      reconnectCount := 0;
      haveIpAddress := true;
      obtainingIpAddress := false;
      lastEvent := what;
      if detailedState != Connected {
        detailedState := Connected;
        log := log + [NetworkStateBroadcast(Connected)];
      } else {
        log := log + [ConfigurationChanged];
      }
    }

    method HandleFailedNow(what: int, env: Env)
      modifies this
      ensures var o := HandleFailed(old(Snapshot()), what, env);
        Snapshot() == o.state && log == old(log) + o.effects
    {
      runState := RUN_STATE_STOPPED;
      ResetConnectionsNow();
      var ok := StopPppdIfStarted(env);
      if ok {
        ReportFailureNow(what, env.pppExit);
      }
    }

    method ReportFailureNow(what: int, exit: string)
      modifies this
      ensures var o := ReportFailure(old(Snapshot()), what, exit);
        Snapshot() == o.state && log == old(log) + o.effects
    {
      QuitPollerIfAny();
      ReportExitNow(what, exit);
    }

    method ReportExitNow(what: int, exit: string)
      modifies this
      ensures var o := ReportExit(old(Snapshot()), what, exit);
        Snapshot() == o.state && log == old(log) + o.effects
    {
      if exit == "0" {
        log := log + [PppoeStateBroadcast(PppoeManager.PPPOE_STATE_CHECK_CONNNECT)];
      } else if exit == "16" {
        log := log + [PppoeStateBroadcast(PppoeManager.PPPOE_STATE_MODEM_HUNGUP)];
      } else if exit == "19" {
        log := log + [PppoeStateBroadcast(PppoeManager.PPPOE_STATE_ACCOUNT_UNCORRECT)];
      } else {
        detailedState := Failed;
        log := log + [NetworkStateBroadcast(Failed)];
      }
      lastEvent := what;
    }

    method HandleWaitNow(what: int)
      modifies this
      ensures var o := HandleWait(old(Snapshot()), what);
        Snapshot() == o.state && log == old(log) + o.effects
    {
      detailedState := Connecting;
      log := log + [NetworkStateBroadcast(Connecting)];
      if dhcpTarget.Some? {
        log := log + [PollerCheck(dhcpTarget.value)];
      }
      lastEvent := what;
    }

    /** handleMessage */
    method HandleMessage(what: int, env: Env)
      modifies this
      ensures var o := Handle(old(Snapshot()), inputs.Snapshot(), what, env);
        Snapshot() == o.state && log == old(log) + o.effects
    {
      if IsUpEvent(what) {
        HandleUpNow(what, env);
      } else if what == EVENT_PPPOE_UNKNOWN {
        runState := RUN_STATE_STARTING;
      } else if IsDownEvent(what) {
        HandleDownNow(what, env);
      } else if what == EVENT_NETWORK_STATE_CHANGED {
        lastEvent := what;
      } else if what == EVENT_INTERFACE_CONFIGURATION_SUCCEEDED {
        HandleSucceededNow(what);
      } else if what == EVENT_INTERFACE_CONFIGURATION_FAILED {
        HandleFailedNow(what, env);
      } else if what == EVENT_INTERFACE_CONFIGURATION_WAIT {
        HandleWaitNow(what);
      }
    }

    /** The looper: handle the message at the head of the queue, if there is one. */
    method DispatchNext(env: Env) returns (handled: bool)
      modifies this, queue
      ensures handled <==> old(queue.items) != []
      ensures handled ==> (queue.items == old(queue.items)[1..]
        && var o := Handle(old(Snapshot()), inputs.Snapshot(), old(queue.items)[0], env);
           Snapshot() == o.state && log == old(log) + o.effects)
      ensures !handled ==> Snapshot() == old(Snapshot()) && log == old(log) && queue.items == []
    {
      if queue.items == [] {
        return false;
      }
      var what := queue.items[0];
      queue.items := queue.items[1..];
      HandleMessage(what, env);
      return true;
    }

    /** sendEmptyMessage from the tracker's own methods, only while the event loop runs. */
    method PostIfRunning(what: int)
      modifies queue
      ensures queue.items == old(queue.items) + (if inputs.stateTrackerRunning then [what] else [])
    {
      if inputs.stateTrackerRunning {
        queue.items := queue.items + [what];
      }
    }

    /** resetConnections(false) */
    method ResetConnectionsNow()
      modifies this
      ensures Snapshot() == ResetConnections(old(Snapshot())) && log == old(log)
    {
      haveIpAddress := false;
      obtainingIpAddress := false;
    }

    /** setTornDownByConnMgr */
    method SetTornDownByConnMgr(flag: bool)
      modifies this
      ensures Snapshot() == SetTornDown(old(Snapshot()), flag) && log == old(log)
    {
      tornDownByConnMgr := flag;
      available := IsAvailableNow();
    }

    function IsAvailableNow(): (r: bool)
      reads this
      ensures r == IsAvailable(Snapshot())
    {
      tornDownByConnMgr || !IsDriverStopped(runState)
    }

    method DisconnectAndStopNow() returns (ok: bool)
      modifies this
      ensures DriverResult(Snapshot(), ok) == DisconnectAndStop(old(Snapshot()), inputs.pppoeState)
      ensures log == old(log)
    {
      ok := true;
      if runState != RUN_STATE_STOPPING && runState != RUN_STATE_STOPPED {
        ResetConnectionsNow();
        ok := !(inputs.pppoeState != PppoeManager.PPPOE_STATE_ENABLED || runState == RUN_STATE_STOPPED);
        runState := RUN_STATE_STOPPING;
      }
    }

    method RestartNow() returns (ok: bool)
      modifies this
      ensures DriverResult(Snapshot(), ok) == Restart(old(Snapshot()), inputs.pppoeState)
      ensures log == old(log)
    {
      ok := true;
      if IsDriverStopped(runState) {
        runState := RUN_STATE_STARTING;
        ResetConnectionsNow();
        ok := inputs.pppoeState == PppoeManager.PPPOE_STATE_ENABLED;
      }
    }

    method TeardownNow() returns (ok: bool)
      modifies this
      ensures DriverResult(Snapshot(), ok) == Teardown(old(Snapshot()), inputs.pppoeState)
      ensures log == old(log)
    {
      if !tornDownByConnMgr {
        var stopped := DisconnectAndStopNow();
        if stopped {
          SetTornDownByConnMgr(true);
          return true;
        }
        return false;
      }
      return true;
    }

    method ReconnectNow() returns (ok: bool)
      modifies this
      ensures DriverResult(Snapshot(), ok) == Reconnect(old(Snapshot()), inputs.pppoeState)
      ensures log == old(log)
    {
      if tornDownByConnMgr {
        var restarted := RestartNow();
        if restarted {
          SetTornDownByConnMgr(false);
          return true;
        }
        return false;
      }
      return true;
    }

    method SetPppoeState(state: int)
      modifies inputs
      ensures inputs.Snapshot() == old(inputs.Snapshot()).(pppoeState := state)
      ensures inputs.iface == old(inputs.iface)
    {
      inputs.pppoeState := state;
    }

    /** setAdslAccount */
    method SetAdslAccount(name: string, pass: string)
      modifies inputs, queue
      ensures inputs.Snapshot() == old(inputs.Snapshot()).(username := name, password := pass)
      ensures queue.items == old(queue.items) + (if inputs.stateTrackerRunning then [EVENT_PPPOE_SET_ACCOUNT] else [])
    {
      inputs.username := name;
      inputs.password := pass;
      PostIfRunning(EVENT_PPPOE_SET_ACCOUNT);
    }

    /** removeAdslAccount */
    method RemoveAdslAccount()
      modifies inputs, queue
      ensures inputs.Snapshot() == old(inputs.Snapshot()).(username := "", password := "")
      ensures queue.items == old(queue.items) + (if inputs.stateTrackerRunning then [EVENT_PPPOE_REMOVE_ACCOUNT] else [])
    {
      inputs.username := "";
      inputs.password := "";
      PostIfRunning(EVENT_PPPOE_REMOVE_ACCOUNT);
    }

    /** notifyStateChange: posted whether or not the event loop runs. */
    method NotifyStateChange()
      modifies queue
      ensures queue.items == old(queue.items) + [EVENT_NETWORK_STATE_CHANGED]
    {
      queue.items := queue.items + [EVENT_NETWORK_STATE_CHANGED];
    }

    /** notifyPppoePluggedandUp, notifyPppoepluggedAndDown, notifyPppoeUnKnown, notifyPppoeDisabled */
    method Notify(what: int)
      requires what in {EVENT_PPPOE_PLUGGED_AND_UP, EVENT_PPPOE_PLUGGED_AND_DOWN, EVENT_PPPOE_UNKNOWN, EVENT_PPPOE_DISABLED}
      modifies queue
      ensures queue.items == old(queue.items) + (if inputs.stateTrackerRunning then [what] else [])
    {
      PostIfRunning(what);
    }

    /** InterfaceObserver.interfaceLinkStatusChanged: only a change on our interface counts. */
    method InterfaceLinkStatusChanged(name: string, up: bool)
      modifies inputs, queue
      ensures name == inputs.iface && old(inputs.linkUp) != up ==>
        inputs.Snapshot() == old(inputs.Snapshot()).(linkUp := up)
        && queue.items == old(queue.items) + (if inputs.stateTrackerRunning
                                              then [if up then EVENT_PPPOE_PLUGGED_AND_UP else EVENT_PPPOE_PLUGGED_AND_DOWN]
                                              else [])
      ensures !(name == inputs.iface && old(inputs.linkUp) != up) ==>
        inputs.Snapshot() == old(inputs.Snapshot()) && queue.items == old(queue.items)
      ensures inputs.iface == old(inputs.iface)
    {
      if inputs.iface == name && inputs.linkUp != up {
        inputs.linkUp := up;
        if up {
          Notify(EVENT_PPPOE_PLUGGED_AND_UP);
        } else {
          Notify(EVENT_PPPOE_PLUGGED_AND_DOWN);
        }
      }
    }

    /** startEventLoop */
    method StartEventLoop()
      modifies this, inputs, queue
      ensures inputs.Snapshot() == old(inputs.Snapshot()).(running := true)
      ensures Snapshot() == old(Snapshot()).(lastEvent := EVENT_PPPOE_UNPLUGGED_AND_DOWN)
      ensures queue.items == old(queue.items) + (if inputs.linkUp then [EVENT_PPPOE_PLUGGED_AND_UP] else []) + [EVENT_PPPOE_ENABLED]
      ensures log == old(log) + (if inputs.linkUp then [] else [EnableInterface])
    {
      inputs.stateTrackerRunning := true;
      lastEvent := EVENT_PPPOE_UNPLUGGED_AND_DOWN;
      if inputs.linkUp {
        Notify(EVENT_PPPOE_PLUGGED_AND_UP);
      } else {
        log := log + [EnableInterface];
      }
      queue.items := queue.items + [EVENT_PPPOE_ENABLED];
    }

    /** stopEventLoop */
    method StopEventLoop()
      modifies inputs
      ensures inputs.Snapshot() == old(inputs.Snapshot()).(running := false)
    {
      inputs.stateTrackerRunning := false;
    }
  }

  /** The DHCP poller of one up event. */
  class DhcpHandler {
    const id: nat
    const target: Tracker
    var checkTime: int
    var cancelCallback: bool

    constructor (id: nat, target: Tracker)
      ensures this.id == id && this.target == target && checkTime == 0 && !cancelCallback
    {
      this.id := id;
      this.target := target;
      checkTime := 0;
      cancelCallback := false;
    }

    /**
     * EVENT_CHECK_PPPOE_CONNECTION with the two properties as read. `cancelledMeanwhile`
     * says whether setCancelCallback(true) ran on another thread between the reset of the
     * flag and the post. The verdict is posted to the tracker unless cancelled.
     */
    method Check(exit: string, dns: string, cancelledMeanwhile: bool) returns (posted: Option<int>)
      modifies this, target.queue
      ensures checkTime == old(checkTime) + 1 && cancelCallback == cancelledMeanwhile
      ensures posted == (if cancelledMeanwhile then None else Some(PollVerdict(checkTime, exit, dns)))
      ensures target.queue.items == old(target.queue.items) + (if posted.Some? then [posted.value] else [])
    {
      cancelCallback := false;
      checkTime := checkTime + 1;
      var event := PollVerdict(checkTime, exit, dns);
      if cancelledMeanwhile {
        SetCancelCallback(true);
      }
      if !cancelCallback {
        target.queue.items := target.queue.items + [event];
        posted := Some(event);
      } else {
        posted := None;
      }
    }

    method SetCancelCallback(cancel: bool)
      modifies this
      ensures cancelCallback == cancel && checkTime == old(checkTime)
    {
      cancelCallback := cancel;
    }
  }
}
